=== FILE: README.md ===
# flexlib core, modelled in Dafny

flexlib is a helper library for Flask REST services that store their data in
MongoDB (mongoengine), a relational store (peewee) or Elasticsearch. This
project models its core logic as pure Dafny functions over immutable data and
proves what the logic promises:

- the record differ (`CompareTwoDict`, `get_attr`, `get_diff`) and the
  `diff_str` renderer of character diffs;
- small text rules: camelCase to snake_case, request-id extraction, the
  real-client-ip header chain, request signatures;
- list queries: `model_order_paginate` in its two copies, the decorator
  configuration of resource classes (`ResourceBaseType`);
- the response envelopes and table formats (`rest/formats.py`,
  `flask_restplus/formats.py`, `webbase/response.py`,
  `restviewset/response.py`);
- request parsing (`reqparse`), the serializers and model serializers;
- the schema registry and schema generation (`schema/field.py`,
  `schema/document.py`);
- the mongoengine document mixin and cached properties, the casbin policy
  adapter, and the Elasticsearch document helpers.

Python values are modelled by one `Values.Value` datatype (`None`, bools,
ints, strings, lists and dicts). A dict is an association list that keeps
insertion order (`ODict`). A lookup returns the first binding; an update
replaces it in place. Exceptions become `Result`/`Option` error values.
Stores, clocks, randomness, HMAC, `difflib.ndiff`, `importlib` and other
code outside the core are function parameters: the database query
callbacks, the `ndiff` script, the HMAC digest, the fresh uuid.

## Model

| member | source | states |
|---|---|---|
| CompareDiff.Both | mongoengine/compare_diff.py:108-110 | The outcome of two comparisons raises iff either raises, and otherwise holds both sets of paths. |
| CompareDiff.MaskContain | mongoengine/compare_diff.py:194-198 | A path is masked iff some mask entry equals it or is a dotted prefix of it (`a.b` masks `a.b.c` but not `a.bc`). |
| CompareDiff.MaskExamples | mongoengine/compare_diff.py:194-198 | The mask covers the entry itself and paths below it, and no sibling that merely shares a text prefix nor a parent. |
| CompareDiff.KeysNotIn | mongoengine/compare_diff.py:92-96 | The keys kept are exactly those of the right record that the left record lacks. |
| CompareDiff.PairKeys | mongoengine/compare_diff.py:67-78 | The key union raises iff a truthy side is not a dict; otherwise it holds exactly the keys of either side. |
| CompareDiff.Unmasked | mongoengine/compare_diff.py:17-19 | A key survives iff it was given and the mask does not cover it. |
| CompareDiff.KeyList | mongoengine/compare_diff.py:12-21 | The constructor fails iff the key union fails; its key list is exactly the unmasked keys of either side. |
| CompareDiff.Compare | mongoengine/compare_diff.py:12-110 | Truthy records of different types raise; two empty records report nothing; a truthy non-dict side raises (what it reports otherwise is stated by CompareFlat, CompareKeysUnion, LeftOnly and RightOnly). |
| CompareDiff.LeftOnly | mongoengine/compare_diff.py:85-91 | With only the left record, every key is reported, a nested dict one level down, and every path reported stems from some key. |
| CompareDiff.IterStrs | mongoengine/compare_diff.py:97-102 | Iterating a value fails exactly for `None`, bools and ints. |
| CompareDiff.ListItems | mongoengine/compare_diff.py:97-102 | Expanding a list of a right-only key raises iff some remaining item is not iterable; otherwise it reports exactly `key.i.s` for every item `i` and every key, character or element `s` the item iterates over. |
| CompareDiff.RightOnly | mongoengine/compare_diff.py:92-104 | With only the right record, the comparison raises iff some list value holds an item that cannot be iterated; otherwise it reports `key._key` for each key of a dict value, `key.i.s` for each element of each item of a list value, `key` for any other value, and no other path. |
| CompareDiff.Element | mongoengine/compare_diff.py:39-40 | A list position past the end reads as `None`; an element is never larger than its list. |
| CompareDiff.CompareKey | mongoengine/compare_diff.py:23-50 | Two leaves under a key are reported as the key exactly when they differ; two dicts are compared one level down without the mask; a list against a number raises in `len`. |
| CompareDiff.CompareItem | mongoengine/compare_diff.py:38-46 | A list position holding no dict on either side is reported as `key.i` exactly when the two elements differ, a missing position reading as `None`; a truthy number raises in `len`. |
| CompareDiff.CompareKeysUnion | mongoengine/compare_diff.py:108-110 | The key loop raises iff some key raises, and otherwise reports every path of every key and nothing else. |
| CompareDiff.CompareListUnion | mongoengine/compare_diff.py:38-46 | The position loop raises iff some position raises, and otherwise reports every path of every position and nothing else. |
| CompareDiff.CompareKeysLeaves | mongoengine/compare_diff.py:49-62 | Over leaf values, the key loop reports exactly the keys whose values differ. |
| CompareDiff.CompareFlat | mongoengine/compare_diff.py:12-62 | Two non-empty records without nested dicts or lists report exactly the unmasked keys whose values differ (a missing key reading as `None`), so no path means agreement key by key. |
| CompareDiff.EmptyListAgainstNone | mongoengine/compare_diff.py:31-38 | An empty list against `None` is unequal yet reports no path, because the position loop runs zero times. |
| CompareDiff.Diff | mongoengine/compare_diff.py:55-62 | Equal values report nothing; unequal non-dicts report the attribute path; when a dict is on either side, one path per key of either side under the attribute, or an exception when the other side is a truthy non-dict. |
| CompareDiff.CompareSelf | mongoengine/compare_diff.py:23-110 | Comparing a record with itself reports no path, whatever the mask. |
| CompareDiff.CompareListSelf | mongoengine/compare_diff.py:31-46 | Comparing a list with itself position by position reports nothing. |
| CompareDiff.CompareLeafLists | mongoengine/compare_diff.py:31-46 | Two lists without nested dicts report exactly the positions where they hold unequal values. |
| CompareDiff.GetAttr | mongoengine/compare_diff.py:127-143 | A falsy record renders as `''`; a one-segment path into a dict renders the value under that key and into a list the element at that position (`None` past the end), each as `easy_str` or `''` when falsy; a truthy scalar raises. |
| CompareDiff.GetAttrDotted | mongoengine/compare_diff.py:128-135 | `k.rest` into a truthy dict renders exactly as `rest` into the value under `k`, and fails exactly when that does. |
| CompareDiff.WalkPlain | mongoengine/compare_diff.py:128-137 | A path without a dot takes one step: the value under the key of a dict, the element at a non-negative position of a list. |
| CompareDiff.WalkPathFree | mongoengine/compare_diff.py:129-140 | Where the walk ends, and whether it fails, does not depend on the path its error message quotes. |
| CompareDiff.RenderPath | mongoengine/compare_diff.py:209 | A path renders iff both sides' `get_attr` succeed and `diff_str` accepts the script of the two texts, and then as that `diff_str`; a character script of the two texts always renders. |
| CompareDiff.Walk | mongoengine/compare_diff.py:129-140 | Walking into a truthy scalar raises `parse error <path>, <segment>`; a falsy value ends the walk with `None`. |
| CompareDiff.IndexOrNull | mongoengine/compare_diff.py:136-137 | A list index fails only below minus the length; a non-`None` result is an element of the list. |
| CompareDiff.WalkDictStep | mongoengine/compare_diff.py:134-135 | A plain key into a truthy dict continues the walk from the value under that key. |
| CompareDiff.FalsyLeafRendersEmpty | mongoengine/compare_diff.py:143 | A leaf that is `0`, `False`, `''` or `None` renders as `''`. |
| CompareDiff.GetDiff | mongoengine/compare_diff.py:201-210 | The diff exists iff the comparison does not raise and every unmasked reported path renders; its keys are exactly the unmasked reported paths, each mapped to its rendering. |
| CompareDiff.GetDiffSelf | mongoengine/compare_diff.py:201-210 | A record compared with itself gives an empty diff. |
| DiffRender.Classify | mongoengine/compare_diff.py:150-187 | A script line is an addition, removal or kept character by its two-character prefix, tested in the code's order; a line with none of the prefixes is unknown. |
| DiffRender.RenderFrom | mongoengine/compare_diff.py:149-190 | The loop fails iff some line has an unknown prefix. |
| DiffRender.DiffStr | mongoengine/compare_diff.py:146-191 | `diff_str` raises `difflib error` iff some script line is unknown. |
| DiffRender.RenderErase | mongoengine/compare_diff.py:146-191 | Removing every tag from the rendering leaves the characters of the script in order. |
| DiffRender.RenderWellTagged | mongoengine/compare_diff.py:146-191 | The tags never nest, each closes the span it opened, and the last span is closed at the end. |
| DiffRender.RenderNoReopen | mongoengine/compare_diff.py:150-177 | Adjacent lines of one kind share one span: no span is closed and reopened with the same kind. |
| DiffRender.RenderSides | mongoengine/compare_diff.py:146-191 | Dropping the `<strong>` spans leaves the first string's side of the script, dropping the `<em>` spans the second's. |
| DiffRender.DiffStrOfScript | mongoengine/compare_diff.py:146-191 | For a character script of `s1` against `s2` the rendering succeeds, is well tagged, and without the added (removed) spans spells `s1` (`s2`). |
| StrTransfer.StripUnderscores | widgets/str_transfer.py:8-9 | The leading loop removes exactly the leading underscores: what is left is a suffix not starting with `_`. |
| StrTransfer.TransferUnderline | widgets/str_transfer.py:4-12 | The function as written returns iff the text left after the leading loop does not end in `_`; a result has no capitals and no underscore at either end. |
| StrTransfer.TransferIdempotent | widgets/str_transfer.py:4-12 | Snake-casing a returned name again gives the same name. |
| StrTransfer.TransferCamel | widgets/str_transfer.py:4-12 | `userName` becomes `user_name`. |
| StrTransfer.OneCapital | widgets/str_transfer.py:6-7 | A capital between two lower-case runs becomes `_` followed by its lower case, and nothing else changes. |
| StrTransfer.LeadingCapital | widgets/str_transfer.py:6-9 | A leading capital gets no underscore: `UserName` and `userName` are snake-cased alike. |
| StrTransfer.TransferTrailingUnderscore | widgets/str_transfer.py:10-11 | A name ending in `_` never leaves the trailing loop. |
| StrTransfer.StripTrailing | widgets/str_transfer.py:10-11 | The intended trailing loop removes exactly the trailing underscores: what is left is a prefix not ending in `_`. |
| StrTransfer.TransferUnderlineCorrected | widgets/str_transfer.py:4-12 | The corrected function always returns a name without capitals and with no underscore at either end. |
| StrTransfer.CorrectedAgrees | widgets/str_transfer.py:4-12 | Wherever the function as written returns, the corrected one returns the same name. |
| StrTransfer.CorrectedTrailingUnderscore | widgets/str_transfer.py:10-11 | The corrected function turns `name_` into `name`. |
| StrTransfer.CorrectedDropsTrailing | widgets/str_transfer.py:10-11 | With the trailing loop corrected, a snake-cased name followed by one underscore comes back as the name alone. |
| StrTransfer.CorrectedIdempotent | widgets/str_transfer.py:4-12 | Snake-casing a corrected result again changes nothing. |
| RequestId.RenderMatches | libs/wsgi_request_id.py:11-13 | Lower-case hex digits cut into the groups, with or without a hyphen between groups, match the pattern. |
| RequestId.MatchesRendered | libs/wsgi_request_id.py:11-13 | Every text matching the groups is such a rendering of hex digits. |
| RequestId.MatchesIffRendered | libs/wsgi_request_id.py:11-13 | Matching the groups is exactly being such a rendering. |
| RequestId.PatternIsUuid | libs/wsgi_request_id.py:5-13 | `PATTERN` accepts exactly 32 lower-case hex digits grouped 8-4-4-4-12 with optional hyphens, full or squashed, optionally followed by one newline (Python's `$`). |
| RequestId.MatchesLowerCase | libs/wsgi_request_id.py:11-13 | A match holds only lower-case hex digits and hyphens, so upper-case ids are refused. |
| RequestId.Pieces | libs/wsgi_request_id.py:46 | A header splits into at least one piece and no piece holds a comma. |
| RequestId.RawRequestIds | libs/wsgi_request_id.py:44-49 | The raw ids hold at least one piece per header. |
| RequestId.RawWithoutHeaders | libs/wsgi_request_id.py:44-49 | With neither header present the raw ids are two empty strings. |
| RequestId.RawInHeaderOrder | libs/wsgi_request_id.py:44-49 | The raw ids are the pieces of `HTTP_REQUEST_ID` followed by those of `HTTP_X_REQUEST_ID`. |
| RequestId.Keep | libs/wsgi_request_id.py:42 | Filtering keeps exactly the ids that pass, never more than it was given. |
| RequestId.KeepAppend | libs/wsgi_request_id.py:42 | Filtering keeps the relative order of the ids. |
| RequestId.ExtractRequestIds | libs/wsgi_request_id.py:39-42 | The extracted ids are exactly the raw ids that match the pattern. |
| RequestId.Uuids | libs/wsgi_request_id.py:42 | An id is kept iff it was given and matches the pattern. |
| RequestId.Call | libs/wsgi_request_id.py:24-34 | The fresh id comes first and is the request id; every other id matches the pattern; the response gets one `Request-Id` header appended after the application's own. |
| RequestId.CallKeepsHeaderOrder | libs/wsgi_request_id.py:24-49 | The ids after the fresh one are the matching ids of the first header, then those of the second. |
| HttpUtils.GetRealIp | widgets/http_utils.py:4-12 | The result is one of the three headers or the peer address, and is usable unless it is the peer address. |
| HttpUtils.HeaderGet | webbase/http_utils.py:5 | `request.headers.get(name)` is present iff the environ holds the name's CGI key (`HTTP_` plus the name upper-cased with `-` as `_`; the two content headers without the prefix), and is that entry. |
| HttpUtils.SameFoldSameHeader | webbase/http_utils.py:5-9 | Two names that fold to the same key read the same header. |
| HttpUtils.FoldIgnoresCase | webbase/http_utils.py:5-9 | Lower-casing a name does not change the header it reads. |
| HttpUtils.FoldDashIsUnderscore | webbase/http_utils.py:5-9 | Writing `_` for a `-` in a name does not change the header it reads. |
| HttpUtils.FirstUsable | webbase/http_utils.py:4-12 | With no usable header among the names the peer address; otherwise the header at the first position whose header is usable, every earlier one being unusable (`FirstUsableAt`). Headers are read through the case- and `-`/`_`-folding lookup. |
| HttpUtils.GetRealIpIsFirstUsable | webbase/http_utils.py:4-12 | The chain of reassignments picks the first usable header in preference order, else the peer address. |
| HttpUtils.ForwardedForWins | webbase/http_utils.py:5-6 | A usable forwarded-for header wins whatever the other headers hold, under any spelling the client sent that folds to `X_FORWARDED_FOR` (`X-Forwarded-For`, `x-forwarded-for`, ...). |
| HttpUtils.CapitalisedForwardedFor | webbase/http_utils.py:5-6 | A client sending `X-Forwarded-For: v`, with `v` usable, is reported as `v` and not as the peer address. |
| HttpUtils.Criteria | webbase/http_utils.py:43 | One criterion per keyword argument, in order, each the text `name=value`. |
| HttpUtils.CriteriaSplit | webbase/http_utils.py:43 | A criterion splits back at its first `=` into its keyword and value when the keyword holds no `=`. |
| HttpUtils.GetObjectOr404 | webbase/http_utils.py:30-45 | No handler applies iff the model subclasses none of the registered classes; a failed lookup aborts 404 with `can not find <model> - <criteria joined by ;>`; otherwise the first matching handler answers. |
| Signature.GetKey | widgets/signature.py:18-20 | The key of an id is the last one the group gives for it; an unknown id has none. |
| Signature.Assignments | widgets/signature.py:29 | One `name=value` text per signed field, in order. |
| Signature.GenSignature | widgets/signature.py:22-31 | Signing fails iff the caller is unknown; otherwise it is the HMAC under the caller's key of `action=..&secret_id=..&timestamp=..`. |
| Signature.CheckRight | widgets/signature.py:33-36 | Checking fails iff the caller is unknown, and accepts iff the given signature equals the computed one. |
| Signature.SignThenCheck | widgets/signature.py:22-36 | A signature made for a known caller is accepted. |
| Signature.UsersTable | base/signature.py:14-19 | The fixed table knows `wechat_personal` and `spider_angel` with their keys and no other caller. |
| Signature.ParsePairs | widgets/signature.py:45 | The header parses iff every `&`-item splits into exactly two parts on `=`. |
| Signature.Authorized | widgets/signature.py:39-52 | The view runs iff the header parses into exactly the four parameters and their signature checks; any failure is unauthorized. |
| Signature.ParseAssignments | widgets/signature.py:29-45 | `name=value` items without `=` inside parse back into their pairs. |
| Signature.PairsRoundTrip | widgets/signature.py:29-45 | Pairs without `&` or `=` joined into a header parse back into the dict of those pairs. |
| Signature.SignedHeaderParses | widgets/signature.py:29-45 | The header a client builds from plain fields and the signature parses back into those four parameters. |
| Signature.SignedHeaderExtends | widgets/signature.py:24-29 | The signed header is the signed text followed by `&signature=<sig>`. |
| Signature.SignedHeaderAccepted | widgets/signature.py:22-52 | A header carrying plain fields and the signature computed for them is accepted. |
| Paginate.Window | flask_restplus/resource.py:254 | The cursor window fails iff the skip is negative; otherwise it holds the objects from the skip on, as many as the limit allows (0 means all). |
| Paginate.MongoOrderPaginate | flask_restplus/resource.py:247-254 | The flask_restplus copy refuses a page size below -1 with a 400 and only it; page size -1 gives all ordered objects; the store fails iff the skip is negative. |
| Paginate.MongoPage | flask_restplus/resource.py:247-254 | A positive page size gives page `p` as the ordered objects from `(p-1)*size` on, at most `size` of them. |
| Paginate.PagesArePrefix | flask_restplus/resource.py:254 | The first `k` pages in order are exactly the first `k*size` objects: no overlap and no gap. |
| Paginate.OrderItem | flask_restplus/resource.py:233-234 | An item is descending iff it starts with `-`. |
| Paginate.OrderItemRenders | flask_restplus/resource.py:233-234 | The field written back with its sign restores the item. |
| Paginate.OrderFields | flask_restplus/resource.py:230-238 | The order string is accepted iff every field is known, giving one pair per item; a refusal names an unknown field. |
| Paginate.PeeweeOrderPaginate | flask_restplus/resource.py:228-246 | A missing order string fails; paging is asked for iff the page size is not -1, with the page and size given. |
| Paginate.PeeweeOrderRoundTrip | flask_restplus/resource.py:228-246 | Writing an accepted order back gives the order string asked for. |
| Paginate.PeeweeOrderRefused | flask_restplus/resource.py:232-238 | The relational branch refuses the string iff one of its fields is unknown. |
| Paginate.ModelOrderPaginate | flask_restplus/resource.py:222-254 | An unknown engine gives nothing back; `mongo` and `peewee` dispatch to their branches. |
| Paginate.VariantsDiffer | restplus/resource.py:106-111 | Below -1 the flask_restplus copy raises a 400 while the restplus copy sends a negative skip to the store. |
| Paginate.VariantsAgree | restplus/resource.py:80-111 | For page sizes of at least -1 the two copies agree. |
| ResourceDecorators.FirstBaseAttr | flask_restplus/resource.py:47-52 | The first base with a non-`None` attribute gives it; none iff every base lacks it. |
| ResourceDecorators.GetAttr | flask_restplus/resource.py:43-53 | The class's own entry wins whatever its value; otherwise the first non-`None` base value; none raises `<qualname>-<attr> 未定义`. |
| ResourceDecorators.OwnAttrShadows | flask_restplus/resource.py:44-45 | An own `None` entry hides a base value. |
| ResourceDecorators.UpToNewline | flask_restplus/resource.py:68 | `.` stops at the first line break: the result is the text up to it. |
| ResourceDecorators.LastSep | flask_restplus/resource.py:68 | The greedy method group ends at the last `__`. |
| ResourceDecorators.DecoratorMatch | flask_restplus/resource.py:68-74 | A match spells `decorator__<method>__<name>`; the name holds no `__` and does not start with `_`; an attribute without the prefix never matches. |
| ResourceDecorators.DecoratorMatchRoundTrip | flask_restplus/resource.py:68 | `decorator__<m>__<n>` gives back `m` and `n` when `n` has no `__` and no leading `_`. |
| ResourceDecorators.GreedyMethod | flask_restplus/resource.py:68 | `decorator__get__cache__x` reads as method `get__cache`, name `x`. |
| ResourceDecorators.AddMatching | flask_restplus/resource.py:73-83 | Each matching attribute not yet recorded is added; recorded ones stay. |
| ResourceDecorators.DecoratorAttrs | flask_restplus/resource.py:71-84 | An attribute is recorded iff it matches and the class or a base has it. |
| ResourceDecorators.ClassAttrShadowsBases | flask_restplus/resource.py:73-80 | The class's own attribute is recorded with its value, shadowing the bases. |
| ResourceDecorators.BaseAttrRecorded | flask_restplus/resource.py:77-83 | An attribute only the bases have is recorded with the first owning base's value. |
| ResourceDecorators.ItemPairs | flask_restplus/resource.py:119-125 | A bare name gets `None` parameters; a pair gives its name and parameters. |
| ResourceDecorators.ListConfig | flask_restplus/resource.py:118-126 | A decorator's parameters are those of its last item in the list. |
| ResourceDecorators.ListsConfig | flask_restplus/resource.py:115-126 | Only methods of the class get an entry from `parameterized_decorators`. |
| ResourceDecorators.AttrsConfig | flask_restplus/resource.py:127-132 | An attribute-declared decorator overrides the list entry for its method and name. |
| ResourceDecorators.DynamicMethod | flask_restplus/resource.py:133-138 | A decorator with a dynamic-parameter function gets that function's value, others keep theirs. |
| ResourceDecorators.DynamicConfig | flask_restplus/resource.py:133-138 | The dynamic pass keeps the methods and rewrites each one's decorators. |
| ResourceDecorators.GetDecoratorConfig | flask_restplus/resource.py:111-139 | The configuration fails iff `parameterized_decorators` is undefined on the class and its bases or is `None`. |
| ResourceDecorators.ConfigEntry | flask_restplus/resource.py:111-139 | A method's decorator takes the attribute value if one is declared, else the last list item's parameters. |
| ResourceDecorators.CallOf | flask_restplus/resource.py:103-108 | Dict parameters are keyword arguments, list parameters positional ones, anything else a single argument. |
| ResourceDecorators.DecoratorCalls | flask_restplus/resource.py:100-108 | Only registered decorators are applied, each with its configured parameters, all of them when all are registered. |
| ResourceDecorators.Decorate | flask_restplus/resource.py:91-108 | A class body whose own `Meta` has no `abstract` attribute makes class creation raise `AttributeError`, and only such a class; an abstract class or one without methods is left alone; otherwise each method, lower-cased and in order, is wrapped by the registered decorators of its configuration entry. |
| Formats.MergeFormat | rest/formats.py:36-38 | The envelope's format is the class format updated with the caller's: a caller key wins, every other key keeps the class entry, and no key is lost or added. |
| Formats.Pop | rest/formats.py:44-46 | `kwargs.pop` gives the value or the default, removes the key and leaves every other key alone. |
| Formats.SetAll | rest/formats.py:53-54 | After the `setattr` loop every keyword argument is an attribute and every other attribute is unchanged. |
| Formats.Rest | rest/formats.py:39-52 | The arguments left for `setattr` are the given ones minus those `__init__` consumes. |
| Formats.TableTotal | rest/formats.py:44 | A truthy explicit total is kept; otherwise the total is the number of items, failing iff the items have no length. |
| Formats.TablePaging | rest/formats.py:46-52 | With truthy `pargs` the page, current page and page size come from it, failing iff one is missing; without it the page is always 0 and the page size 20, because the later pops look for `pargs` again. |
| Formats.NewTable | flask_restplus/formats.py:14-48 | The table is built iff a message is given or the serializer's `Meta` has a model, and the total and the paging can be read; it keeps `model` only when no message was given, and holds the merged format, the message (given or `<model>列表`), the total, `add_action` (default false), and every other keyword argument overrides the paging defaults. |
| Formats.ZeroTotalFallsBack | rest/formats.py:44 | An explicit total of 0 is falsy and falls back to the number of items. |
| Formats.TableCode | rest/formats.py:98-102 | The `code` field of a new table reports the `code` keyword argument, and 0 without one. |
| Formats.TableStatus | rest/formats.py:120-124 | The `status` field of a new table reports the `status` keyword argument, and 200 without one. |
| Formats.TableTotalCountsRows | rest/formats.py:44-82 | Without an explicit total, the total of a new table equals the number of rows its `data` field (`_items`) lists, the empty list when the instance is empty. |
| Formats.TotalCountsItems | rest/formats.py:44 | Without an explicit total, the total is the length of `_items`. |
| Formats.TableTotalPages | rest/formats.py:104-108 | A new table without paging arguments has pages of 20 rows and reports as `_total_page` the number of such pages its total fills. |
| Formats.PagesOfTwenty | rest/formats.py:104-108 | With pages of 20 rows and no explicit count, `_total_page` is the least page count holding the total. |
| Formats.TruncDiv | rest/formats.py:108 | `int(a / b)` truncates toward zero, unlike Dafny's division. |
| Formats.PageCount | rest/formats.py:104-108 | The page count fails iff the page size is 0, and is 1 for the page size -1. |
| Formats.PageCountIsCeiling | rest/formats.py:108 | For a non-empty table and a positive page size the count `n` satisfies `(n-1)*size < total <= n*size`. |
| Formats.EmptyTablePages | rest/formats.py:108 | An empty table reports one page, except with page size 1, where it reports none. |
| Formats.PageCountCoversRows | rest/formats.py:108 | The pages the count reports hold every row, page by page. |
| Formats.TotalPage | rest/formats.py:104-130 | An explicit `total_page` wins; a page size equal to -1 gives 1; 0 fails; otherwise the page count of the total. |
| Formats.TableFields | flask_restplus/formats.py:66-77 | The table model is named `Table<serializer>` unless named; `data` is the list of item models (with `actions` when asked for) and no caller format can replace it; every other key is the merged format. |
| Formats.NewResponse | flask_restplus/formats.py:88-101 | The response holds the merged format, the message (default empty), and every other keyword argument as an attribute. |
| Formats.ResponseCode | rest/formats.py:184-188 | The `code` field of a new response reports the `code` keyword argument, and 0 without one. |
| Formats.ResponseStatus | rest/formats.py:197-201 | The `status` field of a new response reports the `status` keyword argument, and 200 without one. |
| Formats.ResponseDataItem | flask_restplus/formats.py:111-123 | The `data` field of a response reads `_item`: the instance when it is truthy, and an empty dictionary otherwise, so the nested item is always a dictionary. |
| Formats.ResolveGetFields | flask_restplus/formats.py:126-141 | The `get_fields` a class uses is the first definition along its method resolution order. |
| Formats.ResponseFields | flask_restplus/formats.py:115-123 | `data` is the nested model of one item read from `_item`; every other key is the merged format. |
| Formats.ListResponseFields | flask_restplus/formats.py:126-137 | `data` is a list of item models built from the serializer's fields; every other key is the merged format. |
| Formats.ListMixinShadowed | flask_restplus/formats.py:140-141 | `BaseListResponse` finds `BaseResponse.get_fields` first, so its `data` is a single nested item, never the mixin's list. |
| Responses.Envelope | webbase/response.py:18 | The success and failure body has exactly the keys `status`, `message`, `data`, in that order. |
| Responses.Success | webbase/response.py:16-21 | HTTP 200 with the given body status; `data` replaces `{}` unless it is `None`. |
| Responses.Failed | webbase/response.py:40-45 | A failure response has the same body and HTTP status as a success response. |
| Responses.Created | webbase/response.py:24-29 | HTTP 201, body status 200, and `data` kept only when truthy. |
| Responses.Accepted | webbase/response.py:32-37 | HTTP 202 and the same body as the created response. |
| Responses.FalsyDataKeptOnlyBySuccess | webbase/response.py:16-37 | A falsy payload other than `None` is kept by the success response and replaced by `{}` in the created and accepted ones. |
| Responses.ActionError | webbase/response.py:59-61 | The exception's response is a failure with body status 400 and empty data. |
| Responses.PermError | webbase/response.py:68-70 | The exception's response is a failure with body status 403 and empty data. |
| Responses.Table | webbase/response.py:48-56 | A page size below -1 is refused; 0 divides by zero; otherwise the body holds the given data and the formula's page count, also for -1. |
| Responses.NoPagingShortcut | webbase/response.py:55 | The page size -1 reports `2 - total` pages, one only for a table of exactly one row. |
| Responses.TableCorrected | webbase/response.py:48-56 | With the shortcut comparing against the number -1, the page size -1 reports one page, and the response fails only for sizes below -1 or 0. |
| Responses.TableCorrectedAgrees | webbase/response.py:55 | For every page size but -1 the corrected table is the one as written. |
| Responses.NoPagingDiffers | webbase/response.py:55 | For the page size -1 the two agree iff the table has exactly one row. |
| Responses.TableAgreesWithPageCount | restviewset/response.py:88-96 | For positive page sizes the table's page count is the envelope classes' page count. |
| Responses.ProjectMessages | restviewset/response.py:60-65 | The message parts are the base message, then the current project when truthy, then the wrong project when truthy. |
| Responses.ProjectError | restviewset/response.py:59-69 | HTTP 403 with the body keys `code` (4031) and `message`, the parts joined by commas. |
| Responses.ProjectMessageSplits | restviewset/response.py:61-66 | When no part contains a comma, splitting the message on commas gives back the parts. |
| ReqParse.NewArgument | flask_restplus/reqparse.py:50-58 | An argument is built iff its action is not `split` and its operator (default empty) is in the Mongo whitelist; otherwise the assertion fails with its message. |
| ReqParse.NewArgumentCorrected | flask_restplus/reqparse.py:50-58 | With `split` forcing `in`, a split argument is always built with that operator; every other argument is built exactly as written. |
| ReqParse.SplitArgumentRejected | flask_restplus/reqparse.py:53-56 | As written a `split` argument always fails the assertion, since the forced `in_` is not whitelisted; the corrected construction accepts it. |
| ReqParse.Convert | flask_restplus/reqparse.py:63-70 | `null` gives `None` for a nullable argument, `true`/`True` and `false`/`False` give bools for a bool argument, anything else goes to the parent conversion. |
| ReqParse.FriendlyAll | flask_restplus/reqparse.py:9-17 | Each location is replaced by its friendly name, in order. |
| ReqParse.HandleError | flask_restplus/reqparse.py:147-164 | The error is keyed by the argument's name and prefixed with its help; bundling returns it, otherwise the request aborts with `[<help or name>]校验失败`. |
| ReqParse.Prepare | flask_restplus/reqparse.py:92-95 | Non-strings pass unchanged; a string is `strip()`ped when trimming and `lower()`ed when case-insensitive, in that order, and a trimmed result has no whitespace at either end. |
| ReqParse.PrepareIdempotent | flask_restplus/reqparse.py:92-95 | Preparing a prepared value changes nothing. |
| ReqParse.LowerChoices | flask_restplus/reqparse.py:97-98 | Lowering the choices succeeds iff all are strings, each lower-cased in place. |
| ReqParse.ConvertAll | flask_restplus/reqparse.py:101-102 | Every piece of a split value is converted in order; a failure means some piece fails to convert. |
| ReqParse.ValueStep | flask_restplus/reqparse.py:91-116 | A kept value is the conversion of the prepared value and lies in the choices when there are any; a skipped one failed to convert under `ignore`; a stop is never a parsed result. |
| ReqParse.CollectValues | flask_restplus/reqparse.py:91-116 | The values kept extend those before, never more than one per value sent, each the conversion of a value sent. |
| ReqParse.CollectOperators | flask_restplus/reqparse.py:82-116 | The operators' loop only adds values, and an early return is never a parsed result. |
| ReqParse.Shape | flask_restplus/reqparse.py:118-145 | No value: a required argument reports the missing parameter in its friendly location, else the default is returned as not found. With values and a regex, the values `re.match` sees (all for `append`, the first for `store` or a single value) are tested in order: the result is the collected value (the single value, or the list) iff none raises and, without bundling, none mismatches; otherwise the first such value decides: a `TypeError` from `re.match` on a non-string propagates even when bundling, and a mismatch aborts with the format error. A bundled error only arises with bundling on and carries exactly the argument's own error. |
| ReqParse.Parse | flask_restplus/reqparse.py:72-145 | The values are read from the source of the argument's own location; a value not found is the argument's default and only for an optional argument; an error handed back for bundling only arises with bundling on, and a bundled or aborted error holds exactly one entry, keyed by the argument's name. |
| ReqParse.AddArgument | flask_restplus/reqparse.py:174-184 | The argument is appended and registered under its destination, nothing else changes, and a trimming parser sets its trim flag (default true). |
| ReqParse.AddNewArgument | flask_restplus/reqparse.py:174-184 | Adding by options succeeds iff the argument can be built. |
| ReqParse.Helps | flask_restplus/reqparse.py:191 | The helps kept are non-empty and never more than the names. |
| ReqParse.HelpsMembers | flask_restplus/reqparse.py:191 | Every non-empty help of a named argument is kept, and every help kept belongs to a named argument. |
| ReqParse.HelpsAppend | flask_restplus/reqparse.py:191 | The helps follow the order of the names: those of a concatenation are those of each part, concatenated. |
| ReqParse.SetOrArgument | flask_restplus/reqparse.py:186-193 | It succeeds iff the names are non-empty and all registered; the new argument copies the first one under the `__or__`-joined name with the helps joined by `|`, and is registered in `args`, `args_dict` and `or_args` with nothing else changed. |
| ReqParse.OrIndexIgnored | flask_restplus/reqparse.py:186-187 | The `index` argument has no effect. |
| ReqParse.ConditionKey | flask_restplus/reqparse.py:259-262 | An empty operator keeps the name; otherwise the key is `<name>__<oper>`. |
| ReqParse.ConditionPairs | flask_restplus/reqparse.py:250-262 | One condition per parsed value, keyed by its name and operator, in order. |
| ReqParse.ConditionsFrom | flask_restplus/reqparse.py:250-262 | The loop succeeds iff every name is a model field and not an or-argument; a failure is either the or-argument branch raising or `getattr` of a name the model lacks. |
| ReqParse.ConditionsFromLookup | flask_restplus/reqparse.py:250-262 | Later condition keys overwrite earlier ones; keys the loop does not assign keep their value. |
| ReqParse.MongoConditions | flask_restplus/reqparse.py:246-263 | The conditions exist iff every name is allowed, and each key holds the last value assigned to it. |
| ReqParse.ConditionFound | flask_restplus/reqparse.py:246-263 | With distinct keys every parsed value is found under its own condition key. |
| ReqParse.OrArgumentConditionsFail | flask_restplus/reqparse.py:252-256 | Once an or-argument is parsed, building Mongo conditions raises: its branch raises at `getattr` of a member or of the operator, at `reduce`, or at `append` on the dictionary, whichever comes first. |
| ReqParse.Without | flask_restplus/reqparse.py:114-115 | The unparsed names left are exactly those not consumed. |
| ReqParse.ParseEach | flask_restplus/reqparse.py:289-295 | The loop fails exactly when some argument aborts or raises, with the first such message; otherwise each destination holds the last value stored under it, the unparsed names only shrink, and errors are collected exactly when there were some or some argument handed one back. |
| ReqParse.NoBundleWithoutBundling | flask_restplus/reqparse.py:156-164 | With bundling off no argument hands its error back: every failure aborts. |
| ReqParse.ErrorMessages | flask_restplus/reqparse.py:296-303 | The messages exist iff every failed name is registered, one `输入框[<help or name>]校验失败` each; otherwise reading `help` off the missing argument raises. |
| ReqParse.ParseArgs | flask_restplus/reqparse.py:272-310 | The first argument that aborts or raises decides the error; otherwise bundled errors abort with their messages joined by `,`; without them a lax parse succeeds, mapping each destination to its last stored value, and a strict parse with request names left over fails with `Unknown arguments: ...`. |
| ReqParse.StoredUnderDest | flask_restplus/reqparse.py:289-295 | With distinct destinations each argument's value lands under its own destination exactly when found or storing missing values. |
| ReqParse.StoredAbsent | flask_restplus/reqparse.py:294-295 | A destination no argument has is never assigned. |
| Serializers.OwnPairs | flask_restplus/serializers/serializers.py:33-35 | The pairs taken from the class body name only body attributes, each bound to a field there. |
| Serializers.OwnPairsDistinct | flask_restplus/serializers/serializers.py:33-35 | Body names taken once give no pair name twice. |
| Serializers.OwnPairsValue | flask_restplus/serializers/serializers.py:33-35 | The last pair for a name carries the field the body binds to it, and there is no pair for a name outside the body. |
| Serializers.BaseItems | flask_restplus/serializers/serializers.py:38-42 | A base contributes only names the class body does not bind. |
| Serializers.BaseItemsValue | flask_restplus/serializers/serializers.py:38-42 | A base's contribution for a name is its own declared field, unless the body rebinds the name. |
| Serializers.InheritedValue | flask_restplus/serializers/serializers.py:36-42 | Across the bases, a name the body does not bind takes the field of the last base declaring it. |
| Serializers.DeclaredFieldValue | flask_restplus/serializers/serializers.py:31-43 | `_declared_fields[k]` is the body's field when the body binds `k` (absent when bound to a non-field), and otherwise the field of the last base that declares `k`. |
| Serializers.DeclaredFieldOrder | flask_restplus/serializers/serializers.py:31-43 | Inherited names come first, in first-appearance order with earlier bases first, then the class's own fields in body order; the two groups are disjoint. |
| Serializers.OwnNames | flask_restplus/serializers/serializers.py:33-35 | The own names are exactly the body attributes bound to fields, in body order. |
| Serializers.InheritedNames | flask_restplus/serializers/serializers.py:36-42 | Every inherited name is one the body does not bind. |
| Serializers.InitRequiringMany | flask_restplus/serializers.py:53-60 | The older constructor succeeds iff `_many_` is given; it then keeps the instance, `_many_` and `_skip_none_` (default false). |
| Serializers.Init | flask_restplus/serializers/serializers.py:57-69 | `many` is `_many_` when given and otherwise whether the instance is a list; the registry gains `<module>.<Class>` and keeps every other entry. |
| Serializers.ManyDefaultsToListness | flask_restplus/serializers/serializers.py:64-67 | Without `_many_`, an instance is rendered as many items iff it is a list. |
| Serializers.Iterate | flask_restplus/serializers/serializers.py:103-115 | Iteration yields a list's items and is defined only for lists, strings and dictionaries. |
| Serializers.Data | flask_restplus/serializers/serializers.py:89-115 | A falsy instance gives `[]` or `{}`. Otherwise `parse_data_item` runs first on the one item, or on every iterated element when `many`: the result is an error iff that parsing raises (or the instance is not iterable), and then it is the first raising element's exception; on success one item is marshalled once, and many items give the marshalling of each parsed element, in order. |
| Serializers.ParseValue | flask_restplus/serializers/serializers.py:89-93 | `parse_data_item` on a dictionary, string, list, number or `None` succeeds, leaving the value as it was, iff no field has a getter; otherwise `setattr` raises `AttributeError` naming the value's type and the first field with a getter. |
| Serializers.DataOnPlainDict | flask_restplus/serializers/serializers.py:89-115 | For a truthy plain dict serialized as one item, `data` raises iff some field has a getter, with the `AttributeError` of `parse_data_item` for the first such field, and otherwise marshals the dict unchanged. |
| Serializers.DataOnManyPlainDicts | flask_restplus/serializers/serializers.py:89-115 | For a list of plain dicts serialized as many, `data` raises iff some field has a getter, with the first dict's `AttributeError`, before anything is marshalled; otherwise each dict is marshalled unchanged, in order. |
| Serializers.FuncKeyInjective | flask_restplus/serializers/serializers.py:85-93 | Distinct field names store their getter results under distinct `__func__` attributes. |
| Serializers.FieldsProperty | flask_restplus/serializers/serializers.py:76-87 | A `_fields` already held anywhere on the MRO is returned unchanged; otherwise the computed fields are stored on the class itself, same names in order, with getter-backed fields redirected to `__func__<name>`. |
| Serializers.CachedOn | flask_restplus/serializers/serializers.py:81 | The cached fields are those of the first class on the MRO that holds `_fields`, and there are none iff no class does. |
| Serializers.Bind | flask_restplus/serializers/serializers.py:83-86 | Same names in the same order; exactly the fields with a `get_<name>` getter read `__func__<name>`. |
| Serializers.SubclassSeesParentCache | flask_restplus/serializers/serializers.py:76-87 | After a parent computes its fields, a subclass without `_fields` of its own gets the parent's fields, whatever it declares. |
| Serializers.ParseDataItem | flask_restplus/serializers/serializers.py:89-93 | On an object, ordinary attributes are untouched and a `__func__<f>` attribute exists afterwards iff it existed before or `f` is a field with a getter; on a plain dict, `setattr` raises `AttributeError` for the first field with a getter, and a dict whose fields have none is returned unchanged. |
| Serializers.SetFuncAttrs | flask_restplus/serializers/serializers.py:89-93 | The `setattr` loop on an object only adds `__func__<f>` attributes, one for each field with a getter. |
| Serializers.Len | flask_restplus/serializers/serializers.py:153-154 | The length is the number of distinct field names, zero iff there are no fields. |
| Serializers.GetItem | flask_restplus/serializers/serializers.py:156-157 | Indexing succeeds iff the name is a field, and returns that field. |
| ModelSerializers.MongoScalar | flask_restplus/serializers/model_serializers.py:278-294 | A mongoengine field class in the table maps to its entry, and any other class to `String`. |
| ModelSerializers.PeeweeField | flask_restplus/serializers/model_serializers.py:228-256 | A peewee field class maps to a flat field with no attribute, `String` when it is not in the table. |
| ModelSerializers.Leaf | flask_restplus/serializers/model_serializers.py:268-270 | Unwrapping `ListField`s (an empty one counting as `StringField`) ends at a field that is not a list. |
| ModelSerializers.Apply | flask_restplus/serializers/model_serializers.py:275 | Calling the fold's value succeeds iff it is the `List` class applied to a built field, and then gives a list of that field. |
| ModelSerializers.Fold | flask_restplus/serializers/model_serializers.py:273-276 | A fold over no further steps returns its start, and a successful fold over some steps returns a built field. |
| ModelSerializers.Steps | flask_restplus/serializers/model_serializers.py:267-272 | The steps are one `List` class per list level followed by the innermost field. |
| ModelSerializers.Finish | flask_restplus/serializers/model_serializers.py:295-300 | With no list level the innermost field is returned as it is. |
| ModelSerializers.FinishDepth | flask_restplus/serializers/model_serializers.py:295-300 | One list level gives a list of the innermost field; two or more raise. |
| ModelSerializers.DocumentCorrected | flask_restplus/serializers/model_serializers.py:69-77 | An embedded document's model has one entry per document field, in field order and under the same names. |
| ModelSerializers.CorrectedNesting | flask_restplus/serializers/model_serializers.py:258-300 | The intended mapping wraps exactly as many `List`s as the mongoengine field has `ListField` levels, around the mapping of the innermost field. |
| ModelSerializers.AsWrittenIffShallow | flask_restplus/serializers/model_serializers.py:258-300 | The mapping as written succeeds iff no `ListField` chain, here or inside embedded documents, is two deep, and then equals the intended mapping. |
| ModelSerializers.DocumentIffShallow | flask_restplus/serializers/model_serializers.py:69-77 | An embedded document maps as written iff all its fields are shallow, and then matches the intended model. |
| ModelSerializers.TooDeep | flask_restplus/serializers/model_serializers.py:295-300 | Once two `List` classes are collected the mapping raises. |
| ModelSerializers.ShallowTooDeep | flask_restplus/serializers/model_serializers.py:268-270 | No field is shallow when two list levels are already collected. |
| ModelSerializers.NestedListCounterexample | flask_restplus/serializers/model_serializers.py:258-300 | `ListField(ListField(IntField()))` raises as written, while the intended mapping is a list of lists of integers. |
| ModelSerializers.MetaProblem | flask_restplus/serializers/model_serializers.py:88-130 | There is no problem iff `Meta` passes every check. |
| ModelSerializers.MetaReady | flask_restplus/serializers/model_serializers.py:88-130 | `meta_ready` is true iff `Meta` exists with a model, a truthy `fields` is a list, a tuple or `'__all__'`, a truthy `exclude` is a list or tuple, `fields` and `exclude` are not both truthy, and they are not both `None`; the tests are by truthiness, so a set but falsy option (`fields = []` or `''` beside `exclude = ['a']`) passes. Otherwise the result is the first failing check's error. |
| ModelSerializers.ModelOf | flask_restplus/serializers/model_serializers.py:54 | Reading the model succeeds iff `Meta` and `Meta.model` exist. |
| ModelSerializers.ModelFieldNames | flask_restplus/serializers/model_serializers.py:79-86 | The model's field names are known iff the engine is peewee or mongo, and have no repeats. |
| ModelSerializers.RequiredNames | flask_restplus/serializers/model_serializers.py:155-157 | A name is required iff the class declares it and no direct base does. |
| ModelSerializers.MissingRequired | flask_restplus/serializers/model_serializers.py:159-167 | Nothing is reported missing iff every required name is in `fields`. |
| ModelSerializers.RemoveFirst | flask_restplus/serializers/model_serializers.py:195 | On a list without repeats, `remove` drops exactly the given name. |
| ModelSerializers.WithoutAbsent | flask_restplus/serializers/model_serializers.py:195 | Dropping an absent name changes nothing. |
| ModelSerializers.Keep | flask_restplus/serializers/model_serializers.py:173-195 | A name is kept iff it is a model name and not excluded. |
| ModelSerializers.KeepWithout | flask_restplus/serializers/model_serializers.py:175-195 | Removing one name and then the rest keeps what excluding them all at once keeps. |
| ModelSerializers.ExcludeSelects | flask_restplus/serializers/model_serializers.py:173-197 | With distinct model names, exclusion succeeds iff the excluded names are distinct (a repeated name fails `assert field_name in fields` the second time, after the first `remove`), every one is a model name and none is declared. It then leaves the model names not excluded, in order. |
| ModelSerializers.KeepNone | flask_restplus/serializers/model_serializers.py:170-171 | Excluding nothing keeps every model name. |
| ModelSerializers.FieldNames | flask_restplus/serializers/model_serializers.py:132-197 | A failing `meta_ready` is the error; success needs a model; explicit `fields` are returned as given once the required names are in them; without `exclude` the model's names are used. |
| ModelSerializers.ExcludePath | flask_restplus/serializers/model_serializers.py:170-197 | Without explicit `fields`, the names are the model's minus `exclude`, and the call succeeds iff the excluded names are distinct, undeclared model names. |
| ModelSerializers.ClassPathSkipsChecks | flask_restplus/serializers/model_serializers.py:140-168 | With both `fields` and `exclude` set, `meta_ready` raises and so does the checked path, while the unchecked class-method path returns `fields` as given and ignores `exclude`. |
| ModelSerializers.InstancePathChecksMeta | flask_restplus/serializers.py:253-334 | Where `get_field_names` and `get_fields` are instance methods, they produce names or fields only for a `Meta` that passes every `meta_ready` check. |
| ModelSerializers.ModelField | flask_restplus/serializers/model_serializers.py:212-214 | Reading a name succeeds iff the model is peewee or mongoengine and has it as a field or as another class attribute; a field maps by its engine's mapping, any other attribute by the table default `String`, and a missing one raises `AttributeError`. |
| ModelSerializers.ModelNamesMap | flask_restplus/serializers/model_serializers.py:212-214 | Every model field name of `'__all__'` maps: always for peewee, and for mongoengine iff its `ListField` nesting is shallow, then to the intended field. |
| ModelSerializers.FieldFor | flask_restplus/serializers/model_serializers.py:210-214 | A declared field is taken as it is; any other name is read from the model. |
| ModelSerializers.FieldPairs | flask_restplus/serializers/model_serializers.py:209-214 | The loop succeeds iff every name's field does, and then gives each name with its field, in order. |
| ModelSerializers.FieldPairsValue | flask_restplus/serializers/model_serializers.py:208-215 | The value a name ends with is its field, and only chosen names get one. |
| ModelSerializers.FieldPairsDict | flask_restplus/serializers/model_serializers.py:208-215 | The ordered dictionary holds each chosen name once, at its first position, with its field. |
| ModelSerializers.GetFields | flask_restplus/serializers/model_serializers.py:199-215 | Success needs the names and a model; the result holds the chosen names once each in order, each with its declared or model field, and fails only when a field cannot be built. |
| ModelSerializers.DeclaredWins | flask_restplus/serializers/model_serializers.py:210-211 | A declared field wins over the model's field of the same name. |
| ModelSerializers.GetMany | flask_restplus/serializers/model_serializers.py:32-49 | Mongo: many iff a `QuerySet` or a list; peewee: many iff a `ModelSelect` whose `_from_list` is a list; any other engine: always many. |
| ModelSerializers.ModelInit | flask_restplus/serializers/model_serializers.py:17-30 | `_many_` is dropped and the other keyword arguments become attributes; `many` comes from the engine and instance; the class is registered. |
| ModelSerializers.ManyArgumentIgnored | flask_restplus/serializers/model_serializers.py:23-28 | Passing `_many_` does not change `many`. |
| SchemaFields.LastCondition | schema/field.py:33-38 | The loop variable is left at a non-origin index iff there is one, and it is the last such index. |
| SchemaFields.IndexPairs | schema/field.py:32-38 | One validator per index, in order, keyed `<name>_<Model>_<index>`: the model's `validate` for `origin`, the bound condition class's validation otherwise. |
| SchemaFields.ListPairs | schema/field.py:42-47 | A `func` list yields one validator per element, in order, and raises iff some element names a function the schema does not have. |
| SchemaFields.FuncPairs | schema/field.py:39-49 | A non-empty name gives its schema function (or `KeyError`), a list is handled element by element, a function is taken under its `__name__`, and a falsy `func` gives nothing. |
| SchemaFields.ValidatorPairs | schema/field.py:29-50 | The assignments are the index validators followed by the `func` validators, and fail iff the `func` part does. |
| SchemaFields.GetFuncAsWritten | schema/field.py:29-50 | As written, `get_func` fails iff the `func` part does. |
| SchemaFields.GetFunc | schema/field.py:29-50 | The corrected `get_func` fails iff the `func` part does. |
| SchemaFields.IndexLookup | schema/field.py:32-38 | An index key that no function key repeats holds that index's validator, whatever the binding. |
| SchemaFields.GetFuncIndexes | schema/field.py:29-50 | The dictionary's keys are the assigned keys once each in first-assignment order, and each index key holds the validator of its own index. |
| SchemaFields.AsWrittenSharesLastClass | schema/field.py:37-38 | As written, every non-origin index validator checks against the condition class of the last non-origin index. |
| SchemaFields.IndexPairsKey | schema/field.py:33-38 | The last pair for an index's key carries that index's validator. |
| SchemaFields.AppendCancel | schema/field.py:35-38 | Keys with the same prefix are equal only when their suffixes are. |
| SchemaFields.LateBindingCounterexample | schema/field.py:37-38 | With indexes `["a", "b"]`, the validator stored for `a` uses the class of `b` as written and the class of `a` when corrected. |
| SchemaFields.ValidateFunc | schema/field.py:56-65 | The quick check has no verdict iff there are no validators, and rejects iff the first validator returns `False` or raises. |
| SchemaFields.DetailOf | schema/field.py:71-76 | A validator adds an item, under its key, iff it returns `False` or raises. |
| SchemaFields.ValidateDetail | schema/field.py:67-78 | The detail list is empty iff no validator rejects, every item names a rejecting validator, and the list is the rejecting validators' items taken in validator order. |
| SchemaFields.DetailPerRejection | schema/field.py:70-77 | There is exactly one item per rejecting validator: the items are those of an increasing run of validator positions that contains every rejecting validator and no accepting one. |
| SchemaFields.ValidateFuncMatchesDetail | schema/field.py:56-78 | The quick check rejects iff the detail list starts with the first validator's item; when the first accepts, the details are those of the rest. |
| SchemaFields.QuickCheckMissesLaterFailures | schema/field.py:56-78 | A record whose first validator accepts passes the quick check even when a later validator rejects it. |
| SchemaFields.Validate | schema/field.py:87-92 | With `detail` the result is the detail list, empty iff nothing rejects; without it, the quick verdict. |
| SchemaFields.Match | schema/field.py:80-85 | No condition matches; a missing condition name raises; a condition function's result (or exception) is the answer. |
| SchemaFields.Called | schema/field.py:84-85 | A call's result is returned and its exception propagates. |
| SchemaFields.NamedConditionIsItsFunction | schema/field.py:83-85 | A condition given by name behaves as the function it names. |
| SchemaFields.BaseFields | schema/field.py:122-125 | Each base contributes its `_fields` when it is a schema class and nothing otherwise. |
| SchemaFields.MergeDictValue | schema/field.py:138-143 | In each merged `schemas_*` dictionary, the first base holding a key decides it, and the body's value survives only when no base has it. |
| SchemaFields.ConfOf | schema/field.py:140-142 | Each base contributes its `schemas_conf` when it is a schema class. |
| SchemaFields.ExtraOf | schema/field.py:140-142 | Each base contributes its `schemas_extra` when it is a schema class. |
| SchemaFields.FuncsOf | schema/field.py:140-142 | Each base contributes its `schemas_funcs` when it is a schema class. |
| SchemaFields.ModelPath | schema/field.py:130-137 | The model path is the `model` attribute's, else the outer class's for a nested class, else `SchemaException`. |
| SchemaFields.NewSchema | schema/field.py:128-147 | Class creation succeeds iff a model path exists; the class is registered by name, by qualified name and by model, and a valid registry stays valid. |
| SchemaFields.ConfMerge | schema/field.py:138-143 | A class's `schemas_conf` key takes the first base's value when a base has it, and the body's otherwise. |
| SchemaFields.GetSchemaAsWritten | schema/field.py:150-156 | An unknown name raises "no such schema" and an ambiguous one "duplicate schema". |
| SchemaFields.GetSchemaAsWrittenNeverFinds | schema/field.py:150-156 | As written, `get_schema` never returns a class. |
| SchemaFields.GetSchema | schema/field.py:150-156 | Corrected, it returns the class iff the name is registered exactly once, and the two errors otherwise. |
| SchemaFields.GetSchemaByModel | schema/field.py:159-160 | A class is found iff one was registered for the model's path. |
| SchemaFields.RegisterThenGet | schema/field.py:128-160 | A newly registered class is what `get_schema` returns for its name and `get_schema_by_model` for its model. |
| SchemaFields.SameNameTwiceIsAmbiguous | schema/field.py:145-155 | Registering a second class of the same name in another module makes the name ambiguous. |
| SchemaDocument.ChangesOver | schema/document.py:60-69 | Reported attributes come from the scanned names. |
| SchemaDocument.ChangesOverDistinct | schema/document.py:60-69 | Scanning distinct names reports each attribute at most once. |
| SchemaDocument.ChangesOverLookup | schema/document.py:60-69 | An attribute is reported, with its own value, iff it is scanned, not skipped, differs from the default and serialises. |
| SchemaDocument.Changes | schema/document.py:51-72 | The changes exist iff a default instance can be built; each attribute is reported once, with its value, exactly when it is not skipped, differs from the default and serialises. |
| SchemaDocument.Message | schema/document.py:94-111 | A rule's message is the field's `front` entry, else `field check error: <key>`; without `front`, numeric rules get the default text and the others `''`. |
| SchemaDocument.RulesOver | schema/document.py:89-120 | Every rule is a changed attribute the field's kind admits, with its value and message, and every such attribute gets a rule. |
| SchemaDocument.GenRule | schema/document.py:82-121 | Rules exist iff the changes do; then there is exactly one rule per changed attribute the kind admits, with the changed value and its message. |
| SchemaDocument.DistinctPair | schema/document.py:59-67 | In a dictionary without repeated names, a listed pair is what looking its name up gives. |
| SchemaDocument.RuleKindsDisjoint | schema/document.py:89-104 | A numeric field never gets a `required` rule and a string field never a `min_value` rule. |
| SchemaDocument.TypeIn | schema/document.py:77-80 | The type is a category listing the class name, and there is none iff no category lists it. |
| SchemaDocument.TypeOfAsWritten | schema/document.py:42-49 | With the table as written, a class name has a type iff some category lists it. |
| SchemaDocument.TypeOf | schema/document.py:42-49 | With the corrected table, a class name has a type iff some category lists it. |
| SchemaDocument.DateTimeFieldUntyped | schema/document.py:48 | As written a `DateTimeField` has no type; with the corrected table it is `datetime`. |
| SchemaDocument.Tails | schema/document.py:162-168 | Every shown dotted path whose head is the field contributes what follows `<field>.`, and every tail comes from such a path. |
| SchemaDocument.SubPaths | schema/document.py:174 | A field is handed sub-paths exactly when some shown dotted path starts with it; they are the rests of all such paths and nothing else. |
| SchemaDocument.HeadsOf | schema/document.py:162-170 | Each shown path contributes its part before the first dot. |
| SchemaDocument.Shown | schema/document.py:155-171 | The described names have no repeats: all of `_fields_ordered` without `schemas_show_fields`, and otherwise exactly the heads of the shown paths. |
| SchemaDocument.RawField | schema/document.py:123-148 | A non-embedded field without a default instance fails; every description has `field_type`; an embedded document nests its class's description under `fields`; a list nests its element under `items` with its rules. |
| SchemaDocument.PlainField | schema/document.py:127-148 | A field holding no other schema is described iff it has a default instance; its `type` is `reference` for a reference (which also names its `document_type`) and otherwise its category, `None` outside every category, unless a changed attribute of that name overrides it. |
| SchemaDocument.LeafField | schema/document.py:145-148 | Each key of the description is the changed attribute of that name when there is one, else the rules for `rules`, else the description built so far. |
| SchemaDocument.ParseField | schema/document.py:123-153 | The field's description exists iff the unmasked one does, and equals it on every key but the masked ones. |
| SchemaDocument.ParseCls | schema/document.py:155-179 | The description is keyed by exactly the shown names, and fails iff a shown name is not a field of the class. |
| SchemaDocument.ParseItems | schema/document.py:172-178 | The loop describes the given names in order and fails iff one is not a field. |
| ODict.Drop | schema/document.py:149-152 | A dropped key is absent and every other key keeps its value; the `i not in ignore_fields` comprehensions of `create_with` and `update_with` (mongoengine/document.py, lines 33 and 45) drop their ignored keys the same way. |
| SchemaDocument.MaskedKeysAbsent | schema/document.py:123-153 | No field description, at any depth of embedding, holds a masked key. |
| SchemaDocument.GenSchema | schema/document.py:181-191 | The schema succeeds iff the class description does and holds `fields`, `sorted_fields`, `ref`, and `_extra_` when the class has one. |
| SchemaDocument.GenConditionClass | schema/document.py:257-264 | A cached index returns its class unchanged; otherwise the class is built, and the cache then holds it and keeps all earlier entries. |
| SchemaDocument.GenConditionClassMemoises | schema/document.py:257-264 | Asking again for an index returns the same class and leaves the cache as it was. |
| SchemaDocument.DescriptionStable | schema/document.py:257-264 | A description, once available, survives any growth of the cache. |
| SchemaDocument.SchemaPairs | schema/document.py:272-277 | Each key in order gets the description of the class itself for `origin` or of its condition class, and the cache only grows. |
| SchemaDocument.GenSchemas | schema/document.py:266-278 | The result holds each key once in order, with its description, and every condition class it needed is cached. |
| SchemaDocument.DefaultSchemas | schema/document.py:268-277 | Without explicit keys, `origin` describes the class itself and each `schemas_conf` index its condition class, with backend fields masked. |
| SchemaDocument.DefaultKeys | schema/document.py:268-269 | Explicit keys are used as given; otherwise `origin` comes first, followed by exactly the `schemas_conf` keys. |
| MongoDocument.ErrorMessage | mongoengine/document.py:89-90 | A failed assignment is reported as `err field <key> - value ` followed by exactly `str(value)`: the message starts with that prefix, ends with `str(value)`, and has no other characters. |
| MongoDocument.ToDict | mongoengine/document.py:18-27 | Every key but `_id` is kept as the mongo representation has it; `_id` is kept iff present and either asked for or a declared field. |
| MongoDocument.IterItems | mongoengine/document.py:52-55 | Iterating works iff the value is a list, string or dictionary: a list's items, a string's characters, a dictionary's keys. |
| MongoDocument.BuildDocument | mongoengine/document.py:29-74 | Keyword arguments build a document iff the value is a dictionary. Through `create_with` (the class has the mixin and `_restruct_`), the comprehension keeps the items of `for i in value` not on the configured ignore list and indexes the value by each: a dictionary succeeds iff no entry is kept or the new document's update accepts the kept entries, a list or string only when every item is ignored (giving a blank document), and anything else raises. |
| MongoDocument.Unignored | mongoengine/document.py:33 | The comprehension keeps nothing iff every item is a name on the ignore list. |
| MongoDocument.EmptyValueCreatesBlank | mongoengine/document.py:29-74 | `[]` and `""` build a blank document through `create_with`, and raise through keyword arguments. |
| MongoDocument.NestedFailurePropagates | mongoengine/document.py:65-90 | A nested dictionary whose kept entries the referenced class's update rejects makes the assignment fail with the outer key's message. |
| MongoDocument.Convert | mongoengine/document.py:50-76 | A list field converts element by element; a plain field keeps the value; a date field parses strings (failing iff the parser does) and keeps anything else; a reference given an id succeeds iff exactly one document is found. |
| MongoDocument.ConvertAll | mongoengine/document.py:52-55 | Converting a list succeeds iff every item converts, and gives each item's conversion in order. |
| MongoDocument.Assign | mongoengine/document.py:79-90 | One assignment succeeds iff the key is a declared field that is skipped or converts; only that key changes, a skipped `None` changes nothing, and a failure carries the key's message. |
| MongoDocument.UpdateKeys | mongoengine/document.py:78-90 | The loop keeps the declared fields and never writes a key it is not given. |
| MongoDocument.UpdateDocument | mongoengine/document.py:48-90 | `update_document` keeps the fields and never writes a key outside the dictionary. |
| MongoDocument.FirstFailure | mongoengine/document.py:78-90 | The position found is the first failing key, and there is none iff no key fails. |
| MongoDocument.UpdateKeysError | mongoengine/document.py:78-90 | The update raises iff some key fails, with the message of the first failing key. |
| MongoDocument.UpdateKeysApplied | mongoengine/document.py:78-87 | When no key fails, every processed key is a declared field holding its converted value (or its old value when skipped). |
| MongoDocument.UpdateDocumentApplied | mongoengine/document.py:48-90 | A successful update sets every key of the dictionary to its converted value. |
| MongoDocument.IgnoreList | mongoengine/document.py:31 | A non-empty `ignore_fields` is used as given, and an empty or missing one falls back to the configured list. |
| MongoDocument.UpdateWith | mongoengine/document.py:37-46 | `update_with` keeps the document's fields. |
| MongoDocument.IgnoredUntouched | mongoengine/document.py:44-46 | An ignored key is never written, whether or not the update raises. |
| MongoDocument.AbsentUntouched | mongoengine/document.py:44-46 | A key not in the dictionary is never written. |
| MongoDocument.UpdateWithApplied | mongoengine/document.py:37-46 | A successful `update_with` assigns every key it keeps. |
| MongoDocument.CreateWith | mongoengine/document.py:29-35 | A created document has the class's fields, and a key that was ignored or not given keeps the default the new document (`cls()`) holds for it. |
| MongoDocument.CreateWithAssigns | mongoengine/document.py:29-35 | A key that was given and not ignored is a declared field, and the created document holds its converted value, or the default when a `None` embedded or reference value is skipped. |
| MongoDocument.SetCached | mongoengine/document.py:96-106 | The key then holds the value and no other key changes. |
| MongoDocument.ClearCached | mongoengine/document.py:108-116 | The key is then absent, no other key changes, and an absent key leaves the dictionary as it was. |
| MongoDocument.CachedGet | widgets/decorators.py:25-29 | A value in the instance dictionary is returned unchanged; otherwise the property is computed and stored. |
| MongoDocument.SetThenGet | mongoengine/document.py:96-106 | A value stored with `set_cached_property` is what the property reads. |
| MongoDocument.ClearThenGet | mongoengine/document.py:108-116 | After `clear_cached_property` the property is computed afresh. |
| MongoDocument.ClearIdempotent | mongoengine/document.py:108-116 | Clearing twice is clearing once. |
| MongoDocument.SetThenClear | mongoengine/document.py:96-116 | Setting then clearing a key leaves every key as clearing alone does. |
| CasbinAdapter.FilledFrom | casbin_mongoengine_adapter.py:30-43 | Only slots set to a non-empty string appear in the printed rule. |
| CasbinAdapter.Str | casbin_mongoengine_adapter.py:28-45 | The printed rule starts with the policy type. |
| CasbinAdapter.StrFrom | casbin_mongoengine_adapter.py:30-43 | Appending slots never changes the text already built. |
| CasbinAdapter.StrFromJoin | casbin_mongoengine_adapter.py:28-45 | Appending the filled slots one by one is joining them after the text with `", "`. |
| CasbinAdapter.StrIsJoin | casbin_mongoengine_adapter.py:28-45 | A line prints as its type and filled slots joined by `", "`, the form Casbin's loader splits. |
| CasbinAdapter.MakeLine | casbin_mongoengine_adapter.py:66-79 | The line has the given type and carries the rule's first six values in `v0`…`v5`; every other slot is unset. |
| CasbinAdapter.FilledFromRule | casbin_mongoengine_adapter.py:66-79 | A saved rule of non-empty values reads back from any slot as the rest of the rule. |
| CasbinAdapter.FilledFromEmpty | casbin_mongoengine_adapter.py:30-43 | Unset slots print nothing. |
| CasbinAdapter.SavedRuleRoundTrip | casbin_mongoengine_adapter.py:28-80 | A rule of at most six non-empty values is saved and printed back as its type followed by the whole rule. |
| CasbinAdapter.LongRuleTruncated | casbin_mongoengine_adapter.py:66-79 | A seventh value and beyond never reach the store. |
| CasbinAdapter.SaveLine | casbin_mongoengine_adapter.py:66-80 | Saving succeeds iff the type and the stored values are within 255 characters, and then appends exactly the built line. |
| CasbinAdapter.RuleLines | casbin_mongoengine_adapter.py:91-92 | One line per rule of a type, in order. |
| CasbinAdapter.SectionLines | casbin_mongoengine_adapter.py:90-92 | Every rule of every type of a section is saved, and every saved line is the line of one of that section's rules for one of those types. |
| CasbinAdapter.PolicyLines | casbin_mongoengine_adapter.py:87-92 | Every rule of every type of the visited sections is among the saved lines, and every saved line is a rule of a visited section. |
| CasbinAdapter.SaveLines | casbin_mongoengine_adapter.py:87-92 | A run of saves succeeds iff every line is valid, and the store grows by a prefix of the lines, by all of them on success. |
| CasbinAdapter.SavePolicy | casbin_mongoengine_adapter.py:82-93 | Saving succeeds iff every line of the `p` and `g` sections is valid; on success every rule of those sections is stored; the store grows by at most those lines and keeps the earlier store as a prefix. |
| CasbinAdapter.SavePolicyAdds | casbin_mongoengine_adapter.py:82-93 | What is added is a prefix, in order, of the `p` and `g` lines, so every added line is a rule of one of those two sections and nothing from another section is saved. |
| CasbinAdapter.SavedFromSections | casbin_mongoengine_adapter.py:87-88 | Every line the save walks is a rule of the `p` or the `g` section. |
| CasbinAdapter.OtherSectionsIgnored | casbin_mongoengine_adapter.py:87-89 | Sections other than `p` and `g` make no difference to what is saved. |
| CasbinAdapter.Unmatched | casbin_mongoengine_adapter.py:106-108 | The lines left are exactly the stored lines the condition does not match; nothing changes iff none matches. |
| CasbinAdapter.Delete | casbin_mongoengine_adapter.py:106-111 | The answer is whether some line matched, and the matching lines are deleted. |
| CasbinAdapter.RuleValues | casbin_mongoengine_adapter.py:103 | At most the first six values of the rule become the condition. |
| CasbinAdapter.RemovePolicyAsWritten | casbin_mongoengine_adapter.py:99-113 | Outside `p` and `g` nothing happens; otherwise the lines whose type is the section name and whose leading slots carry the rule are deleted. |
| CasbinAdapter.RemovePolicy | casbin_mongoengine_adapter.py:99-113 | Corrected: exactly the lines of type `ptype` carrying the rule are removed, and the answer is whether there was one. |
| CasbinAdapter.SaveThenRemove | casbin_mongoengine_adapter.py:66-113 | A saved rule of at most six values is removed by `remove_policy` with the same type and rule, and lines of other types stay. |
| CasbinAdapter.RemoveByTypeCounterexample | casbin_mongoengine_adapter.py:101-102 | A `p2` rule is not removed by `remove_policy("p", "p2", rule)` as written, and is by the corrected version. |
| CasbinAdapter.RemoveFilteredAsWritten | casbin_mongoengine_adapter.py:115-129 | Outside `p` and `g` nothing happens; more than seven values raise; otherwise the values filter from `v0` whatever `field_index` is. |
| CasbinAdapter.RemoveFiltered | casbin_mongoengine_adapter.py:115-129 | Corrected: lines of type `ptype` whose slots from `field_index` on carry the values are removed, and a filter past the last slot raises. |
| CasbinAdapter.FilterFromStartIsRemovePolicy | casbin_mongoengine_adapter.py:99-129 | A corrected filter from slot 0 is the corrected `remove_policy` with the same values. |
| CasbinAdapter.FieldIndexCounterexample | casbin_mongoengine_adapter.py:121-122 | Filtering `v1 == "data1"` removes the line whose `v0` is `data1` as written, and the one whose `v1` is when corrected. |
| EsDocument.Nulls | elasticsearch_dsl/document.py:34 | Every declared field of the mongo class maps to `None`, and nothing else is present. |
| EsDocument.Meta | elasticsearch_dsl/document.py:34-35 | A key holds the serializer's value when it has one, `None` when it is only a declared field, and is absent otherwise. |
| EsDocument.Transfer | elasticsearch_dsl/document.py:22-38 | An object that is not an instance of the configured mongo class, directly or through a subclass, is refused with `can not parse <obj>`, and only such an object. |
| EsDocument.TransferFields | elasticsearch_dsl/document.py:33-38 | `_id` is `str` of the object's `id` (overridden by the serialized `_id` when that is an index field); every other key is present iff it is an index field the data has, with the data's value. |
| EsDocument.LastWithId | elasticsearch_dsl/document.py:54 | The object kept for an id is the last one with it, and there is one iff some object has the id. |
| EsDocument.Found | elasticsearch_dsl/document.py:55 | The ids kept are exactly those of `ids` some object has, in order. |
| EsDocument.SortedMongoObjs | elasticsearch_dsl/document.py:49-55 | One object per found id, in the order of `ids`, each with that id and from the query's result. |
| EsDocument.AllFoundInOrder | elasticsearch_dsl/document.py:49-55 | When every id has an object, the result follows `ids` one for one. |
| EsDocument.FoundAll | elasticsearch_dsl/document.py:55 | When every id has an object, none is dropped. |
| EsDocument.JoinSnoc | elasticsearch_dsl/document.py:89-91 | Joining the parts is joining all but the last and appending the last after a separator. |
| EsDocument.SplitPath | elasticsearch_dsl/document.py:89-93 | The module path and class name rejoin to the dotted path, the name has no dot, and a path without a dot cannot be imported. |
| EsDocument.GetEsModel | elasticsearch_dsl/document.py:84-93 | An unset model path raises `usset es_model`; otherwise the path is split into module and class. |
| EsDocument.GetEsSerializer | elasticsearch_dsl/document.py:95-104 | An unset serializer path means no serializer; otherwise it is split into module and class, failing iff the split does. |
| EsDocument.Mark | elasticsearch_dsl/document.py:119-126 | The markup is longer than the term it wraps. |
| EsDocument.Highlight | elasticsearch_dsl/document.py:110-128 | `_replace` keeps the kind of every value and the length of every list and dictionary, and leaves other values as they are. |
| EsDocument.HighlightList | elasticsearch_dsl/document.py:121-124 | Each list element is processed in place. |
| EsDocument.HighlightEntries | elasticsearch_dsl/document.py:111-120 | A dictionary keeps its keys in order, with its visited values processed. |
| EsDocument.HighlightUnchangedIff | elasticsearch_dsl/document.py:110-128 | For a non-empty term, `_replace` changes a value iff its walk reaches a string containing the term. |
| EsDocument.HighlightListUnchangedIff | elasticsearch_dsl/document.py:121-124 | A list changes iff the walk reaches a string containing the term in some element. |
| EsDocument.HighlightEntriesUnchangedIff | elasticsearch_dsl/document.py:111-120 | A dictionary changes iff the walk reaches a string containing the term in some visited value. |
| EsDocument.HighlightKeepsTruthy | elasticsearch_dsl/document.py:110-128 | A truthy value stays truthy, and a falsy one either is unchanged or becomes truthy. |
| EsDocument.HighlightAllKeepsTruthy | elasticsearch_dsl/document.py:129-130 | A truthy value stays truthy after every term. |
| EsDocument.ChangedIsTruthy | elasticsearch_dsl/document.py:129-151 | A value the terms changed is truthy, so `if v:` keeps every changed value. |
| EsDocument.ReplaceSignData | elasticsearch_dsl/document.py:108-133 | `None` iff the terms change nothing; otherwise the rewritten copy, which is truthy. |
| EsDocument.StringMarkedIff | elasticsearch_dsl/document.py:125-133 | A string is marked by a non-empty term iff it contains it. |
| EsDocument.DictStringCounterexample | elasticsearch_dsl/document.py:111-120 | `{"title": "foo"}` searched for `foo` gives `None` as written, and `{"title": "<em>foo</em>"}` as intended. |
| EsDocument.AsWrittenSkipsStrings | elasticsearch_dsl/document.py:111-120 | As written, the string values of a dictionary are left as they are. |
| EsDocument.AsWrittenNeverMarksDictStrings | elasticsearch_dsl/document.py:108-133 | As written, no terms ever highlight a dictionary whose values are strings. |
| EsDocument.IntendedMarksDictStrings | elasticsearch_dsl/document.py:108-133 | As intended, a dictionary with a string value containing a non-empty term is highlighted. |
| EsDocument.HighlightKeys | elasticsearch_dsl/document.py:140-142 | The highlighted keys are the data's keys, all of them under `_all_` and those with terms otherwise. |
| EsDocument.HighlightItem | elasticsearch_dsl/document.py:143-151 | Each highlighted key gets the result of its terms, and no other key is set. |
| EsDocument.GenHighlight | elasticsearch_dsl/document.py:135-152 | A key is in `obj.highlight` iff it is highlighted and its terms changed its value, and then holds the changed value. |
| EsDocument.GenHighlightData | elasticsearch_dsl/document.py:107-153 | Every object gets its own highlight, in order. |

## Left out

- `difflib.ndiff` internals: the character edit script is a parameter; only the rendering of a script is modelled.
- Floating point: `easy_str` and `get_attr` render numbers as integers, and `int((total - 1) / page_size)` is exact integer division truncated toward zero, so float rounding of very large totals is not modelled.
- CompareDiff.Compare: the order in which a Python `set` yields keys is unspecified, so results are sets of paths, and when several keys would raise, the model reports one error without saying which key raised first.
- `RESULTS` and the other unused class attributes of `CompareTwoDict`: never read.
- `mongoengine/history.py`, `mongoengine/condition_validator.py`, `mongoengine/search.py`: database queries, module reloading and the `jieba` tokenizer; `_gen_condition_class` (built on that module copying) is the `make` parameter of `SchemaDocument.GenConditionClass`.
- Date and time fields and parsers (`flask_restplus/fields.py`, `restplus/fields.py`, `flask_restplus/inputs.py`): the date parser is the `parses` parameter of `MongoDocument.Convert`.
- HMAC-SHA1, `uuid4`, `importlib`, environment and configuration lookups: parameters (the digest, the fresh id, the class path, the key table).
- `re.match` in `Argument.parse`: the regular-expression engine is the `matches` parameter of `ReqParse.Shape`, giving whether a value matches or the `TypeError` raised for a value that is not a string.
- Descriptor, metaclass, logging and configuration plumbing (`base/decorators.py`, most of `widgets/decorators.py`, `flask_restplus/decorators.py`, `webbase/json.py`, `flex.py`, `interface.py`, `config.py`); only the `cached_property` read is modelled, as `MongoDocument.CachedGet`.
- Database and network access: mongoengine and peewee query sets are sequences or query descriptions; Elasticsearch `save`, `init`, `search`, `get`, `mget`, `delete`, `update`, `get_fields`, `get_copy_to_fields` and `sync_es_save` are client calls and are not modelled.
- Paginate.Window: the cursor follows pymongo's documented rules (a negative skip raises, limit 0 means no limit, a negative limit counts its absolute value); pymongo is not part of this model.
- Paginate.PeeweeOrderPaginate: the peewee query is returned as a description (order pairs and paging), not executed.
- ResourceDecorators.ItemPairs: `parameterized_decorators` items are a bare name or a `(name, params)` pair; other shapes are not modelled.
- ResourceDecorators.Decorate: the decorator registry is a set of names and applying a decorator is recorded as a call description.
- RequestId.PatternMatch: Python's `$` also accepts one trailing newline, and the model follows the code there, where a description of the pattern as "exactly 32 hex digits" would not.
- `flask_restplus/reqparse.py` `get_pw_conditions`, `get_sa_conditions`, `set_model_class`, `DocumentRequestParser` and `get_front_type`: they build ORM expression objects or read model field metadata; the parent class's type conversion is the `parent` parameter of `ReqParse.Convert`.
- ReqParse.ParseArgs: the `BUNDLE_ERRORS` flag read from the application configuration is a parameter.
- PyStrings.Lower: lower- and upper-casing are ASCII only, and `int()` parsing accepts optional sign and decimal digits only.
- HttpUtils.HeaderGet: the WSGI environ is a parameter as the server filled it; how a server combines a header sent twice is not modelled, and header names fold on ASCII letters only.
- `flask_restplus/serializers.py` `ModelSerializer`: the same code as `flask_restplus/serializers/model_serializers.py`, with `get_field_names` and `get_fields` as instance methods; `ModelSerializers` models both copies, the instance path as `checked = true`.
- Serializer `__iter__`, `table`, `item`, `lists`, `regist_serializer`, `check_error_fields` and `fields_model`: thin wrappers over the modelled envelopes and over `marshal`, which is the `marshal` parameter of `Serializers.Data`.
- Serializer getters (`get_<field>`): user methods, modelled as a total function, so a getter that itself raises inside `parse_data_item` is not modelled.
- ModelSerializers.ModelInit: `skip_none` is recorded but `marshal` itself is not modelled, so its effect is not stated.
- `DocumentMixin._class_name_`: a one-line class property.
- MongoDocument.BuildDocument: the referenced document classes are user declarations, so whether `update_document` on a new document of one accepts the kept entries is the `creates` parameter of `Env`, and the created document is recorded as those entries; for keyword arguments, mongoengine's own constructor checks are not modelled, so `document_type(**value)` fails only for a value that is not a mapping.
- MongoDocument.Assign: mongoengine's own validation inside `setattr` is not modelled; the only failures are an undeclared key and a failed conversion.
- CasbinAdapter.RemoveFiltered: Casbin's empty-string wildcard in filter values is not modelled; an empty value must match exactly.
- `Adapter.load_policy` and `Adapter.__init__`: they call Casbin's loader and the database connection; `CasbinAdapter.StrIsJoin` states the line text the loader receives.
- CasbinAdapter.SaveLine: `add_policy` ignores its `sec` argument and forwards to `_save_policy_line`, so it is not modelled separately.
- SchemaFields.ValidateDetail: the function `validate_func_detail()` returns closes over one `details` list, so a second call of the same function returns the first call's items followed by its own; the model states one call.
- SchemaDocument.PlainField: describes fields with the corrected type table (`TypeOf`). So `RawField`, `ParseField`, `ParseCls`, `ParseItems`, `GenSchema`, `SchemaPairs`, `GenSchemas` and `DefaultSchemas` give a `DateTimeField` the type `datetime`, where the code as written gives `None` (see the Findings row for schema/document.py:48).
- SchemaDocument.Shown: `_parse_cls` iterates over `list(set(...))`, whose order Python leaves unspecified. `Shown`, `SubPaths`, `ParseCls` and `ParseItems` fix first-occurrence order, so only which names and sub-paths appear follows the code, not their order.
- EsDocument.Transfer: the serializer's rendering of the Mongo object is a parameter (`serialized`).

## Findings

| source | as written | input that shows it | evidently intended | confidence | as-written member | corrected member |
|---|---|---|---|---|---|---|
| widgets/str_transfer.py:10-11 | the trailing-underscore loop assigns `res[-1:]` back to itself and never ends | `"name_"` | strip trailing underscores: `"name"` | not executed | StrTransfer.TransferTrailingUnderscore | StrTransfer.CorrectedTrailingUnderscore |
| webbase/response.py:55 | `page_size != '-1'` compares an int with a string, so the one-page shortcut never fires | `page_size=-1, total=5` gives `total_page` -3 | `total_page` 1 when `page_size` is -1 | not executed | Responses.NoPagingShortcut | Responses.TableCorrected |
| flask_restplus/reqparse.py:53-56 | `action='split'` forces `oper='in_'`, which the whitelist lacks, so the argument cannot be built | `Argument('ids', action='split')` | a split argument filters with the `in` operator | not executed | ReqParse.SplitArgumentRejected | ReqParse.NewArgumentCorrected |
| flask_restplus/serializers/model_serializers.py:295-300 | the left fold `res = res(f)` over `[List, List, leaf]` fails at its first step: `List(List)` instantiates its element class, so it calls `List()` without the element argument that `List` requires, and raises `TypeError` | `ListField(ListField(IntField()))` | `List(List(Integer))` | not executed | ModelSerializers.NestedListCounterexample | ModelSerializers.CorrectedNesting |
| schema/field.py:37-38 | the lambdas read the loop variable `cls` after the loop, so every index validator uses the last index's class | `indexes=['a', 'b']` | each index validated by its own condition class | not executed | SchemaFields.LateBindingCounterexample | SchemaFields.GetFuncIndexes |
| schema/field.py:153 | the unique-name branch reads `_schemas_names`, which does not exist | any name registered once | return the registered class | not executed | SchemaFields.GetSchemaAsWrittenNeverFinds | SchemaFields.RegisterThenGet |
| schema/document.py:48 | the datetime category lists `DatetimeField`, not mongoengine's `DateTimeField` | a `DateTimeField` | type `datetime` | not executed | SchemaDocument.DateTimeFieldUntyped | SchemaDocument.TypeOf |
| casbin_mongoengine_adapter.py:101-102 | `remove_policy` queries `ptype = sec` instead of the `ptype` argument | a stored `p2` rule and `remove_policy('p', 'p2', rule)` | remove the rules of type `ptype` | not executed | CasbinAdapter.RemoveByTypeCounterexample | CasbinAdapter.SaveThenRemove |
| casbin_mongoengine_adapter.py:121-122 | `remove_filtered_policy` binds the values from `v0` whatever `field_index` is | `field_index=1, field_values=('data1',)` | match from slot `field_index` | not executed | CasbinAdapter.FieldIndexCounterexample | CasbinAdapter.FilterFromStartIsRemovePolicy |
| elasticsearch_dsl/document.py:118 | the dictionary branch tests `type(item) is str` on the dictionary, so string values are never marked | `{"title": "foo"}` searched for `foo` | `{"title": "<em>foo</em>"}` | not executed | EsDocument.AsWrittenNeverMarksDictStrings | EsDocument.IntendedMarksDictStrings |

=== FILE: casbin_adapter.dfy ===
/** The Casbin policy adapter that keeps policy rules as `CasbinRule`
  documents in MongoDB.

  A stored line has a policy type (`ptype`) and seven optional string slots
  `v0` … `v6`. The collection is a sequence of lines threaded through the
  operations, so saving appends and removing filters; the database itself is
  not modelled.
 */
module CasbinAdapter {
  import opened Wrappers
  import opened ODict
  import opened PyStrings

  /** The number of value slots of a stored line (`v0` … `v6`). */
  const SlotCount: nat := 7
  /** The number of slots `_save_policy_line` fills (`v0` … `v5`). */
  const SavedSlots: nat := 6
  /** `max_length` of every string field of `CasbinRule`. */
  const MaxLength: nat := 255

  datatype Line = Line(ptype: string, v: seq<Option<string>>)

  type Store = seq<Line>

  /** Slot `i` of a line; slots the line does not carry are unset. */
  function Slot(l: Line, i: nat): Option<string> {
    if i < |l.v| then l.v[i] else None
  }

  /** Whether a slot is set to a non-empty string, the test `__str__` makes. */
  predicate Filled(o: Option<string>) {
    o.Some? && |o.value| > 0
  }

  // ---------------------------------------------------------------- __str__

  /** The filled slots of a line from slot `i` on, in slot order. */
  function FilledFrom(l: Line, i: nat): (r: seq<string>)
    ensures forall j | 0 <= j < |r| :: |r[j]| > 0
    decreases SlotCount - i
  {
    if i >= SlotCount then []
    else (if Filled(Slot(l, i)) then [Slot(l, i).value] else []) + FilledFrom(l, i + 1)
  }

  /** The fields a line stands for: its type followed by its filled slots. */
  function Fields(l: Line): seq<string> {
    [l.ptype] + FilledFrom(l, 0)
  }

  /** `CasbinRule.__str__`: the slots are visited one after another and each
      filled one is appended after `", "`. */
  function Str(l: Line): (s: string)
    ensures PyStrings.StartsWith(s, l.ptype)
  {
    StrFrom(l.ptype, l, 0)
  }

  function StrFrom(text: string, l: Line, i: nat): (s: string)
    ensures PyStrings.StartsWith(s, text)
    decreases SlotCount - i
  {
    if i >= SlotCount then text
    else if Filled(Slot(l, i)) then StrFrom(text + ", " + Slot(l, i).value, l, i + 1)
    else StrFrom(text, l, i + 1)
  }

  lemma JoinStep(sep: string, a: string, b: string, rest: seq<string>)
    ensures Join(sep, [a + sep + b] + rest) == Join(sep, [a, b] + rest)
  {
    if |rest| > 0 {
      assert ([a + sep + b] + rest)[1..] == rest;
      assert ([a, b] + rest)[1..] == [b] + rest;
      assert ([b] + rest)[1..] == rest;
    } else {
      assert [a, b][1..] == [b];
    }
  }

  lemma {:induction false} StrFromJoin(text: string, l: Line, i: nat)
    ensures StrFrom(text, l, i) == Join(", ", [text] + FilledFrom(l, i))
    decreases SlotCount - i
  {
    if i < SlotCount {
      if Filled(Slot(l, i)) {
        StrFromJoin(text + ", " + Slot(l, i).value, l, i + 1);
        FilledStep(text, l, i);
      } else {
        StrFromJoin(text, l, i + 1);
        assert FilledFrom(l, i) == FilledFrom(l, i + 1);
      }
    }
  }

  /** One filled slot: appending it to the text matches joining it as the
      next field. */
  lemma FilledStep(text: string, l: Line, i: nat)
    requires i < SlotCount && Filled(Slot(l, i))
    requires StrFrom(text + ", " + Slot(l, i).value, l, i + 1) == Join(", ", [text + ", " + Slot(l, i).value] + FilledFrom(l, i + 1))
    ensures StrFrom(text, l, i) == Join(", ", [text] + FilledFrom(l, i))
  {
    var s := Slot(l, i).value;
    var rest := FilledFrom(l, i + 1);
    assert StrFrom(text, l, i) == StrFrom(text + ", " + s, l, i + 1);
    assert [text] + FilledFrom(l, i) == [text, s] + rest;
    JoinStep(", ", text, s, rest);
  }

  /** The string of a line is its fields joined by `", "`, which is how
      Casbin's `load_policy_line` reads it back. */
  lemma StrIsJoin(l: Line)
    ensures Str(l) == Join(", ", Fields(l))
  {
    StrFromJoin(l.ptype, l, 0);
  }

  // ----------------------------------------------------- _save_policy_line

  /** The line `_save_policy_line(ptype, rule)` builds: the first six
      elements of the rule in `v0` … `v5`, nothing in `v6`. */
  function MakeLine(ptype: string, rule: seq<string>): (l: Line)
    ensures l.ptype == ptype
    ensures forall i | 0 <= i < SavedSlots :: Slot(l, i) == if i < |rule| then Some(rule[i]) else None
    ensures forall i | SavedSlots <= i :: Slot(l, i).None?
  {
    Line(ptype, seq(SavedSlots, i requires 0 <= i < SavedSlots => if i < |rule| then Some(rule[i]) else None))
  }

  lemma {:induction false} FilledFromRule(ptype: string, rule: seq<string>, i: nat)
    requires |rule| <= SavedSlots && i <= |rule|
    requires forall j | 0 <= j < |rule| :: |rule[j]| > 0
    ensures FilledFrom(MakeLine(ptype, rule), i) == rule[i..]
    decreases SlotCount - i
  {
    var l := MakeLine(ptype, rule);
    if i < |rule| {
      FilledFromRule(ptype, rule, i + 1);
      assert rule[i..] == [rule[i]] + rule[i + 1..];
    } else {
      FilledFromEmpty(l, i);
    }
  }

  lemma {:induction false} FilledFromEmpty(l: Line, i: nat)
    requires forall j | i <= j :: Slot(l, j).None?
    ensures FilledFrom(l, i) == []
    decreases SlotCount - i
  {
    if i < SlotCount {
      FilledFromEmpty(l, i + 1);
    }
  }

  /** A rule of at most six non-empty values comes back whole: the saved
      line reads as the policy type followed by the rule. */
  lemma SavedRuleRoundTrip(ptype: string, rule: seq<string>)
    requires |rule| <= SavedSlots
    requires forall j | 0 <= j < |rule| :: |rule[j]| > 0
    ensures Fields(MakeLine(ptype, rule)) == [ptype] + rule
    ensures Str(MakeLine(ptype, rule)) == Join(", ", [ptype] + rule)
  {
    FilledFromRule(ptype, rule, 0);
    StrIsJoin(MakeLine(ptype, rule));
  }

  /** A seventh value and beyond never reach the store. */
  lemma LongRuleTruncated(ptype: string, rule: seq<string>)
    requires |rule| > SavedSlots
    ensures MakeLine(ptype, rule) == MakeLine(ptype, rule[..SavedSlots])
  {
  }

  /** The field validation `save()` runs: every string within `max_length`. */
  predicate ValidLine(l: Line) {
    |l.ptype| <= MaxLength && forall i | 0 <= i < |l.v| :: l.v[i].Some? ==> |l.v[i].value| <= MaxLength
  }

  /** `_save_policy_line` (and `add_policy`, which forwards to it): the line
      is inserted unless validation raises. */
  function SaveLine(store: Store, ptype: string, rule: seq<string>): (r: Result<Store>)
    ensures r.Ok? <==> |ptype| <= MaxLength && forall i | 0 <= i < |rule| && i < SavedSlots :: |rule[i]| <= MaxLength
    ensures r.Ok? ==> r.value == store + [MakeLine(ptype, rule)]
  {
    var l := MakeLine(ptype, rule);
    assert forall i | 0 <= i < |l.v| :: Slot(l, i) == l.v[i];
    if ValidLine(l) then Ok(store + [l]) else Err("ValidationError")
  }

  // ------------------------------------------------------------ save_policy

  /** A Casbin model as the adapter reads it: section → policy type → rules. */
  type Policy = Entries<Entries<seq<seq<string>>>>

  /** The lines of the rules of one policy type, in order. */
  function RuleLines(ptype: string, rules: seq<seq<string>>): (r: seq<Line>)
    ensures |r| == |rules|
    ensures forall i | 0 <= i < |rules| :: r[i] == MakeLine(ptype, rules[i])
  {
    seq(|rules|, i requires 0 <= i < |rules| => MakeLine(ptype, rules[i]))
  }

  /** `l` is the line of one of the rules a section holds for its type. */
  predicate RuleLine(ast: Entries<seq<seq<string>>>, l: Line) {
    l.ptype in KeySet(ast) &&
    exists j | 0 <= j < |Lookup(ast, l.ptype).value| :: l == MakeLine(l.ptype, Lookup(ast, l.ptype).value[j])
  }

  /** `l` is the line of one of the rules of section `s` of the model. */
  predicate PolicyRule(model: Policy, s: string, l: Line) {
    s in KeySet(model) && RuleLine(Lookup(model, s).value, l)
  }

  /** The lines of a section's policy types `ks`, type after type. */
  function SectionLines(ast: Entries<seq<seq<string>>>, ks: seq<string>): (r: seq<Line>)
    requires forall k | k in ks :: k in KeySet(ast)
    ensures forall k, j | k in ks && 0 <= j < |Lookup(ast, k).value| :: MakeLine(k, Lookup(ast, k).value[j]) in r
    ensures forall l | l in r :: l.ptype in ks && RuleLine(ast, l)
  {
    if |ks| == 0 then []
    else
      var here := RuleLines(ks[0], Lookup(ast, ks[0]).value);
      var rest := SectionLines(ast, ks[1..]);
      assert forall k | k in ks :: k == ks[0] || k in ks[1..];
      here + rest
  }

  /** The sections `save_policy` visits, in order. */
  const Sections: seq<string> := ["p", "g"]

  /** Every line `save_policy` saves, in the order it saves them. */
  function PolicyLines(model: Policy, secs: seq<string>): (r: seq<Line>)
    ensures forall s, k, j | s in secs && s in KeySet(model) && k in KeySet(Lookup(model, s).value)
                             && 0 <= j < |Lookup(Lookup(model, s).value, k).value| ::
              MakeLine(k, Lookup(Lookup(model, s).value, k).value[j]) in r
    ensures forall l | l in r :: exists s | s in secs :: PolicyRule(model, s, l)
  {
    if |secs| == 0 then []
    else
      var rest := PolicyLines(model, secs[1..]);
      assert forall s | s in secs :: s == secs[0] || s in secs[1..];
      if secs[0] !in KeySet(model) then rest
      else
        var ast := Lookup(model, secs[0]).value;
        var here := SectionLines(ast, Keys(ast));
        assert forall l | l in here :: PolicyRule(model, secs[0], l);
        here + rest
  }

  /** Every line `save_policy` saves is a rule of the `p` or the `g`
      section. */
  lemma SavedFromSections(model: Policy)
    ensures forall l | l in PolicyLines(model, Sections) :: PolicyRule(model, "p", l) || PolicyRule(model, "g", l)
  {
    forall l | l in PolicyLines(model, Sections)
      ensures PolicyRule(model, "p", l) || PolicyRule(model, "g", l)
    {
      var s :| s in Sections && PolicyRule(model, s, l);
    }
  }

  /** The store after a sequence of saves and whether they all succeeded;
      saves before a failing one stay in the store. */
  datatype Saved = Saved(store: Store, ok: bool)

  function SaveLines(store: Store, lines: seq<Line>): (r: Saved)
    ensures r.ok <==> forall i | 0 <= i < |lines| :: ValidLine(lines[i])
    ensures r.ok ==> r.store == store + lines
    ensures |store| <= |r.store| <= |store| + |lines|
    ensures r.store == store + lines[..|r.store| - |store|]
    decreases |lines|
  {
    if |lines| == 0 then Saved(store, true)
    else if !ValidLine(lines[0]) then Saved(store, false)
    else
      var r := SaveLines(store + [lines[0]], lines[1..]);
      assert forall i | 1 <= i < |lines| :: lines[i] == lines[1..][i - 1];
      assert lines[..|r.store| - |store|] == [lines[0]] + lines[1..][..|r.store| - |store| - 1];
      r
  }

  /** `save_policy(model)`: every rule of the `p` and `g` sections is saved;
      the other sections are not looked at. The saves stop at the first
      invalid line, so success means every line was valid, and whatever was
      added is a prefix of the `p` and `g` lines. */
  function SavePolicy(store: Store, model: Policy): (r: Saved)
    ensures r.ok <==> forall l | l in PolicyLines(model, Sections) :: ValidLine(l)
    ensures |store| <= |r.store| <= |store| + |PolicyLines(model, Sections)|
    ensures r.ok ==> forall s, k, j | s in Sections && s in KeySet(model) && k in KeySet(Lookup(model, s).value)
                                     && 0 <= j < |Lookup(Lookup(model, s).value, k).value| ::
                       MakeLine(k, Lookup(Lookup(model, s).value, k).value[j]) in r.store
    ensures forall i | 0 <= i < |store| :: r.store[i] == store[i]
  {
    var lines := PolicyLines(model, Sections);
    var r := SaveLines(store, lines);
    assert r.ok ==> forall l | l in lines :: l in r.store;
    r
  }

  /** What `save_policy` adds to the store is a prefix of the `p` and `g`
      lines, in order, so every added line is a rule of one of those two
      sections. */
  lemma SavePolicyAdds(store: Store, model: Policy)
    ensures var r := SavePolicy(store, model);
      r.store == store + PolicyLines(model, Sections)[..|r.store| - |store|] &&
      forall i | |store| <= i < |r.store| :: PolicyRule(model, "p", r.store[i]) || PolicyRule(model, "g", r.store[i])
  {
    var lines := PolicyLines(model, Sections);
    var r := SaveLines(store, lines);
    assert r == SavePolicy(store, model);
    SavedFromSections(model);
    AddedFrom(store, lines, r.store);
  }

  /** A store that extends `store` by a prefix of `lines` gained only lines
      from `lines`. */
  lemma AddedFrom(store: Store, lines: seq<Line>, out: Store)
    requires |store| <= |out| <= |store| + |lines|
    requires out == store + lines[..|out| - |store|]
    ensures forall i | |store| <= i < |out| :: out[i] in lines
  {
    forall i | |store| <= i < |out|
      ensures out[i] in lines
    {
      assert out[i] == lines[i - |store|];
    }
  }

  /** Sections other than `p` and `g` make no difference to what is saved. */
  lemma OtherSectionsIgnored(store: Store, model: Policy, sec: string, ast: Entries<seq<seq<string>>>)
    requires sec !in Sections
    ensures SavePolicy(store, Put(model, sec, ast)) == SavePolicy(store, model)
  {
    PolicyLinesIgnore(model, sec, ast, Sections);
  }

  /** The lines of sections `secs` do not depend on a section outside them. */
  lemma {:induction false} PolicyLinesIgnore(model: Policy, sec: string, ast: Entries<seq<seq<string>>>, secs: seq<string>)
    requires sec !in secs
    ensures PolicyLines(Put(model, sec, ast), secs) == PolicyLines(model, secs)
  {
    if |secs| > 0 {
      PolicyLinesIgnore(model, sec, ast, secs[1..]);
    }
  }

  // ------------------------------------------------ remove_policy (filters)

  /** A query on the collection: the line's type, and values for the slots
      `from`, `from + 1`, …; a slot matches only a stored equal string. */
  datatype Condition = Condition(ptype: string, from: nat, values: seq<string>)

  predicate Matches(l: Line, c: Condition) {
    l.ptype == c.ptype && forall i | 0 <= i < |c.values| :: Slot(l, c.from + i) == Some(c.values[i])
  }

  /** The lines a condition does not match, in order. */
  function Unmatched(store: Store, c: Condition): (r: Store)
    ensures forall l :: l in r <==> l in store && !Matches(l, c)
    ensures |r| <= |store|
    ensures |r| == |store| <==> forall i | 0 <= i < |store| :: !Matches(store[i], c)
    ensures |r| == |store| ==> r == store
  {
    if |store| == 0 then []
    else
      var rest := Unmatched(store[1..], c);
      assert forall l | l in store :: l == store[0] || l in store[1..];
      assert forall i | 1 <= i < |store| :: store[i] == store[1..][i - 1];
      if Matches(store[0], c) then rest else [store[0]] + rest
  }

  /** `objects(**condition)`: count, and delete when there is a match. */
  function Delete(store: Store, c: Condition): (r: (Store, bool))
    ensures r.1 <==> exists i | 0 <= i < |store| :: Matches(store[i], c)
    ensures r.0 == Unmatched(store, c)
  {
    var kept := Unmatched(store, c);
    if |kept| < |store| then (kept, true) else (store, false)
  }

  predicate PolicySection(sec: string) {
    sec == "p" || sec == "g"
  }

  /** `dict(zip(['v0', …, 'v5'], rule))`: at most six values, from `v0`. */
  function RuleValues(rule: seq<string>): (r: seq<string>)
    ensures |r| <= SavedSlots && |r| <= |rule| && r == rule[..|r|]
    ensures |rule| <= SavedSlots ==> r == rule
  {
    if |rule| <= SavedSlots then rule else rule[..SavedSlots]
  }

  /** `remove_policy(sec, ptype, rule)` as written: the condition's type is
      the section name, not `ptype`. */
  function RemovePolicyAsWritten(store: Store, sec: string, ptype: string, rule: seq<string>): (r: (Store, bool))
    ensures !PolicySection(sec) ==> r == (store, false)
    ensures PolicySection(sec) ==> r == Delete(store, Condition(sec, 0, RuleValues(rule)))
  {
    if PolicySection(sec) then Delete(store, Condition(sec, 0, RuleValues(rule))) else (store, false)
  }

  /** `remove_policy` as Casbin calls it: the rules of type `ptype` that carry
      the given values are removed. */
  function RemovePolicy(store: Store, sec: string, ptype: string, rule: seq<string>): (r: (Store, bool))
    ensures !PolicySection(sec) ==> r == (store, false)
    ensures PolicySection(sec) ==> (r.1 <==> exists i | 0 <= i < |store| :: Matches(store[i], Condition(ptype, 0, RuleValues(rule))))
    ensures forall l :: l in r.0 <==> l in store && !(PolicySection(sec) && Matches(l, Condition(ptype, 0, RuleValues(rule))))
  {
    if PolicySection(sec) then Delete(store, Condition(ptype, 0, RuleValues(rule))) else (store, false)
  }

  /** A saved rule of at most six values is removed by `remove_policy` with
      the same type and rule, and nothing of another type is. */
  lemma SaveThenRemove(store: Store, sec: string, ptype: string, rule: seq<string>, l: Line)
    requires PolicySection(sec)
    requires SaveLine(store, ptype, rule).Ok?
    requires |rule| <= SavedSlots
    ensures RemovePolicy(SaveLine(store, ptype, rule).value, sec, ptype, rule).1
    ensures MakeLine(ptype, rule) !in RemovePolicy(SaveLine(store, ptype, rule).value, sec, ptype, rule).0
    ensures l in store && l.ptype != ptype ==> l in RemovePolicy(SaveLine(store, ptype, rule).value, sec, ptype, rule).0
  {
    var s := SaveLine(store, ptype, rule).value;
    var c := Condition(ptype, 0, RuleValues(rule));
    assert s[|store|] == MakeLine(ptype, rule);
    assert Matches(s[|store|], c);
  }

  /** The section name stands in for the type: a `p2` rule is not removed by
      `remove_policy("p", "p2", rule)`, which the intended condition does. */
  lemma RemoveByTypeCounterexample()
    ensures var store := [MakeLine("p2", ["alice", "data1", "read"])];
            && RemovePolicyAsWritten(store, "p", "p2", ["alice", "data1", "read"]) == (store, false)
            && RemovePolicy(store, "p", "p2", ["alice", "data1", "read"]) == ([], true)
  {
    var rule := ["alice", "data1", "read"];
    var store := [MakeLine("p2", rule)];
    assert Matches(store[0], Condition("p2", 0, rule));
    assert !Matches(store[0], Condition("p", 0, rule));
    assert Unmatched(store[1..], Condition("p2", 0, rule)) == [];
  }

  // ------------------------------------------------- remove_filtered_policy

  /** `remove_filtered_policy(sec, ptype, field_index, *field_values)` as
      written: the values are bound to `v0`, `v1`, … whatever `field_index`
      is, the type is the section name, and a query on a slot past `v6` is
      refused by the strict document. */
  function RemoveFilteredAsWritten(store: Store, sec: string, ptype: string, fieldIndex: nat, values: seq<string>): (r: Result<(Store, bool)>)
    ensures !PolicySection(sec) ==> r == Ok((store, false))
    ensures PolicySection(sec) ==> (r.Ok? <==> |values| <= SlotCount)
    ensures r.Ok? && PolicySection(sec) ==> r.value == Delete(store, Condition(sec, 0, values))
  {
    if !PolicySection(sec) then Ok((store, false))
    else if |values| > SlotCount then Err("InvalidQueryError")
    else Ok(Delete(store, Condition(sec, 0, values)))
  }

  /** `remove_filtered_policy` as Casbin's adapter interface means it: rules
      of type `ptype` whose slots from `field_index` on carry the values. */
  function RemoveFiltered(store: Store, sec: string, ptype: string, fieldIndex: nat, values: seq<string>): (r: Result<(Store, bool)>)
    ensures !PolicySection(sec) ==> r == Ok((store, false))
    ensures PolicySection(sec) ==> (r.Ok? <==> fieldIndex + |values| <= SlotCount)
    ensures r.Ok? && PolicySection(sec) ==> (r.value.1 <==> exists i | 0 <= i < |store| :: Matches(store[i], Condition(ptype, fieldIndex, values)))
    ensures r.Ok? ==> forall l :: l in r.value.0 <==> l in store && !(PolicySection(sec) && Matches(l, Condition(ptype, fieldIndex, values)))
  {
    if !PolicySection(sec) then Ok((store, false))
    else if fieldIndex + |values| > SlotCount then Err("InvalidQueryError")
    else Ok(Delete(store, Condition(ptype, fieldIndex, values)))
  }

  /** A filter from the first slot is `remove_policy` with the same values. */
  lemma FilterFromStartIsRemovePolicy(store: Store, sec: string, ptype: string, rule: seq<string>)
    requires |rule| <= SavedSlots
    ensures RemoveFiltered(store, sec, ptype, 0, rule) == Ok(RemovePolicy(store, sec, ptype, rule))
  {
  }

  /** `field_index` is ignored: filtering `v1 == "data1"` removes the line
      whose `v0` is `"data1"` and keeps the one whose `v1` is. */
  lemma FieldIndexCounterexample()
    ensures var a := Line("p", [Some("data1"), Some("x")]);
            var b := Line("p", [Some("alice"), Some("data1")]);
            && RemoveFilteredAsWritten([a, b], "p", "p", 1, ["data1"]) == Ok(([b], true))
            && RemoveFiltered([a, b], "p", "p", 1, ["data1"]) == Ok(([a], true))
  {
    var a := Line("p", [Some("data1"), Some("x")]);
    var b := Line("p", [Some("alice"), Some("data1")]);
    var c0 := Condition("p", 0, ["data1"]);
    var c1 := Condition("p", 1, ["data1"]);
    assert Slot(b, c0.from + 0) != Some(c0.values[0]) by {
      assert "alice"[0] != "data1"[0];
    }
    assert Slot(a, c1.from + 0) != Some(c1.values[0]) by {
      assert |"x"| != |"data1"|;
    }
    assert [a, b][1..] == [b];
    assert [b][1..] == [];
    assert Unmatched([a, b], c0) == [b];
    assert Unmatched([a, b], c1) == [a];
  }
}

=== FILE: compare_diff.dfy ===
/** The nested-record diff engine: `CompareTwoDict`, `mask_contain`,
  `get_attr` and `get_diff`.

  `CompareTwoDict` walks two records side by side and collects the dotted
  paths at which they differ. `compare` appends the paths to a shared list
  while iterating over the keys of a Python `set`, so the order of the paths
  is not specified; the model collects a set. Any exception raised on the
  way (a type mismatch, `len` of a number, indexing a dictionary by
  position, `.keys()` of a non-dictionary, iterating over a number) aborts
  the whole comparison, and the model reports it as `Raised`.
 */
module CompareDiff {
  import opened Wrappers
  import opened PyStrings
  import opened Values
  import ODict
  import DiffRender

  /** The paths a comparison collected, or the exception that ended it. */
  datatype Outcome = Paths(ps: set<string>) | Raised

  function Both(a: Outcome, b: Outcome): (r: Outcome)
    ensures r.Raised? <==> a.Raised? || b.Raised?
    ensures r.Paths? ==> r.ps == a.ps + b.ps
  {
    if a.Raised? || b.Raised? then Raised else Paths(a.ps + b.ps)
  }

  /** `self.path + '.' + rel if self.path else rel`. */
  function Sub(path: string, rel: string): string {
    if path == "" then rel else path + "." + rel
  }

  /** A mask entry covers a path equal to it or below it. */
  predicate Covers(entry: string, index: string) {
    entry == index || StartsWith(index, entry + ".")
  }

  /** `mask_contain(index, mask)`. */
  function MaskContain(index: string, mask: seq<string>): (r: bool)
    ensures r <==> exists e | e in mask :: Covers(e, index)
  {
    |mask| > 0 && (Covers(mask[0], index) || MaskContain(index, mask[1..]))
  }

  /** An entry masks its own path and the paths below it, and nothing that
      merely shares its text as a prefix. */
  lemma MaskExamples()
    ensures MaskContain("a.b", ["a.b"])
    ensures MaskContain("a.b.c", ["a.b"])
    ensures !MaskContain("a.bc", ["a.b"])
    ensures !MaskContain("a", ["a.b"])
  {
    assert Covers("a.b", "a.b.c") by {
      assert "a.b.c"[..4] == "a.b.";
    }
    assert !Covers("a.b", "a.bc") by {
      assert "a.bc"[3] != "a.b."[3];
    }
  }

  /** The keys of `d2` that are not keys of `d1`. */
  function KeysNotIn(ks: seq<string>, d1: Value): (r: seq<string>)
    ensures forall k :: k in r <==> k in ks && k !in KeysOf(d1)
  {
    if |ks| == 0 then []
    else if ks[0] in KeysOf(d1) then KeysNotIn(ks[1..], d1)
    else [ks[0]] + KeysNotIn(ks[1..], d1)
  }

  /** The keys of a dictionary value, as a set; none for other values. */
  function KeySetOf(v: Value): set<string> {
    if v.Dict? then ODict.KeySet(v.entries) else {}
  }

  /** `CompareTwoDict.keys(dict1, dict2)`: the union of the keys when both
      sides are truthy, else the keys of the truthy side, else none; `None`
      when a truthy side has no `.keys()`. */
  function PairKeys(d1: Value, d2: Value): (r: Option<seq<string>>)
    ensures r.None? <==> (Truthy(d1) && !d1.Dict?) || (Truthy(d2) && !d2.Dict?)
    ensures r.Some? ==> forall k :: k in r.value <==> k in KeySetOf(d1) + KeySetOf(d2)
  {
    if Truthy(d1) && Truthy(d2) then
      if d1.Dict? && d2.Dict? then Some(KeysOf(d1) + KeysNotIn(KeysOf(d2), d1)) else None
    else if Truthy(d1) then
      if d1.Dict? then Some(KeysOf(d1)) else None
    else if Truthy(d2) then
      if d2.Dict? then Some(KeysOf(d2)) else None
    else
      assert d1.Dict? ==> |d1.entries| == 0;
      assert d2.Dict? ==> |d2.entries| == 0;
      Some([])
  }

  /** The keys not covered by the mask, in order. */
  function Unmasked(ks: seq<string>, mask: seq<string>): (r: seq<string>)
    ensures forall k :: k in r <==> k in ks && !MaskContain(k, mask)
  {
    if |ks| == 0 then []
    else if MaskContain(ks[0], mask) then Unmasked(ks[1..], mask)
    else [ks[0]] + Unmasked(ks[1..], mask)
  }

  /** The `key_list` of the constructor: the keys of both sides, without the
      masked ones at the top level (`path == ''` and a non-empty mask). */
  function KeyList(d1: Value, d2: Value, path: string, mask: seq<string>): (r: Option<seq<string>>)
    ensures r.None? <==> PairKeys(d1, d2).None?
    ensures r.Some? ==> forall k :: k in r.value <==>
      k in KeySetOf(d1) + KeySetOf(d2) && !(path == "" && MaskContain(k, mask))
  {
    var ks :- PairKeys(d1, d2);
    Some(if path == "" && |mask| > 0 then Unmasked(ks, mask) else ks)
  }

  /** `CompareTwoDict(dict1, dict2, path, mask).main()`. */
  function Compare(d1: Value, d2: Value, path: string, mask: seq<string>): (r: Outcome)
    ensures Truthy(d1) && Truthy(d2) && !SameType(d1, d2) ==> r.Raised?
    ensures !Truthy(d1) && !Truthy(d2) ==> r == Paths({})
    ensures (Truthy(d1) && !d1.Dict?) || (Truthy(d2) && !d2.Dict?) ==> r.Raised?
    decreases Size(d1) + Size(d2), 3
  {
    if Truthy(d1) && Truthy(d2) && !SameType(d1, d2) then Raised
    else
      match KeyList(d1, d2, path, mask)
      case None => Raised
      case Some(ks) =>
        if d1.Dict? && Truthy(d1) && !Truthy(d2) then Paths(LeftOnly(d1, path, ks))
        else if d2.Dict? && Truthy(d2) && !Truthy(d1) then RightOnly(d2, path, ks)
        else if !Truthy(d1) || !Truthy(d2) then
          assert ks == [];
          assert (set k | k in ks :: Sub(path, k)) == {};
          Paths(set k | k in ks :: Sub(path, k))
        else CompareKeys(d1, d2, path, ks)
  }

  /** The paths one key of a one-sided record reports: the key itself, or one
      path per key of its value when that value is a dictionary. */
  function ExpandKey(v: Value, path: string, k: string): set<string> {
    if v.Dict? then set kk | kk in KeysOf(v) :: Sub(path, k + "." + kk) else {Sub(path, k)}
  }

  /** Left side only: every key is reported, a dictionary value one level
      deeper. */
  function LeftOnly(d1: Value, path: string, ks: seq<string>): (r: set<string>)
    requires d1.Dict?
    ensures forall k | k in ks && !Get(d1, k).Dict? :: Sub(path, k) in r
    ensures forall k, kk | k in ks && Get(d1, k).Dict? && kk in KeysOf(Get(d1, k)) ::
              Sub(path, k + "." + kk) in r
    ensures forall p | p in r :: exists k | k in ks :: p in ExpandKey(Get(d1, k), path, k)
  {
    if |ks| == 0 then {}
    else ExpandKey(Get(d1, ks[0]), path, ks[0]) + LeftOnly(d1, path, ks[1..])
  }

  /** `for _key in item` and `str(_key)`: the keys of a dictionary, the
      characters of a string, the `str` of each element of a list; `None` for
      the values that are not iterable. */
  function IterStrs(v: Value): (r: Option<seq<string>>)
    ensures r.None? <==> v.Null? || v.Bool? || v.Int?
  {
    match v
    case Dict(e) => Some(ODict.Keys(e))
    case Str(s) => Some(seq(|s|, j requires 0 <= j < |s| => [s[j]]))
    case List(xs) => Some(seq(|xs|, j requires 0 <= j < |xs| => PyStr(xs[j])))
    case _ => None
  }

  /** The paths `key.j.sub` one item at position `j` of a list value
      reports: one per key, character or element it iterates over. */
  function ItemPaths(item: Value, path: string, k: string, j: nat): set<string> {
    match IterStrs(item)
    case None => {}
    case Some(subs) => set s | s in subs :: Sub(path, k + "." + IntToStr(j) + "." + s)
  }

  /** The paths `key.i.sub` for the items of a list value from index `i` on:
      every item's paths, and nothing else, unless an item is not iterable. */
  function ListItems(items: seq<Value>, path: string, k: string, i: nat): (r: Outcome)
    requires i <= |items|
    ensures r.Raised? <==> exists j | i <= j < |items| :: IterStrs(items[j]).None?
    ensures r.Paths? ==> forall j | i <= j < |items| :: ItemPaths(items[j], path, k, j) <= r.ps
    ensures r.Paths? ==> forall p | p in r.ps :: exists j | i <= j < |items| :: p in ItemPaths(items[j], path, k, j)
    decreases |items| - i
  {
    if i == |items| then Paths({})
    else
      match IterStrs(items[i])
      case None => Raised
      case Some(subs) => Both(Paths(ItemPaths(items[i], path, k, i)), ListItems(items, path, k, i + 1))
  }

  /** The paths one key of a right-only record reports: a dictionary value
      one per key, a list value one per element of each item, anything else
      the key itself. */
  predicate RightKeyHas(v: Value, path: string, k: string, p: string) {
    if v.List? then exists j | 0 <= j < |v.items| :: p in ItemPaths(v.items[j], path, k, j)
    else p in ExpandKey(v, path, k)
  }

  /** Right side only: like the left side, and a list value reports one path
      per element of each of its items, which must all be iterable. */
  function RightOnly(d2: Value, path: string, ks: seq<string>): (r: Outcome)
    requires d2.Dict?
    ensures r.Raised? <==> exists k | k in ks :: Get(d2, k).List? && ListItems(Get(d2, k).items, path, k, 0).Raised?
    ensures r.Paths? ==> forall k | k in ks && !Get(d2, k).List? :: ExpandKey(Get(d2, k), path, k) <= r.ps
    ensures r.Paths? ==> forall k, j | k in ks && Get(d2, k).List? && 0 <= j < |Get(d2, k).items| ::
              ItemPaths(Get(d2, k).items[j], path, k, j) <= r.ps
    ensures r.Paths? ==> forall p | p in r.ps :: exists k | k in ks :: RightKeyHas(Get(d2, k), path, k, p)
  {
    if |ks| == 0 then Paths({})
    else
      var v := Get(d2, ks[0]);
      var here := if v.List? then ListItems(v.items, path, ks[0], 0) else Paths(ExpandKey(v, path, ks[0]));
      Both(here, RightOnly(d2, path, ks[1..]))
  }

  /** The loop of `main` over the keys of two truthy dictionaries. */
  function CompareKeys(d1: Value, d2: Value, path: string, ks: seq<string>): (r: Outcome)
    requires d1.Dict? && d2.Dict? && Truthy(d1) && Truthy(d2)
    decreases Size(d1) + Size(d2), 2, |ks|
  {
    if |ks| == 0 then Paths({})
    else Both(CompareKey(d1, d2, path, ks[0]), CompareKeys(d1, d2, path, ks[1..]))
  }

  /** `len(v1)`, `len(v2)` or the larger of both, as `compare` picks it. */
  function ListLength(v1: Value, v2: Value): Option<nat> {
    if v2.Null? then Len(v1)
    else if v1.Null? then Len(v2)
    else
      match (Len(v1), Len(v2))
      case (Some(a), Some(b)) => Some(if a >= b then a else b)
      case _ => None
  }

  /** Neither a dictionary nor a list: a value `compare` hands to `diff`
      as it is. */
  predicate Leaf(v: Value) {
    !v.Dict? && !v.List?
  }

  /** `compare(key)`: two leaves are reported under the key exactly when
      they differ; two dictionaries are compared below the key without the
      mask; a list against a number raises in `len`. */
  function CompareKey(d1: Value, d2: Value, path: string, k: string): (r: Outcome)
    requires d1.Dict? && d2.Dict? && Truthy(d1) && Truthy(d2)
    ensures Leaf(Get(d1, k)) && Leaf(Get(d2, k)) ==>
      r == Paths(if PyEq(Get(d1, k), Get(d2, k)) then {} else {Sub(path, k)})
    ensures Get(d1, k).Dict? && Get(d2, k).Dict? ==> r == Compare(Get(d1, k), Get(d2, k), Sub(path, k), [])
    ensures ((Get(d1, k).List? && (Get(d2, k).Int? || Get(d2, k).Bool?)) ||
             ((Get(d1, k).Int? || Get(d1, k).Bool?) && Get(d2, k).List?)) ==> r.Raised?
    decreases Size(d1) + Size(d2), 1
  {
    var v1 := Get(d1, k);
    var v2 := Get(d2, k);
    if v1.Dict? && v2.Dict? then Compare(v1, v2, Sub(path, k), [])
    else if v1.List? || v2.List? then
      match ListLength(v1, v2)
      case None => Raised
      case Some(n) => CompareList(v1, v2, path, k, 0, n)
    else Diff(v1, v2, path, k)
  }

  /** `v[i] if v and len(v) > i else None`; `None` when that raises: `len`
      of a number, or a dictionary indexed by position. */
  function Element(v: Value, i: nat): (r: Option<Value>)
    ensures r.Some? ==> Size(r.value) <= Size(v)
    ensures r.Some? && r.value.Dict? ==> Size(r.value) < Size(v)
    ensures v.List? ==> r == Some(if i < |v.items| then v.items[i] else Null)
  {
    if !Truthy(v) then Some(Null)
    else
      match v
      case List(xs) =>
        if i < |xs| then ElementSmaller(xs, i); Some(xs[i]) else Some(Null)
      case Str(s) => Some(if i < |s| then Str([s[i]]) else Null)
      case Dict(e) => if i < |ODict.Keys(e)| then None else Some(Null)
      case _ => None
  }

  /** The loop of `compare` over the positions `i` to `n - 1` of two lists. */
  function CompareList(v1: Value, v2: Value, path: string, k: string, i: nat, n: nat): (r: Outcome)
    decreases Size(v1) + Size(v2), 1, n - i
  {
    if i >= n then Paths({})
    else Both(CompareItem(v1, v2, path, k, i), CompareList(v1, v2, path, k, i + 1, n))
  }

  /** One position of the list loop: nested records recurse under `key.i`,
      anything else (a nested list too) is compared as a leaf named `key.i`,
      a missing position reading as `None`; a truthy number on either side raises in `len`. */
  function CompareItem(v1: Value, v2: Value, path: string, k: string, i: nat): (r: Outcome)
    ensures v1.List? && v2.List? && !At(v1.items, i).Dict? && !At(v2.items, i).Dict? ==>
      r == Paths(if PyEq(At(v1.items, i), At(v2.items, i)) then {} else {Sub(path, k + "." + IntToStr(i))})
    ensures Truthy(v1) && (v1.Int? || v1.Bool?) ==> r.Raised?
    decreases Size(v1) + Size(v2), 0
  {
    match (Element(v1, i), Element(v2, i))
    case (Some(e1), Some(e2)) =>
      if e1.Dict? || e2.Dict? then Compare(e1, e2, Sub(path, k + "." + IntToStr(i)), [])
      else Diff(e1, e2, path, k + "." + IntToStr(i))
    case _ => Raised
  }

  /** `diff(v1, v2, attr)`. */
  function Diff(v1: Value, v2: Value, path: string, attr: string): (r: Outcome)
    ensures PyEq(v1, v2) ==> r == Paths({})
    ensures !PyEq(v1, v2) && !v1.Dict? && !v2.Dict? ==> r == Paths({Sub(path, attr)})
    ensures !PyEq(v1, v2) && (v1.Dict? || v2.Dict?) ==>
      if (Truthy(v1) && !v1.Dict?) || (Truthy(v2) && !v2.Dict?) then r.Raised?
      else r == Paths(set k | k in KeySetOf(v1) + KeySetOf(v2) :: Sub(path, attr + "." + k))
  {
    if PyEq(v1, v2) then Paths({})
    else if v1.Dict? || v2.Dict? then
      match PairKeys(v1, v2)
      case None => Raised
      case Some(ks) =>
        var named := set k | k in ks :: Sub(path, attr + "." + k);
        assert named == set k | k in KeySetOf(v1) + KeySetOf(v2) :: Sub(path, attr + "." + k) by {
          forall p | p in named
            ensures p in set k | k in KeySetOf(v1) + KeySetOf(v2) :: Sub(path, attr + "." + k)
          {
            var k :| k in ks && p == Sub(path, attr + "." + k);
            assert k in KeySetOf(v1) + KeySetOf(v2);
          }
        }
        Paths(named)
    else Paths({Sub(path, attr)})
  }

  /** Comparing a record with itself reports nothing: a path is recorded only
      where two values differ, and equal containers recurse pointwise. */
  lemma {:induction false} CompareSelf(a: Value, path: string, mask: seq<string>)
    requires a.Dict? || !Truthy(a)
    ensures Compare(a, a, path, mask) == Paths({})
    decreases Size(a) + Size(a), 3
  {
    if Truthy(a) {
      var ks := KeyList(a, a, path, mask).value;
      CompareKeysSelf(a, path, ks);
    }
  }

  lemma {:induction false} CompareKeysSelf(d: Value, path: string, ks: seq<string>)
    requires d.Dict? && Truthy(d)
    ensures CompareKeys(d, d, path, ks) == Paths({})
    decreases Size(d) + Size(d), 2, |ks|
  {
    if |ks| > 0 {
      CompareKeySelf(d, path, ks[0]);
      CompareKeysSelf(d, path, ks[1..]);
    }
  }

  lemma {:induction false} CompareKeySelf(d: Value, path: string, k: string)
    requires d.Dict? && Truthy(d)
    ensures CompareKey(d, d, path, k) == Paths({})
    decreases Size(d) + Size(d), 1
  {
    var v := Get(d, k);
    if v.Dict? {
      CompareSelf(v, Sub(path, k), []);
    } else if v.List? {
      CompareListSelf(v, path, k, 0, |v.items|);
    } else {
      PyEqReflexive(v);
    }
  }

  lemma {:induction false} CompareListSelf(v: Value, path: string, k: string, i: nat, n: nat)
    requires v.List?
    ensures CompareList(v, v, path, k, i, n) == Paths({})
    decreases Size(v) + Size(v), 1, n - i
  {
    if i < n {
      var e := Element(v, i).value;
      if e.Dict? {
        CompareSelf(e, Sub(path, k + "." + IntToStr(i)), []);
      } else {
        PyEqReflexive(e);
      }
      CompareListSelf(v, path, k, i + 1, n);
    }
  }

  /** The outcomes of a loop over the positions `i` to `n - 1`, collected. */
  function FoldPos(f: nat -> Outcome, i: nat, n: nat): Outcome
    decreases n - i
  {
    if i >= n then Paths({}) else Both(f(i), FoldPos(f, i + 1, n))
  }

  /** The outcomes of a loop over keys, collected. */
  function FoldKeys(f: string -> Outcome, ks: seq<string>): Outcome {
    if |ks| == 0 then Paths({}) else Both(f(ks[0]), FoldKeys(f, ks[1..]))
  }

  lemma {:induction false} FoldPosUnion(f: nat -> Outcome, i: nat, n: nat)
    ensures FoldPos(f, i, n).Raised? <==> exists j | i <= j < n :: f(j).Raised?
    ensures FoldPos(f, i, n).Paths? ==> forall j | i <= j < n :: f(j).ps <= FoldPos(f, i, n).ps
    ensures FoldPos(f, i, n).Paths? ==> forall p | p in FoldPos(f, i, n).ps :: exists j | i <= j < n :: p in f(j).ps
    decreases n - i
  {
    if i < n {
      FoldPosUnion(f, i + 1, n);
    }
  }

  lemma {:induction false} FoldKeysUnion(f: string -> Outcome, ks: seq<string>)
    ensures FoldKeys(f, ks).Raised? <==> exists k | k in ks :: f(k).Raised?
    ensures FoldKeys(f, ks).Paths? ==> forall k | k in ks :: f(k).ps <= FoldKeys(f, ks).ps
    ensures FoldKeys(f, ks).Paths? ==> forall p | p in FoldKeys(f, ks).ps :: exists k | k in ks :: p in f(k).ps
  {
    if |ks| > 0 {
      FoldKeysUnion(f, ks[1..]);
      assert forall k | k in ks :: k == ks[0] || k in ks[1..];
      if FoldKeys(f, ks).Paths? {
        forall p | p in FoldKeys(f, ks).ps
          ensures exists k | k in ks :: p in f(k).ps
        {
          if p in f(ks[0]).ps {
            assert ks[0] in ks;
          }
        }
      }
    }
  }

  lemma {:induction false} CompareKeysFold(d1: Value, d2: Value, path: string, ks: seq<string>, f: string -> Outcome)
    requires d1.Dict? && d2.Dict? && Truthy(d1) && Truthy(d2)
    requires forall k :: f(k) == CompareKey(d1, d2, path, k)
    ensures CompareKeys(d1, d2, path, ks) == FoldKeys(f, ks)
  {
    if |ks| > 0 {
      CompareKeysFold(d1, d2, path, ks[1..], f);
    }
  }

  lemma {:induction false} CompareListFold(v1: Value, v2: Value, path: string, k: string, i: nat, n: nat, f: nat -> Outcome)
    requires forall j :: f(j) == CompareItem(v1, v2, path, k, j)
    ensures CompareList(v1, v2, path, k, i, n) == FoldPos(f, i, n)
    decreases n - i
  {
    if i < n {
      CompareListFold(v1, v2, path, k, i + 1, n, f);
    }
  }

  /** The key loop of `main` collects the paths of every key and nothing
      else, and raises exactly when one key raises. */
  lemma CompareKeysUnion(d1: Value, d2: Value, path: string, ks: seq<string>)
    requires d1.Dict? && d2.Dict? && Truthy(d1) && Truthy(d2)
    ensures CompareKeys(d1, d2, path, ks).Raised? <==> exists k | k in ks :: CompareKey(d1, d2, path, k).Raised?
    ensures CompareKeys(d1, d2, path, ks).Paths? ==>
      forall k | k in ks :: CompareKey(d1, d2, path, k).ps <= CompareKeys(d1, d2, path, ks).ps
    ensures CompareKeys(d1, d2, path, ks).Paths? ==>
      forall p | p in CompareKeys(d1, d2, path, ks).ps :: exists k | k in ks :: p in CompareKey(d1, d2, path, k).ps
  {
    var f := k => CompareKey(d1, d2, path, k);
    CompareKeysFold(d1, d2, path, ks, f);
    FoldKeysUnion(f, ks);
  }

  /** The position loop of `compare` collects the paths of every position
      and nothing else, and raises exactly when one position raises. */
  lemma CompareListUnion(v1: Value, v2: Value, path: string, k: string, i: nat, n: nat)
    ensures CompareList(v1, v2, path, k, i, n).Raised? <==> exists j | i <= j < n :: CompareItem(v1, v2, path, k, j).Raised?
    ensures CompareList(v1, v2, path, k, i, n).Paths? ==>
      forall j | i <= j < n :: CompareItem(v1, v2, path, k, j).ps <= CompareList(v1, v2, path, k, i, n).ps
    ensures CompareList(v1, v2, path, k, i, n).Paths? ==>
      forall p | p in CompareList(v1, v2, path, k, i, n).ps :: exists j | i <= j < n :: p in CompareItem(v1, v2, path, k, j).ps
  {
    var f := (j: nat) => CompareItem(v1, v2, path, k, j);
    CompareListFold(v1, v2, path, k, i, n, f);
    FoldPosUnion(f, i, n);
  }

  /** The value at position `i` of a list, `None` past its end. */
  function At(xs: seq<Value>, i: nat): Value {
    if i < |xs| then xs[i] else Null
  }

  predicate NoDicts(xs: seq<Value>) {
    forall j | 0 <= j < |xs| :: !xs[j].Dict?
  }

  /** Two lists without nested records are compared position by position up
      to the longer length, a missing position counting as `None`, and each
      unequal position `i` is reported as `key.i`. */
  lemma {:induction false} CompareLeafLists(v1: Value, v2: Value, path: string, k: string, i: nat, n: nat)
    requires v1.List? && v2.List? && NoDicts(v1.items) && NoDicts(v2.items)
    ensures CompareList(v1, v2, path, k, i, n) == Paths(LeafDiffs(v1.items, v2.items, path, k, i, n))
    decreases n - i
  {
    if i < n {
      CompareLeafLists(v1, v2, path, k, i + 1, n);
      assert !At(v1.items, i).Dict? && !At(v2.items, i).Dict?;
      LeafDiffsStep(v1.items, v2.items, path, k, i, n);
    } else {
      assert LeafDiffs(v1.items, v2.items, path, k, i, n) == {};
    }
  }

  /** The positions from `i` to `n - 1` where two lists hold unequal values,
      as the paths `key.i` under `path`. */
  function LeafDiffs(xs: seq<Value>, ys: seq<Value>, path: string, k: string, i: nat, n: nat): set<string> {
    set j | i <= j < n && !PyEq(At(xs, j), At(ys, j)) :: Sub(path, k + "." + IntToStr(j))
  }

  lemma LeafDiffsStep(xs: seq<Value>, ys: seq<Value>, path: string, k: string, i: nat, n: nat)
    requires i < n
    ensures LeafDiffs(xs, ys, path, k, i, n) ==
      (if PyEq(At(xs, i), At(ys, i)) then {} else {Sub(path, k + "." + IntToStr(i))})
      + LeafDiffs(xs, ys, path, k, i + 1, n)
  {
    var here := if PyEq(At(xs, i), At(ys, i)) then {} else {Sub(path, k + "." + IntToStr(i))};
    forall p | p in LeafDiffs(xs, ys, path, k, i, n)
      ensures p in here + LeafDiffs(xs, ys, path, k, i + 1, n)
    {
      var j :| i <= j < n && !PyEq(At(xs, j), At(ys, j)) && p == Sub(path, k + "." + IntToStr(j));
      if j > i {
        assert p in LeafDiffs(xs, ys, path, k, i + 1, n);
      }
    }
  }

  /** The keys of `ks` under which two dictionaries hold unequal values, as
      paths under `path`. */
  function KeyDiffs(d1: Value, d2: Value, path: string, ks: seq<string>): set<string>
    requires d1.Dict? && d2.Dict?
  {
    set k | k in ks && !PyEq(Get(d1, k), Get(d2, k)) :: Sub(path, k)
  }

  lemma KeyDiffsCons(d1: Value, d2: Value, path: string, ks: seq<string>)
    requires d1.Dict? && d2.Dict? && |ks| > 0
    ensures KeyDiffs(d1, d2, path, ks) ==
      (if PyEq(Get(d1, ks[0]), Get(d2, ks[0])) then {} else {Sub(path, ks[0])}) + KeyDiffs(d1, d2, path, ks[1..])
  {
    assert forall k | k in ks :: k == ks[0] || k in ks[1..];
  }

  /** The key loop over leaves reports exactly the keys whose values differ. */
  lemma {:induction false} CompareKeysLeaves(d1: Value, d2: Value, path: string, ks: seq<string>)
    requires d1.Dict? && d2.Dict? && Truthy(d1) && Truthy(d2)
    requires forall k :: Leaf(Get(d1, k)) && Leaf(Get(d2, k))
    ensures CompareKeys(d1, d2, path, ks) == Paths(KeyDiffs(d1, d2, path, ks))
  {
    if |ks| > 0 {
      CompareKeysLeaves(d1, d2, path, ks[1..]);
      KeyDiffsCons(d1, d2, path, ks);
      assert CompareKey(d1, d2, path, ks[0]).Paths?;
    } else {
      assert KeyDiffs(d1, d2, path, ks) == {};
    }
  }

  lemma KeyDiffsTop(d1: Value, d2: Value, ks: seq<string>, mask: seq<string>)
    requires d1.Dict? && d2.Dict?
    requires forall k :: k in ks <==> k in KeySetOf(d1) + KeySetOf(d2) && !MaskContain(k, mask)
    ensures KeyDiffs(d1, d2, "", ks) ==
      set k | k in KeySetOf(d1) + KeySetOf(d2) && !MaskContain(k, mask) && !PyEq(Get(d1, k), Get(d2, k))
  {
  }

  /** Two non-empty flat records, holding no dictionaries or lists, report
      exactly the unmasked keys whose values differ, a missing key reading as
      `None`: no paths means the records agree key by key. */
  lemma CompareFlat(d1: Value, d2: Value, mask: seq<string>)
    requires d1.Dict? && d2.Dict? && Truthy(d1) && Truthy(d2)
    requires forall k :: Leaf(Get(d1, k)) && Leaf(Get(d2, k))
    ensures Compare(d1, d2, "", mask) ==
      Paths(set k | k in KeySetOf(d1) + KeySetOf(d2) && !MaskContain(k, mask) && !PyEq(Get(d1, k), Get(d2, k)))
  {
    var ks := KeyList(d1, d2, "", mask).value;
    assert Compare(d1, d2, "", mask) == CompareKeys(d1, d2, "", ks);
    CompareKeysLeaves(d1, d2, "", ks);
    KeyDiffsTop(d1, d2, ks, mask);
  }

  /** Outside flat records a difference can go unreported: an empty list
      against `None` has length zero, so the position loop never runs. */
  lemma EmptyListAgainstNone()
    ensures !PyEq(List([]), Null)
    ensures Compare(Dict([("a", List([]))]), Dict([("a", Null)]), "", []) == Paths({})
  {
    var d1 := Dict([("a", List([]))]);
    var d2 := Dict([("a", Null)]);
    assert KeysOf(d1) == ["a"];
    assert KeyList(d1, d2, "", []) == Some(["a"]);
    assert Get(d1, "a") == List([]) && Get(d2, "a") == Null;
    assert CompareKey(d1, d2, "", "a") == CompareList(List([]), Null, "", "a", 0, 0);
  }

  /** `easy_str(v) if v else ''`. */
  function Display(v: Value): string {
    if Truthy(v) then PyStr(v) else ""
  }

  /** `get_attr(dic, path)`: the display string of the value at a dotted
      path, `''` when the walk meets a falsy value or ends on one. A single
      key of a dictionary renders the value under it; a single position of a
      list renders the element there, `None` past the end. */
  function GetAttr(d: Value, path: string): (r: Result<string>)
    ensures !Truthy(d) ==> r == Ok("")
    ensures d.Dict? && '.' !in path ==> r == Ok(Display(Get(d, path)))
    ensures d.List? && '.' !in path && ParseInt(path).Some? && ParseInt(path).value >= 0 ==>
      r == Ok(Display(At(d.items, ParseInt(path).value)))
    ensures Truthy(d) && !d.Dict? && !d.List? ==> r.Err?
  {
    WalkPlain(d, path);
    match Walk(d, Split(path, '.'), path)
    case Err(e) => Err(e)
    case Ok(v) => Ok(Display(v))
  }

  /** A path without a dot is a single step of the walk. */
  lemma WalkPlain(d: Value, path: string)
    ensures '.' !in path && d.Dict? ==> Walk(d, Split(path, '.'), path) == Ok(if Truthy(d) then Get(d, path) else Null)
    ensures '.' !in path && d.List? && Truthy(d) && ParseInt(path).Some? && ParseInt(path).value >= 0 ==>
      Walk(d, Split(path, '.'), path) == Ok(At(d.items, ParseInt(path).value))
  {
    if '.' !in path {
      SplitWithoutSeparator(path, '.');
      assert [path][1..] == [];
    }
  }

  /** A dotted path whose first segment is a plain key renders, for a truthy
      dictionary, as the rest of the path rendered from the value under that
      key; it fails exactly when that does. */
  lemma GetAttrDotted(d: Value, k: string, rest: string)
    requires d.Dict? && Truthy(d) && '.' !in k
    ensures GetAttr(d, k + "." + rest).Ok? <==> GetAttr(Get(d, k), rest).Ok?
    ensures GetAttr(d, k + "." + rest).Ok? ==> GetAttr(d, k + "." + rest).value == GetAttr(Get(d, k), rest).value
  {
    SplitConcat(k, '.', rest);
    var segs := Split(rest, '.');
    assert ([k] + segs)[1..] == segs;
    WalkPathFree(Get(d, k), segs, k + "." + rest, rest);
  }

  /** The path quoted by an error has no bearing on where the walk ends. */
  lemma {:induction false} WalkPathFree(v: Value, segs: seq<string>, path1: string, path2: string)
    ensures Walk(v, segs, path1).Ok? <==> Walk(v, segs, path2).Ok?
    ensures Walk(v, segs, path1).Ok? ==> Walk(v, segs, path1).value == Walk(v, segs, path2).value
    decreases |segs|
  {
    if |segs| > 0 && Truthy(v) {
      if v.Dict? {
        WalkPathFree(Get(v, segs[0]), segs[1..], path1, path2);
      } else if v.List? && ParseInt(segs[0]).Some? {
        var next := IndexOrNull(v.items, ParseInt(segs[0]).value);
        if next.Ok? {
          WalkPathFree(next.value, segs[1..], path1, path2);
        }
      }
    }
  }

  /** The loop of `get_attr` over the remaining segments; a falsy value ends
      it early (the value then renders as `''` either way). */
  function Walk(v: Value, segs: seq<string>, path: string): (r: Result<Value>)
    ensures |segs| > 0 && Truthy(v) && !v.Dict? && !v.List? ==>
      r == Err("parse error " + path + ", " + segs[0])
    ensures |segs| > 0 && !Truthy(v) ==> r == Ok(Null)
    decreases |segs|
  {
    if |segs| == 0 then Ok(v)
    else if !Truthy(v) then Ok(Null)
    else if v.Dict? then Walk(Get(v, segs[0]), segs[1..], path)
    else if v.List? && ParseInt(segs[0]).Some? then
      var next :- IndexOrNull(v.items, ParseInt(segs[0]).value);
      Walk(next, segs[1..], path)
    else Err("parse error " + path + ", " + segs[0])
  }

  /** `v[j] if len(v) >= j + 1 else None`: a position past the end gives
      `None`, a negative one counts from the end and raises below the start. */
  function IndexOrNull(xs: seq<Value>, j: int): (r: Result<Value>)
    ensures r.Err? <==> j < -|xs|
    ensures r.Ok? && r.value != Null ==> r.value in xs
  {
    if j >= |xs| then Ok(Null)
    else if j >= 0 then Ok(xs[j])
    else if |xs| + j >= 0 then Ok(xs[|xs| + j])
    else Err("list index out of range")
  }

  /** A dotted path of plain keys into nested dictionaries resolves key by
      key: `get_attr(d, "a.b")` is `get_attr(d["a"], "b")` for a truthy `d`,
      apart from the path quoted by an error. */
  lemma WalkDictStep(d: Value, k: string, segs: seq<string>, path: string)
    requires d.Dict? && Truthy(d)
    ensures Walk(d, [k] + segs, path) == Walk(Get(d, k), segs, path)
  {
    assert ([k] + segs)[1..] == segs;
  }

  /** A leaf that is `0`, `False`, `''` or missing renders as `''`. */
  lemma FalsyLeafRendersEmpty(k: string, v: Value)
    requires '.' !in k && !Truthy(v)
    ensures GetAttr(Dict([(k, v)]), k) == Ok("")
  {
    SplitWithoutSeparator(k, '.');
    assert Split(k, '.')[1..] == [];
    var d := Dict([(k, v)]);
    assert Get(d, k) == v;
    assert Walk(d, [k], k) == Walk(v, [], k);
  }

  /** The rendering of one reported path: `diff_str` of both sides' display
      strings; `None` when `get_attr` or `diff_str` raises. When `ndiff`
      yields a character script of the two display strings, the rendering
      exists. */
  function RenderPath(d1: Value, d2: Value, p: string, ndiff: (string, string) -> seq<string>): (r: Option<string>)
    ensures r.Some? <==> (GetAttr(d1, p).Ok? && GetAttr(d2, p).Ok? &&
                          DiffRender.DiffStr(ndiff(GetAttr(d1, p).value, GetAttr(d2, p).value)).Ok?)
    ensures r.Some? ==> r.value == DiffRender.DiffStr(ndiff(GetAttr(d1, p).value, GetAttr(d2, p).value)).value
    ensures (GetAttr(d1, p).Ok? && GetAttr(d2, p).Ok? &&
             DiffRender.IsCharScript(GetAttr(d1, p).value, GetAttr(d2, p).value, ndiff(GetAttr(d1, p).value, GetAttr(d2, p).value)))
            ==> r.Some?
  {
    match (GetAttr(d1, p), GetAttr(d2, p))
    case (Ok(a), Ok(b)) =>
      ScriptRenders(a, b, ndiff(a, b));
      (match DiffRender.DiffStr(ndiff(a, b))
       case Ok(t) => Some(t)
       case Err(_) => None)
    case _ => None
  }

  lemma ScriptRenders(a: string, b: string, lines: seq<string>)
    ensures DiffRender.IsCharScript(a, b, lines) ==> DiffRender.DiffStr(lines).Ok?
  {
    if DiffRender.IsCharScript(a, b, lines) {
      DiffRender.DiffStrOfScript(a, b, lines);
    }
  }

  /** `get_diff(dic1, dic2, mask)`: every reported path the mask does not
      cover, mapped to the tagged difference of its two renderings; `None`
      when any step raises. `ndiff` is the character diff `difflib` computes. */
  function GetDiff(d1: Value, d2: Value, mask: seq<string>, ndiff: (string, string) -> seq<string>): (r: Option<map<string, string>>)
    ensures r.Some? <==> (Compare(d1, d2, "", mask).Paths? &&
                          forall p | p in Compare(d1, d2, "", mask).ps && !MaskContain(p, mask) :: RenderPath(d1, d2, p, ndiff).Some?)
    ensures r.Some? ==>
      r.value.Keys == set p | p in Compare(d1, d2, "", mask).ps && !MaskContain(p, mask)
    ensures r.Some? ==> forall p | p in r.value :: Some(r.value[p]) == RenderPath(d1, d2, p, ndiff)
    ensures r.Some? ==> forall p | p in r.value :: !MaskContain(p, mask)
  {
    match Compare(d1, d2, "", mask)
    case Raised => None
    case Paths(ps) =>
      var kept := set p | p in ps && !MaskContain(p, mask);
      if exists p | p in kept :: RenderPath(d1, d2, p, ndiff).None? then None
      else Some(map p | p in kept :: RenderPath(d1, d2, p, ndiff).value)
  }

  /** A record compared with itself yields an empty result, whatever the mask. */
  lemma GetDiffSelf(a: Value, mask: seq<string>, ndiff: (string, string) -> seq<string>)
    requires a.Dict? || !Truthy(a)
    ensures GetDiff(a, a, mask, ndiff) == Some(map[])
  {
    CompareSelf(a, "", mask);
    var kept := set p | p in Compare(a, a, "", mask).ps && !MaskContain(p, mask);
    assert kept == {};
    var r := GetDiff(a, a, mask, ndiff);
    assert r.Some?;
    assert r.value.Keys == {};
  }
}

=== FILE: diff_render.dfy ===
/** `diff_str`: rendering a character edit script as tagged text.

  `difflib.ndiff` compares the two strings character by character and yields
  one line per character: `"  c"` for a kept character, `"+ c"` for an
  inserted one and `"- c"` for a deleted one. The renderer wraps every run of
  inserted characters in one `<strong>` span and every run of deleted
  characters in one `<em>` span; a line with any other prefix raises
  `difflib error`. The script is an input here: `ndiff` itself is not part of
  this model.
 */
module DiffRender {
  import opened Wrappers
  import opened PyStrings

  datatype Kind = Strong | Em

  /** A piece of the rendered text: literal text or a tag. */
  datatype Piece = Text(t: string) | Open(kind: Kind) | Close(kind: Kind)

  function TagName(k: Kind): string {
    if k == Strong then "strong" else "em"
  }

  function PieceText(p: Piece): string {
    match p
    case Text(t) => t
    case Open(k) => "<" + TagName(k) + ">"
    case Close(k) => "</" + TagName(k) + ">"
  }

  /** `''.join(results)`. */
  function Flatten(ps: seq<Piece>): string {
    if |ps| == 0 then "" else PieceText(ps[0]) + Flatten(ps[1..])
  }

  /** How the renderer reads one line of the script. */
  datatype Line = Added(item: string) | Removed(item: string) | Kept(item: string) | Unknown

  /** The prefix tests of the loop, in their order, with the item each branch
      extracts by replacing the first occurrence of its prefix. */
  function Classify(line: string): (c: Line)
    ensures StartsWith(line, "+ ") ==> c == Added(line[2..])
    ensures !StartsWith(line, "+ ") && StartsWith(line, "- ") ==> c == Removed(line[2..])
    ensures StartsWith(line, "  ") ==> c == Kept(line[2..])
    ensures c.Unknown? <==> !StartsWith(line, "+ ") && !StartsWith(line, "- ") && !StartsWith(line, " ")
  {
    if StartsWith(line, "+ ") then
      ReplaceFirstAtStart(line, "+ ", "");
      assert "" + line[2..] == line[2..];
      Added(ReplaceFirst(line, "+ ", ""))
    else if StartsWith(line, "- ") then
      ReplaceFirstAtStart(line, "- ", "");
      assert "" + line[2..] == line[2..];
      Removed(ReplaceFirst(line, "- ", ""))
    else if StartsWith(line, " ") then
      var item := ReplaceFirst(line, "  ", "");
      assert StartsWith(line, "  ") ==> item == line[2..] by {
        if StartsWith(line, "  ") {
          ReplaceFirstAtStart(line, "  ", "");
        }
      }
      Kept(item)
    else Unknown
  }

  /** The closing tag owed for the span that is open, if any. */
  function CloseOf(last: Option<Kind>): seq<Piece> {
    if last.Some? then [Close(last.value)] else []
  }

  /** One pass of the loop body: the pieces appended and the new `last_sign`. */
  function Step(last: Option<Kind>, c: Line): (seq<Piece>, Option<Kind>)
    requires !c.Unknown?
  {
    match c
    case Added(item) =>
      (match last
       case Some(Strong) => ([Text(item)], Some(Strong))
       case Some(Em) => ([Close(Em), Open(Strong), Text(item)], Some(Strong))
       case None => ([Open(Strong), Text(item)], Some(Strong)))
    case Removed(item) =>
      (match last
       case Some(Em) => ([Text(item)], Some(Em))
       case Some(Strong) => ([Close(Strong), Open(Em), Text(item)], Some(Em))
       case None => ([Open(Em), Text(item)], Some(Em)))
    case Kept(item) =>
      (CloseOf(last) + [Text(item)], None)
  }

  predicate HasUnknown(lines: seq<string>) {
    exists i | 0 <= i < |lines| :: Classify(lines[i]).Unknown?
  }

  lemma UnknownStep(lines: seq<string>)
    requires |lines| > 0
    ensures HasUnknown(lines) <==> Classify(lines[0]).Unknown? || HasUnknown(lines[1..])
  {
    if HasUnknown(lines[1..]) {
      var i :| 0 <= i < |lines[1..]| && Classify(lines[1..][i]).Unknown?;
      assert lines[i + 1] == lines[1..][i];
    }
    if HasUnknown(lines) && !Classify(lines[0]).Unknown? {
      var i :| 0 <= i < |lines| && Classify(lines[i]).Unknown?;
      assert lines[1..][i - 1] == lines[i];
    }
  }

  /** The pieces the loop appends from state `last` on, closing the open span
      at the end; `None` when a line with an unknown prefix raises. */
  function RenderFrom(lines: seq<string>, last: Option<Kind>): (r: Option<seq<Piece>>)
    ensures r.None? <==> HasUnknown(lines)
  {
    if |lines| == 0 then Some(CloseOf(last))
    else
      var c := Classify(lines[0]);
      if c.Unknown? then None
      else
        var (ps, next) := Step(last, c);
        UnknownStep(lines);
        match RenderFrom(lines[1..], next)
        case None => None
        case Some(rest) => Some(ps + rest)
  }

  /** `diff_str` on the script `ndiff` produced. */
  function DiffStr(lines: seq<string>): (r: Result<string>)
    ensures r.Err? <==> HasUnknown(lines)
    ensures r.Err? ==> r.error == "difflib error"
  {
    match RenderFrom(lines, None)
    case None => Err("difflib error")
    case Some(ps) => Ok(Flatten(ps))
  }

  /** The text of the pieces with every tag removed. */
  function Erase(ps: seq<Piece>): string {
    if |ps| == 0 then ""
    else (if ps[0].Text? then ps[0].t else "") + Erase(ps[1..])
  }

  /** The items of the lines, in order. */
  function Items(lines: seq<string>): string
    requires !HasUnknown(lines)
  {
    if |lines| == 0 then ""
    else
      assert !Classify(lines[0]).Unknown?;
      UnknownStep(lines);
      Classify(lines[0]).item + Items(lines[1..])
  }

  lemma {:induction false} EraseAppend(a: seq<Piece>, b: seq<Piece>)
    ensures Erase(a + b) == Erase(a) + Erase(b)
  {
    if |a| == 0 {
      assert a + b == b;
    } else {
      EraseAppend(a[1..], b);
      assert (a + b)[0] == a[0] && (a + b)[1..] == a[1..] + b;
      var x := if a[0].Text? then a[0].t else "";
      calc {
        Erase(a + b);
        x + Erase(a[1..] + b);
        x + (Erase(a[1..]) + Erase(b));
        { assert x + (Erase(a[1..]) + Erase(b)) == (x + Erase(a[1..])) + Erase(b); }
        Erase(a) + Erase(b);
      }
    }
  }

  /** The tags read so far obey the discipline from state `open`: a span is
      opened only when none is open and closed only by its own kind. */
  predicate ValidRun(ps: seq<Piece>, open: Option<Kind>) {
    if |ps| == 0 then true
    else
      match ps[0]
      case Text(_) => ValidRun(ps[1..], open)
      case Open(k) => open.None? && ValidRun(ps[1..], Some(k))
      case Close(k) => open == Some(k) && ValidRun(ps[1..], None)
  }

  /** The open span after reading the pieces from state `open`. */
  function StateAfter(ps: seq<Piece>, open: Option<Kind>): Option<Kind> {
    if |ps| == 0 then open
    else
      match ps[0]
      case Text(_) => StateAfter(ps[1..], open)
      case Open(k) => StateAfter(ps[1..], Some(k))
      case Close(_) => StateAfter(ps[1..], None)
  }

  /** Well tagged: a valid run that leaves no span open. */
  predicate WellTagged(ps: seq<Piece>, open: Option<Kind>) {
    ValidRun(ps, open) && StateAfter(ps, open).None?
  }

  lemma {:induction false} RunAppend(a: seq<Piece>, b: seq<Piece>, open: Option<Kind>)
    ensures ValidRun(a + b, open) <==> ValidRun(a, open) && ValidRun(b, StateAfter(a, open))
    ensures StateAfter(a + b, open) == StateAfter(b, StateAfter(a, open))
  {
    if |a| == 0 {
      assert a + b == b;
    } else {
      assert (a + b)[1..] == a[1..] + b;
      var next := match a[0] case Text(_) => open case Open(k) => Some(k) case Close(_) => None;
      RunAppend(a[1..], b, next);
    }
  }

  /** The text outside every span of kind `drop`, read from state `open`. */
  function Outside(ps: seq<Piece>, open: Option<Kind>, drop: Kind): string {
    if |ps| == 0 then ""
    else
      match ps[0]
      case Text(t) => (if open == Some(drop) then "" else t) + Outside(ps[1..], open, drop)
      case Open(k) => Outside(ps[1..], Some(k), drop)
      case Close(_) => Outside(ps[1..], None, drop)
  }

  lemma {:induction false} OutsideAppend(a: seq<Piece>, b: seq<Piece>, open: Option<Kind>, drop: Kind)
    ensures Outside(a + b, open, drop) == Outside(a, open, drop) + Outside(b, StateAfter(a, open), drop)
  {
    if |a| == 0 {
      assert a + b == b;
    } else {
      assert (a + b)[1..] == a[1..] + b;
      var next := match a[0] case Text(_) => open case Open(k) => Some(k) case Close(_) => None;
      OutsideAppend(a[1..], b, next, drop);
    }
  }

  /** No span is closed and reopened with the same kind straight away:
      adjacent lines of one kind share one span. */
  predicate NoReopen(ps: seq<Piece>) {
    forall i | 0 <= i < |ps| - 1 :: ps[i].Close? ==> ps[i + 1] != Open(ps[i].kind)
  }

  lemma NoReopenAppend(a: seq<Piece>, b: seq<Piece>)
    requires NoReopen(a) && NoReopen(b)
    requires |a| > 0 ==> a[|a| - 1].Text?
    ensures NoReopen(a + b)
  {
    var ab := a + b;
    forall i | 0 <= i < |ab| - 1
      ensures ab[i].Close? ==> ab[i + 1] != Open(ab[i].kind)
    {
      if i >= |a| {
        assert ab[i] == b[i - |a|] && ab[i + 1] == b[i - |a| + 1];
      } else if i < |a| - 1 {
        assert ab[i] == a[i] && ab[i + 1] == a[i + 1];
      }
    }
  }

  /** The side of the two strings a line belongs to. */
  predicate OnSide(c: Line, before: bool) {
    c.Kept? || (before && c.Removed?) || (!before && c.Added?)
  }

  /** What one step contributes: its item as text, a valid run ending in the
      step's new state, its item outside the spans of the other side, and a
      final piece of text. */
  lemma StepFacts(last: Option<Kind>, c: Line)
    requires !c.Unknown?
    ensures Erase(Step(last, c).0) == c.item
    ensures ValidRun(Step(last, c).0, last)
    ensures StateAfter(Step(last, c).0, last) == Step(last, c).1
    ensures Outside(Step(last, c).0, last, Strong) == if OnSide(c, true) then c.item else ""
    ensures Outside(Step(last, c).0, last, Em) == if OnSide(c, false) then c.item else ""
    ensures NoReopen(Step(last, c).0)
    ensures |Step(last, c).0| > 0 && Step(last, c).0[|Step(last, c).0| - 1].Text?
  {
    match c
    case Added(item) =>
      match last {
        case Some(Strong) => TextPiece(last, item);
        case Some(Em) => CloseOpenPiece(Em, Strong, item);
        case None => OpenPiece(Strong, item);
      }
    case Removed(item) =>
      match last {
        case Some(Em) => TextPiece(last, item);
        case Some(Strong) => CloseOpenPiece(Strong, Em, item);
        case None => OpenPiece(Em, item);
      }
    case Kept(item) =>
      match last {
        case None => TextPiece(last, item);
        case Some(j) =>
          assert CloseOf(last) + [Text(item)] == [Close(j), Text(item)];
          ClosePiece(j, item);
      }
  }

  /** A lone text piece keeps the state and shows outside any other span. */
  lemma TextPiece(o: Option<Kind>, item: string)
    ensures Erase([Text(item)]) == item
    ensures ValidRun([Text(item)], o) && StateAfter([Text(item)], o) == o
    ensures Outside([Text(item)], o, Strong) == if o == Some(Strong) then "" else item
    ensures Outside([Text(item)], o, Em) == if o == Some(Em) then "" else item
    ensures NoReopen([Text(item)])
  {
    assert [Text(item)][1..] == [];
  }

  /** Opening a span from none, then its text. */
  lemma OpenPiece(k: Kind, item: string)
    ensures Erase([Open(k), Text(item)]) == item
    ensures ValidRun([Open(k), Text(item)], None) && StateAfter([Open(k), Text(item)], None) == Some(k)
    ensures Outside([Open(k), Text(item)], None, Strong) == if k == Strong then "" else item
    ensures Outside([Open(k), Text(item)], None, Em) == if k == Em then "" else item
    ensures NoReopen([Open(k), Text(item)])
  {
    assert [Open(k), Text(item)][1..] == [Text(item)];
    TextPiece(Some(k), item);
  }

  /** Closing the open span, then the text outside every span. */
  lemma ClosePiece(j: Kind, item: string)
    ensures Erase([Close(j), Text(item)]) == item
    ensures ValidRun([Close(j), Text(item)], Some(j)) && StateAfter([Close(j), Text(item)], Some(j)) == None
    ensures Outside([Close(j), Text(item)], Some(j), Strong) == item
    ensures Outside([Close(j), Text(item)], Some(j), Em) == item
    ensures NoReopen([Close(j), Text(item)])
  {
    assert [Close(j), Text(item)][1..] == [Text(item)];
    TextPiece(None, item);
  }

  /** Closing the open span and opening the other kind, then its text. */
  lemma CloseOpenPiece(j: Kind, k: Kind, item: string)
    requires j != k
    ensures Erase([Close(j), Open(k), Text(item)]) == item
    ensures ValidRun([Close(j), Open(k), Text(item)], Some(j))
    ensures StateAfter([Close(j), Open(k), Text(item)], Some(j)) == Some(k)
    ensures Outside([Close(j), Open(k), Text(item)], Some(j), Strong) == if k == Strong then "" else item
    ensures Outside([Close(j), Open(k), Text(item)], Some(j), Em) == if k == Em then "" else item
    ensures NoReopen([Close(j), Open(k), Text(item)])
  {
    assert [Close(j), Open(k), Text(item)][1..] == [Open(k), Text(item)];
    OpenPiece(k, item);
  }

  /** Removing every tag from the rendering gives the items of the script,
      in order. */
  lemma {:induction false} RenderErase(lines: seq<string>, last: Option<Kind>)
    requires !HasUnknown(lines)
    ensures Erase(RenderFrom(lines, last).value) == Items(lines)
  {
    if |lines| == 0 {
      if last.Some? {
        assert CloseOf(last)[1..] == [];
      }
    } else {
      var c := Classify(lines[0]);
      var (ps, next) := Step(last, c);
      UnknownStep(lines);
      StepFacts(last, c);
      RenderErase(lines[1..], next);
      EraseAppend(ps, RenderFrom(lines[1..], next).value);
    }
  }

  /** The rendering from a state is well tagged from that state: the tags
      never nest, each closes the span it opened and the end closes the last. */
  lemma {:induction false} RenderWellTagged(lines: seq<string>, last: Option<Kind>)
    requires !HasUnknown(lines)
    ensures WellTagged(RenderFrom(lines, last).value, last)
  {
    if |lines| == 0 {
      if last.Some? {
        assert CloseOf(last)[1..] == [];
      }
    } else {
      var c := Classify(lines[0]);
      var (ps, next) := Step(last, c);
      UnknownStep(lines);
      StepFacts(last, c);
      RenderWellTagged(lines[1..], next);
      RunAppend(ps, RenderFrom(lines[1..], next).value, last);
    }
  }

  /** The rendering never closes a span and reopens the same kind at once. */
  lemma {:induction false} RenderNoReopen(lines: seq<string>, last: Option<Kind>)
    requires !HasUnknown(lines)
    ensures NoReopen(RenderFrom(lines, last).value)
  {
    if |lines| > 0 {
      var c := Classify(lines[0]);
      var (ps, next) := Step(last, c);
      UnknownStep(lines);
      StepFacts(last, c);
      RenderNoReopen(lines[1..], next);
      NoReopenAppend(ps, RenderFrom(lines[1..], next).value);
    }
  }

  /** The items of the lines on one side: kept and removed characters for
      the first string, kept and added ones for the second. */
  function Side(lines: seq<string>, before: bool): string
    requires !HasUnknown(lines)
  {
    if |lines| == 0 then ""
    else
      var c := Classify(lines[0]);
      assert !c.Unknown?;
      UnknownStep(lines);
      (if OnSide(c, before) then c.item else "") + Side(lines[1..], before)
  }

  /** Dropping the `<strong>` spans leaves the first side's items and
      dropping the `<em>` spans leaves the second's. */
  lemma {:induction false} RenderSides(lines: seq<string>, last: Option<Kind>)
    requires !HasUnknown(lines)
    ensures Outside(RenderFrom(lines, last).value, last, Strong) == Side(lines, true)
    ensures Outside(RenderFrom(lines, last).value, last, Em) == Side(lines, false)
  {
    if |lines| == 0 {
      if last.Some? {
        assert CloseOf(last)[1..] == [];
      }
    } else {
      var c := Classify(lines[0]);
      var (ps, next) := Step(last, c);
      UnknownStep(lines);
      StepFacts(last, c);
      RenderSides(lines[1..], next);
      var rest := RenderFrom(lines[1..], next).value;
      OutsideAppend(ps, rest, last, Strong);
      OutsideAppend(ps, rest, last, Em);
    }
  }

  /** The script `ndiff` yields for two strings: every line is a kept, added
      or removed character, and the sides spell out the two strings. */
  predicate IsCharScript(s1: string, s2: string, lines: seq<string>) {
    && (forall i | 0 <= i < |lines| ::
          |lines[i]| == 3 && (StartsWith(lines[i], "  ") || StartsWith(lines[i], "+ ") || StartsWith(lines[i], "- ")))
    && !HasUnknown(lines)
    && Side(lines, true) == s1
    && Side(lines, false) == s2
  }

  /** For a script of `s1` against `s2`, `diff_str` succeeds; its text without
      tags holds every scripted character once, its tags are balanced, and
      dropping the `<strong>` (inserted) or `<em>` (deleted) spans gives back
      `s1` or `s2`. */
  lemma DiffStrOfScript(s1: string, s2: string, lines: seq<string>)
    requires IsCharScript(s1, s2, lines)
    ensures DiffStr(lines).Ok?
    ensures Erase(RenderFrom(lines, None).value) == Items(lines)
    ensures WellTagged(RenderFrom(lines, None).value, None)
    ensures NoReopen(RenderFrom(lines, None).value)
    ensures Outside(RenderFrom(lines, None).value, None, Strong) == s1
    ensures Outside(RenderFrom(lines, None).value, None, Em) == s2
  {
    RenderErase(lines, None);
    RenderWellTagged(lines, None);
    RenderNoReopen(lines, None);
    RenderSides(lines, None);
  }
}

=== FILE: es_document.dfy ===
/** The Elasticsearch side of a MongoDB document: copying a mongo object
  into its Elasticsearch document, putting search hits back into the order
  of their ids, resolving the dotted paths of the Elasticsearch model and
  serializer, and marking search terms in a document's data for display.

  The Elasticsearch client, the mongo query and `importlib` are outside the
  model: their results are parameters, and a resolved class is the module
  path and name it would be imported from.
 */
module EsDocument {
  import opened Wrappers
  import opened ODict
  import opened PyStrings
  import opened Values

  // --------------------------------------------------------------- transfer

  /** A mongo object as `transfer` sees it: the name of its class, the names
      of that class's ancestors, its `str()`, and the names of its class's
      declared fields. */
  datatype MongoObj = MongoObj(cls: string, ancestors: set<string>, text: string, declared: seq<string>)

  /** `isinstance(obj, c)`: `c` is the object's class or one of its
      ancestors. */
  predicate IsInstance(obj: MongoObj, c: string) {
    c == obj.cls || c in obj.ancestors
  }

  /** `{item: None for item in fields}`. */
  function Nulls(fields: seq<string>): (r: Entries<Value>)
    ensures forall k :: Lookup(r, k) == if k in fields then Some(Null) else None
  {
    if |fields| == 0 then []
    else
      var r := Put(Nulls(fields[..|fields| - 1]), fields[|fields| - 1], Null);
      assert forall k | k in fields :: k in fields[..|fields| - 1] || k == fields[|fields| - 1];
      r
  }

  /** The value `transfer` reads for a key: the serializer's, or `None` for a
      declared field the serializer left out. */
  function MetaValue(obj: MongoObj, serialized: Entries<Value>, k: string): Option<Value> {
    if k in KeySet(serialized) then Lookup(serialized, k) else if k in obj.declared then Some(Null) else None
  }

  /** `meta_data`: `None` for every declared field, updated with the
      serializer's data. */
  function Meta(obj: MongoObj, serialized: Entries<Value>): (r: Entries<Value>)
    ensures forall k :: Lookup(r, k) == MetaValue(obj, serialized, k)
  {
    var r := Update(Nulls(obj.declared), serialized);
    forall k ensures Lookup(r, k) == MetaValue(obj, serialized, k) {
      UpdateLookup(Nulls(obj.declared), serialized, k);
    }
    r
  }

  /** `transfer(obj, serializer_cls)`: the keyword arguments the Elasticsearch
      document is built from, given the object's serialized data and the
      Elasticsearch document's field names. */
  function Transfer(mongoCls: string, obj: MongoObj, serialized: Entries<Value>, esFields: seq<string>): (r: Result<Entries<Value>>)
    ensures r.Err? <==> !IsInstance(obj, mongoCls)
    ensures r.Err? ==> r.error == "can not parse " + obj.text
  {
    if !IsInstance(obj, mongoCls) then Err("can not parse " + obj.text)
    else
      var meta := Meta(obj, serialized);
      var data := [("_id", Str(PyStr(Lookup(meta, "id").GetOr(Null))))];
      Ok(Update(data, FilterKeys(meta, k => k in esFields)))
  }

  /** The document `transfer` builds: `_id` is `str` of the object's `id`
      unless `_id` is itself an Elasticsearch field the data has; every
      other key is an Elasticsearch field, with the serializer's value or
      `None` for a declared field the serializer left out. */
  lemma TransferFields(mongoCls: string, obj: MongoObj, serialized: Entries<Value>, esFields: seq<string>, k: string)
    requires IsInstance(obj, mongoCls)
    ensures k == "_id" && "_id" in esFields && MetaValue(obj, serialized, "_id").Some? ==>
              Lookup(Transfer(mongoCls, obj, serialized, esFields).value, k) == MetaValue(obj, serialized, "_id")
    ensures k == "_id" && !("_id" in esFields && MetaValue(obj, serialized, "_id").Some?) ==>
              Lookup(Transfer(mongoCls, obj, serialized, esFields).value, k) == Some(Str(PyStr(MetaValue(obj, serialized, "id").GetOr(Null))))
    ensures k != "_id" ==>
              Lookup(Transfer(mongoCls, obj, serialized, esFields).value, k) == if k in esFields then MetaValue(obj, serialized, k) else None
  {
    var meta := Meta(obj, serialized);
    var idText := Str(PyStr(Lookup(meta, "id").GetOr(Null)));
    var kept := FilterKeys(meta, k => k in esFields);
    assert Transfer(mongoCls, obj, serialized, esFields).value == Update([("_id", idText)], kept);
    UpdateOverOne("_id", idText, kept, k);
    assert Lookup(kept, k) == if k in esFields then MetaValue(obj, serialized, k) else None;
  }

  /** A one-pair dict updated with another: the other's value where it has
      the key, else the pair's. */
  lemma UpdateOverOne<V>(key: string, v: V, u: Entries<V>, k: string)
    ensures Lookup(Update([(key, v)], u), k) == if Lookup(u, k).Some? then Lookup(u, k) else if k == key then Some(v) else None
  {
    UpdateLookup([(key, v)], u, k);
    assert Lookup([(key, v)], k) == if k == key then Some(v) else None;
  }

  // -------------------------------------------------- get_sorted_mongo_objs

  /** A stored mongo object with its id as a string. */
  datatype Stored = Stored(id: string, body: Value)

  /** Whether some object has the id. */
  predicate Has(objs: seq<Stored>, id: string) {
    exists o | o in objs :: o.id == id
  }

  /** `res[id]` for `res = {str(o.id): o for o in objs}`: the last object
      with that id, which the comprehension keeps. */
  function LastWithId(objs: seq<Stored>, id: string): (r: Option<Stored>)
    ensures r.None? <==> !Has(objs, id)
    ensures r.Some? ==> r.value.id == id && r.value in objs
  {
    if |objs| == 0 then None
    else if objs[|objs| - 1].id == id then Some(objs[|objs| - 1])
    else
      var init := objs[..|objs| - 1];
      assert forall o | o in objs :: o in init || o == objs[|objs| - 1];
      assert forall o | o in init :: o in objs;
      LastWithId(init, id)
  }

  /** The ids of `ids` some object has, in order. */
  function Found(ids: seq<string>, objs: seq<Stored>): (r: seq<string>)
    ensures |r| <= |ids|
    ensures forall k :: k in r <==> k in ids && Has(objs, k)
  {
    if |ids| == 0 then []
    else
      var rest := Found(ids[1..], objs);
      assert forall k | k in ids :: k == ids[0] || k in ids[1..];
      if Has(objs, ids[0]) then [ids[0]] + rest else rest
  }

  /** `get_sorted_mongo_objs(ids)`, given the objects the query
      `objects(id__in=ids)` returned: for each id with an object, in the
      order of `ids`, that object. */
  function SortedMongoObjs(ids: seq<string>, objs: seq<Stored>): (r: seq<Stored>)
    ensures |r| == |Found(ids, objs)|
    ensures forall j | 0 <= j < |r| :: r[j].id == Found(ids, objs)[j] && r[j] in objs
  {
    if |ids| == 0 then []
    else
      var rest := SortedMongoObjs(ids[1..], objs);
      var hit := LastWithId(objs, ids[0]);
      if hit.Some? then [hit.value] + rest else rest
  }

  /** When every id has an object, the result follows `ids` one for one. */
  lemma AllFoundInOrder(ids: seq<string>, objs: seq<Stored>)
    requires forall i | 0 <= i < |ids| :: Has(objs, ids[i])
    ensures |SortedMongoObjs(ids, objs)| == |ids|
    ensures forall j | 0 <= j < |ids| :: SortedMongoObjs(ids, objs)[j].id == ids[j]
  {
    FoundAll(ids, objs);
  }

  lemma {:induction false} FoundAll(ids: seq<string>, objs: seq<Stored>)
    requires forall i | 0 <= i < |ids| :: Has(objs, ids[i])
    ensures Found(ids, objs) == ids
  {
    if |ids| > 0 {
      assert forall i | 0 <= i < |ids| - 1 :: ids[1..][i] == ids[i + 1];
      FoundAll(ids[1..], objs);
      assert Has(objs, ids[0]);
      assert ids == [ids[0]] + ids[1..];
    }
  }

  // ------------------------------------------ get_es_model / get_es_serializer

  /** A class named by a dotted path: the module to import and the name to
      take from it. */
  datatype ClassPath = ClassPath(path: string, name: string)

  lemma {:induction false} JoinSnoc(sep: string, parts: seq<string>)
    requires |parts| >= 2
    ensures Join(sep, parts) == Join(sep, parts[..|parts| - 1]) + sep + parts[|parts| - 1]
  {
    if |parts| == 2 {
      assert parts[..1] == [parts[0]];
    } else {
      var n := |parts|;
      var init := parts[..n - 1];
      JoinSnoc(sep, parts[1..]);
      assert parts[1..][..n - 2] == init[1..] && parts[1..][n - 2] == parts[n - 1];
      assert init[0] == parts[0];
      var j := Join(sep, init[1..]);
      calc {
        Join(sep, parts);
        parts[0] + sep + Join(sep, parts[1..]);
        parts[0] + sep + (j + sep + parts[n - 1]);
        { assert parts[0] + sep + (j + sep + parts[n - 1]) == (parts[0] + sep + j) + sep + parts[n - 1]; }
        (parts[0] + sep + j) + sep + parts[n - 1];
        Join(sep, init) + sep + parts[n - 1];
      }
    }
  }

  /** The module path (every dotted segment but the last) and the class
      name (the last segment); `import_module('')` refuses an empty path. */
  function SplitPath(path: string): (r: Result<ClassPath>)
    ensures r.Ok? ==> r.value.path + "." + r.value.name == path
    ensures r.Ok? ==> '.' !in r.value.name && |r.value.path| > 0
    ensures '.' !in path ==> r.Err?
  {
    var parts := Split(path, '.');
    var modulePath := Join(".", parts[..|parts| - 1]);
    var name := parts[|parts| - 1];
    if |parts| < 2 || modulePath == "" then Err("ValueError: Empty module name")
    else
      JoinSplit(path, '.');
      JoinSnoc(".", parts);
      Ok(ClassPath(modulePath, name))
  }

  /** `get_es_model()`: an unset model path raises. */
  function GetEsModel(path: string): (r: Result<ClassPath>)
    ensures path == "" ==> r == Err("usset es_model")
    ensures path != "" ==> r == SplitPath(path)
    ensures r.Ok? ==> r.value.path + "." + r.value.name == path
  {
    if path == "" then Err("usset es_model") else SplitPath(path)
  }

  /** `get_es_serializer()`: an unset serializer path means "no serializer". */
  function GetEsSerializer(path: string): (r: Result<Option<ClassPath>>)
    ensures path == "" ==> r == Ok(None)
    ensures r.Ok? && r.value.Some? ==> path != "" && r.value.value.path + "." + r.value.value.name == path
    ensures path != "" ==> (r.Ok? <==> SplitPath(path).Ok?)
  {
    if path == "" then Ok(None)
    else
      var c :- SplitPath(path);
      Ok(Some(c))
  }

  // ------------------------------------------------------ _replace_sign_data

  /** How a dictionary's own values are treated. As written, the string test
      looks at the dictionary instead of the value, so only list values are
      rewritten; the evident intent also marks string values. */
  datatype Reading = AsWritten | Intended

  /** The markup a search term is wrapped in. */
  function Mark(sign: string): (m: string)
    ensures |m| > |sign|
  {
    "<em>" + sign + "</em>"
  }

  /** Whether a dictionary's value is rewritten under a reading. */
  predicate Visited(v: Value, mode: Reading) {
    v.List? || (mode == Intended && v.Str?)
  }

  /** `_replace(item, sign)`: a string has every occurrence of `sign`
      wrapped, a list has each element processed, a dictionary has its
      visited values processed, anything else is kept. */
  function Highlight(v: Value, sign: string, mode: Reading): (r: Value)
    ensures v.Str? <==> r.Str?
    ensures v.List? <==> r.List?
    ensures v.Dict? <==> r.Dict?
    ensures r.List? ==> |r.items| == |v.items|
    ensures r.Dict? ==> |r.entries| == |v.entries|
    ensures !(v.Str? || v.List? || v.Dict?) ==> r == v
    decreases Size(v), 1
  {
    match v
    case Str(s) => Str(Replace(s, sign, Mark(sign)))
    case List(xs) => List(HighlightList(xs, sign, mode))
    case Dict(e) => Dict(HighlightEntries(e, sign, mode))
    case _ => v
  }

  function HighlightList(xs: seq<Value>, sign: string, mode: Reading): (r: seq<Value>)
    ensures |r| == |xs|
    decreases SizeList(xs), 0
  {
    if |xs| == 0 then [] else [Highlight(xs[0], sign, mode)] + HighlightList(xs[1..], sign, mode)
  }

  function HighlightEntries(e: seq<(string, Value)>, sign: string, mode: Reading): (r: seq<(string, Value)>)
    ensures |r| == |e|
    ensures forall i | 0 <= i < |e| :: r[i].0 == e[i].0
    decreases SizeEntries(e), 0
  {
    if |e| == 0 then []
    else
      FirstEntrySmaller(e);
      var v := e[0].1;
      var head := if Visited(v, mode) then Highlight(v, sign, mode) else v;
      var rest := HighlightEntries(e[1..], sign, mode);
      assert forall i | 1 <= i < |e| :: e[i] == e[1..][i - 1];
      [(e[0].0, head)] + rest
  }

  /** Whether the walk of `_replace` reaches a string containing `sign`. */
  predicate Reaches(v: Value, sign: string, mode: Reading)
    decreases Size(v), 1
  {
    match v
    case Str(s) => Contains(s, sign)
    case List(xs) => ReachesList(xs, sign, mode)
    case Dict(e) => ReachesEntries(e, sign, mode)
    case _ => false
  }

  predicate ReachesList(xs: seq<Value>, sign: string, mode: Reading)
    decreases SizeList(xs), 0
  {
    |xs| > 0 && (Reaches(xs[0], sign, mode) || ReachesList(xs[1..], sign, mode))
  }

  predicate ReachesEntries(e: seq<(string, Value)>, sign: string, mode: Reading)
    decreases SizeEntries(e), 0
  {
    |e| > 0 && (FirstEntrySmaller(e); (Visited(e[0].1, mode) && Reaches(e[0].1, sign, mode)) || ReachesEntries(e[1..], sign, mode))
  }

  /** For a non-empty term, `_replace` changes a value exactly when its walk
      reaches a string that contains the term. */
  lemma {:induction false} HighlightUnchangedIff(v: Value, sign: string, mode: Reading)
    requires |sign| > 0
    ensures Highlight(v, sign, mode) == v <==> !Reaches(v, sign, mode)
    decreases Size(v), 1
  {
    match v
    case Str(s) => ReplaceUnchangedIff(s, sign, Mark(sign));
    case List(xs) => HighlightListUnchangedIff(xs, sign, mode);
    case Dict(e) => HighlightEntriesUnchangedIff(e, sign, mode);
    case _ =>
  }

  lemma {:induction false} HighlightListUnchangedIff(xs: seq<Value>, sign: string, mode: Reading)
    requires |sign| > 0
    ensures HighlightList(xs, sign, mode) == xs <==> !ReachesList(xs, sign, mode)
    decreases SizeList(xs), 0
  {
    if |xs| > 0 {
      HighlightUnchangedIff(xs[0], sign, mode);
      HighlightListUnchangedIff(xs[1..], sign, mode);
      var r := HighlightList(xs, sign, mode);
      assert r[0] == Highlight(xs[0], sign, mode) && r[1..] == HighlightList(xs[1..], sign, mode);
      assert xs == [xs[0]] + xs[1..];
    }
  }

  lemma {:induction false} HighlightEntriesUnchangedIff(e: seq<(string, Value)>, sign: string, mode: Reading)
    requires |sign| > 0
    ensures HighlightEntries(e, sign, mode) == e <==> !ReachesEntries(e, sign, mode)
    decreases SizeEntries(e), 0
  {
    if |e| > 0 {
      FirstEntrySmaller(e);
      HighlightUnchangedIff(e[0].1, sign, mode);
      HighlightEntriesUnchangedIff(e[1..], sign, mode);
      var r := HighlightEntries(e, sign, mode);
      assert r[1..] == HighlightEntries(e[1..], sign, mode);
      assert e == [e[0]] + e[1..];
    }
  }

  /** A truthy value stays truthy under `_replace`. */
  lemma HighlightKeepsTruthy(v: Value, sign: string, mode: Reading)
    ensures Truthy(v) ==> Truthy(Highlight(v, sign, mode))
    ensures !Truthy(v) ==> Highlight(v, sign, mode) == v || Truthy(Highlight(v, sign, mode))
  {
    if v.Str? {
      if |sign| > 0 {
        ReplaceGrows(v.s, sign, Mark(sign));
        if v.s == "" {
          assert Replace(v.s, sign, Mark(sign)) == "";
        }
      }
    }
  }

  /** `for sign in signs: data_json = _replace(data_json, sign)`. */
  function HighlightAll(v: Value, signs: seq<string>, mode: Reading): (r: Value)
    decreases |signs|
  {
    if |signs| == 0 then v else HighlightAll(Highlight(v, signs[0], mode), signs[1..], mode)
  }

  lemma {:induction false} HighlightAllKeepsTruthy(v: Value, signs: seq<string>, mode: Reading)
    requires Truthy(v)
    ensures Truthy(HighlightAll(v, signs, mode))
    decreases |signs|
  {
    if |signs| > 0 {
      HighlightKeepsTruthy(v, signs[0], mode);
      HighlightAllKeepsTruthy(Highlight(v, signs[0], mode), signs[1..], mode);
    }
  }

  /** A value the terms changed is truthy, so `if v:` keeps every changed
      value. */
  lemma {:induction false} ChangedIsTruthy(v: Value, signs: seq<string>, mode: Reading)
    ensures HighlightAll(v, signs, mode) != v ==> Truthy(HighlightAll(v, signs, mode))
    decreases |signs|
  {
    if |signs| > 0 {
      var w := Highlight(v, signs[0], mode);
      HighlightKeepsTruthy(v, signs[0], mode);
      if w == v {
        ChangedIsTruthy(v, signs[1..], mode);
      } else {
        HighlightAllKeepsTruthy(w, signs[1..], mode);
      }
    }
  }

  /** `_replace_sign_data(data, signs)`: the rewritten copy, or `None` when it
      equals the original. The original is not touched, as the deep copy
      ensures. The values `_replace` rewrites differ from the original only
      in strings, so Python's `==` here is structural equality. */
  function ReplaceSignData(data: Value, signs: seq<string>, mode: Reading): (r: Option<Value>)
    ensures r.None? <==> HighlightAll(data, signs, mode) == data
    ensures r.Some? ==> r.value == HighlightAll(data, signs, mode) && Truthy(r.value)
  {
    var out := HighlightAll(data, signs, mode);
    ChangedIsTruthy(data, signs, mode);
    if out == data then None else Some(out)
  }

  /** One term on a string: marked exactly when it occurs. */
  lemma StringMarkedIff(s: string, sign: string, mode: Reading)
    requires |sign| > 0
    ensures ReplaceSignData(Str(s), [sign], mode).Some? <==> Contains(s, sign)
  {
    HighlightUnchangedIff(Str(s), sign, mode);
    assert [sign][1..] == [];
    assert HighlightAll(Str(s), [sign], mode) == Highlight(Str(s), sign, mode);
    assert Reaches(Str(s), sign, mode) == Contains(s, sign);
  }

  /** As written, a string held directly by a dictionary is never marked; the
      intended reading marks it. */
  lemma DictStringCounterexample()
    ensures ReplaceSignData(Dict([("title", Str("foo"))]), ["foo"], AsWritten).None?
    ensures ReplaceSignData(Dict([("title", Str("foo"))]), ["foo"], Intended) == Some(Dict([("title", Str("<em>foo</em>"))]))
  {
    var d := Dict([("title", Str("foo"))]);
    var e := [("title", Str("foo"))];
    assert ["foo"][1..] == [];
    assert HighlightAll(d, ["foo"], AsWritten) == Highlight(d, "foo", AsWritten);
    assert HighlightAll(d, ["foo"], Intended) == Highlight(d, "foo", Intended);
    assert HighlightEntries(e[1..], "foo", AsWritten) == [];
    assert HighlightEntries(e[1..], "foo", Intended) == [];
    assert StartsWith("foo", "foo");
    assert "foo"[|"foo"|..] == "";
    assert Replace("foo", "foo", Mark("foo")) == "<em>foo</em>";
    assert Highlight(Str("foo"), "foo", Intended) == Str("<em>foo</em>");
    assert HighlightEntries(e, "foo", Intended) == [("title", Str("<em>foo</em>"))];
    assert |"<em>foo</em>"| != |"foo"|;
  }

  /** The walk reaches a term inside a dictionary whenever one visited
      value reaches it. */
  lemma {:induction false} ReachesEntriesAt(e: seq<(string, Value)>, sign: string, mode: Reading, i: nat)
    requires i < |e| && Visited(e[i].1, mode) && Reaches(e[i].1, sign, mode)
    ensures ReachesEntries(e, sign, mode)
  {
    if i > 0 {
      assert e[1..][i - 1] == e[i];
      ReachesEntriesAt(e[1..], sign, mode, i - 1);
    }
  }

  /** Read as intended, a dictionary with a string value containing a
      non-empty term is always highlighted. */
  lemma IntendedMarksDictStrings(e: seq<(string, Value)>, sign: string, i: nat)
    requires |sign| > 0 && i < |e| && e[i].1.Str? && Contains(e[i].1.s, sign)
    ensures ReplaceSignData(Dict(e), [sign], Intended).Some?
  {
    ReachesEntriesAt(e, sign, Intended, i);
    HighlightUnchangedIff(Dict(e), sign, Intended);
    assert [sign][1..] == [];
    assert HighlightAll(Dict(e), [sign], Intended) == Highlight(Dict(e), sign, Intended);
  }

  /** As written, `_replace` leaves the string values of a dictionary alone. */
  lemma {:induction false} AsWrittenSkipsStrings(e: seq<(string, Value)>, sign: string)
    requires forall i | 0 <= i < |e| :: e[i].1.Str?
    ensures HighlightEntries(e, sign, AsWritten) == e
  {
    if |e| > 0 {
      AsWrittenSkipsStrings(e[1..], sign);
      assert e == [e[0]] + e[1..];
    }
  }

  /** As written, no term ever highlights a dictionary of strings. */
  lemma {:induction false} AsWrittenNeverMarksDictStrings(e: seq<(string, Value)>, signs: seq<string>)
    requires forall i | 0 <= i < |e| :: e[i].1.Str?
    ensures ReplaceSignData(Dict(e), signs, AsWritten).None?
    decreases |signs|
  {
    if |signs| > 0 {
      AsWrittenSkipsStrings(e, signs[0]);
      AsWrittenNeverMarksDictStrings(e, signs[1..]);
    }
  }

  // ---------------------------------------------------- gen_highlight_data

  const AllKey := "_all_"

  /** The keys of an object's data that are highlighted. */
  function HighlightKeys(data: Entries<Value>, terms: Entries<seq<string>>): (ks: seq<string>)
    ensures forall k :: k in ks <==> k in KeySet(data) && (AllKey in KeySet(terms) || k in KeySet(terms))
  {
    if AllKey in KeySet(terms) then Keys(data)
    else
      var f := FilterKeys(data, k => k in KeySet(terms));
      forall k ensures k in KeySet(f) <==> k in KeySet(data) && k in KeySet(terms) {
        assert Lookup(f, k) == if k in KeySet(terms) then Lookup(data, k) else None;
      }
      Keys(f)
  }

  /** The terms looked for under a key. */
  function Terms(terms: Entries<seq<string>>, k: string): seq<string> {
    if AllKey in KeySet(terms) then Lookup(terms, k).GetOr([]) + Lookup(terms, AllKey).GetOr([])
    else Lookup(terms, k).GetOr([])
  }

  /** The highlight dictionary built for the keys `ks`. */
  function HighlightItem(data: Entries<Value>, terms: Entries<seq<string>>, ks: seq<string>, mode: Reading): (r: Entries<Value>)
    requires forall k | k in ks :: k in KeySet(data)
    ensures forall k :: Lookup(r, k) == (if k in ks then ReplaceSignData(Lookup(data, k).value, Terms(terms, k), mode) else None)
    decreases |ks|
  {
    if |ks| == 0 then []
    else
      var k := ks[|ks| - 1];
      var prev := HighlightItem(data, terms, ks[..|ks| - 1], mode);
      assert forall j | j in ks :: j in ks[..|ks| - 1] || j == k;
      var v := ReplaceSignData(Lookup(data, k).value, Terms(terms, k), mode);
      if v.Some? && Truthy(v.value) then Put(prev, k, v.value)
      else
        assert v.None?;
        prev
  }

  /** `obj.highlight` as `gen_highlight_data` sets it: a key is present
      exactly when it is a highlighted key whose value its terms changed,
      and then holds the changed value. */
  function GenHighlight(data: Entries<Value>, terms: Entries<seq<string>>, mode: Reading): (r: Entries<Value>)
    ensures forall k :: Lookup(r, k).Some? <==>
      && k in KeySet(data) && (AllKey in KeySet(terms) || k in KeySet(terms))
      && HighlightAll(Lookup(data, k).value, Terms(terms, k), mode) != Lookup(data, k).value
    ensures forall k | Lookup(r, k).Some? :: Lookup(r, k).value == HighlightAll(Lookup(data, k).value, Terms(terms, k), mode)
  {
    HighlightItem(data, terms, HighlightKeys(data, terms), mode)
  }

  /** `gen_highlight_data(objs, highlight_dict)`: the highlight of every
      object, given each object's data. */
  function GenHighlightData(datas: seq<Entries<Value>>, terms: Entries<seq<string>>, mode: Reading): (r: seq<Entries<Value>>)
    ensures |r| == |datas|
    ensures forall i | 0 <= i < |datas| :: r[i] == GenHighlight(datas[i], terms, mode)
  {
    seq(|datas|, i requires 0 <= i < |datas| => GenHighlight(datas[i], terms, mode))
  }
}

=== FILE: formats.dfy ===
/** Table and response envelopes of the REST layer (`rest/formats.py` and
  `flask_restplus/formats.py`).

  An envelope object keeps the serializer, a field format (the class's
  format with the caller's entries laid over a copy), and attributes set
  from the keyword arguments. Its API description (`get_fields`) is the
  merged format with a `data` field added last. The instance attributes
  are a dictionary of `Value`s; `setattr` is `Put`. The serializer is
  reduced to what the envelopes read from it: its instance, its fields,
  the model's description and the names its class prints as.
 */
module Formats {
  import opened Wrappers
  import opened ODict
  import opened Values
  import Paginate

  /** The documentation fields of the API description (`fields.Integer`,
      `fields.String` as `Text`, `fields.Float`, ...). `attribute` is the
      name the value is read from when it differs from the key. */
  datatype Field =
    | Integer(attribute: Option<string>)
    | Text(attribute: Option<string>)
    | Float(attribute: Option<string>)
    | Boolean(attribute: Option<string>)
    | Date(attribute: Option<string>)
    | DateTime(attribute: Option<string>)
    | DateLocal(attribute: Option<string>)
    | Decimal(attribute: Option<string>)
    | ListOf(inner: Field, attribute: Option<string>)
    | Nested(model: ApiModel, attribute: Option<string>, skipNone: bool)

  /** `Model(name, fields)`. */
  datatype ApiModel = ApiModel(name: string, fields: Entries<Field>)

  /** The serializer's `Meta.model` as a table reads it. */
  datatype MetaModel = MetaModel(
    desc: string,             // `_model_desc_`, empty when unset
    typeName: string          // `__class__.__name__`
  )

  /** What an envelope reads from its serializer. */
  datatype Serializer = Serializer(
    instance: Value,          // `_serializer_._instance_`
    fields: Entries<Field>,   // `serializer_cls(...).fields`
    model: Option<MetaModel>, // `Meta.model`, `None` when `Meta` has none
    className: string,        // `serializer_cls.__name__`
    classRepr: string         // `str(serializer_cls)`
  )

  const DefaultPageSize: int := 20

  /** The errors the envelopes raise. */
  function MissingAttribute(name: string): string {
    "AttributeError: " + name
  }

  const NoMetaModel := "AttributeError: type object 'Meta' has no attribute 'model'"
  const NoLen := "TypeError: object has no len()"
  const ZeroDivision := "ZeroDivisionError: division by zero"
  const BadOperand := "TypeError: unsupported operand"

  /** `BaseTable.TABLE_FORMAT`. */
  const BaseTableFormat: Entries<Field> :=
    [("total", Integer(None)), ("page", Integer(Some("page"))), ("page_size", Integer(None))]

  /** `QttTable.TABLE_FORMAT`. */
  const QttTableFormat: Entries<Field> :=
    [("code", Integer(Some("_code"))), ("message", Text(None)), ("total", Integer(None)),
     ("current_page", Integer(Some("page"))), ("total_page", Integer(Some("_total_page")))]

  /** `SkvTable.TABLE_FORMAT`. */
  const SkvTableFormat: Entries<Field> :=
    [("status", Integer(Some("_status"))), ("message", Text(None)), ("total", Integer(None)),
     ("total_page", Integer(Some("_total_page")))]

  /** `copy.copy(cls.FORMAT)` updated with the caller's format: the caller's
      entries win and the class's format itself is left as it was. */
  function MergeFormat(classFormat: Entries<Field>, format: Entries<Field>): (r: Entries<Field>)
    ensures forall k :: Lookup(r, k) == if k in KeySet(format) then Lookup(format, k) else Lookup(classFormat, k)
    ensures KeySet(r) == KeySet(classFormat) + KeySet(format)
  {
    var r := Update(classFormat, format);
    forall k
      ensures Lookup(r, k) == if k in KeySet(format) then Lookup(format, k) else Lookup(classFormat, k)
    {
      UpdateLookup(classFormat, format, k);
    }
    r
  }

  /** `_items`: the serializer's instance, or `[]` when it is falsy. */
  function Items(s: Serializer): (r: Value)
    ensures Truthy(s.instance) ==> r == s.instance
    ensures !Truthy(s.instance) ==> r == List([])
  {
    if Truthy(s.instance) then s.instance else List([])
  }

  /** `_item`: the serializer's instance, or `{}` when it is falsy. */
  function Item(s: Serializer): (r: Value)
    ensures Truthy(s.instance) ==> r == s.instance
    ensures !Truthy(s.instance) ==> r == Dict([])
  {
    if Truthy(s.instance) then s.instance else Dict([])
  }

  /** A table envelope: its merged format, its attributes, and the `model`
      attribute, which is set only when no message was given. */
  datatype Table = Table(format: Entries<Field>, attrs: Entries<Value>, model: Option<MetaModel>)

  /** `kwargs.pop(k, default)`: the value and the remaining arguments. */
  function Pop(kwargs: Entries<Value>, k: string, default: Value): (r: (Value, Entries<Value>))
    ensures r.0 == (if Lookup(kwargs, k).Some? then Lookup(kwargs, k).value else default)
    ensures Lookup(r.1, k).None?
    ensures forall j | j != k :: Lookup(r.1, j) == Lookup(kwargs, j)
  {
    (if Lookup(kwargs, k).Some? then Lookup(kwargs, k).value else default, Remove(kwargs, k))
  }

  /** `setattr(self, k, v)` for every remaining keyword argument, in order. */
  function SetAll(attrs: Entries<Value>, kwargs: Entries<Value>): (r: Entries<Value>)
    ensures forall k :: Lookup(r, k) == if k in KeySet(kwargs) then Lookup(kwargs, k) else Lookup(attrs, k)
  {
    var r := Update(attrs, kwargs);
    forall k
      ensures Lookup(r, k) == if k in KeySet(kwargs) then Lookup(kwargs, k) else Lookup(attrs, k)
    {
      UpdateLookup(attrs, kwargs, k);
    }
    r
  }

  /** The `"%s列表"` message from the model's description, or from the name
      of the model's class when the description is empty. */
  function DefaultMessage(m: MetaModel): string {
    (if |m.desc| > 0 then m.desc else m.typeName) + "列表"
  }

  /** `pargs.page` and `pargs.page_size` of a parsed-arguments object, which
      is a dictionary read by attribute. */
  function PargsField(pargs: Value, name: string): Result<Value> {
    if pargs.Dict? && Lookup(pargs.entries, name).Some? then Ok(Lookup(pargs.entries, name).value)
    else Err(MissingAttribute(name))
  }

  /** The keyword arguments `__init__` consumes itself. */
  predicate Consumed(k: string) {
    k == "message" || k == "total" || k == "add_action" || k == "pargs"
  }

  /** The keyword arguments left for the `setattr` loop. */
  function Rest(kwargs: Entries<Value>): (r: Entries<Value>)
    ensures forall k :: Lookup(r, k) == if Consumed(k) then None else Lookup(kwargs, k)
  {
    Remove(Remove(Remove(Remove(kwargs, "message"), "total"), "add_action"), "pargs")
  }

  /** `kwargs.get(k, default)`. */
  function Arg(kwargs: Entries<Value>, k: string, default: Value): Value {
    if Lookup(kwargs, k).Some? then Lookup(kwargs, k).value else default
  }

  /** `kwargs.pop('total', None) or len(self._items)`. */
  function TableTotal(s: Serializer, kwargs: Entries<Value>): (r: Result<Value>)
    ensures Truthy(Arg(kwargs, "total", Null)) ==> r == Ok(Arg(kwargs, "total", Null))
    ensures !Truthy(Arg(kwargs, "total", Null)) ==> (r.Ok? <==> Len(Items(s)).Some?)
    ensures !Truthy(Arg(kwargs, "total", Null)) && r.Ok? ==> r.value == Int(Len(Items(s)).value)
  {
    var given := Arg(kwargs, "total", Null);
    if Truthy(given) then Ok(given)
    else match Len(Items(s))
      case Some(n) => Ok(Int(n))
      case None => Err(NoLen)
  }

  /** The attributes the paging sets. */
  predicate PagingKey(k: string) {
    k == "page" || k == "current_page" || k == "page_size"
  }

  /** The paging attributes. With a truthy `pargs` they are read from it
      (`page`, `current_page` and `page_size`); without one the second and
      third `kwargs.pop('pargs', ...)` find the key already gone, so the page
      is always 0 and the page size `DEFAULT_PAGE_SIZE`. */
  function TablePaging(pargs: Value): (r: Result<Entries<Value>>)
    ensures !Truthy(pargs) ==>
              r.Ok? && Lookup(r.value, "page") == Some(Int(0)) &&
              Lookup(r.value, "page_size") == Some(Int(DefaultPageSize)) && Lookup(r.value, "current_page").None?
    ensures Truthy(pargs) ==> (r.Ok? <==> PargsField(pargs, "page").Ok? && PargsField(pargs, "page_size").Ok?)
    ensures Truthy(pargs) && r.Ok? ==>
              Lookup(r.value, "page") == Some(PargsField(pargs, "page").value) &&
              Lookup(r.value, "current_page") == Some(PargsField(pargs, "page").value) &&
              Lookup(r.value, "page_size") == Some(PargsField(pargs, "page_size").value)
    ensures r.Ok? ==> forall k | !PagingKey(k) :: Lookup(r.value, k).None?
  {
    if Truthy(pargs) then
      var page :- PargsField(pargs, "page");
      var pageSize :- PargsField(pargs, "page_size");
      Ok(Put(Put(Put([], "page", page), "current_page", page), "page_size", pageSize))
    else
      Ok(Put(Put([], "page", Int(0)), "page_size", Int(DefaultPageSize)))
  }

  /** What marshalling reads for a documentation field whose attribute is
      `name` from a table: the properties `_items`, `_code`, `_status` and
      `_total_page` (each class format names only those its class defines),
      otherwise the attribute itself, `None` when unset. */
  function TableRead(t: Table, s: Serializer, name: string): Result<Value> {
    if name == "_items" then Ok(Items(s))
    else if name == "_code" then Ok(Code(t.attrs))
    else if name == "_status" then Ok(Status(t.attrs))
    else if name == "_total_page" then TotalPage(t.attrs)
    else Ok(if Lookup(t.attrs, name).Some? then Lookup(t.attrs, name).value else Null)
  }

  /** Which property each documented attribute of a table reads. */
  lemma TableReadProperties(t: Table, s: Serializer)
    ensures TableRead(t, s, "_items") == Ok(Items(s))
    ensures TableRead(t, s, "_code") == Ok(Code(t.attrs))
    ensures TableRead(t, s, "_status") == Ok(Status(t.attrs))
    ensures TableRead(t, s, "_total_page") == TotalPage(t.attrs)
  {
  }

  /** The attributes the properties read are neither consumed by
      `__init__` nor set by the paging. */
  lemma PlainKeys()
    ensures !Consumed("code") && !PagingKey("code")
    ensures !Consumed("status") && !PagingKey("status")
    ensures !Consumed("total_page") && !PagingKey("total_page")
    ensures PagingKey("page_size") && !Consumed("page_size")
  {
  }

  /** `BaseTable.__init__(_serializer_, format, **kwargs)`, the same in both
      copies: without a message the model is read from the serializer's
      `Meta` (and its absence raises), then the attributes it sets, then every
      remaining keyword argument through `setattr`, so `page` or `page_size`
      passed by keyword still replace the paging defaults. */
  function NewTable(classFormat: Entries<Field>, s: Serializer, format: Entries<Field>, kwargs: Entries<Value>): (r: Result<Table>)
    ensures r.Ok? <==>
      (Lookup(kwargs, "message").Some? || s.model.Some?) &&
      TableTotal(s, kwargs).Ok? && TablePaging(Arg(kwargs, "pargs", Null)).Ok?
    ensures r.Ok? ==> r.value.format == MergeFormat(classFormat, format)
    ensures r.Ok? ==> r.value.model == if Lookup(kwargs, "message").Some? then None else s.model
    ensures r.Ok? ==> (Lookup(r.value.attrs, "message") ==
      Some(if Lookup(kwargs, "message").Some? then Lookup(kwargs, "message").value else Str(DefaultMessage(s.model.value))))
    ensures r.Ok? ==> Lookup(r.value.attrs, "total") == Some(TableTotal(s, kwargs).value)
    ensures r.Ok? ==> Lookup(r.value.attrs, "add_action") == Some(Arg(kwargs, "add_action", Bool(false)))
    ensures r.Ok? ==> forall k | !Consumed(k) ::
      Lookup(r.value.attrs, k) ==
        if Lookup(kwargs, k).Some? then Lookup(kwargs, k) else Lookup(TablePaging(Arg(kwargs, "pargs", Null)).value, k)
    ensures r.Ok? ==> forall k | !Consumed(k) && !PagingKey(k) :: Lookup(r.value.attrs, k) == Lookup(kwargs, k)
  {
    if Lookup(kwargs, "message").None? && s.model.None? then Err(NoMetaModel)
    else
      var model := if Lookup(kwargs, "message").Some? then None else s.model;
      var message := if model.Some? then Str(DefaultMessage(model.value)) else Lookup(kwargs, "message").value;
      var total :- TableTotal(s, kwargs);
      var paging :- TablePaging(Arg(kwargs, "pargs", Null));
      var own := Put(Put(Put(paging, "message", message), "total", total), "add_action", Arg(kwargs, "add_action", Bool(false)));
      var attrs := SetAll(own, Rest(kwargs));
      Ok(Table(MergeFormat(classFormat, format), attrs, model))
  }

  /** An explicit total of 0 is falsy and falls back to the number of items. */
  lemma ZeroTotalFallsBack(classFormat: Entries<Field>, s: Serializer, format: Entries<Field>, kwargs: Entries<Value>)
    requires Lookup(kwargs, "total") == Some(Int(0))
    requires Lookup(kwargs, "pargs").None?
    requires s.instance.List?
    requires Lookup(kwargs, "message").Some? || s.model.Some?
    ensures NewTable(classFormat, s, format, kwargs).Ok?
    ensures Lookup(NewTable(classFormat, s, format, kwargs).value.attrs, "total") == Some(Int(|s.instance.items|))
  {
    assert Len(Items(s)) == Some(|s.instance.items|);
    assert Arg(kwargs, "total", Null) == Int(0);
    assert TableTotal(s, kwargs) == Ok(Int(|s.instance.items|));
    assert Arg(kwargs, "pargs", Null) == Null;
    assert TablePaging(Null).Ok?;
  }

  /** `int(a / b)`: true division truncated toward zero. */
  function TruncDiv(a: int, b: int): (q: int)
    requires b != 0
    ensures b > 0 && a >= 0 ==> q == a / b
    ensures -q == (if (a >= 0) == (b > 0) then -1 else 1) * (Paginate.Abs(a) / Paginate.Abs(b))
  {
    var q := Paginate.Abs(a) / Paginate.Abs(b);
    if (a >= 0) == (b > 0) then q else -q
  }

  /** The page count of `_total_page` when the attribute is not set:
      `int((total - 1) / page_size) + 1`, or 1 for the page size -1. */
  function PageCount(total: int, pageSize: int): (r: Result<int>)
    ensures r.Err? <==> pageSize == 0
    ensures pageSize == -1 ==> r == Ok(1)
  {
    if pageSize == -1 then Ok(1)
    else if pageSize == 0 then Err(ZeroDivision)
    else Ok(TruncDiv(total - 1, pageSize) + 1)
  }

  /** For a non-empty table the count is the ceiling of total / page size:
      the last page is the one holding the last row. */
  lemma PageCountIsCeiling(total: int, pageSize: int)
    requires total >= 1 && pageSize >= 1
    ensures PageCount(total, pageSize).Ok?
    ensures var n := PageCount(total, pageSize).value;
      (n - 1) * pageSize < total <= n * pageSize
  {
    var n := PageCount(total, pageSize).value;
    var q := (total - 1) / pageSize;
    assert n == q + 1;
    assert q * pageSize <= total - 1 < (q + 1) * pageSize;
  }

  /** An empty table reports one page, since `int(-1 / page_size)` is 0,
      except with a page size of 1, where the quotient is -1 and it reports
      none. */
  lemma EmptyTablePages(pageSize: int)
    requires pageSize >= 1
    ensures PageCount(0, pageSize) == if pageSize == 1 then Ok(0) else Ok(1)
  {
    assert TruncDiv(-1, pageSize) == if pageSize == 1 then -1 else 0;
  }

  /** The pages the count reports hold every row, page by page. */
  lemma PageCountCoversRows<T>(rows: seq<T>, pageSize: int)
    requires |rows| >= 1 && pageSize >= 1
    ensures PageCount(|rows|, pageSize).Ok? && PageCount(|rows|, pageSize).value >= 1
    ensures Paginate.Pages(rows, pageSize, PageCount(|rows|, pageSize).value) == rows
  {
    PageCountIsCeiling(|rows|, pageSize);
    var n := PageCount(|rows|, pageSize).value;
    assert n >= 1;
    Paginate.PagesArePrefix(rows, pageSize, n);
    assert Paginate.Min(n * pageSize, |rows|) == |rows|;
  }

  /** `QttTable._total_page` and `SkvTable._total_page`: an explicit
      `total_page` attribute wins; otherwise the count from `total` and
      `page_size`, which must be numbers. */
  function TotalPage(attrs: Entries<Value>): (r: Result<Value>)
    ensures Lookup(attrs, "total_page").Some? ==> r == Ok(Lookup(attrs, "total_page").value)
    ensures (Lookup(attrs, "total_page").None? && Lookup(attrs, "page_size").Some? &&
             PyEq(Lookup(attrs, "page_size").value, Int(-1))) ==> r == Ok(Int(1))
    ensures Lookup(attrs, "total_page").None? && Lookup(attrs, "page_size") == Some(Int(0)) ==> r.Err?
    ensures (Lookup(attrs, "total_page").None? && Lookup(attrs, "total").Some? && Lookup(attrs, "total").value.Int? &&
             Lookup(attrs, "page_size").Some? && Lookup(attrs, "page_size").value.Int? &&
             Lookup(attrs, "page_size").value.i !in {0, -1}) ==>
              r == Ok(Int(PageCount(Lookup(attrs, "total").value.i, Lookup(attrs, "page_size").value.i).value))
  {
    match Lookup(attrs, "total_page")
    case Some(v) => Ok(v)
    case None =>
      match Lookup(attrs, "page_size")
      case None => Err(MissingAttribute("page_size"))
      case Some(ps) =>
        if PyEq(ps, Int(-1)) then Ok(Int(1))
        else if !(ps.Int? || ps.Bool?) then Err(BadOperand)
        else match Lookup(attrs, "total")
          case None => Err(MissingAttribute("total"))
          case Some(t) =>
            if !(t.Int? || t.Bool?) then Err(BadOperand)
            else
              var n :- PageCount(Numeric(t), Numeric(ps));
              Ok(Int(n))
  }

  /** `QttTable._code`: the `code` attribute, 0 when unset. */
  function Code(attrs: Entries<Value>): (r: Value)
    ensures Lookup(attrs, "code").None? ==> r == Int(0)
    ensures Lookup(attrs, "code").Some? ==> r == Lookup(attrs, "code").value
  {
    match Lookup(attrs, "code") case Some(v) => v case None => Int(0)
  }

  /** `SkvTable._status` and `SkvSucResponse._status`: the `status`
      attribute, 200 when unset. */
  function Status(attrs: Entries<Value>): (r: Value)
    ensures Lookup(attrs, "status").None? ==> r == Int(200)
    ensures Lookup(attrs, "status").Some? ==> r == Lookup(attrs, "status").value
  {
    match Lookup(attrs, "status") case Some(v) => v case None => Int(200)
  }

  /** A new table reports the `code` it was given, and 0 otherwise. */
  lemma TableCode(classFormat: Entries<Field>, s: Serializer, format: Entries<Field>, kwargs: Entries<Value>)
    requires NewTable(classFormat, s, format, kwargs).Ok?
    ensures TableRead(NewTable(classFormat, s, format, kwargs).value, s, "_code") == Ok(Arg(kwargs, "code", Int(0)))
  {
    var t := NewTable(classFormat, s, format, kwargs).value;
    PlainKeys();
    TableReadProperties(t, s);
  }

  /** A new table reports the `status` it was given, and 200 otherwise. */
  lemma TableStatus(classFormat: Entries<Field>, s: Serializer, format: Entries<Field>, kwargs: Entries<Value>)
    requires NewTable(classFormat, s, format, kwargs).Ok?
    ensures TableRead(NewTable(classFormat, s, format, kwargs).value, s, "_status") == Ok(Arg(kwargs, "status", Int(200)))
  {
    var t := NewTable(classFormat, s, format, kwargs).value;
    PlainKeys();
    TableReadProperties(t, s);
  }

  /** Without an explicit total, the total a new table reports is the number
      of rows its `data` field lists (`TableFields` reads them from
      `_items`). */
  lemma TableTotalCountsRows(classFormat: Entries<Field>, s: Serializer, format: Entries<Field>, kwargs: Entries<Value>)
    requires NewTable(classFormat, s, format, kwargs).Ok?
    requires !Truthy(Arg(kwargs, "total", Null))
    requires s.instance.List? || s.instance.Null?
    ensures var rows := TableRead(NewTable(classFormat, s, format, kwargs).value, s, "_items");
      rows.Ok? && rows.value.List? &&
      Lookup(NewTable(classFormat, s, format, kwargs).value.attrs, "total") == Some(Int(|rows.value.items|))
  {
    TableReadProperties(NewTable(classFormat, s, format, kwargs).value, s);
    TotalCountsItems(s, kwargs);
  }

  /** Without an explicit total and with a list (or no) instance, the total
      is the number of items. */
  lemma TotalCountsItems(s: Serializer, kwargs: Entries<Value>)
    requires !Truthy(Arg(kwargs, "total", Null))
    requires s.instance.List? || s.instance.Null?
    ensures Items(s).List? && TableTotal(s, kwargs) == Ok(Int(|Items(s).items|))
  {
    assert Len(Items(s)) == Some(|Items(s).items|);
  }

  /** A new table without paging arguments has pages of 20 rows, and the
      `_total_page` it reports is the number of such pages its total fills. */
  lemma TableTotalPages(classFormat: Entries<Field>, s: Serializer, format: Entries<Field>, kwargs: Entries<Value>, total: int)
    requires NewTable(classFormat, s, format, kwargs).Ok?
    requires Lookup(kwargs, "pargs").None? && Lookup(kwargs, "page_size").None? && Lookup(kwargs, "total_page").None?
    requires Lookup(NewTable(classFormat, s, format, kwargs).value.attrs, "total") == Some(Int(total)) && total >= 1
    ensures var pages := TableRead(NewTable(classFormat, s, format, kwargs).value, s, "_total_page");
      pages.Ok? && pages.value.Int? &&
      (pages.value.i - 1) * DefaultPageSize < total <= pages.value.i * DefaultPageSize
  {
    var t := NewTable(classFormat, s, format, kwargs).value;
    PlainKeys();
    TableReadProperties(t, s);
    assert Arg(kwargs, "pargs", Null) == Null;
    assert Lookup(t.attrs, "page_size") == Some(Int(DefaultPageSize));
    PagesOfTwenty(t.attrs, total);
  }

  /** The page count `_total_page` derives from a total and pages of 20 rows. */
  lemma PagesOfTwenty(attrs: Entries<Value>, total: int)
    requires Lookup(attrs, "total_page").None? && Lookup(attrs, "page_size") == Some(Int(DefaultPageSize))
    requires Lookup(attrs, "total") == Some(Int(total)) && total >= 1
    ensures TotalPage(attrs).Ok? && TotalPage(attrs).value.Int?
    ensures (TotalPage(attrs).value.i - 1) * DefaultPageSize < total <= TotalPage(attrs).value.i * DefaultPageSize
  {
    PageCountIsCeiling(total, DefaultPageSize);
  }

  /** `BaseTable.get_fields`: the merged format with `data` set last to the
      list of item models, so no caller format can replace it. The item model
      is the serializer's fields, plus `actions` when asked for. */
  function TableFields(classFormat: Entries<Field>, s: Serializer, name: Option<string>, addAction: bool,
                       skipNone: bool, format: Entries<Field>): (r: ApiModel)
    ensures r.name == if name.Some? then name.value else "Table" + s.classRepr
    ensures Lookup(r.fields, "data") ==
      Some(ListOf(Nested(ApiModel("ListItem" + s.className,
                                  if addAction then Put(s.fields, "actions", ListOf(Text(None), None)) else s.fields),
                         None, skipNone), Some("_items")))
    ensures forall k | k != "data" :: Lookup(r.fields, k) == Lookup(MergeFormat(classFormat, format), k)
  {
    var modelFields := if addAction then Put(s.fields, "actions", ListOf(Text(None), None)) else s.fields;
    var item := ApiModel("ListItem" + s.className, modelFields);
    var res := Put(MergeFormat(classFormat, format), "data", ListOf(Nested(item, None, skipNone), Some("_items")));
    ApiModel(if name.Some? then name.value else "Table" + s.classRepr, res)
  }

  /** A response envelope: its merged format and its attributes. */
  datatype Response = Response(format: Entries<Field>, attrs: Entries<Value>)

  /** `BaseResponse.__init__`: `message` defaults to the empty string and
      the other keyword arguments become attributes. */
  function NewResponse(classFormat: Entries<Field>, format: Entries<Field>, kwargs: Entries<Value>): (r: Response)
    ensures r.format == MergeFormat(classFormat, format)
    ensures Lookup(r.attrs, "message") ==
      Some(if Lookup(kwargs, "message").Some? then Lookup(kwargs, "message").value else Str(""))
    ensures forall k | k != "message" :: Lookup(r.attrs, k) == Lookup(kwargs, k)
  {
    var (message, rest) := Pop(kwargs, "message", Str(""));
    Response(MergeFormat(classFormat, format), SetAll(Put([], "message", message), rest))
  }

  /** What marshalling reads for a documentation field whose attribute is
      `name` from a response: the properties `_item`, `_code` and `_status`,
      otherwise the attribute itself, `None` when unset. */
  function ResponseRead(resp: Response, s: Serializer, name: string): Value {
    if name == "_item" then Item(s)
    else if name == "_code" then Code(resp.attrs)
    else if name == "_status" then Status(resp.attrs)
    else if Lookup(resp.attrs, name).Some? then Lookup(resp.attrs, name).value else Null
  }

  /** Which property each documented attribute of a response reads. */
  lemma ResponseReadProperties(resp: Response, s: Serializer)
    ensures ResponseRead(resp, s, "_item") == Item(s)
    ensures ResponseRead(resp, s, "_code") == Code(resp.attrs)
    ensures ResponseRead(resp, s, "_status") == Status(resp.attrs)
    ensures "code" != "message" && "status" != "message"
  {
  }

  /** A new response reports the `code` it was given, and 0 otherwise. */
  lemma ResponseCode(classFormat: Entries<Field>, format: Entries<Field>, kwargs: Entries<Value>, s: Serializer)
    ensures ResponseRead(NewResponse(classFormat, format, kwargs), s, "_code") == Arg(kwargs, "code", Int(0))
  {
    ResponseReadProperties(NewResponse(classFormat, format, kwargs), s);
  }

  /** A new response reports the `status` it was given, and 200 otherwise. */
  lemma ResponseStatus(classFormat: Entries<Field>, format: Entries<Field>, kwargs: Entries<Value>, s: Serializer)
    ensures ResponseRead(NewResponse(classFormat, format, kwargs), s, "_status") == Arg(kwargs, "status", Int(200))
  {
    ResponseReadProperties(NewResponse(classFormat, format, kwargs), s);
  }

  /** The `data` field of a response reads the serializer's instance, and a
      dictionary (so a nested item) when the instance is empty. */
  lemma ResponseDataItem(classFormat: Entries<Field>, format: Entries<Field>, kwargs: Entries<Value>, s: Serializer,
                         itemModel: ApiModel, name: Option<string>, skipNone: bool)
    requires s.instance.Dict? || s.instance.Null?
    ensures var data := Lookup(ResponseFields(classFormat, s, itemModel, name, skipNone, format).fields, "data").value;
      var item := ResponseRead(NewResponse(classFormat, format, kwargs), s, data.attribute.value);
      item.Dict? && (Truthy(s.instance) ==> item == s.instance)
  {
  }

  /** The classes that define `get_fields` for responses. */
  datatype ResponseClass = BaseResponseClass | ListResponseMixinClass | BaseListResponseClass | ListResponseClass

  /** The method resolution order of each class. */
  function Mro(c: ResponseClass): seq<ResponseClass> {
    match c
    case BaseResponseClass => [BaseResponseClass]
    case ListResponseMixinClass => [ListResponseMixinClass]
    case BaseListResponseClass => [BaseListResponseClass, BaseResponseClass, ListResponseMixinClass]
    case ListResponseClass => [ListResponseClass, BaseResponseClass]
  }

  /** Whether the class body itself defines `get_fields`. */
  predicate DefinesGetFields(c: ResponseClass) {
    c != BaseListResponseClass
  }

  /** The class whose `get_fields` a lookup on `c` finds: the first in the
      resolution order that defines it. */
  function ResolveGetFields(c: ResponseClass): (r: ResponseClass)
    ensures r in Mro(c) && DefinesGetFields(r)
    ensures forall i | 0 <= i < |Mro(c)| && Mro(c)[i] == r :: forall j | 0 <= j < i :: !DefinesGetFields(Mro(c)[j])
  {
    if DefinesGetFields(c) then c else BaseResponseClass
  }

  /** `BaseResponse.get_fields`: `data` is the nested model of one item. */
  function ResponseFields(classFormat: Entries<Field>, s: Serializer, itemModel: ApiModel, name: Option<string>,
                          skipNone: bool, format: Entries<Field>): (r: ApiModel)
    ensures r.name == if name.Some? then name.value else "Response" + s.classRepr
    ensures Lookup(r.fields, "data") == Some(Nested(itemModel, Some("_item"), skipNone))
    ensures forall k | k != "data" :: Lookup(r.fields, k) == Lookup(MergeFormat(classFormat, format), k)
  {
    var res := Put(MergeFormat(classFormat, format), "data", Nested(itemModel, Some("_item"), skipNone));
    ApiModel(if name.Some? then name.value else "Response" + s.classRepr, res)
  }

  /** `ListResponseMixin.get_fields` and `ListResponse.get_fields`: `data` is
      a list of item models built from the serializer's fields. */
  function ListResponseFields(classFormat: Entries<Field>, s: Serializer, name: Option<string>,
                              skipNone: bool, format: Entries<Field>): (r: ApiModel)
    ensures Lookup(r.fields, "data") ==
      Some(ListOf(Nested(ApiModel("ListItem" + s.className, s.fields), None, skipNone), Some("_item")))
    ensures forall k | k != "data" :: Lookup(r.fields, k) == Lookup(MergeFormat(classFormat, format), k)
  {
    var item := ApiModel("ListItem" + s.className, s.fields);
    var res := Put(MergeFormat(classFormat, format), "data", ListOf(Nested(item, None, skipNone), Some("_item")));
    ApiModel(if name.Some? then name.value else "Response" + s.classRepr, res)
  }

  /** `cls.get_fields(...)` on a response class. */
  function GetFields(c: ResponseClass, classFormat: Entries<Field>, s: Serializer, itemModel: ApiModel,
                     name: Option<string>, skipNone: bool, format: Entries<Field>): ApiModel
  {
    match ResolveGetFields(c)
    case BaseResponseClass => ResponseFields(classFormat, s, itemModel, name, skipNone, format)
    case _ => ListResponseFields(classFormat, s, name, skipNone, format)
  }

  /** `BaseListResponse(BaseResponse, ListResponseMixin)` finds
      `BaseResponse.get_fields` first, so its `data` is a single nested item
      and the mixin's list is never used. */
  lemma ListMixinShadowed(classFormat: Entries<Field>, s: Serializer, itemModel: ApiModel,
                          name: Option<string>, skipNone: bool, format: Entries<Field>)
    ensures var m := GetFields(BaseListResponseClass, classFormat, s, itemModel, name, skipNone, format);
      Lookup(m.fields, "data") == Some(Nested(itemModel, Some("_item"), skipNone)) &&
      m == GetFields(BaseResponseClass, classFormat, s, itemModel, name, skipNone, format)
    ensures var m := GetFields(ListResponseMixinClass, classFormat, s, itemModel, name, skipNone, format);
      Lookup(m.fields, "data").value.ListOf?
  {
  }
}

=== FILE: http_utils.dfy ===
/** Request helpers: the client address behind proxies and the
  "object or 404" lookup.

  Flask's `request.headers` reads the WSGI environ: the server files each
  request header under its CGI name (section 4.1.18 of RFC 3875: `HTTP_`
  and the name in upper case with `-` read as `_`), and werkzeug's
  `EnvironHeaders.get` folds the name it is asked for the same way. So the
  headers are the environ map here, and a lookup ignores ASCII case and
  does not tell `-` from `_`. The peer address may itself be missing.
  Model classes, the registered handlers and the subclass test are
  parameters.
 */
module HttpUtils {
  import opened Wrappers
  import opened PyStrings

  /** The proxy headers, in the order they are consulted. */
  const IpHeaders: seq<string> := ["x-forwarded-for", "Proxy-Client-IP", "WL-Proxy-Client-IP"]

  /** `ip is None or len(ip) == 0 or "unknown" == ip`. */
  predicate Unusable(ip: Option<string>) {
    ip.None? || |ip.value| == 0 || ip.value == "unknown"
  }

  /** `key.upper().replace("-", "_")`, on ASCII letters. */
  function FoldName(name: string): (r: string)
    ensures |r| == |name|
    ensures forall i | 0 <= i < |r| :: r[i] == if name[i] == '-' then '_' else UpperChar(name[i])
  {
    if |name| == 0 then "" else [if name[0] == '-' then '_' else UpperChar(name[0])] + FoldName(name[1..])
  }

  /** The environ key a header is filed under: the two content headers
      without the `HTTP_` prefix, every other one with it. */
  function EnvironKey(name: string): (r: string)
    ensures FoldName(name) in {"CONTENT_TYPE", "CONTENT_LENGTH"} ==> r == FoldName(name)
    ensures FoldName(name) !in {"CONTENT_TYPE", "CONTENT_LENGTH"} ==> r == "HTTP_" + FoldName(name)
  {
    var key := FoldName(name);
    if key in {"CONTENT_TYPE", "CONTENT_LENGTH"} then key else "HTTP_" + key
  }

  /** `request.headers.get(name)`: `None` when the header was not sent. */
  function HeaderGet(environ: map<string, string>, name: string): (r: Option<string>)
    ensures r.Some? <==> EnvironKey(name) in environ
    ensures r.Some? ==> r.value == environ[EnvironKey(name)]
  {
    var key := EnvironKey(name);
    if key in environ then Some(environ[key]) else None
  }

  /** Two spellings that fold alike read the same header. */
  lemma SameFoldSameHeader(environ: map<string, string>, a: string, b: string)
    requires FoldName(a) == FoldName(b)
    ensures HeaderGet(environ, a) == HeaderGet(environ, b)
  {
  }

  /** A header name is found whatever the case of its letters. */
  lemma FoldIgnoresCase(name: string)
    ensures FoldName(Lower(name)) == FoldName(name)
  {
    forall i | 0 <= i < |name|
      ensures FoldName(Lower(name))[i] == FoldName(name)[i]
    {
      UpperOfLower(name[i]);
    }
  }

  /** A header name is found whichever of `-` and `_` it is written with. */
  lemma FoldDashIsUnderscore(name: string, i: nat)
    requires i < |name| && name[i] == '-'
    ensures FoldName(name[..i] + "_" + name[i + 1..]) == FoldName(name)
  {
    var t := name[..i] + "_" + name[i + 1..];
    assert |t| == |name|;
    forall j | 0 <= j < |t|
      ensures FoldName(t)[j] == FoldName(name)[j]
    {
      if j == i {
        assert t[j] == '_';
      } else {
        assert t[j] == name[j];
      }
    }
  }

  /** The name `get_real_ip` asks for folds to the forwarded-for key. */
  lemma ForwardedForKey()
    ensures FoldName("x-forwarded-for") == "X_FORWARDED_FOR"
  {
    FoldsTo("x-forwarded-for", "X_FORWARDED_FOR");
  }

  /** Folding a name compared character by character. */
  lemma FoldsTo(name: string, key: string)
    requires |name| == |key|
    requires forall i | 0 <= i < |name| :: key[i] == if name[i] == '-' then '_' else UpperChar(name[i])
    ensures FoldName(name) == key
  {
  }

  /** `get_real_ip()`: each header replaces the previous candidate while the
      candidate is unusable, and the peer address is the last resort. */
  function GetRealIp(environ: map<string, string>, remoteAddr: Option<string>): (r: Option<string>)
    ensures r in [HeaderGet(environ, IpHeaders[0]), HeaderGet(environ, IpHeaders[1]),
                  HeaderGet(environ, IpHeaders[2]), remoteAddr]
    ensures r == remoteAddr || !Unusable(r)
  {
    var ip := HeaderGet(environ, "x-forwarded-for");
    var ip := if Unusable(ip) then HeaderGet(environ, "Proxy-Client-IP") else ip;
    var ip := if Unusable(ip) then HeaderGet(environ, "WL-Proxy-Client-IP") else ip;
    if Unusable(ip) then remoteAddr else ip
  }

  /** Position `i` holds the first usable header among `names`. */
  predicate FirstUsableAt(environ: map<string, string>, names: seq<string>, i: int) {
    0 <= i < |names| && !Unusable(HeaderGet(environ, names[i])) &&
    forall j | 0 <= j < i :: Unusable(HeaderGet(environ, names[j]))
  }

  /** The first usable header among `names`, or the peer address when none
      is usable. */
  function FirstUsable(environ: map<string, string>, names: seq<string>, remoteAddr: Option<string>): (r: Option<string>)
    ensures (forall i | 0 <= i < |names| :: Unusable(HeaderGet(environ, names[i]))) ==> r == remoteAddr
    ensures (exists i | 0 <= i < |names| :: !Unusable(HeaderGet(environ, names[i]))) ==>
      exists i :: FirstUsableAt(environ, names, i) && r == HeaderGet(environ, names[i])
  {
    if |names| == 0 then remoteAddr
    else if !Unusable(HeaderGet(environ, names[0])) then
      assert FirstUsableAt(environ, names, 0);
      HeaderGet(environ, names[0])
    else
      var r := FirstUsable(environ, names[1..], remoteAddr);
      assert (exists i | 0 <= i < |names| :: !Unusable(HeaderGet(environ, names[i]))) ==>
        exists i :: FirstUsableAt(environ, names, i) && r == HeaderGet(environ, names[i]) by {
        if exists i | 0 <= i < |names| :: !Unusable(HeaderGet(environ, names[i])) {
          var k :| 0 <= k < |names| && !Unusable(HeaderGet(environ, names[k]));
          assert names[1..][k - 1] == names[k];
          var i :| FirstUsableAt(environ, names[1..], i) && r == HeaderGet(environ, names[1..][i]);
          assert forall j | 1 <= j < i + 1 :: names[j] == names[1..][j - 1];
          assert FirstUsableAt(environ, names, i + 1);
        }
      }
      r
  }

  /** The chain of reassignments is the first usable header in preference
      order, else the peer address. */
  lemma GetRealIpIsFirstUsable(environ: map<string, string>, remoteAddr: Option<string>)
    ensures GetRealIp(environ, remoteAddr) == FirstUsable(environ, IpHeaders, remoteAddr)
  {
    var n0 := IpHeaders;
    var n1, n2, n3 := n0[1..], n0[1..][1..], n0[1..][1..][1..];
    assert n0[0] == "x-forwarded-for" && n1[0] == "Proxy-Client-IP" && n2[0] == "WL-Proxy-Client-IP" && n3 == [];
    var x, p, w := HeaderGet(environ, n0[0]), HeaderGet(environ, n1[0]), HeaderGet(environ, n2[0]);
    assert FirstUsable(environ, n2, remoteAddr) == if !Unusable(w) then w else remoteAddr;
    assert FirstUsable(environ, n1, remoteAddr) == if !Unusable(p) then p else FirstUsable(environ, n2, remoteAddr);
    assert FirstUsable(environ, n0, remoteAddr) == if !Unusable(x) then x else FirstUsable(environ, n1, remoteAddr);
  }

  /** A usable forwarded-for header always wins, whatever the others hold and
      however the client spelled its name. */
  lemma ForwardedForWins(environ: map<string, string>, sent: string, remoteAddr: Option<string>)
    requires FoldName(sent) == "X_FORWARDED_FOR"
    requires EnvironKey(sent) in environ
    requires environ[EnvironKey(sent)] != "" && environ[EnvironKey(sent)] != "unknown"
    ensures GetRealIp(environ, remoteAddr) == Some(environ[EnvironKey(sent)])
  {
    ForwardedForKey();
    SameFoldSameHeader(environ, sent, "x-forwarded-for");
  }

  /** A client that sends `X-Forwarded-For: v` through a proxy at `peer` is
      reported as `v`. */
  lemma CapitalisedForwardedFor(v: string, peer: Option<string>)
    requires v != "" && v != "unknown"
    ensures GetRealIp(map[EnvironKey("X-Forwarded-For") := v], peer) == Some(v)
  {
    FoldsTo("X-Forwarded-For", "X_FORWARDED_FOR");
    ForwardedForWins(map[EnvironKey("X-Forwarded-For") := v], "X-Forwarded-For", peer);
  }

  /** What `get_object_or_404` ends with. */
  datatype Found<O> = Object(obj: O) | NoHandler | Abort404(message: string)

  /** `'%s=%s' % item` for each keyword argument, in order. */
  function Criteria(kwargs: seq<(string, string)>): (r: seq<string>)
    ensures |r| == |kwargs|
    ensures forall i | 0 <= i < |r| :: r[i] == kwargs[i].0 + "=" + kwargs[i].1
  {
    if |kwargs| == 0 then [] else [kwargs[0].0 + "=" + kwargs[0].1] + Criteria(kwargs[1..])
  }

  /** Each criterion splits back into its keyword and value at its first
      `=`, as long as the keyword holds none. */
  lemma CriteriaSplit(kwargs: seq<(string, string)>, i: nat)
    requires i < |kwargs| && '=' !in kwargs[i].0
    ensures '=' in Criteria(kwargs)[i]
    ensures SplitOnce(Criteria(kwargs)[i], '=') == kwargs[i]
  {
    SplitOnceConcat(kwargs[i].0, '=', kwargs[i].1);
  }

  /** `get_object_or_404(model, **kwargs)`: the first handler whose class
      `model` subclasses does the lookup; a failed lookup aborts with 404;
      with no such handler the function falls off its end (`None`). */
  function GetObjectOr404<M, C, O>(model: M, modelName: string, kwargs: seq<(string, string)>,
                                   handlers: seq<C>, isSubclass: (M, C) -> bool,
                                   lookup: (C, M) -> Result<O>): (r: Found<O>)
    ensures r.NoHandler? <==> forall i | 0 <= i < |handlers| :: !isSubclass(model, handlers[i])
    ensures r.Abort404? ==> r.message == "can not find " + modelName + " - " + Join(";", Criteria(kwargs))
    ensures !r.NoHandler? ==> exists i | 0 <= i < |handlers| ::
      isSubclass(model, handlers[i]) && (forall j | 0 <= j < i :: !isSubclass(model, handlers[j])) &&
      (if lookup(handlers[i], model).Ok? then r == Object(lookup(handlers[i], model).value) else r.Abort404?)
  {
    if |handlers| == 0 then NoHandler
    else if isSubclass(model, handlers[0]) then
      match lookup(handlers[0], model)
      case Ok(o) => Object(o)
      case Err(_) => Abort404("can not find " + modelName + " - " + Join(";", Criteria(kwargs)))
    else
      var r := GetObjectOr404(model, modelName, kwargs, handlers[1..], isSubclass, lookup);
      assert !r.NoHandler? ==> exists i | 1 <= i < |handlers| ::
        isSubclass(model, handlers[i]) && (forall j | 0 <= j < i :: !isSubclass(model, handlers[j])) &&
        (if lookup(handlers[i], model).Ok? then r == Object(lookup(handlers[i], model).value) else r.Abort404?) by {
        if !r.NoHandler? {
          var i :| 0 <= i < |handlers[1..]| && isSubclass(model, handlers[1..][i]) &&
            (forall j | 0 <= j < i :: !isSubclass(model, handlers[1..][j])) &&
            (if lookup(handlers[1..][i], model).Ok? then r == Object(lookup(handlers[1..][i], model).value) else r.Abort404?);
          assert handlers[1..][i] == handlers[i + 1];
          assert forall j | 1 <= j < i + 1 :: handlers[j] == handlers[1..][j - 1];
        }
      }
      r
  }
}

=== FILE: model_serializers.dfy ===
/** `ModelSerializer` of `flask_restplus/serializers.py` and of
  `flask_restplus/serializers/model_serializers.py`: the `Meta` checks, the
  choice of field names (`fields` or `exclude`), the field of each name,
  the mapping from ORM field classes to API fields, and whether an
  instance is serialized as many items.

  The two files differ in two ways that the model keeps apart with a flag:
  in the second, `get_field_names` and `get_fields` are class methods, so
  `self.meta_ready` reads the `cached_property` descriptor itself and none
  of its checks run (`checked = false`); and an embedded document's model
  is named after its module as well as its class (`qualified = true`).

  An ORM model is reduced to its fields: peewee fields by class name,
  mongoengine fields as `MongoField`. Python tuples are lists here.
 */
module ModelSerializers {
  import opened Wrappers
  import opened ODict
  import opened PyStrings
  import opened Values
  import Formats

  /** A mongoengine field as the mapping sees it: a `ListField` with its
      element field (`None` when it was given none), an
      `EmbeddedDocumentField` with its document class, or any other field
      by class name. */
  datatype MongoField =
    | ListField(field: Option<MongoField>)
    | EmbeddedField(moduleName: string, className: string, fields: seq<(string, MongoField)>)
    | ScalarField(kind: string)

  /** The mongoengine field classes with an entry in the mapping table;
      `DateTimeField` maps to the class's `default_datetimefield`, `DateLocal`. */
  function MongoTable(): map<string, Formats.Field> {
    map[
    "StringField" := Formats.Text(None), "URLField" := Formats.Text(None),
    "EmailField" := Formats.Text(None), "IntField" := Formats.Integer(None),
    "LongField" := Formats.Integer(None), "FloatField" := Formats.Float(None),
    "DecimalField" := Formats.Float(None), "BooleanField" := Formats.Boolean(None),
    "DateField" := Formats.Date(None), "DateTimeField" := Formats.DateLocal(None),
    "ComplexDateTimeField" := Formats.DateTime(None), "ObjectIdField" := Formats.Text(None)]
  }

  /** `FieldsMapping.get(type(mongo_field), String)`. */
  function MongoScalar(kind: string): (r: Formats.Field)
    ensures kind !in MongoTable() ==> r == Formats.Text(None)
    ensures kind in MongoTable() ==> r == MongoTable()[kind]
  {
    if kind in MongoTable() then MongoTable()[kind] else Formats.Text(None)
  }

  /** The peewee field classes with an entry in the mapping table. */
  function PeeweeTable(): map<string, Formats.Field> {
    map[
    "AutoField" := Formats.Integer(None), "BareField" := Formats.Text(None),
    "BigAutoField" := Formats.Integer(None), "BigBitField" := Formats.Text(None),
    "BigIntegerField" := Formats.Integer(None), "BinaryUUIDField" := Formats.Text(None),
    "BitField" := Formats.Text(None), "BlobField" := Formats.Text(None),
    "BooleanField" := Formats.Boolean(None), "CharField" := Formats.Text(None),
    "DateField" := Formats.Date(None), "DateTimeField" := Formats.DateTime(None),
    "DecimalField" := Formats.Decimal(None), "DoubleField" := Formats.Decimal(None),
    "FixedCharField" := Formats.Text(None), "FloatField" := Formats.Float(None),
    "IntegerField" := Formats.Integer(None), "IPField" := Formats.Text(None),
    "SmallIntegerField" := Formats.Integer(None), "TextField" := Formats.Text(None),
    "TimeField" := Formats.DateTime(None), "TimestampField" := Formats.Integer(None),
    "UUIDField" := Formats.Text(None)]
  }

  /** A field that neither nests nor wraps another. */
  predicate Flat(f: Formats.Field) {
    !f.ListOf? && !f.Nested?
  }

  /** `get_base_fields_by_pw_field`: a table lookup with `String` as the
      default, so a peewee field never becomes a list or a nested model. */
  function PeeweeField(kind: string): (r: Formats.Field)
    ensures kind !in PeeweeTable() ==> r == Formats.Text(None)
    ensures Flat(r) && r.attribute.None?
  {
    if kind in PeeweeTable() then PeeweeTable()[kind] else Formats.Text(None)
  }

  /** The name of the API model built for an embedded document. */
  function EmbeddedName(qualified: bool, moduleName: string, className: string): string {
    "EmbeddedDocument " + (if qualified then moduleName + "." + className else className)
  }

  /** The number of `ListField` levels around the innermost field. */
  function ListDepth(f: MongoField): nat {
    match f
    case ListField(Some(g)) => 1 + ListDepth(g)
    case ListField(None) => 1
    case _ => 0
  }

  /** The innermost field: `mongo_field.field or StringField()` at each level. */
  function Leaf(f: MongoField): (r: MongoField)
    ensures !r.ListField?
  {
    match f
    case ListField(Some(g)) => Leaf(g)
    case ListField(None) => ScalarField("StringField")
    case _ => f
  }

  // ---------------------------------------------------------------------
  // The mapping as written: the collected `[List, ..., List, leaf]` is
  // folded from the left with `res = res(f)`.

  /** What the fold holds: the `fields.List` class itself, or a built field. */
  datatype Callee = ListClass | Built(field: Formats.Field)

  /** `res(f)`. `List(x)` wraps a built field; `List(List)` has to build a
      `List()` with no element field, and a built field is not callable,
      so both raise `TypeError`. */
  function Apply(res: Callee, arg: Callee): (r: Result<Callee>)
    ensures r.Ok? <==> res.ListClass? && arg.Built?
    ensures r.Ok? ==> r == Ok(Built(Formats.ListOf(arg.field, None)))
  {
    match (res, arg)
    case (ListClass, Built(x)) => Ok(Built(Formats.ListOf(x, None)))
    case (ListClass, ListClass) => Err("TypeError: List() needs the type of its elements")
    case (Built(_), _) => Err("TypeError: the field object is not callable")
  }

  /** `for f in fields[1:]: res = res(f)`. */
  function Fold(res: Callee, rest: seq<Callee>): (r: Result<Callee>)
    ensures r.Ok? && |rest| > 0 ==> r.value.Built?
    ensures |rest| == 0 ==> r == Ok(res)
    decreases |rest|
  {
    if |rest| == 0 then Ok(res)
    else
      var next :- Apply(res, rest[0]);
      Fold(next, rest[1..])
  }

  /** `fields`: one `List` per level, then the leaf. */
  function Steps(levels: nat, leaf: Formats.Field): (s: seq<Callee>)
    ensures |s| == levels + 1 && s[levels] == Built(leaf)
    ensures forall i | 0 <= i < levels :: s[i] == ListClass
  {
    seq(levels, i => ListClass) + [Built(leaf)]
  }

  /** The end of `get_base_fields_by_mge_field`: `fields[0]` when it is
      alone, the fold otherwise. */
  function Finish(levels: nat, leaf: Formats.Field): (r: Result<Formats.Field>)
    ensures levels == 0 ==> r == Ok(leaf)
  {
    var steps := Steps(levels, leaf);
    var res :- Fold(steps[0], steps[1..]);
    match res
    case Built(x) => Ok(x)
    case ListClass => assert false; Err("")
  }

  /** The fold succeeds for at most one list level and raises from the
      second on. */
  lemma FinishDepth(levels: nat, leaf: Formats.Field)
    ensures levels == 1 ==> Finish(levels, leaf) == Ok(Formats.ListOf(leaf, None))
    ensures levels >= 2 ==> Finish(levels, leaf).Err?
  {
    var steps := Steps(levels, leaf);
    if levels >= 2 {
      assert steps[0] == ListClass && steps[1..][0] == ListClass;
    }
  }

  /** `get_base_fields_by_mge_field(f)` as written; `levels` counts the
      `List`s already collected by the `while` loop. */
  function MapAsWritten(f: MongoField, levels: nat, qualified: bool): Result<Formats.Field>
    decreases f, 2
  {
    match f
    case ListField(Some(g)) => MapAsWritten(g, levels + 1, qualified)
    case ListField(None) => Finish(levels + 1, MongoScalar("StringField"))
    case EmbeddedField(m, n, fs) =>
      var fields :- DocumentAsWritten(f, 0, qualified);
      Finish(levels, Formats.Nested(Formats.ApiModel(EmbeddedName(qualified, m, n), fields), None, false))
    case ScalarField(k) => Finish(levels, MongoScalar(k))
  }

  /** `get_all_fields_model`: every field of the document mapped, from
      position `i` on. */
  function DocumentAsWritten(doc: MongoField, i: nat, qualified: bool): Result<Entries<Formats.Field>>
    requires doc.EmbeddedField? && i <= |doc.fields|
    decreases doc, 1, |doc.fields| - i
  {
    if i == |doc.fields| then Ok([])
    else
      assert doc.fields[i] in doc.fields;
      var head :- MapAsWritten(doc.fields[i].1, 0, qualified);
      var rest :- DocumentAsWritten(doc, i + 1, qualified);
      Ok([(doc.fields[i].0, head)] + rest)
  }

  // ---------------------------------------------------------------------
  // The mapping as intended: one `List` wrapper per `ListField` level.

  function MapCorrected(f: MongoField, qualified: bool): (r: Formats.Field)
    decreases f, 2
  {
    match f
    case ListField(Some(g)) => Formats.ListOf(MapCorrected(g, qualified), None)
    case ListField(None) => Formats.ListOf(MongoScalar("StringField"), None)
    case EmbeddedField(m, n, fs) =>
      Formats.Nested(Formats.ApiModel(EmbeddedName(qualified, m, n), DocumentCorrected(f, 0, qualified)), None, false)
    case ScalarField(k) => MongoScalar(k)
  }

  function DocumentCorrected(doc: MongoField, i: nat, qualified: bool): (r: Entries<Formats.Field>)
    requires doc.EmbeddedField? && i <= |doc.fields|
    ensures |r| == |doc.fields| - i
    ensures forall j | 0 <= j < |r| :: r[j].0 == doc.fields[i + j].0
    decreases doc, 1, |doc.fields| - i
  {
    if i == |doc.fields| then []
    else
      assert doc.fields[i] in doc.fields;
      [(doc.fields[i].0, MapCorrected(doc.fields[i].1, qualified))] + DocumentCorrected(doc, i + 1, qualified)
  }

  /** How many `List` wrappers a field has around its innermost field. */
  function ListLevels(f: Formats.Field): nat {
    if f.ListOf? then 1 + ListLevels(f.inner) else 0
  }

  function Innermost(f: Formats.Field): (r: Formats.Field)
    ensures !r.ListOf?
  {
    if f.ListOf? then Innermost(f.inner) else f
  }

  /** The intended mapping puts exactly one `List` around the element
      field per `ListField` level, around the mapping of the innermost
      field (a missing element field counting as a `StringField`). */
  lemma {:induction false} CorrectedNesting(f: MongoField, qualified: bool)
    ensures ListLevels(MapCorrected(f, qualified)) == ListDepth(f)
    ensures Innermost(MapCorrected(f, qualified)) == MapCorrected(Leaf(f), qualified)
  {
    match f
    case ListField(Some(g)) => CorrectedNesting(g, qualified);
    case ListField(None) =>
    case EmbeddedField(_, _, _) =>
    case ScalarField(_) =>
  }

  /** No `ListField` chain, at the top or inside an embedded document, is
      more than one level deep. */
  predicate Shallow(f: MongoField, levels: nat)
    decreases f, 2
  {
    match f
    case ListField(Some(g)) => Shallow(g, levels + 1)
    case ListField(None) => levels + 1 <= 1
    case EmbeddedField(_, _, _) => levels <= 1 && ShallowDocument(f, 0)
    case ScalarField(_) => levels <= 1
  }

  predicate ShallowDocument(doc: MongoField, i: nat)
    requires doc.EmbeddedField? && i <= |doc.fields|
    decreases doc, 1, |doc.fields| - i
  {
    i == |doc.fields| || (
      assert doc.fields[i] in doc.fields;
      Shallow(doc.fields[i].1, 0) && ShallowDocument(doc, i + 1))
  }

  /** The mapping as written agrees with the intended one exactly on the
      fields whose list nesting is at most one level deep everywhere, and
      raises on all others. */
  lemma {:induction false} AsWrittenIffShallow(f: MongoField, levels: nat, qualified: bool)
    requires levels <= 1
    ensures MapAsWritten(f, levels, qualified).Ok? <==> Shallow(f, levels)
    ensures Shallow(f, levels) ==> MapAsWritten(f, levels, qualified) == Ok(WrapN(levels, MapCorrected(f, qualified)))
    decreases f, 2
  {
    match f
    case ListField(Some(g)) =>
      if levels == 0 {
        AsWrittenIffShallow(g, 1, qualified);
      } else {
        TooDeep(g, levels + 1, qualified);
        ShallowTooDeep(g, levels + 1);
      }
    case ListField(None) =>
      FinishDepth(levels + 1, MongoScalar("StringField"));
    case EmbeddedField(m, n, fs) =>
      DocumentIffShallow(f, 0, qualified);
      if DocumentAsWritten(f, 0, qualified).Ok? {
        FinishDepth(levels, Formats.Nested(Formats.ApiModel(EmbeddedName(qualified, m, n), DocumentAsWritten(f, 0, qualified).value), None, false));
      }
    case ScalarField(k) =>
      FinishDepth(levels, MongoScalar(k));
  }

  lemma {:induction false} DocumentIffShallow(doc: MongoField, i: nat, qualified: bool)
    requires doc.EmbeddedField? && i <= |doc.fields|
    ensures DocumentAsWritten(doc, i, qualified).Ok? <==> ShallowDocument(doc, i)
    ensures ShallowDocument(doc, i) ==> DocumentAsWritten(doc, i, qualified) == Ok(DocumentCorrected(doc, i, qualified))
    decreases doc, 1, |doc.fields| - i
  {
    if i < |doc.fields| {
      assert doc.fields[i] in doc.fields;
      AsWrittenIffShallow(doc.fields[i].1, 0, qualified);
      DocumentIffShallow(doc, i + 1, qualified);
    }
  }

  /** Once two `List`s are collected, the mapping raises. */
  lemma {:induction false} TooDeep(f: MongoField, levels: nat, qualified: bool)
    requires levels >= 2
    ensures MapAsWritten(f, levels, qualified).Err?
    decreases f
  {
    match f
    case ListField(Some(g)) => TooDeep(g, levels + 1, qualified);
    case ListField(None) => FinishDepth(levels + 1, MongoScalar("StringField"));
    case EmbeddedField(m, n, fs) =>
      if DocumentAsWritten(f, 0, qualified).Ok? {
        FinishDepth(levels, Formats.Nested(Formats.ApiModel(EmbeddedName(qualified, m, n), DocumentAsWritten(f, 0, qualified).value), None, false));
      }
    case ScalarField(k) => FinishDepth(levels, MongoScalar(k));
  }

  lemma {:induction false} ShallowTooDeep(f: MongoField, levels: nat)
    requires levels >= 2
    ensures !Shallow(f, levels)
    decreases f
  {
    match f
    case ListField(Some(g)) => ShallowTooDeep(g, levels + 1);
    case ListField(None) =>
    case EmbeddedField(_, _, _) =>
    case ScalarField(_) =>
  }

  /** `levels` list wrappers around `f`. */
  function WrapN(levels: nat, f: Formats.Field): Formats.Field {
    if levels == 0 then f else Formats.ListOf(WrapN(levels - 1, f), None)
  }

  /** `ListField(ListField(IntField()))` is a list of lists of integers, but
      the fold calls `List(List)` and raises. */
  lemma NestedListCounterexample(qualified: bool)
    ensures MapAsWritten(ListField(Some(ListField(Some(ScalarField("IntField"))))), 0, qualified).Err?
    ensures MapCorrected(ListField(Some(ListField(Some(ScalarField("IntField"))))), qualified) ==
              Formats.ListOf(Formats.ListOf(Formats.Integer(None), None), None)
  {
    TooDeep(ScalarField("IntField"), 2, qualified);
  }

  // ---------------------------------------------------------------------
  // `Meta` and the choice of field names.

  /** A `Meta.fields` or `Meta.exclude` value: unset or `None`, a string,
      a list or tuple of names, or another object with the names it
      contains and yields. */
  datatype Opt = Unset | StrOpt(s: string) | ListOpt(items: seq<string>) | OtherOpt(typeName: string, members: seq<string>)

  predicate OptTruthy(o: Opt) {
    match o
    case Unset => false
    case StrOpt(s) => |s| > 0
    case ListOpt(xs) => |xs| > 0
    case OtherOpt(_, ms) => |ms| > 0
  }

  function TypeName(o: Opt): string {
    match o
    case Unset => "NoneType"
    case StrOpt(_) => "str"
    case ListOpt(_) => "list"
    case OtherOpt(t, _) => t
  }

  /** `name in o`: a substring test on a string, membership otherwise. */
  predicate OptContains(o: Opt, name: string) {
    match o
    case Unset => false
    case StrOpt(s) => Contains(s, name)
    case ListOpt(xs) => name in xs
    case OtherOpt(_, ms) => name in ms
  }

  /** `for name in o`: a string yields its characters. */
  function Members(o: Opt): seq<string> {
    match o
    case Unset => []
    case StrOpt(s) => seq(|s|, i requires 0 <= i < |s| => [s[i]])
    case ListOpt(xs) => xs
    case OtherOpt(_, ms) => ms
  }

  const AllFields := "__all__"

  /** The option is the string `'__all__'`. */
  predicate IsAll(o: Opt) {
    o.StrOpt? && o.s == AllFields
  }

  /** An ORM model class, reduced to its fields and the names of its other
      class attributes (methods, constants, the query manager), which
      `getattr` finds as well. A peewee field is given by the name of its
      type. */
  datatype OrmModel =
    | PeeweeModel(pwFields: Entries<string>, others: set<string>)
    | MongoModel(mongoFields: Entries<MongoField>, others: set<string>)
    | OtherModel

  datatype Engine = Peewee | Mongo

  /** `engine`: read off the module of the model's class; neither ORM gives
      `None`. */
  function EngineOf(m: OrmModel): Option<Engine> {
    match m
    case PeeweeModel(_, _) => Some(Peewee)
    case MongoModel(_, _) => Some(Mongo)
    case OtherModel => None
  }

  datatype Meta = Meta(model: Option<OrmModel>, fields: Opt, exclude: Opt)

  /** A serializer class as the field choice reads it: its name, its `Meta`,
      its declared fields and those of its direct bases (empty for a base
      without `_declared_fields`). */
  datatype SerializerClass = SerializerClass(
    name: string,
    meta: Option<Meta>,
    declared: Entries<Formats.Field>,
    baseDeclared: seq<Entries<Formats.Field>>)

  /** An assertion's message given as a one-element tuple is printed as that
      tuple. */
  function TupleMessage(s: string): string {
    "(\"" + s + "\",)"
  }

  /** A `Meta` the checks accept: a model, `fields` a list or `'__all__'`
      when set to something truthy, `exclude` a list when truthy, not both
      truthy, not both unset. */
  predicate MetaAccepted(c: SerializerClass) {
    c.meta.Some? && c.meta.value.model.Some? &&
    (OptTruthy(c.meta.value.fields) ==> IsAll(c.meta.value.fields) || c.meta.value.fields.ListOpt?) &&
    (OptTruthy(c.meta.value.exclude) ==> c.meta.value.exclude.ListOpt?) &&
    !(OptTruthy(c.meta.value.fields) && OptTruthy(c.meta.value.exclude)) &&
    !(c.meta.value.fields.Unset? && c.meta.value.exclude.Unset?)
  }

  function FieldsTypeError(o: Opt): string {
    "TypeError: The `fields` option must be a list or tuple or \"__all__\". Got " + TypeName(o) + "."
  }

  function ExcludeTypeError(o: Opt): string {
    "TypeError: The `exclude` option must be a list or tuple. Got " + TypeName(o) + "."
  }

  function NeitherMessage(cls: string): string {
    TupleMessage("Creating a ModelSerializer without either the 'fields' attribute or the 'exclude' attribute " +
                 "has been deprecated since 3.3.0, and is now disallowed. Add an explicit fields = '__all__' to the " +
                 cls + " serializer.")
  }

  /** The message of the first `Meta` check that fails, in the order the
      checks run. */
  function MetaProblem(c: SerializerClass): (r: Option<string>)
    ensures r.None? <==> MetaAccepted(c)
  {
    if c.meta.None? then Some("Class " + c.name + " missing \"Meta\" attribute")
    else if c.meta.value.model.None? then Some("Class " + c.name + " missing \"Meta.model\" attribute")
    else
      var m := c.meta.value;
      if OptTruthy(m.fields) && !IsAll(m.fields) && !m.fields.ListOpt? then Some(FieldsTypeError(m.fields))
      else if OptTruthy(m.exclude) && !m.exclude.ListOpt? then Some(ExcludeTypeError(m.exclude))
      else if OptTruthy(m.fields) && OptTruthy(m.exclude) then Some(BothMessage(c.name))
      else if m.fields.Unset? && m.exclude.Unset? then Some(NeitherMessage(c.name))
      else None
  }

  function BothMessage(cls: string): string {
    "Cannot set both 'fields' and 'exclude' options on serializer " + cls + "."
  }

  /** `meta_ready`: true, or the first failing check's error. */
  function MetaReady(c: SerializerClass): (r: Result<bool>)
    ensures r.Ok? <==> MetaAccepted(c)
    ensures r.Ok? ==> r.value
  {
    match MetaProblem(c)
    case Some(msg) => Err(msg)
    case None => Ok(true)
  }

  /** `getattr(self.Meta, 'model')` without the checks. */
  function ModelOf(c: SerializerClass): (r: Result<OrmModel>)
    ensures r.Ok? <==> c.meta.Some? && c.meta.value.model.Some?
  {
    if c.meta.None? then Err("AttributeError: type object '" + c.name + "' has no attribute 'Meta'")
    else if c.meta.value.model.None? then Err("AttributeError: type object 'Meta' has no attribute 'model'")
    else Ok(c.meta.value.model.value)
  }

  /** `get_all_fields_func()(model)`: the model's field names. */
  function ModelFieldNames(m: OrmModel): (r: Result<seq<string>>)
    ensures r.Ok? <==> EngineOf(m).Some?
    ensures r.Ok? ==> Distinct(r.value)
  {
    match m
    case PeeweeModel(fs, _) => Ok(Keys(fs))
    case MongoModel(fs, _) => Ok(Keys(fs))
    case OtherModel => Err("KeyError: None")
  }

  /** Names declared on the class and on none of its direct bases. */
  function RequiredNames(c: SerializerClass): (r: set<string>)
    ensures forall k :: k in r <==> k in KeySet(c.declared) && forall i | 0 <= i < |c.baseDeclared| :: k !in KeySet(c.baseDeclared[i])
  {
    set k | k in KeySet(c.declared) && forall i | 0 <= i < |c.baseDeclared| :: k !in KeySet(c.baseDeclared[i])
  }

  /** The first declared name, in declaration order, that is required and
      missing from `fields`. The source walks a `set` of the required
      names, whose order Python leaves unspecified: it reports some missing
      name, and the model fixes declaration order as that choice. */
  function MissingRequired(ks: seq<string>, required: set<string>, fields: Opt): (r: Option<string>)
    ensures r.None? <==> forall k | k in ks && k in required :: OptContains(fields, k)
  {
    if |ks| == 0 then None
    else if ks[0] in required && !OptContains(fields, ks[0]) then Some(ks[0])
    else MissingRequired(ks[1..], required, fields)
  }

  /** `list.remove(x)`: drops the first `x`. */
  function RemoveFirst(s: seq<string>, x: string): (r: seq<string>)
    requires x in s
    ensures Distinct(s) ==> r == Without(s, x)
  {
    if s[0] == x then
      if Distinct(s) then
        assert x !in s[1..];
        WithoutAbsent(s[1..], x);
        s[1..]
      else s[1..]
    else [s[0]] + RemoveFirst(s[1..], x)
  }

  lemma {:induction false} WithoutAbsent(s: seq<string>, x: string)
    requires x !in s
    ensures Without(s, x) == s
  {
    if |s| > 0 {
      WithoutAbsent(s[1..], x);
    }
  }

  /** The `exclude` loop: each excluded name must not be declared and must
      still be among the names, and is then removed. */
  function RemoveExcluded(names: seq<string>, excluded: seq<string>, declared: Entries<Formats.Field>, cls: string): Result<seq<string>>
    decreases |excluded|
  {
    if |excluded| == 0 then Ok(names)
    else
      var x := excluded[0];
      if x in KeySet(declared) then Err(DeclaredAndExcluded(x, cls))
      else if x !in names then Err(ExcludedNotInModel(x, cls))
      else RemoveExcluded(RemoveFirst(names, x), excluded[1..], declared, cls)
  }

  function DeclaredAndExcluded(x: string, cls: string): string {
    "Cannot both declare the field '" + x + "' and include it in the " + cls + " 'exclude' option. " +
    "Remove the field or, if inherited from a parent serializer, disable with `" + x + " = None`."
  }

  function ExcludedNotInModel(x: string, cls: string): string {
    "The field '" + x + "' was included on serializer " + cls + " in the 'exclude' option, but does not match any model field."
  }

  /** The names not excluded, in order. */
  function Keep(names: seq<string>, excluded: seq<string>): (r: seq<string>)
    ensures forall x :: x in r <==> x in names && x !in excluded
  {
    if |names| == 0 then []
    else if names[0] in excluded then Keep(names[1..], excluded)
    else [names[0]] + Keep(names[1..], excluded)
  }

  lemma {:induction false} KeepWithout(names: seq<string>, x: string, rest: seq<string>)
    ensures Keep(Without(names, x), rest) == Keep(names, [x] + rest)
  {
    if |names| > 0 {
      KeepWithout(names[1..], x, rest);
      assert names[0] in [x] + rest <==> names[0] == x || names[0] in rest;
    }
  }

  /** With distinct model names, the exclusion succeeds exactly when the
      excluded names are distinct, undeclared model names, and then removes
      exactly them, keeping the order of the rest. */
  lemma {:induction false} ExcludeSelects(names: seq<string>, excluded: seq<string>, declared: Entries<Formats.Field>, cls: string)
    requires Distinct(names)
    ensures RemoveExcluded(names, excluded, declared, cls).Ok? <==>
              Distinct(excluded) && forall x | x in excluded :: x in names && x !in KeySet(declared)
    ensures RemoveExcluded(names, excluded, declared, cls).Ok? ==>
              RemoveExcluded(names, excluded, declared, cls).value == Keep(names, excluded)
    decreases |excluded|
  {
    if |excluded| == 0 {
      KeepNone(names);
    } else {
      var x := excluded[0];
      var rest := excluded[1..];
      assert excluded == [x] + rest;
      if x !in KeySet(declared) && x in names {
        var next := RemoveFirst(names, x);
        assert RemoveExcluded(names, excluded, declared, cls) == RemoveExcluded(next, rest, declared, cls);
        ExcludeSelects(next, rest, declared, cls);
        KeepWithout(names, x, rest);
        SelectStep(names, x, rest, next, KeySet(declared));
      }
    }
  }

  /** One accepted exclusion: the rest must be distinct, undeclared names
      still present after it, exactly when the whole list is distinct,
      undeclared and present before. */
  lemma SelectStep(names: seq<string>, x: string, rest: seq<string>, next: seq<string>, declared: set<string>)
    requires x in names && x !in declared
    requires forall y :: y in next <==> y in names && y != x
    ensures (Distinct([x] + rest) && forall y | y in [x] + rest :: y in names && y !in declared) <==>
              (Distinct(rest) && forall y | y in rest :: y in next && y !in declared)
  {
    DistinctTail(x, rest);
  }

  lemma {:induction false} KeepNone(names: seq<string>)
    ensures Keep(names, []) == names
  {
    if |names| > 0 {
      KeepNone(names[1..]);
    }
  }

  /** `get_field_names`. With explicit `fields` (anything but unset or
      `'__all__'`) these are returned as they iterate, provided every field
      declared on the class and on none of its direct bases is in them.
      Otherwise the model's field names are taken and `exclude` removed
      from them. `checked` runs `meta_ready` first. Messages name the
      serializer class `c.name`; on the class-method path of
      `model_serializers.py`, `self.__class__.__name__` is the name of the
      class's metaclass instead, which the model does not distinguish. */
  function FieldNames(c: SerializerClass, checked: bool): (r: Result<seq<string>>)
    ensures checked && MetaReady(c).Err? ==> r == Err(MetaReady(c).error)
    ensures r.Ok? ==> c.meta.Some? && c.meta.value.model.Some?
    ensures r.Ok? && ExplicitFields(c) ==>
              r.value == Members(c.meta.value.fields) &&
              forall k | k in RequiredNames(c) :: OptContains(c.meta.value.fields, k)
    ensures (!checked || MetaReady(c).Ok?) && c.meta.Some? && c.meta.value.model.Some? && ExplicitFields(c) ==>
              (r.Ok? <==> forall k | k in RequiredNames(c) :: OptContains(c.meta.value.fields, k))
    ensures r.Ok? && !ExplicitFields(c) && c.meta.value.exclude.Unset? ==>
              ModelFieldNames(c.meta.value.model.value) == Ok(r.value)
  {
    var _ :- if checked then MetaReady(c) else Ok(true);
    var model :- ModelOf(c);
    var meta := c.meta.value;
    if ExplicitFields(c) then
      match MissingRequired(Keys(c.declared), RequiredNames(c), meta.fields)
      case Some(k) =>
        Err("The field '" + k + "' was declared on serializer " + c.name + ", but has not been included in the 'fields' option.")
      case None => Ok(Members(meta.fields))
    else
      var names :- ModelFieldNames(model);
      if meta.exclude.Unset? then Ok(names)
      else RemoveExcluded(names, Members(meta.exclude), c.declared, c.name)
  }

  /** `fields` is set and is not `'__all__'`. */
  predicate ExplicitFields(c: SerializerClass)
    requires c.meta.Some?
  {
    !c.meta.value.fields.Unset? && !IsAll(c.meta.value.fields)
  }

  /** Without explicit `fields`, the names are the model's minus `exclude`:
      accepted exactly when the excluded names are distinct, undeclared
      model fields. */
  lemma ExcludePath(c: SerializerClass, checked: bool)
    requires !checked || MetaReady(c).Ok?
    requires c.meta.Some? && c.meta.value.model.Some? && !ExplicitFields(c) && c.meta.value.exclude.ListOpt?
    requires EngineOf(c.meta.value.model.value).Some?
    ensures var names := ModelFieldNames(c.meta.value.model.value).value;
      var ex := c.meta.value.exclude.items;
      (FieldNames(c, checked).Ok? <==> Distinct(ex) && forall x | x in ex :: x in names && x !in KeySet(c.declared)) &&
      (FieldNames(c, checked).Ok? ==> FieldNames(c, checked).value == Keep(names, ex))
  {
    var names := ModelFieldNames(c.meta.value.model.value).value;
    var m := c.meta.value.model.value;
    assert ModelOf(c) == Ok(m);
    assert ModelFieldNames(m) == Ok(names);
    assert Members(c.meta.value.exclude) == c.meta.value.exclude.items;
    assert FieldNames(c, checked) == RemoveExcluded(names, c.meta.value.exclude.items, c.declared, c.name);
    ExcludeSelects(names, c.meta.value.exclude.items, c.declared, c.name);
  }

  /** On the class-method path nothing stops `fields` and `exclude` being
      set together: `meta_ready` rejects the class, while `get_field_names`
      returns the explicit fields and ignores `exclude`. */
  lemma ClassPathSkipsChecks(c: SerializerClass)
    requires c.meta.Some? && c.meta.value.model.Some?
    requires c.meta.value.fields.ListOpt? && |c.meta.value.fields.items| > 0
    requires c.meta.value.exclude.ListOpt? && |c.meta.value.exclude.items| > 0
    requires forall k | k in KeySet(c.declared) :: k in c.meta.value.fields.items
    ensures MetaReady(c).Err?
    ensures FieldNames(c, true).Err?
    ensures FieldNames(c, false) == Ok(c.meta.value.fields.items)
  {
  }

  /** In `flask_restplus/serializers.py`, `get_field_names` and `get_fields`
      are instance methods, so `meta_ready` runs its checks first: names or
      fields are produced only for an accepted `Meta`. */
  lemma InstancePathChecksMeta(c: SerializerClass, qualified: bool)
    ensures FieldNames(c, true).Ok? ==> MetaAccepted(c)
    ensures GetFields(c, true, qualified).Ok? ==> MetaAccepted(c)
  {
  }

  /** The message of `getattr` on a model class without the attribute.
      Python writes `type object '<Model>' has no attribute '<name>'`; an
      `OrmModel` carries no class name, so `model` stands in for it. */
  function NoAttribute(name: string): string {
    "AttributeError: model has no attribute '" + name + "'"
  }

  /** `getattr(model, name)` mapped with `get_mapping_field_func()`. An
      attribute that is not a field has a type in neither mapping table, so
      both mappings give `String`; a name the class lacks raises
      `AttributeError`, and a model of neither ORM has no mapping. */
  function ModelField(m: OrmModel, name: string, qualified: bool): (r: Result<Formats.Field>)
    ensures m.PeeweeModel? ==> (r.Ok? <==> name in KeySet(m.pwFields) || name in m.others)
    ensures m.PeeweeModel? && name in KeySet(m.pwFields) ==> r == Ok(PeeweeField(Lookup(m.pwFields, name).value))
    ensures m.MongoModel? && name in KeySet(m.mongoFields) ==> r == MapAsWritten(Lookup(m.mongoFields, name).value, 0, qualified)
    ensures m.PeeweeModel? && name !in KeySet(m.pwFields) ==>
      r == if name in m.others then Ok(Formats.Text(None)) else Err(NoAttribute(name))
    ensures m.MongoModel? && name !in KeySet(m.mongoFields) ==>
      r == if name in m.others then Ok(Formats.Text(None)) else Err(NoAttribute(name))
    ensures m.OtherModel? ==> r.Err?
  {
    match m
    case PeeweeModel(fs, others) =>
      if name in KeySet(fs) then Ok(PeeweeField(Lookup(fs, name).value))
      else if name in others then Ok(Formats.Text(None))
      else Err(NoAttribute(name))
    case MongoModel(fs, others) =>
      if name in KeySet(fs) then MapAsWritten(Lookup(fs, name).value, 0, qualified)
      else if name in others then Ok(Formats.Text(None))
      else Err(NoAttribute(name))
    case OtherModel => Err(NoAttribute(name))
  }

  /** Every name the model lists for `'__all__'` can be read and mapped:
      always for peewee, and for mongoengine exactly when its `ListField`
      nesting is shallow, the mapping then agreeing with the intended one. */
  lemma ModelNamesMap(m: OrmModel, name: string, qualified: bool)
    requires ModelFieldNames(m).Ok? && name in ModelFieldNames(m).value
    ensures m.PeeweeModel? ==> ModelField(m, name, qualified).Ok?
    ensures m.MongoModel? ==>
      var f := Lookup(m.mongoFields, name).value;
      (ModelField(m, name, qualified).Ok? <==> Shallow(f, 0)) &&
      (Shallow(f, 0) ==> ModelField(m, name, qualified) == Ok(MapCorrected(f, qualified)))
  {
    if m.MongoModel? {
      AsWrittenIffShallow(Lookup(m.mongoFields, name).value, 0, qualified);
    }
  }

  /** The field of one name: the declared field when there is one. */
  function FieldFor(declared: Entries<Formats.Field>, m: OrmModel, name: string, qualified: bool): (r: Result<Formats.Field>)
    ensures name in KeySet(declared) ==> r == Ok(Lookup(declared, name).value)
    ensures name !in KeySet(declared) ==> r == ModelField(m, name, qualified)
  {
    if name in KeySet(declared) then Ok(Lookup(declared, name).value) else ModelField(m, name, qualified)
  }

  /** The loop of `get_fields` over `names`, raising at the first name whose
      field cannot be made; `fieldOf` gives the field of one name. The
      assignments `fields[name] = ...` are collected as pairs. */
  function FieldPairs(names: seq<string>, fieldOf: string -> Result<Formats.Field>): (r: Result<seq<(string, Formats.Field)>>)
    ensures r.Ok? <==> forall i | 0 <= i < |names| :: fieldOf(names[i]).Ok?
    ensures r.Ok? ==> |r.value| == |names| && forall i | 0 <= i < |names| :: r.value[i] == (names[i], fieldOf(names[i]).value)
  {
    if |names| == 0 then Ok([])
    else
      var n := |names| - 1;
      var prev := FieldPairs(names[..n], fieldOf);
      assert forall i | 0 <= i < n :: names[..n][i] == names[i];
      if prev.Err? then Err(prev.error)
      else
        var f := fieldOf(names[n]);
        if f.Err? then Err(f.error)
        else Ok(prev.value + [(names[n], f.value)])
  }

  /** The pair given last for a name decides it; every pair for a name
      carries the same field. */
  lemma {:induction false} FieldPairsValue(names: seq<string>, fieldOf: string -> Result<Formats.Field>, k: string)
    requires FieldPairs(names, fieldOf).Ok?
    ensures LastValue(FieldPairs(names, fieldOf).value, k) == if k in names then Some(fieldOf(k).value) else None
    ensures Names(FieldPairs(names, fieldOf).value) == names
  {
    var ps := FieldPairs(names, fieldOf).value;
    if |names| > 0 {
      var n := |names| - 1;
      var prev := FieldPairs(names[..n], fieldOf).value;
      FieldPairsValue(names[..n], fieldOf, k);
      assert ps == prev + [(names[n], fieldOf(names[n]).value)];
      LastValueSnoc(prev, names[n], fieldOf(names[n]).value, k);
      assert Names(ps) == Names(prev) + [names[n]];
      assert names == names[..n] + [names[n]];
    }
  }

  /** The dictionary built from the pairs: the chosen names in order, each
      once, each with its field. */
  lemma FieldPairsDict(names: seq<string>, fieldOf: string -> Result<Formats.Field>)
    requires FieldPairs(names, fieldOf).Ok?
    ensures Names(FromPairs(FieldPairs(names, fieldOf).value)) == Dedup(names)
    ensures forall k | k in names :: Lookup(FromPairs(FieldPairs(names, fieldOf).value), k) == Some(fieldOf(k).value)
  {
    var ps := FieldPairs(names, fieldOf).value;
    FromPairsOrder(ps);
    FieldPairsValue(names, fieldOf, "");
    forall k | k in names
      ensures Lookup(FromPairs(ps), k) == Some(fieldOf(k).value)
    {
      FieldPairsValue(names, fieldOf, k);
    }
  }

  /** `get_fields`: each chosen name, in order and once, with its declared
      field if it has one and the mapped model field otherwise. */
  function GetFields(c: SerializerClass, checked: bool, qualified: bool): (r: Result<Entries<Formats.Field>>)
    ensures r.Ok? ==> FieldNames(c, checked).Ok? && c.meta.Some? && c.meta.value.model.Some?
    ensures r.Ok? ==> Names(r.value) == Dedup(FieldNames(c, checked).value)
    ensures r.Ok? ==> forall k | k in FieldNames(c, checked).value ::
              Lookup(r.value, k).Some? && FieldFor(c.declared, c.meta.value.model.value, k, qualified) == Ok(Lookup(r.value, k).value)
    ensures FieldNames(c, checked).Ok? ==>
              (r.Ok? <==> forall k | k in FieldNames(c, checked).value :: FieldFor(c.declared, c.meta.value.model.value, k, qualified).Ok?)
  {
    var _ :- if checked then MetaReady(c) else Ok(true);
    var model :- ModelOf(c);
    var names :- FieldNames(c, checked);
    var fieldOf := k => FieldFor(c.declared, model, k, qualified);
    var pairs :- FieldPairs(names, fieldOf);
    FieldPairsDict(names, fieldOf);
    Ok(FromPairs(pairs))
  }

  /** A declared field wins over the model's field of the same name. */
  lemma DeclaredWins(c: SerializerClass, checked: bool, qualified: bool, k: string)
    requires GetFields(c, checked, qualified).Ok?
    requires k in FieldNames(c, checked).value && k in KeySet(c.declared)
    ensures Lookup(GetFields(c, checked, qualified).value, k) == Lookup(c.declared, k)
  {
  }

  // ---------------------------------------------------------------------
  // Instances.

  /** What a serializer is given: a mongoengine `QuerySet`, a peewee
      `ModelSelect` with its `_from_list`, or a plain value. */
  datatype Instance = QuerySet | ModelSelect(fromList: Value) | Plain(v: Value)

  /** `get_many`. Peewee: a `ModelSelect` whose `_from_list` is a list or
      tuple. Mongo: a `QuerySet`, list or tuple. Another engine: always. */
  function GetMany(engine: Option<Engine>, inst: Instance): (many: bool)
    ensures engine == Some(Mongo) ==> (many <==> inst.QuerySet? || (inst.Plain? && inst.v.List?))
    ensures engine == Some(Peewee) ==> (many <==> inst.ModelSelect? && inst.fromList.List?)
    ensures engine.None? ==> many
  {
    match engine
    case Some(Peewee) => inst.ModelSelect? && inst.fromList.List?
    case Some(Mongo) => inst.QuerySet? || (inst.Plain? && inst.v.List?)
    case None => true
  }

  /** An initialised model serializer: the attributes set from the keyword
      arguments, `many`, `skip_none` and the registry name.

      The `setattr` loop runs before `many` and `skip_none` are assigned, so
      a keyword named `many` or `skip_none` is overwritten by them: `attrs`
      records every keyword as given, and `many` and `skipNone` hold the
      final values. The loop runs after `self.name` is assigned, so a `name`
      keyword does replace that attribute (it is the `name` entry of
      `attrs`); the `name` field here is the registry key, which no keyword
      changes. */
  datatype ModelState = ModelState(attrs: Entries<Value>, many: bool, skipNone: Value, name: string)

  /** `ModelSerializer.__init__`: `_many_` is dropped and `many` computed
      from the instance; every other keyword becomes an attribute; the
      class is registered under `"<module>.<ClassName>"`. */
  function ModelInit(inst: Instance, kwargs: Entries<Value>, engine: Option<Engine>, moduleName: string,
                     className: string, registry: map<string, string>): (r: (ModelState, map<string, string>))
    ensures r.0.many == GetMany(engine, inst)
    ensures forall k :: Lookup(r.0.attrs, k) == if k == "_many_" then None else Lookup(kwargs, k)
    ensures r.0.skipNone == Lookup(kwargs, "_skip_none_").GetOr(Bool(false))
    ensures r.0.name == moduleName + "." + className && r.0.name in r.1 && r.1[r.0.name] == className
    ensures r.1.Keys == registry.Keys + {r.0.name}
  {
    var name := moduleName + "." + className;
    (ModelState(Remove(kwargs, "_many_"), GetMany(engine, inst), Lookup(kwargs, "_skip_none_").GetOr(Bool(false)), name),
     registry[name := className])
  }

  /** Passing `_many_` changes nothing about `many`. */
  lemma ManyArgumentIgnored(inst: Instance, engine: Option<Engine>, moduleName: string, className: string,
                            registry: map<string, string>, kwargs: Entries<Value>, many: Value)
    ensures ModelInit(inst, Put(kwargs, "_many_", many), engine, moduleName, className, registry).0.many ==
            ModelInit(inst, kwargs, engine, moduleName, className, registry).0.many
  {
  }
}

=== FILE: mongo_document.dfy ===
/** The document mixin for mongoengine models: turning a document into a
  plain dictionary, creating or updating a document from a request's
  dictionary, and caching computed values on a document instance.

  The database, the date parser, the configuration and the referenced
  document classes are outside the model: a lookup by primary key, a date
  parse and the update of a new nested document are parameters (`Env`) that
  only say whether they succeed, and a nested document is recorded as the
  entries it was built from.
 */
module MongoDocument {
  import opened Wrappers
  import opened ODict
  import opened Values

  /** A referenced or embedded document class, as far as the update sees it:
      whether it carries the mixin (`hasattr(cls, 'create_with')`) and its
      `_restruct_` flag. */
  datatype DocType = DocType(name: string, mixin: bool, restruct: bool)

  /** The classes of mongoengine field the update distinguishes. `ListF`
      covers `ListField` and (`sorted`) `SortedListField`; `DateF` covers
      `DateTimeField` and (`!withTime`) `DateField`. A generic field whose
      class exposes no `document_type` has `target == None`. */
  datatype MField =
    | ListF(sorted: bool, inner: MField)
    | ReferenceF(target: DocType)
    | DateF(withTime: bool)
    | EmbeddedF(target: DocType)
    | GenericF(reference: bool, generic: Option<DocType>)
    | OtherF

  /** What a document attribute holds after the update assigned it. */
  datatype Stored =
    | Raw(v: Value)                       // the value as given
    | Items(items: seq<Stored>)           // a list field's converted elements
    | Fetched(doc: string, pk: string)    // `document_type.objects.get(pk=value)`
    | Parsed(text: string)                // the date `parser.parse(text)` returned
    | Created(doc: string, kept: Entries<Value>)  // `document_type.create_with(value)`, updated from `kept`
    | Built(doc: string, kwargs: Value)   // `document_type(**value)`

  /** The outside world: whether the database holds exactly one document of
      a class with a primary key; whether the date parser accepts a text; the
      configured `base_ignore_fields`; and whether `update_document` on a new
      document of a referenced class succeeds for the given (non-empty)
      entries, which depends on that class's own field declarations. */
  datatype Env = Env(found: (string, string) -> bool, parses: string -> bool, ignored: seq<string>,
                     creates: (string, Entries<Value>) -> bool)

  /** A mongoengine document: its declared fields, their declaration order
      and the attribute values set so far. */
  datatype Document = Document(fields: Entries<MField>, fieldsOrdered: seq<string>, values: Entries<Stored>)

  /** The message every failed assignment is reported with. */
  function ErrorMessage(key: string, v: Value): (m: string)
    ensures PyStrings.StartsWith(m, "err field " + key + " - value ")
    ensures PyStrings.EndsWith(m, PyStr(v))
    ensures |m| == |"err field " + key + " - value "| + |PyStr(v)|
  {
    "err field " + key + " - value " + PyStr(v)
  }

  // ---------------------------------------------------------------- to_dict

  /** `to_dict`: the document's mongo representation, without the `_id` the
      database added unless it was asked for or is a declared field. */
  function ToDict(mongo: Entries<Value>, fieldsOrdered: seq<string>, needId: bool): (r: Entries<Value>)
    ensures Lookup(r, "_id").Some? <==> "_id" in KeySet(mongo) && (needId || "_id" in fieldsOrdered)
    ensures Lookup(r, "_id").Some? ==> Lookup(r, "_id") == Lookup(mongo, "_id")
    ensures forall k | k != "_id" :: Lookup(r, k) == Lookup(mongo, k)
  {
    if !needId && "_id" in KeySet(mongo) && "_id" !in fieldsOrdered then Remove(mongo, "_id") else mongo
  }

  // ------------------------------------------------------------ field_value

  /** `for item in value`: a list yields its items, a string its characters
      and a dictionary its keys; anything else is not iterable. */
  function IterItems(v: Value): (r: Result<seq<Value>>)
    ensures r.Ok? <==> v.List? || v.Str? || v.Dict?
    ensures v.List? ==> r == Ok(v.items)
    ensures v.Str? ==> r.Ok? && |r.value| == |v.s| && forall i | 0 <= i < |v.s| :: r.value[i] == Str([v.s[i]])
    ensures v.Dict? ==> r.Ok? && |r.value| == |Keys(v.entries)|
  {
    match v
    case List(xs) => Ok(xs)
    case Str(s) => Ok(seq(|s|, i requires 0 <= i < |s| => Str([s[i]])))
    case Dict(e) =>
      var ks := Keys(e);
      Ok(seq(|ks|, i requires 0 <= i < |ks| => Str(ks[i])))
    case _ => Err("TypeError: object is not iterable")
  }

  /** An item of `for i in data_dict` that the `create_with` comprehension
      filters out: a name on the ignore list. */
  predicate Ignored(x: Value, ignore: seq<string>) {
    x.Str? && x.s in ignore
  }

  /** The items the comprehension keeps, in order. */
  function Unignored(items: seq<Value>, ignore: seq<string>): (r: seq<Value>)
    ensures |r| == 0 <==> forall i | 0 <= i < |items| :: Ignored(items[i], ignore)
  {
    if |items| == 0 then []
    else (if Ignored(items[0], ignore) then [] else [items[0]]) + Unignored(items[1..], ignore)
  }

  /** Whether `create_with(value)` returns. The comprehension
      `{i: data_dict[i] for i in data_dict if i not in ignore_fields}` reads
      `value[i]` for every item `i` it keeps. Only a dictionary can be indexed
      by its own items, so a list or a string gets through only when every
      item is ignored, and then yields a blank document; anything else is
      not iterable. A dictionary's kept entries are then applied to a new
      document, which cannot fail when none is kept. */
  predicate CreateSucceeds(name: string, v: Value, env: Env) {
    match v
    case Dict(e) => Drop(e, env.ignored) == [] || env.creates(name, Drop(e, env.ignored))
    case List(xs) => forall i | 0 <= i < |xs| :: Ignored(xs[i], env.ignored)
    case Str(s) => forall i | 0 <= i < |s| :: [s[i]] in env.ignored
    case _ => false
  }

  /** The entries a nested `create_with` applies: a dictionary's kept
      entries, and none for a list or string that gets through. */
  function CreatedFrom(v: Value, env: Env): Entries<Value> {
    if v.Dict? then Drop(v.entries, env.ignored) else []
  }

  /** Any exception inside a nested `create_with`; its message never shows,
      since the update loop reports the key and value instead. */
  const NestedRaises := "exception inside create_with"

  /** A document class built from a nested value: through `create_with` when
      the class carries the mixin and asks for it, else by keyword
      arguments, which need a mapping. */
  function BuildDocument(t: DocType, v: Value, env: Env): (r: Result<Stored>)
    ensures !(t.mixin && t.restruct) ==> (r.Ok? <==> v.Dict?)
    ensures r.Ok? && !(t.mixin && t.restruct) ==> r.value == Built(t.name, v)
    ensures t.mixin && t.restruct ==> (r.Ok? <==> CreateSucceeds(t.name, v, env))
    ensures r.Ok? && t.mixin && t.restruct ==> r.value == Created(t.name, CreatedFrom(v, env))
  {
    if !(t.mixin && t.restruct) then
      if v.Dict? then Ok(Built(t.name, v)) else Err("TypeError: argument must be a mapping")
    else
      var items :- IterItems(v);
      if v.Dict? then
        var kept := Drop(v.entries, env.ignored);
        if kept == [] || env.creates(t.name, kept) then Ok(Created(t.name, kept)) else Err(NestedRaises)
      else if Unignored(items, env.ignored) != [] then Err(NestedRaises)
      else
        assert v.Str? ==> forall i | 0 <= i < |v.s| :: items[i] == Str([v.s[i]]);
        Ok(Created(t.name, []))
  }

  /** Through `create_with`, an empty list or string builds a blank
      document, where keyword arguments need a mapping and raise. */
  lemma EmptyValueCreatesBlank(t: DocType, env: Env)
    requires t.mixin && t.restruct
    ensures BuildDocument(t, List([]), env) == Ok(Created(t.name, []))
    ensures BuildDocument(t, Str(""), env) == Ok(Created(t.name, []))
    ensures BuildDocument(t.(restruct := false), List([]), env).Err?
    ensures BuildDocument(t.(restruct := false), Str(""), env).Err?
  {
  }

  /** A nested dictionary keeping an entry the referenced class's update
      rejects (an undeclared key, say) makes assigning it fail, with the
      outer key's message. */
  lemma NestedFailurePropagates(d: Document, key: string, t: DocType, e: Entries<Value>, env: Env)
    requires t.mixin && t.restruct
    requires Lookup(d.fields, key) == Some(EmbeddedF(t))
    requires Drop(e, env.ignored) != [] && !env.creates(t.name, Drop(e, env.ignored))
    ensures Assign(d, key, Dict(e), env) == Err(ErrorMessage(key, Dict(e)))
  {
    assert !CreateSucceeds(t.name, Dict(e), env);
    assert Convert(EmbeddedF(t), Dict(e), env).Err?;
  }

  /** `field_value(field, value)`: the value a field attribute is assigned. */
  function Convert(f: MField, v: Value, env: Env): (r: Result<Stored>)
    ensures f.ListF? && r.Ok? ==> r.value.Items? && (v.List? ==> |r.value.items| == |v.items|)
    ensures f.OtherF? ==> r == Ok(Raw(v))
    ensures f.DateF? && !v.Str? ==> r == Ok(Raw(v))
    ensures f.DateF? && v.Str? ==> (r.Ok? <==> env.parses(v.s))
    ensures f.ReferenceF? && v.Str? ==> (r.Ok? <==> env.found(f.target.name, v.s))
    decreases f, 0
  {
    match f
    case ListF(_, inner) =>
      var items :- IterItems(v);
      var converted :- ConvertAll(inner, items, env);
      Ok(Items(converted))
    case ReferenceF(t) =>
      if v.Str? then
        if env.found(t.name, v.s) then Ok(Fetched(t.name, v.s)) else Err("DoesNotExist")
      else BuildDocument(t, v, env)
    case DateF(_) =>
      if v.Str? then
        if env.parses(v.s) then Ok(Parsed(v.s)) else Err("ParserError")
      else Ok(Raw(v))
    case EmbeddedF(t) => BuildDocument(t, v, env)
    case GenericF(_, target) =>
      if target.None? then Err("AttributeError: document_type") else BuildDocument(target.value, v, env)
    case OtherF => Ok(Raw(v))
  }

  /** The list comprehension over a list field's items: every item converted
      by the inner field, in order, and the first failure aborts. */
  function ConvertAll(inner: MField, items: seq<Value>, env: Env): (r: Result<seq<Stored>>)
    ensures r.Ok? <==> forall i | 0 <= i < |items| :: Convert(inner, items[i], env).Ok?
    ensures r.Ok? ==> |r.value| == |items|
    ensures r.Ok? ==> forall i | 0 <= i < |items| :: Some(r.value[i]) == ResultValue(Convert(inner, items[i], env))
    decreases inner, 1, |items|
  {
    if |items| == 0 then Ok([])
    else
      var head := Convert(inner, items[0], env);
      if head.Err? then Err(head.error)
      else
        var rest := ConvertAll(inner, items[1..], env);
        if rest.Err? then Err(rest.error)
        else
          assert forall i | 1 <= i < |items| :: items[i] == items[1..][i - 1];
          Ok([head.value] + rest.value)
  }

  function ResultValue<T>(r: Result<T>): Option<T> {
    if r.Ok? then Some(r.value) else None
  }

  // -------------------------------------------------------- update_document

  /** An embedded or reference field given `None` is left as it is. */
  predicate Skipped(f: MField, v: Value) {
    (f.EmbeddedF? || f.ReferenceF?) && v == Null
  }

  /** One pass of the update loop: the field must be declared, and unless
      skipped the attribute is assigned its converted value. Any failure is
      reported with the key and `str(value)`. */
  function Assign(d: Document, key: string, v: Value, env: Env): (r: Result<Document>)
    ensures r.Ok? <==> key in KeySet(d.fields) && (Skipped(Lookup(d.fields, key).value, v) || Convert(Lookup(d.fields, key).value, v, env).Ok?)
    ensures r.Err? ==> r.error == ErrorMessage(key, v)
    ensures r.Ok? ==> r.value.fields == d.fields && r.value.fieldsOrdered == d.fieldsOrdered
    ensures r.Ok? ==> forall j | j != key :: Lookup(r.value.values, j) == Lookup(d.values, j)
    ensures r.Ok? && Skipped(Lookup(d.fields, key).value, v) ==> r.value == d
    ensures r.Ok? && !Skipped(Lookup(d.fields, key).value, v) ==> Lookup(r.value.values, key) == ResultValue(Convert(Lookup(d.fields, key).value, v, env))
  {
    var field := Lookup(d.fields, key);
    if field.None? then Err(ErrorMessage(key, v))
    else if Skipped(field.value, v) then Ok(d)
    else
      var stored := Convert(field.value, v, env);
      if stored.Err? then Err(ErrorMessage(key, v))
      else Ok(d.(values := Put(d.values, key, stored.value)))
  }

  /** The state the update loop leaves: the document as far as it got, and
      the exception that stopped it, if any. Assignments made before a
      failing key are not undone. */
  datatype Outcome = Outcome(doc: Document, error: Option<string>)

  /** The loop of `update_document` over the keys `ks` of `data`, in order. */
  function UpdateKeys(d: Document, data: Entries<Value>, ks: seq<string>, env: Env): (r: Outcome)
    requires forall k | k in ks :: k in KeySet(data)
    ensures r.doc.fields == d.fields && r.doc.fieldsOrdered == d.fieldsOrdered
    ensures forall j | j !in ks :: Lookup(r.doc.values, j) == Lookup(d.values, j)
    decreases |ks|
  {
    if |ks| == 0 then Outcome(d, None)
    else
      var step := Assign(d, ks[0], Lookup(data, ks[0]).value, env);
      if step.Err? then Outcome(d, Some(step.error))
      else UpdateKeys(step.value, data, ks[1..], env)
  }

  /** `update_document(document, data_dict)`. */
  function UpdateDocument(d: Document, data: Entries<Value>, env: Env): (r: Outcome)
    ensures r.doc.fields == d.fields
    ensures forall j | j !in KeySet(data) :: Lookup(r.doc.values, j) == Lookup(d.values, j)
  {
    UpdateKeys(d, data, Keys(data), env)
  }

  /** Whether the key `k` of `data` makes the update raise. */
  predicate Fails(fields: Entries<MField>, k: string, v: Value, env: Env) {
    k !in KeySet(fields) || (!Skipped(Lookup(fields, k).value, v) && Convert(Lookup(fields, k).value, v, env).Err?)
  }

  /** The position of the first key of `ks` that makes the update raise. */
  function FirstFailure(fields: Entries<MField>, data: Entries<Value>, ks: seq<string>, env: Env): (r: Option<nat>)
    requires forall k | k in ks :: k in KeySet(data)
    ensures r.None? <==> forall i | 0 <= i < |ks| :: !Fails(fields, ks[i], Lookup(data, ks[i]).value, env)
    ensures r.Some? ==> r.value < |ks| && Fails(fields, ks[r.value], Lookup(data, ks[r.value]).value, env)
    ensures r.Some? ==> forall j | 0 <= j < r.value :: !Fails(fields, ks[j], Lookup(data, ks[j]).value, env)
  {
    FirstWhere(ks, k => Lookup(data, k).Some? && Fails(fields, k, Lookup(data, k).value, env))
  }

  /** The update raises exactly when some key fails, and then with the
      message of the first failing key. */
  lemma {:induction false} UpdateKeysError(d: Document, data: Entries<Value>, ks: seq<string>, env: Env)
    requires forall k | k in ks :: k in KeySet(data)
    ensures UpdateKeys(d, data, ks, env).error ==
      var i := FirstFailure(d.fields, data, ks, env);
      if i.None? then None else Some(ErrorMessage(ks[i.value], Lookup(data, ks[i.value]).value))
    decreases |ks|
  {
    if |ks| > 0 {
      var step := Assign(d, ks[0], Lookup(data, ks[0]).value, env);
      if step.Ok? {
        UpdateKeysError(step.value, data, ks[1..], env);
      }
    }
  }

  /** The value a successful update leaves under a key it processed: the
      converted value, or the previous one when the key was skipped. */
  function AssignedValue(d: Document, k: string, v: Value, env: Env): Option<Stored>
    requires k in KeySet(d.fields)
  {
    var f := Lookup(d.fields, k).value;
    if Skipped(f, v) then Lookup(d.values, k) else ResultValue(Convert(f, v, env))
  }

  /** When no key of distinct keys `ks` fails, every one of them holds its
      assigned value afterwards. */
  lemma {:induction false} UpdateKeysApplied(d: Document, data: Entries<Value>, ks: seq<string>, env: Env, k: string)
    requires forall k | k in ks :: k in KeySet(data)
    requires Distinct(ks)
    requires UpdateKeys(d, data, ks, env).error.None?
    requires k in ks
    ensures k in KeySet(d.fields)
    ensures Lookup(UpdateKeys(d, data, ks, env).doc.values, k) == AssignedValue(d, k, Lookup(data, k).value, env)
    decreases |ks|
  {
    var step := Assign(d, ks[0], Lookup(data, ks[0]).value, env);
    assert step.Ok?;
    var r := UpdateKeys(step.value, data, ks[1..], env);
    if k == ks[0] {
      assert k !in ks[1..];
    } else {
      assert k in ks[1..];
      UpdateKeysApplied(step.value, data, ks[1..], env, k);
    }
  }

  /** A successful `update_document` sets every key of the dictionary to its
      converted value (keeping it for a skipped `None`) and leaves all other
      attributes alone. */
  lemma UpdateDocumentApplied(d: Document, data: Entries<Value>, env: Env, k: string)
    requires UpdateDocument(d, data, env).error.None?
    requires k in KeySet(data)
    ensures k in KeySet(d.fields)
    ensures Lookup(UpdateDocument(d, data, env).doc.values, k) == AssignedValue(d, k, Lookup(data, k).value, env)
  {
    UpdateKeysApplied(d, data, Keys(data), env, k);
  }

  // ----------------------------------------------- create_with / update_with

  /** `ignore_fields or config.base_ignore_fields`: an absent or empty list
      falls back to the configured one. */
  function IgnoreList(ignore: seq<string>, configured: seq<string>): (r: seq<string>)
    ensures |ignore| > 0 ==> r == ignore
    ensures |ignore| == 0 ==> r == configured
  {
    if |ignore| > 0 then ignore else configured
  }

  /** `update_with(data_dict, ignore_fields)`. */
  function UpdateWith(d: Document, data: Entries<Value>, ignore: seq<string>, env: Env): (r: Outcome)
    ensures r.doc.fields == d.fields
  {
    UpdateDocument(d, Drop(data, IgnoreList(ignore, env.ignored)), env)
  }

  /** An ignored key is never written, whether or not the update raises. */
  lemma IgnoredUntouched(d: Document, data: Entries<Value>, ignore: seq<string>, env: Env, k: string)
    requires k in IgnoreList(ignore, env.ignored)
    ensures Lookup(UpdateWith(d, data, ignore, env).doc.values, k) == Lookup(d.values, k)
  {
    var kept := Drop(data, IgnoreList(ignore, env.ignored));
    assert Lookup(kept, k).None?;
  }

  /** A key that is neither ignored nor in the dictionary is never written. */
  lemma AbsentUntouched(d: Document, data: Entries<Value>, ignore: seq<string>, env: Env, k: string)
    requires k !in KeySet(data)
    ensures Lookup(UpdateWith(d, data, ignore, env).doc.values, k) == Lookup(d.values, k)
  {
    var kept := Drop(data, IgnoreList(ignore, env.ignored));
    assert Lookup(kept, k).None?;
  }

  /** A successful `update_with` assigns every key it keeps. */
  lemma UpdateWithApplied(d: Document, data: Entries<Value>, ignore: seq<string>, env: Env, k: string)
    requires UpdateWith(d, data, ignore, env).error.None?
    requires k in KeySet(data) && k !in IgnoreList(ignore, env.ignored)
    ensures k in KeySet(d.fields)
    ensures Lookup(UpdateWith(d, data, ignore, env).doc.values, k) == AssignedValue(d, k, Lookup(data, k).value, env)
  {
    var kept := Drop(data, IgnoreList(ignore, env.ignored));
    assert Lookup(kept, k) == Lookup(data, k);
    UpdateDocumentApplied(d, kept, env, k);
  }

  /** `create_with(data_dict, ignore_fields)`: a new document of the class
      (`cls()`, holding the field defaults `defaults`), updated from the kept
      keys; the exception propagates. */
  function CreateWith(fields: Entries<MField>, fieldsOrdered: seq<string>, defaults: Entries<Stored>, data: Entries<Value>,
                      ignore: seq<string>, env: Env): (r: Result<Document>)
    ensures r.Ok? ==> r.value.fields == fields && r.value.fieldsOrdered == fieldsOrdered
    ensures r.Ok? ==> forall k | k !in KeySet(data) || k in IgnoreList(ignore, env.ignored) :: Lookup(r.value.values, k) == Lookup(defaults, k)
  {
    var blank := Document(fields, fieldsOrdered, defaults);
    var out := UpdateWith(blank, data, ignore, env);
    forall k | k !in KeySet(data) || k in IgnoreList(ignore, env.ignored)
      ensures Lookup(out.doc.values, k) == Lookup(defaults, k)
    {
      if k in IgnoreList(ignore, env.ignored) {
        IgnoredUntouched(blank, data, ignore, env, k);
      } else {
        AbsentUntouched(blank, data, ignore, env, k);
      }
    }
    if out.error.Some? then Err(out.error.value) else Ok(out.doc)
  }

  /** A created document holds, for every kept key, the value assigning it
      gives. */
  lemma CreateWithAssigns(fields: Entries<MField>, fieldsOrdered: seq<string>, defaults: Entries<Stored>, data: Entries<Value>,
                          ignore: seq<string>, env: Env, k: string)
    requires CreateWith(fields, fieldsOrdered, defaults, data, ignore, env).Ok?
    requires k in KeySet(data) && k !in IgnoreList(ignore, env.ignored)
    ensures k in KeySet(fields)
    ensures Lookup(CreateWith(fields, fieldsOrdered, defaults, data, ignore, env).value.values, k) ==
              AssignedValue(Document(fields, fieldsOrdered, defaults), k, Lookup(data, k).value, env)
  {
    UpdateWithApplied(Document(fields, fieldsOrdered, defaults), data, ignore, env, k);
  }

  // ------------------------------------------------------- cached properties

  /** `set_cached_property(k, v)`: store `v` in the instance dictionary. */
  function SetCached<V>(dict: Entries<V>, k: string, v: V): (r: Entries<V>)
    ensures Lookup(r, k) == Some(v)
    ensures forall j | j != k :: Lookup(r, j) == Lookup(dict, j)
  {
    Put(dict, k, v)
  }

  /** `clear_cached_property(k)`: delete `k` from the instance dictionary
      when it is there. */
  function ClearCached<V>(dict: Entries<V>, k: string): (r: Entries<V>)
    ensures Lookup(r, k).None?
    ensures forall j | j != k :: Lookup(r, j) == Lookup(dict, j)
    ensures k !in KeySet(dict) ==> r == dict
  {
    if k in KeySet(dict) then Remove(dict, k) else dict
  }

  /** Reading a `cached_property` named `k`: the instance dictionary shadows
      the descriptor, so a stored value is returned as it is; otherwise the
      function is evaluated and its result stored. */
  function CachedGet<V>(dict: Entries<V>, k: string, computed: V): (r: (V, Entries<V>))
    ensures Lookup(r.1, k) == Some(r.0)
    ensures k in KeySet(dict) ==> r == (Lookup(dict, k).value, dict)
    ensures k !in KeySet(dict) ==> r.0 == computed
  {
    if k in KeySet(dict) then (Lookup(dict, k).value, dict) else (computed, Put(dict, k, computed))
  }

  /** A value stored with `set_cached_property` is what the property reads. */
  lemma SetThenGet<V>(dict: Entries<V>, k: string, v: V, computed: V)
    ensures CachedGet(SetCached(dict, k, v), k, computed).0 == v
  {
  }

  /** After `clear_cached_property` the property is computed afresh. */
  lemma ClearThenGet<V>(dict: Entries<V>, k: string, computed: V)
    ensures CachedGet(ClearCached(dict, k), k, computed).0 == computed
  {
  }

  /** Clearing twice is clearing once. */
  lemma ClearIdempotent<V>(dict: Entries<V>, k: string)
    ensures ClearCached(ClearCached(dict, k), k) == ClearCached(dict, k)
  {
  }

  /** Setting then clearing a key leaves every key as clearing alone does. */
  lemma SetThenClear<V>(dict: Entries<V>, k: string, v: V, j: string)
    ensures Lookup(ClearCached(SetCached(dict, k, v), k), j) == Lookup(ClearCached(dict, k), j)
  {
  }
}

=== FILE: odict.dfy ===
/** Python's insertion-ordered `dict`, as an association list.

  A dictionary is a sequence of key/value pairs. Lookups read the first
  pair with the key, so every sequence denotes a dictionary; the operations
  here never create a second pair for a key that is already present.
  `Put` is item assignment (`d[k] = v`): it keeps an existing key at its
  place and appends a new one, which is the order Python iterates in.
 */
module ODict {
  import opened Wrappers

  type Entries<V> = seq<(string, V)>

  /** The set of keys of a dictionary. */
  function KeySet<V>(e: Entries<V>): (ks: set<string>)
    ensures forall i | 0 <= i < |e| :: e[i].0 in ks
    ensures forall k | k in ks :: exists i | 0 <= i < |e| :: e[i].0 == k
  {
    if |e| == 0 then {} else {e[0].0} + KeySet(e[1..])
  }

  /** `d.get(k)`, with a missing key as `None`. */
  function Lookup<V>(e: Entries<V>, k: string): (r: Option<V>)
    ensures r.None? <==> k !in KeySet(e)
    ensures r.Some? ==> exists i | 0 <= i < |e| :: e[i] == (k, r.value)
  {
    if |e| == 0 then None
    else if e[0].0 == k then Some(e[0].1)
    else Lookup(e[1..], k)
  }

  /** Every element of `s` except those equal to `x`, in order. */
  function Without(s: seq<string>, x: string): (r: seq<string>)
    ensures x !in r
    ensures forall y :: y in r <==> y in s && y != x
    ensures |r| <= |s|
    ensures Distinct(s) ==> Distinct(r)
  {
    if |s| == 0 then []
    else if s[0] == x then Without(s[1..], x)
    else
      var rest := Without(s[1..], x);
      assert Distinct(s) ==> s[0] !in s[1..] && Distinct(s[1..]);
      [s[0]] + rest
  }

  predicate Distinct<T(==)>(s: seq<T>) {
    forall i, j | 0 <= i < j < |s| :: s[i] != s[j]
  }

  /** A sequence with a head is distinct exactly when the head is not
      repeated and the tail is distinct. */
  lemma DistinctTail<T>(x: T, s: seq<T>)
    ensures Distinct([x] + s) <==> x !in s && Distinct(s)
  {
    var t := [x] + s;
    assert t[1..] == s;
    if Distinct(t) {
      forall i, j | 0 <= i < j < |s|
        ensures s[i] != s[j]
      {
        assert s[i] == t[i + 1] && s[j] == t[j + 1];
      }
      assert forall k | 0 <= k < |s| :: s[k] == t[k + 1] && t[0] != t[k + 1];
    } else if x !in s && Distinct(s) {
      DistinctCons(x, s);
    }
  }

  lemma DistinctCons<T>(x: T, s: seq<T>)
    requires x !in s && Distinct(s)
    ensures Distinct([x] + s)
  {
    var t := [x] + s;
    forall i, j | 0 <= i < j < |t|
      ensures t[i] != t[j]
    {
      assert t[j] == s[j - 1];
      if i > 0 {
        assert t[i] == s[i - 1];
      }
    }
  }

  lemma DistinctSnoc<T>(s: seq<T>, x: T)
    requires x !in s && Distinct(s)
    ensures Distinct(s + [x])
  {
    var t := s + [x];
    forall i, j | 0 <= i < j < |t|
      ensures t[i] != t[j]
    {
      assert t[i] == s[i];
      if j < |s| {
        assert t[j] == s[j];
      }
    }
  }

  /** `list(d)`: the keys in iteration order, each once. */
  function Keys<V>(e: Entries<V>): (ks: seq<string>)
    ensures Distinct(ks)
    ensures forall k :: k in ks <==> k in KeySet(e)
    ensures |ks| <= |e|
  {
    if |e| == 0 then []
    else
      var rest := Without(Keys(e[1..]), e[0].0);
      assert forall i | 0 <= i < |rest| :: rest[i] in rest;
      [e[0].0] + rest
  }

  /** `d[k] = v`. */
  function Put<V>(e: Entries<V>, k: string, v: V): (r: Entries<V>)
    ensures Lookup(r, k) == Some(v)
    ensures forall j | j != k :: Lookup(r, j) == Lookup(e, j)
    ensures KeySet(r) == KeySet(e) + {k}
  {
    if |e| == 0 then [(k, v)]
    else if e[0].0 == k then
      var r := [(k, v)] + e[1..];
      assert r[1..] == e[1..];
      r
    else
      var t := Put(e[1..], k, v);
      var r := [e[0]] + t;
      assert r[1..] == t;
      r
  }

  /** Item assignment keeps an existing key at its place and appends a new
      key at the end. */
  lemma PutOrder<V>(e: Entries<V>, k: string, v: V)
    ensures k in KeySet(e) ==> |Put(e, k, v)| == |e| && forall i | 0 <= i < |e| :: Put(e, k, v)[i].0 == e[i].0
    ensures k !in KeySet(e) ==> Put(e, k, v) == e + [(k, v)]
  {
    if k in KeySet(e) {
      PutKeepsPlace(e, k, v);
    } else {
      PutAppends(e, k, v);
    }
  }

  lemma {:induction false} PutKeepsPlace<V>(e: Entries<V>, k: string, v: V)
    requires k in KeySet(e)
    ensures |Put(e, k, v)| == |e| && forall i | 0 <= i < |e| :: Put(e, k, v)[i].0 == e[i].0
  {
    if e[0].0 != k {
      var t := e[1..];
      assert KeySet(e) == {e[0].0} + KeySet(t);
      PutKeepsPlace(t, k, v);
      var r := Put(e, k, v);
      assert r == [e[0]] + Put(t, k, v);
      forall i | 1 <= i < |e|
        ensures r[i].0 == e[i].0
      {
        assert r[i] == Put(t, k, v)[i - 1] && e[i] == t[i - 1];
      }
    }
  }

  lemma {:induction false} PutAppends<V>(e: Entries<V>, k: string, v: V)
    requires k !in KeySet(e)
    ensures Put(e, k, v) == e + [(k, v)]
  {
    if |e| > 0 {
      var t := e[1..];
      assert KeySet(e) == {e[0].0} + KeySet(t);
      PutAppends(t, k, v);
      assert Put(e, k, v) == [e[0]] + (t + [(k, v)]);
      assert [e[0]] + (t + [(k, v)]) == ([e[0]] + t) + [(k, v)];
      assert [e[0]] + t == e;
    }
  }

  /** `d.update(u)`: each key of `u`, in `u`'s order, is put with its value. */
  function Update<V>(e: Entries<V>, u: Entries<V>): (r: Entries<V>)
    ensures KeySet(r) == KeySet(e) + KeySet(u)
  {
    PutAll(e, u, Keys(u))
  }

  function PutAll<V>(e: Entries<V>, u: Entries<V>, ks: seq<string>): (r: Entries<V>)
    requires forall k | k in ks :: k in KeySet(u)
    ensures KeySet(r) == KeySet(e) + set k | k in ks
    decreases |ks|
  {
    if |ks| == 0 then e else PutAll(Put(e, ks[0], Lookup(u, ks[0]).value), u, ks[1..])
  }

  /** After `d.update(u)`, a key of `u` holds `u`'s value and every other key
      keeps the value it had. */
  lemma UpdateLookup<V>(e: Entries<V>, u: Entries<V>, k: string)
    ensures Lookup(Update(e, u), k) == if k in KeySet(u) then Lookup(u, k) else Lookup(e, k)
  {
    PutAllLookup(e, u, Keys(u), k);
  }

  lemma {:induction false} PutAllLookup<V>(e: Entries<V>, u: Entries<V>, ks: seq<string>, k: string)
    requires forall k | k in ks :: k in KeySet(u)
    ensures Lookup(PutAll(e, u, ks), k) == if k in ks then Lookup(u, k) else Lookup(e, k)
    decreases |ks|
  {
    if |ks| > 0 {
      var e1 := Put(e, ks[0], Lookup(u, ks[0]).value);
      PutAllLookup(e1, u, ks[1..], k);
      assert k in ks <==> k == ks[0] || k in ks[1..];
    }
  }

  /** `del d[k]` when `k` is present; `d.pop(k, None)` otherwise. */
  function Remove<V>(e: Entries<V>, k: string): (r: Entries<V>)
    ensures Lookup(r, k).None?
    ensures forall j | j != k :: Lookup(r, j) == Lookup(e, j)
    ensures |r| <= |e|
  {
    if |e| == 0 then []
    else if e[0].0 == k then Remove(e[1..], k)
    else [e[0]] + Remove(e[1..], k)
  }

  /** `{k: v for k, v in d.items() if keep(k)}`. */
  function FilterKeys<V>(e: Entries<V>, keep: string -> bool): (r: Entries<V>)
    ensures forall k :: Lookup(r, k) == if keep(k) then Lookup(e, k) else None
    ensures |r| <= |e|
  {
    if |e| == 0 then []
    else if keep(e[0].0) then [e[0]] + FilterKeys(e[1..], keep)
    else FilterKeys(e[1..], keep)
  }

  /** The dict without the keys in `ks`, in order: `{k: v for k, v in
      e.items() if k not in ks}`. */
  function Drop<V>(e: Entries<V>, ks: seq<string>): (r: Entries<V>)
    ensures forall k :: Lookup(r, k) == if k in ks then None else Lookup(e, k)
  {
    FilterKeys(e, k => k !in ks)
  }

  /** The value of the last pair with key `k`. */
  function LastValue<V>(ps: seq<(string, V)>, k: string): Option<V> {
    if |ps| == 0 then None
    else if ps[|ps| - 1].0 == k then Some(ps[|ps| - 1].1)
    else LastValue(ps[..|ps| - 1], k)
  }

  /** `dict(pairs)`: the pairs are put in order, so the last value given for
      a key is the one kept, at the place the key first appeared. */
  function FromPairs<V>(ps: seq<(string, V)>): (r: Entries<V>)
    ensures forall k :: Lookup(r, k) == LastValue(ps, k)
  {
    if |ps| == 0 then [] else Put(FromPairs(ps[..|ps| - 1]), ps[|ps| - 1].0, ps[|ps| - 1].1)
  }

  /** A pair added at the end decides its own key and leaves the others. */
  lemma LastValueSnoc<V>(ps: seq<(string, V)>, k: string, v: V, j: string)
    ensures LastValue(ps + [(k, v)], j) == if j == k then Some(v) else LastValue(ps, j)
  {
    assert (ps + [(k, v)])[..|ps|] == ps;
  }

  /** With distinct names, a pair is found by its name. */
  lemma {:induction false} LastValueDistinct<V>(pairs: seq<(string, V)>, i: nat)
    requires forall a, b | 0 <= a < b < |pairs| :: pairs[a].0 != pairs[b].0
    requires i < |pairs|
    ensures LastValue(pairs, pairs[i].0) == Some(pairs[i].1)
  {
    var n := |pairs| - 1;
    if i < n {
      assert pairs[n].0 != pairs[i].0;
      LastValueDistinct(pairs[..n], i);
    }
  }

  /** A name that no pair carries is absent. */
  lemma {:induction false} LastValueAbsent<V>(pairs: seq<(string, V)>, k: string)
    requires forall a | 0 <= a < |pairs| :: pairs[a].0 != k
    ensures LastValue(pairs, k).None?
  {
    if |pairs| > 0 {
      var n := |pairs| - 1;
      assert forall a | 0 <= a < n :: pairs[..n][a] == pairs[a];
      LastValueAbsent(pairs[..n], k);
    }
  }

  /** Pairs given later decide a name; earlier ones count only for names
      the later ones do not carry. */
  lemma {:induction false} LastValueAppend<V>(a: seq<(string, V)>, b: seq<(string, V)>, k: string)
    ensures LastValue(a + b, k) == if LastValue(b, k).Some? then LastValue(b, k) else LastValue(a, k)
    decreases |b|
  {
    if |b| == 0 {
      assert a + b == a;
    } else {
      var n := |b| - 1;
      assert (a + b)[..|a + b| - 1] == a + b[..n];
      assert (a + b)[|a + b| - 1] == b[n];
      LastValueAppend(a, b[..n], k);
    }
  }

  /** A loop that puts at most one pair and hands on: what the rest of the
      loop decides wins, then that pair, then what was there before. */
  lemma LookupAfterHead<V>(acc: Entries<V>, head: seq<(string, V)>, rest: seq<(string, V)>, mid: Entries<V>, out: Entries<V>)
    requires |head| <= 1
    requires mid == if |head| == 0 then acc else Put(acc, head[0].0, head[0].1)
    requires forall k :: Lookup(out, k) == if LastValue(rest, k).Some? then LastValue(rest, k) else Lookup(mid, k)
    ensures forall k :: Lookup(out, k) == if LastValue(head + rest, k).Some? then LastValue(head + rest, k) else Lookup(acc, k)
  {
    forall k
      ensures Lookup(out, k) == if LastValue(head + rest, k).Some? then LastValue(head + rest, k) else Lookup(acc, k)
    {
      LastValueAppend(head, rest, k);
      if |head| > 0 {
        LastValueSnoc([], head[0].0, head[0].1, k);
        assert [] + [(head[0].0, head[0].1)] == head;
      }
    }
  }

  /** A non-empty dict stays non-empty under `update`. */
  lemma UpdateNonEmpty<V>(e: Entries<V>, u: Entries<V>)
    requires |e| > 0 || |u| > 0
    ensures |Update(e, u)| > 0
  {
    if |e| > 0 {
      assert e[0].0 in KeySet(Update(e, u));
    } else {
      assert u[0].0 in KeySet(Update(e, u));
    }
  }

  /** The names of a sequence of pairs, in order. */
  function Names<V>(ps: seq<(string, V)>): (r: seq<string>)
    ensures |r| == |ps| && forall i | 0 <= i < |ps| :: r[i] == ps[i].0
  {
    if |ps| == 0 then [] else Names(ps[..|ps| - 1]) + [ps[|ps| - 1].0]
  }

  lemma NamesAppend<V>(a: seq<(string, V)>, b: seq<(string, V)>)
    ensures Names(a + b) == Names(a) + Names(b)
  {
    assert forall i | 0 <= i < |a + b| :: Names(a + b)[i] == (Names(a) + Names(b))[i];
  }

  /** Each name once, at its first appearance. */
  function Dedup(s: seq<string>): (r: seq<string>)
    ensures Distinct(r)
    ensures forall x :: x in r <==> x in s
  {
    if |s| == 0 then []
    else
      var p := Dedup(s[..|s| - 1]);
      assert forall x :: x in s <==> x in s[..|s| - 1] || x == s[|s| - 1];
      if s[|s| - 1] in p then p else p + [s[|s| - 1]]
  }

  /** A sequence without repetitions is its own deduplication. */
  lemma {:induction false} DedupDistinct(s: seq<string>)
    requires Distinct(s)
    ensures Dedup(s) == s
  {
    if |s| > 0 {
      var n := |s| - 1;
      DedupDistinct(s[..n]);
      assert s[n] !in s[..n];
      assert s[..n] + [s[n]] == s;
    }
  }

  /** Deduplicating two sequences that share no name deduplicates each. */
  lemma {:induction false} DedupAppendDisjoint(a: seq<string>, b: seq<string>)
    requires forall x | x in a :: x !in b
    ensures Dedup(a + b) == Dedup(a) + Dedup(b)
    decreases |b|
  {
    if |b| == 0 {
      assert a + b == a;
    } else {
      var n := |b| - 1;
      assert (a + b)[..|a + b| - 1] == a + b[..n];
      assert (a + b)[|a + b| - 1] == b[n];
      DedupAppendDisjoint(a, b[..n]);
      assert b[n] !in a;
    }
  }

  /** Item assignment leaves the order of names alone, or appends a new one. */
  lemma NamesPut<V>(e: Entries<V>, k: string, v: V)
    ensures Names(Put(e, k, v)) == if k in KeySet(e) then Names(e) else Names(e) + [k]
  {
    PutOrder(e, k, v);
    var r := Put(e, k, v);
    if k in KeySet(e) {
      assert forall i | 0 <= i < |e| :: Names(r)[i] == Names(e)[i];
    } else {
      assert forall i | 0 <= i < |r| :: Names(r)[i] == (Names(e) + [k])[i];
    }
  }

  /** `dict(pairs)` iterates its keys in the order they first appear among
      the pairs, each once. */
  lemma {:induction false} FromPairsOrder<V>(ps: seq<(string, V)>)
    ensures Names(FromPairs(ps)) == Dedup(Names(ps))
  {
    if |ps| > 0 {
      var n := |ps| - 1;
      var e := FromPairs(ps[..n]);
      FromPairsOrder(ps[..n]);
      assert FromPairs(ps) == Put(e, ps[n].0, ps[n].1);
      NamesSnoc(ps);
      NamesPut(e, ps[n].0, ps[n].1);
      KeySetNames(e, ps[n].0);
    }
  }

  /** The names of all pairs but the last, then the last one's. */
  lemma NamesSnoc<V>(ps: seq<(string, V)>)
    requires |ps| > 0
    ensures Names(ps)[..|ps| - 1] == Names(ps[..|ps| - 1])
    ensures Names(ps)[|ps| - 1] == ps[|ps| - 1].0
  {
  }

  /** A key is in a dict exactly when it is among the dict's names. */
  lemma KeySetNames<V>(e: Entries<V>, k: string)
    ensures k in KeySet(e) <==> k in Names(e)
  {
    assert forall i | 0 <= i < |e| :: Names(e)[i] == e[i].0;
  }

  /** The position of the pair a lookup reads. */
  function KeyIndex<V>(e: Entries<V>, k: string): (i: nat)
    requires k in KeySet(e)
    ensures i < |e| && e[i].0 == k && Lookup(e, k) == Some(e[i].1)
  {
    if e[0].0 == k then 0 else 1 + KeyIndex(e[1..], k)
  }

  /** When every pair for a name carries the same value, that value is the
      name's. */
  lemma {:induction false} LastValueUniform<V>(ps: seq<(string, V)>, k: string, v: V)
    requires k in Names(ps)
    requires forall i | 0 <= i < |ps| && ps[i].0 == k :: ps[i].1 == v
    ensures LastValue(ps, k) == Some(v)
  {
    var n := |ps| - 1;
    if ps[n].0 != k {
      assert k in Names(ps[..n]) by {
        var i :| 0 <= i < |ps| && Names(ps)[i] == k;
        assert i < n && Names(ps[..n])[i] == k;
      }
      LastValueUniform(ps[..n], k, v);
    }
  }
}

=== FILE: paginate.dfy ===
/** `model_order_paginate`: ordering and paging a list query.

  There are two copies of the function. The one in `flask_restplus` refuses
  a page size below -1; the one in `restplus` lets it through to the store.
  Both order a document (mongo) query by the raw order string, return every
  object for page size -1, and otherwise take the cursor window that skips
  `(page - 1) * page_size` objects and keeps `page_size` of them. The
  relational (peewee) branch turns `"id,-create_time"` into a list of
  (field, descending) pairs, refuses unknown fields with a 400, and asks
  for `paginate(page, page_size)` unless the page size is -1.

  The query objects of the stores are not modelled. The document query is
  the list of its objects, and its `order_by` is a parameter. The window
  follows the cursor rules of the document store: a negative skip is an
  error, a limit of 0 means no limit, and a negative limit keeps as many
  objects as its absolute value. The relational query is returned as a
  description: the order and the paging it asks for.
 */
module Paginate {
  import opened Wrappers
  import opened PyStrings

  /** Which copy of the function. */
  datatype Variant = FlaskRestplus | Restplus

  /** The parsed request arguments the function reads. */
  datatype PageArgs = PageArgs(orderFields: Option<string>, page: int, pageSize: int)

  /** How a call ends: a value, an HTTP error raised in the view, or an
      error raised by the store. */
  datatype Outcome<T> = Done(value: T) | HttpError(code: int, description: string) | StoreError(message: string)

  /** What the relational branch asks of its query: the order, as (field,
      descending) pairs, and `paginate(page, page_size)` when it is applied. */
  datatype PeeweeQuery = PeeweeQuery(order: seq<(string, bool)>, paginate: Option<(int, int)>)

  /** The result of the dispatch on the engine name. */
  datatype Paginated<T> = MongoRows(rows: seq<T>) | PeeweeRows(query: PeeweeQuery) | NoEngine

  const PageSizeError: string := "page_size(页长）不能小于-1"

  function Abs(n: int): nat {
    if n < 0 then -n else n
  }

  function Min(a: int, b: int): int {
    if a < b then a else b
  }

  /** `cursor.skip(skip).limit(limit)` on the objects of a query. */
  function Window<T>(objs: seq<T>, skip: int, limit: int): (r: Outcome<seq<T>>)
    ensures r.HttpError? == false
    ensures r.StoreError? <==> skip < 0
    ensures r.Done? ==> |r.value| == (if skip >= |objs| then 0
                                      else if limit == 0 then |objs| - skip
                                      else Min(Abs(limit), |objs| - skip))
    ensures r.Done? ==> forall i | 0 <= i < |r.value| :: skip + i < |objs| && r.value[i] == objs[skip + i]
  {
    if skip < 0 then StoreError("skip must be >= 0")
    else
      var rest := if skip <= |objs| then objs[skip..] else [];
      var n := if limit == 0 then |rest| else Min(Abs(limit), |rest|);
      Done(rest[..n])
  }

  /** The document branch. */
  function MongoOrderPaginate<T>(variant: Variant, objs: seq<T>, orderBy: (seq<T>, string) -> seq<T>,
                                 pargs: PageArgs): (r: Outcome<seq<T>>)
    ensures variant == FlaskRestplus && pargs.pageSize < -1 ==> r == HttpError(400, PageSizeError)
    ensures r.HttpError? ==> variant == FlaskRestplus && pargs.pageSize < -1
    ensures pargs.pageSize == -1 ==>
      r == Done(if pargs.orderFields.Some? then orderBy(objs, pargs.orderFields.value) else objs)
    ensures r.StoreError? <==>
      !(variant == FlaskRestplus && pargs.pageSize < -1) && pargs.pageSize != -1 &&
      (pargs.page - 1) * pargs.pageSize < 0
  {
    var ordered := if pargs.orderFields.Some? then orderBy(objs, pargs.orderFields.value) else objs;
    if variant == FlaskRestplus && pargs.pageSize < -1 then HttpError(400, PageSizeError)
    else if pargs.pageSize == -1 then Done(ordered)
    else Window(ordered, (pargs.page - 1) * pargs.pageSize, pargs.pageSize)
  }

  /** A positive page size pages the ordered objects: page `p` holds the
      objects from `(p - 1) * page_size` on, at most `page_size` of them. */
  lemma MongoPage<T>(variant: Variant, objs: seq<T>, orderBy: (seq<T>, string) -> seq<T>, pargs: PageArgs)
    requires pargs.pageSize >= 1 && pargs.page >= 1
    ensures var ordered := if pargs.orderFields.Some? then orderBy(objs, pargs.orderFields.value) else objs;
      var start := (pargs.page - 1) * pargs.pageSize;
      MongoOrderPaginate(variant, objs, orderBy, pargs) ==
        Done(if start >= |ordered| then [] else ordered[start..Min(start + pargs.pageSize, |ordered|)])
  {
    var ordered := if pargs.orderFields.Some? then orderBy(objs, pargs.orderFields.value) else objs;
    var start := (pargs.page - 1) * pargs.pageSize;
    assert start >= 0 by {
      assert pargs.page - 1 >= 0;
    }
    var r := Window(ordered, start, pargs.pageSize);
    var expected := if start >= |ordered| then [] else ordered[start..Min(start + pargs.pageSize, |ordered|)];
    if start < |ordered| {
      assert Min(start + pargs.pageSize, |ordered|) - start == Min(Abs(pargs.pageSize), |ordered| - start);
      assert forall i | 0 <= i < |expected| :: expected[i] == ordered[start + i];
    }
    assert r.Done? && |r.value| == |expected|;
    assert forall i | 0 <= i < |expected| :: r.value[i] == expected[i];
    assert r.value == expected;
    assert MongoOrderPaginate(variant, objs, orderBy, pargs) == r;
  }

  /** The first `k` pages, one after the other. */
  function Pages<T>(objs: seq<T>, pageSize: int, k: nat): seq<T>
    requires pageSize >= 1
  {
    if k == 0 then []
    else
      var start := (k - 1) * pageSize;
      Pages(objs, pageSize, k - 1) +
        (if start >= |objs| then [] else objs[start..Min(start + pageSize, |objs|)])
  }

  /** Pages neither overlap nor leave gaps: the first `k` pages are the first
      `k * page_size` objects. */
  lemma {:induction false} PagesArePrefix<T>(objs: seq<T>, pageSize: int, k: nat)
    requires pageSize >= 1
    ensures Pages(objs, pageSize, k) == objs[..Min(k * pageSize, |objs|)]
  {
    if k > 0 {
      PagesArePrefix(objs, pageSize, k - 1);
      var start := (k - 1) * pageSize;
      assert k * pageSize == start + pageSize;
      if start < |objs| {
        assert objs[..start] + objs[start..Min(start + pageSize, |objs|)] == objs[..Min(start + pageSize, |objs|)];
      }
    }
  }

  /** One item of the order string: a leading `-` asks for descending order
      of the field named by the rest. */
  function OrderItem(item: string): (r: (string, bool))
    ensures r.1 <==> StartsWith(item, "-")
  {
    if StartsWith(item, "-") then (item[1..], true) else (item, false)
  }

  /** The order item a (field, descending) pair is written as. */
  function RenderOrderItem(f: (string, bool)): string {
    if f.1 then "-" + f.0 else f.0
  }

  /** The field with its sign restores the item. */
  lemma OrderItemRenders(item: string)
    ensures RenderOrderItem(OrderItem(item)) == item
  {
    if StartsWith(item, "-") {
      assert item == "-" + item[1..];
    }
  }

  function RenderOrder(order: seq<(string, bool)>): (r: seq<string>)
    ensures |r| == |order|
    ensures forall i | 0 <= i < |order| :: r[i] == RenderOrderItem(order[i])
  {
    if |order| == 0 then [] else [RenderOrderItem(order[0])] + RenderOrder(order[1..])
  }

  /** The loop over `order_string.split(',')`: each item becomes a pair, and
      the first item whose field the model does not have aborts with 400. */
  function OrderFields(items: seq<string>, fields: set<string>): (r: Outcome<seq<(string, bool)>>)
    ensures !r.StoreError?
    ensures r.Done? <==> forall i | 0 <= i < |items| :: OrderItem(items[i]).0 in fields
    ensures r.Done? ==> |r.value| == |items| && forall i | 0 <= i < |items| :: r.value[i] == OrderItem(items[i])
    ensures r.HttpError? ==> exists i | 0 <= i < |items| ::
      OrderItem(items[i]).0 !in fields && (forall j | 0 <= j < i :: OrderItem(items[j]).0 in fields) &&
      r == HttpError(400, OrderItem(items[i]).0 + " order fields error")
  {
    match FirstWhere(items, item => OrderItem(item).0 !in fields)
    case None => Done(seq(|items|, i requires 0 <= i < |items| => OrderItem(items[i])))
    case Some(i) => HttpError(400, OrderItem(items[i]).0 + " order fields error")
  }

  /** The relational branch. An absent order string fails on `.split`. */
  function PeeweeOrderPaginate(fields: set<string>, pargs: PageArgs): (r: Outcome<PeeweeQuery>)
    ensures pargs.orderFields.None? ==> r.StoreError?
    ensures r.Done? ==> (r.value.paginate.Some? <==> pargs.pageSize != -1)
    ensures r.Done? && r.value.paginate.Some? ==> r.value.paginate.value == (pargs.page, pargs.pageSize)
  {
    if pargs.orderFields.None? then StoreError("'NoneType' object has no attribute 'split'")
    else
      match OrderFields(Split(pargs.orderFields.value, ','), fields)
      case Done(order) =>
        Done(PeeweeQuery(order, if pargs.pageSize != -1 then Some((pargs.page, pargs.pageSize)) else None))
      case HttpError(c, m) => HttpError(c, m)
      case StoreError(m) => StoreError(m)
  }

  /** An accepted order string is exactly the order asked for: writing the
      pairs back gives the string. */
  lemma PeeweeOrderRoundTrip(fields: set<string>, pargs: PageArgs)
    requires PeeweeOrderPaginate(fields, pargs).Done?
    ensures pargs.orderFields.Some?
    ensures Join(",", RenderOrder(PeeweeOrderPaginate(fields, pargs).value.order)) == pargs.orderFields.value
  {
    var s := pargs.orderFields.value;
    var items := Split(s, ',');
    var order := PeeweeOrderPaginate(fields, pargs).value.order;
    assert RenderOrder(order) == items by {
      forall i | 0 <= i < |items|
        ensures RenderOrder(order)[i] == items[i]
      {
        OrderItemRenders(items[i]);
      }
    }
    JoinSplit(s, ',');
  }

  /** The relational branch refuses a string exactly when one of its items
      names a field the model does not have. */
  lemma PeeweeOrderRefused(fields: set<string>, pargs: PageArgs)
    requires pargs.orderFields.Some?
    ensures PeeweeOrderPaginate(fields, pargs).HttpError? <==>
      exists i | 0 <= i < |Split(pargs.orderFields.value, ',')| ::
        OrderItem(Split(pargs.orderFields.value, ',')[i]).0 !in fields
  {
    var items := Split(pargs.orderFields.value, ',');
    var o := OrderFields(items, fields);
    assert PeeweeOrderPaginate(fields, pargs).HttpError? <==> o.HttpError?;
    assert o.HttpError? <==> !o.Done?;
    if o.HttpError? {
      var i :| 0 <= i < |items| && OrderItem(items[i]).0 !in fields;
      assert exists j | 0 <= j < |Split(pargs.orderFields.value, ',')| ::
        OrderItem(Split(pargs.orderFields.value, ',')[j]).0 !in fields;
    }
  }

  /** `model_order_paginate(model_class, objs, pargs, engine)`; any engine
      other than the two falls off the end and returns `None`. */
  function ModelOrderPaginate<T>(variant: Variant, engine: string, fields: set<string>, objs: seq<T>,
                                 orderBy: (seq<T>, string) -> seq<T>, pargs: PageArgs): (r: Outcome<Paginated<T>>)
    ensures engine != "peewee" && engine != "mongo" ==> r == Done(NoEngine)
    ensures engine == "mongo" ==> match MongoOrderPaginate(variant, objs, orderBy, pargs)
      case Done(rows) => r == Done(MongoRows(rows))
      case HttpError(c, m) => r == HttpError(c, m)
      case StoreError(m) => r == StoreError(m)
  {
    if engine == "peewee" then
      match PeeweeOrderPaginate(fields, pargs)
      case Done(q) => Done(PeeweeRows(q))
      case HttpError(c, m) => HttpError(c, m)
      case StoreError(m) => StoreError(m)
    else if engine == "mongo" then
      match MongoOrderPaginate(variant, objs, orderBy, pargs)
      case Done(rows) => Done(MongoRows(rows))
      case HttpError(c, m) => HttpError(c, m)
      case StoreError(m) => StoreError(m)
    else Done(NoEngine)
  }

  /** Where the copies differ: a page size below -1 is a 400 in one and goes
      to the store in the other, where it is a negative skip for pages above
      the first. */
  lemma VariantsDiffer<T>(objs: seq<T>, orderBy: (seq<T>, string) -> seq<T>, pargs: PageArgs)
    requires pargs.pageSize < -1 && pargs.page >= 2
    ensures MongoOrderPaginate(FlaskRestplus, objs, orderBy, pargs).HttpError?
    ensures MongoOrderPaginate(Restplus, objs, orderBy, pargs).StoreError?
  {
    assert (pargs.page - 1) * pargs.pageSize < 0 by {
      assert pargs.page - 1 >= 1;
    }
  }

  /** The copies agree whenever the page size is at least -1. */
  lemma VariantsAgree<T>(objs: seq<T>, orderBy: (seq<T>, string) -> seq<T>, pargs: PageArgs)
    requires pargs.pageSize >= -1
    ensures MongoOrderPaginate(FlaskRestplus, objs, orderBy, pargs) == MongoOrderPaginate(Restplus, objs, orderBy, pargs)
  {
  }
}

=== FILE: pystrings.dfy ===
/** Python's `str` operations that the modelled code relies on, written out
  over Dafny strings (sequences of characters).

  Only the behaviour the callers exercise is modelled: `split` on a
  one-character separator, `join`, `replace` (including Python's rule for
  an empty pattern), `strip` with no argument, ASCII `lower`, decimal `str`
  of an integer and `int` of a decimal literal.
 */
module PyStrings {
  import opened Wrappers

  predicate StartsWith(s: string, prefix: string) {
    |prefix| <= |s| && s[..|prefix|] == prefix
  }

  predicate EndsWith(s: string, suffix: string) {
    |suffix| <= |s| && s[|s| - |suffix|..] == suffix
  }

  /** Python's `sub in s` on strings. */
  predicate Contains(s: string, sub: string) {
    exists i | 0 <= i <= |s| - |sub| :: OccursAt(s, sub, i)
  }

  predicate OccursAt(s: string, sub: string, i: int) {
    0 <= i <= |s| - |sub| && s[i..i + |sub|] == sub
  }

  /** Index of the first occurrence of `c` in `s`. */
  function IndexOf(s: string, c: char): (r: Option<nat>)
    ensures r.None? <==> c !in s
    ensures r.Some? ==> r.value < |s| && s[r.value] == c && c !in s[..r.value]
  {
    if |s| == 0 then None
    else if s[0] == c then Some(0)
    else
      match IndexOf(s[1..], c)
      case None => None
      case Some(j) => Some(j + 1)
  }

  /** Python's `s.split(c)` for a one-character separator `c`. */
  function Split(s: string, c: char): (parts: seq<string>)
    ensures |parts| >= 1
    ensures forall i | 0 <= i < |parts| :: c !in parts[i]
  {
    if |s| == 0 then [""]
    else
      var rest := Split(s[1..], c);
      if s[0] == c then [""] + rest else [[s[0]] + rest[0]] + rest[1..]
  }

  /** Python's `sep.join(parts)`. */
  function Join(sep: string, parts: seq<string>): string {
    if |parts| == 0 then ""
    else if |parts| == 1 then parts[0]
    else parts[0] + sep + Join(sep, parts[1..])
  }

  /** Joining the pieces of a split with the separator gives the original back. */
  lemma {:induction false} JoinSplit(s: string, c: char)
    ensures Join([c], Split(s, c)) == s
  {
    if |s| > 0 {
      var rest := Split(s[1..], c);
      JoinSplit(s[1..], c);
      if s[0] == c {
        assert Split(s, c) == [""] + rest;
        assert Join([c], [""] + rest) == "" + [c] + Join([c], rest);
        assert s == [s[0]] + s[1..];
      } else {
        var head := [s[0]] + rest[0];
        assert Split(s, c) == [head] + rest[1..];
        if |rest| == 1 {
          assert Join([c], [head]) == head;
          assert Join([c], rest) == rest[0];
        } else {
          assert rest == [rest[0]] + rest[1..];
          assert Join([c], [head] + rest[1..]) == head + [c] + Join([c], rest[1..]);
          assert Join([c], rest) == rest[0] + [c] + Join([c], rest[1..]);
        }
        assert s == [s[0]] + s[1..];
      }
    }
  }

  /** A string without the separator splits into itself alone. */
  lemma {:induction false} SplitWithoutSeparator(s: string, c: char)
    requires c !in s
    ensures Split(s, c) == [s]
  {
    if |s| > 0 {
      SplitWithoutSeparator(s[1..], c);
      assert s == [s[0]] + s[1..];
    }
  }

  /** A piece without the separator, then the separator, splits off as the
      first part. */
  lemma {:induction false} SplitConcat(a: string, c: char, b: string)
    requires c !in a
    ensures Split(a + [c] + b, c) == [a] + Split(b, c)
  {
    if |a| == 0 {
      assert a + [c] + b == [c] + b;
      assert ([c] + b)[1..] == b;
    } else {
      SplitConcat(a[1..], c, b);
      assert (a + [c] + b)[1..] == a[1..] + [c] + b;
      assert a == [a[0]] + a[1..];
    }
  }

  /** Splitting the join of pieces without the separator gives the pieces back. */
  lemma {:induction false} SplitJoin(parts: seq<string>, c: char)
    requires |parts| >= 1
    requires forall i | 0 <= i < |parts| :: c !in parts[i]
    ensures Split(Join([c], parts), c) == parts
  {
    if |parts| == 1 {
      SplitWithoutSeparator(parts[0], c);
    } else {
      SplitJoin(parts[1..], c);
      SplitConcat(parts[0], c, Join([c], parts[1..]));
      assert parts == [parts[0]] + parts[1..];
    }
  }

  /** Python's `s.split(c, 1)` when `c` occurs in `s`: the text before the
      first `c` and everything after it. */
  function SplitOnce(s: string, c: char): (r: (string, string))
    requires c in s
    ensures r.0 + [c] + r.1 == s
    ensures c !in r.0
  {
    var j := IndexOf(s, c).value;
    assert s == s[..j] + [c] + s[j + 1..];
    (s[..j], s[j + 1..])
  }

  /** Splitting once at a separator the first piece lacks gives the two
      pieces back. */
  lemma SplitOnceConcat(a: string, c: char, b: string)
    requires c !in a
    ensures c in a + [c] + b
    ensures SplitOnce(a + [c] + b, c) == (a, b)
  {
    var s := a + [c] + b;
    assert s[|a|] == c;
    var r := SplitOnce(s, c);
    assert forall j | 0 <= j < |a| :: s[j] == a[j];
    assert s[|r.0|] == c;
    assert forall j | 0 <= j < |r.0| :: s[j] == r.0[j];
    assert r.0 == s[..|a|] == a;
    assert r.1 == s[|a| + 1..] == b;
  }

  /** Python's `s.replace(pat, repl)`: every non-overlapping occurrence of
      `pat`, scanned left to right, is replaced; an empty `pat` matches
      before every character and at the end. */
  function Replace(s: string, pat: string, repl: string): string
    decreases |s|
  {
    if |pat| == 0 then repl + Interleave(s, repl)
    else if |s| == 0 then ""
    else if StartsWith(s, pat) then repl + Replace(s[|pat|..], pat, repl)
    else [s[0]] + Replace(s[1..], pat, repl)
  }

  function Interleave(s: string, sep: string): string {
    if |s| == 0 then "" else [s[0]] + sep + Interleave(s[1..], sep)
  }

  lemma ContainsStep(s: string, sub: string)
    requires |s| > 0 && |sub| > 0
    ensures Contains(s, sub) <==> StartsWith(s, sub) || Contains(s[1..], sub)
  {
    if Contains(s, sub) && !StartsWith(s, sub) {
      var t := s[1..];
      var i :| 0 <= i <= |s| - |sub| && OccursAt(s, sub, i);
      assert s[i..i + |sub|] == sub;
      assert i != 0;
      assert t[i - 1..i - 1 + |sub|] == s[i..i + |sub|];
      assert OccursAt(t, sub, i - 1);
    }
    if Contains(s[1..], sub) {
      var t := s[1..];
      var i :| 0 <= i <= |t| - |sub| && OccursAt(t, sub, i);
      assert t[i..i + |sub|] == sub;
      assert s[i + 1..i + 1 + |sub|] == t[i..i + |sub|];
      assert OccursAt(s, sub, i + 1);
    }
    if StartsWith(s, sub) {
      assert OccursAt(s, sub, 0);
    }
  }

  /** A replacement that is longer than the pattern never shortens the text. */
  lemma {:induction false} ReplaceGrows(s: string, pat: string, repl: string)
    requires 0 < |pat| < |repl|
    ensures |Replace(s, pat, repl)| >= |s|
    decreases |s|
  {
    if |s| > 0 {
      if StartsWith(s, pat) {
        ReplaceGrows(s[|pat|..], pat, repl);
      } else {
        ReplaceGrows(s[1..], pat, repl);
      }
    }
  }

  /** Replacing a non-empty pattern by something longer leaves the text
      unchanged exactly when the pattern does not occur in it. */
  lemma {:induction false} ReplaceUnchangedIff(s: string, pat: string, repl: string)
    requires 0 < |pat| < |repl|
    ensures Replace(s, pat, repl) == s <==> !Contains(s, pat)
    decreases |s|
  {
    if |s| == 0 {
      assert !Contains(s, pat);
    } else {
      ContainsStep(s, pat);
      if StartsWith(s, pat) {
        ReplaceGrows(s[|pat|..], pat, repl);
        assert |Replace(s, pat, repl)| > |s|;
      } else {
        ReplaceUnchangedIff(s[1..], pat, repl);
        assert s == [s[0]] + s[1..];
      }
    }
  }

  /** Python's `s.replace(pat, repl, 1)` for a non-empty `pat`. */
  function ReplaceFirst(s: string, pat: string, repl: string): string
    requires |pat| > 0
    decreases |s|
  {
    if |s| == 0 then ""
    else if StartsWith(s, pat) then repl + s[|pat|..]
    else [s[0]] + ReplaceFirst(s[1..], pat, repl)
  }

  /** A text that starts with the pattern has its first occurrence at the start. */
  lemma ReplaceFirstAtStart(s: string, pat: string, repl: string)
    requires |pat| > 0 && StartsWith(s, pat)
    ensures ReplaceFirst(s, pat, repl) == repl + s[|pat|..]
  {
  }

  /** Python's `s.replace(c, '')` for one character. */
  function RemoveChar(s: string, c: char): (r: string)
    ensures c !in r
    ensures forall x | x in r :: x in s
  {
    if |s| == 0 then ""
    else if s[0] == c then RemoveChar(s[1..], c)
    else [s[0]] + RemoveChar(s[1..], c)
  }

  /** The characters `str.isspace()` accepts. */
  predicate IsSpace(c: char) {
    var n := c as int;
    n == 0x20 || 0x09 <= n <= 0x0d || 0x1c <= n <= 0x1f || n == 0x85 || n == 0xa0
    || n == 0x1680 || 0x2000 <= n <= 0x200a || n == 0x2028 || n == 0x2029
    || n == 0x202f || n == 0x205f || n == 0x3000
  }

  function StripLeft(s: string): (r: string)
    ensures |r| == 0 || !IsSpace(r[0])
    ensures EndsWith(s, r)
  {
    if |s| > 0 && IsSpace(s[0]) then StripLeft(s[1..]) else s
  }

  function StripRight(s: string): (r: string)
    ensures |r| == 0 || !IsSpace(r[|r| - 1])
    ensures StartsWith(s, r)
  {
    if |s| > 0 && IsSpace(s[|s| - 1]) then StripRight(s[..|s| - 1]) else s
  }

  /** Python's `s.strip()`. */
  function Strip(s: string): string {
    StripRight(StripLeft(s))
  }

  /** Neither end of the text is whitespace. */
  predicate Stripped(s: string) {
    |s| == 0 || (!IsSpace(s[0]) && !IsSpace(s[|s| - 1]))
  }

  /** `strip` leaves no whitespace at either end, and leaves a text without
      any there unchanged. */
  lemma StripStripped(s: string)
    ensures Stripped(Strip(s))
    ensures Stripped(s) ==> Strip(s) == s
  {
    var l := StripLeft(s);
    var t := StripRight(l);
    if |t| > 0 {
      assert t[0] == l[0];
    }
  }

  predicate IsAsciiUpper(c: char) {
    'A' as int <= c as int <= 'Z' as int
  }

  predicate IsAsciiDigit(c: char) {
    '0' as int <= c as int <= '9' as int
  }

  function LowerChar(c: char): (r: char)
    ensures !IsAsciiUpper(r)
  {
    if IsAsciiUpper(c) then (c as int + 32) as char else c
  }

  /** Python's `s.lower()` on ASCII letters. */
  function Lower(s: string): (r: string)
    ensures |r| == |s|
    ensures forall i | 0 <= i < |r| :: r[i] == LowerChar(s[i])
  {
    if |s| == 0 then "" else [LowerChar(s[0])] + Lower(s[1..])
  }

  /** Lower-casing twice is lower-casing once, and it keeps a stripped text
      stripped: no ASCII capital is whitespace. */
  lemma LowerIdempotent(s: string)
    ensures Lower(Lower(s)) == Lower(s)
    ensures Stripped(s) ==> Stripped(Lower(s))
  {
    assert forall i | 0 <= i < |s| :: LowerChar(LowerChar(s[i])) == LowerChar(s[i]);
  }

  predicate IsAsciiLower(c: char) {
    'a' as int <= c as int <= 'z' as int
  }

  /** Python's `c.upper()` on an ASCII letter; other characters are kept. */
  function UpperChar(c: char): (r: char)
    ensures !IsAsciiLower(r)
    ensures IsAsciiLower(c) ==> LowerChar(r) == c
  {
    if IsAsciiLower(c) then (c as int - 32) as char else c
  }

  /** Upper-casing forgets whether a letter was lower case first. */
  lemma UpperOfLower(c: char)
    ensures UpperChar(LowerChar(c)) == UpperChar(c)
  {
  }

  function DigitChar(d: nat): char
    requires d < 10
  {
    ('0' as int + d) as char
  }

  /** Python's `str(n)` for a natural number. */
  function NatToStr(n: nat): (r: string)
    ensures |r| >= 1
    ensures forall i | 0 <= i < |r| :: IsAsciiDigit(r[i])
    decreases n
  {
    if n < 10 then [DigitChar(n)] else NatToStr(n / 10) + [DigitChar(n % 10)]
  }

  /** Python's `str(i)` for an integer. */
  function IntToStr(i: int): string {
    if i < 0 then "-" + NatToStr(-i) else NatToStr(i)
  }

  /** The number a non-empty run of decimal digits denotes. */
  function DigitsValue(s: string): nat
    requires forall i | 0 <= i < |s| :: IsAsciiDigit(s[i])
  {
    if |s| == 0 then 0
    else
      assert IsAsciiDigit(s[|s| - 1]);
      DigitsValue(s[..|s| - 1]) * 10 + DigitValue(s[|s| - 1])
  }

  function DigitValue(c: char): (d: nat)
    requires IsAsciiDigit(c)
    ensures d < 10
  {
    c as int - '0' as int
  }

  predicate AllDigits(s: string) {
    |s| > 0 && forall i | 0 <= i < |s| :: IsAsciiDigit(s[i])
  }

  /** Python's `int(s)` on a decimal literal with an optional sign. */
  function ParseInt(s: string): Option<int> {
    if |s| > 0 && (s[0] == '-' || s[0] == '+') then
      if AllDigits(s[1..]) then Some(if s[0] == '-' then 0 - DigitsValue(s[1..]) else DigitsValue(s[1..]))
      else None
    else if AllDigits(s) then Some(DigitsValue(s))
    else None
  }

  lemma {:induction false} DigitsOfNatToStr(n: nat)
    ensures DigitsValue(NatToStr(n)) == n
    decreases n
  {
    var r := NatToStr(n);
    if n >= 10 {
      DigitsOfNatToStr(n / 10);
      assert r[..|r| - 1] == NatToStr(n / 10);
    }
  }

  /** Reading back the decimal text of an integer gives the integer. */
  lemma IntToStrRoundTrip(i: int)
    ensures ParseInt(IntToStr(i)) == Some(i)
  {
    if i < 0 {
      DigitsOfNatToStr(-i);
      assert IntToStr(i)[1..] == NatToStr(-i);
    } else {
      DigitsOfNatToStr(i);
      assert NatToStr(i)[0] != '-' && NatToStr(i)[0] != '+';
    }
  }
}

=== FILE: reqparse.dfy ===
/** The request-argument parser of `flask_restplus/reqparse.py`: the
  `Argument` and `RequestParser` subclasses, their operator whitelist, the
  literal conversion, the shaping of parsed values and the Mongo condition
  keys.

  A request is read per location: `request(location)` is the
  multi-dictionary (each name mapped to the list of values sent under it)
  that the parent class's `source(request)` builds for an argument's
  location, one location or several combined. The parent classes' type conversion and the regular
  expression matcher are foreign code and come in as function parameters.
  A parse either returns, collects a bundled error, aborts the request with
  a message, or raises some other exception; the last three leave
  `parse_args` as an `Err` carrying the message.
 */
module ReqParse {
  import opened Wrappers
  import opened PyStrings
  import opened ODict
  import opened Values

  /** `OPER_LIST_D['mongo']`: the engine in use is `DEFAULT_ENGINE`, Mongo. */
  const MongoOpers: seq<string> := ["", "contains", "gt", "lt", "gte", "lte", "between", "like", "in", "startswith", "endswith"]

  const OperRejected := "只能使用限定的操作符"

  const SplitChar: char := ','

  datatype Location = One(loc: string) | Several(locs: seq<string>)

  /** The location of `self.argument_class('')`, whose source strict mode
      takes as the unparsed arguments: the parent class's default, the JSON
      body and the values. */
  const DefaultLocation := Several(["json", "values"])

  /** `default=`: a plain value, or a callable producing one. */
  datatype Default = Constant(value: Value) | Factory(produces: Value)

  /** The options of an argument. An empty `dest` or `help` stands for a
      falsy one; `regex` is `None` when unset or empty, which
      `if self.regex` does not test. */
  datatype Argument = Argument(
    name: string,
    dest: string,
    oper: string,
    action: string,
    required: bool,
    default: Default,
    location: Location,
    help: string,
    storeMissing: bool,
    nullable: bool,
    boolType: bool,
    trim: bool,
    caseSensitive: bool,
    ignore: bool,
    choices: seq<Value>,
    operators: seq<string>,
    regex: Option<string>
  )

  /** `arg.dest or arg.name`. */
  function Dest(a: Argument): string {
    if a.dest != "" then a.dest else a.name
  }

  /** `Argument(..., oper=oper, action=action, ...)`: `oper` defaults to
      Mongo's empty operator, the `split` action forces `in_`, and anything
      outside the Mongo whitelist fails the assertion. Since `in_` is not in
      that whitelist, no argument with the `split` action can be built. */
  function NewArgument(options: Argument, oper: Option<string>): (r: Result<Argument>)
    ensures r.Ok? <==> options.action != "split" && (oper.None? || oper.value in MongoOpers)
    ensures r.Err? ==> r.error == OperRejected
    ensures r.Ok? ==> r.value == options.(oper := if oper.Some? then oper.value else "")
  {
    var o := if options.action == "split" then "in_" else if oper.Some? then oper.value else "";
    if o in MongoOpers then Ok(options.(oper := o)) else Err(OperRejected)
  }

  /** `Argument.__init__` with the `split` action forcing Mongo's own `in`
      operator, which the whitelist holds. */
  function NewArgumentCorrected(options: Argument, oper: Option<string>): (r: Result<Argument>)
    ensures r.Ok? <==> options.action == "split" || oper.None? || oper.value in MongoOpers
    ensures r.Err? ==> r.error == OperRejected
    ensures r.Ok? && options.action == "split" ==> r.value == options.(oper := "in")
    ensures options.action != "split" ==> r == NewArgument(options, oper)
  {
    var o := if options.action == "split" then "in" else if oper.Some? then oper.value else "";
    if o in MongoOpers then Ok(options.(oper := o)) else Err(OperRejected)
  }

  /** A `split` argument fails the operator assertion as written, whatever
      operator it is given, and is built once the forced operator is `in`. */
  lemma SplitArgumentRejected(options: Argument, oper: Option<string>)
    requires options.action == "split"
    ensures NewArgument(options, oper) == Err(OperRejected)
    ensures NewArgumentCorrected(options, oper) == Ok(options.(oper := "in"))
  {
    assert "in_" !in MongoOpers;
  }

  /** `convert(value, op)`: the literals `null`, `true`/`True` and
      `false`/`False` are recognised first; everything else goes to the
      parent class's conversion. */
  function Convert(a: Argument, value: Value, op: string, parent: (Value, string) -> Result<Value>): (r: Result<Value>)
    ensures value == Str("null") && a.nullable ==> r == Ok(Null)
    ensures value in {Str("false"), Str("False")} && a.boolType ==> r == Ok(Bool(false))
    ensures value in {Str("true"), Str("True")} && a.boolType ==> r == Ok(Bool(true))
    ensures !(value == Str("null") && a.nullable) && !(value in {Str("false"), Str("False"), Str("true"), Str("True")} && a.boolType) ==>
              r == parent(value, op)
  {
    if value == Str("null") && a.nullable then Ok(Null)
    else if (value == Str("false") || value == Str("False")) && a.boolType then Ok(Bool(false))
    else if (value == Str("true") || value == Str("True")) && a.boolType then Ok(Bool(true))
    else parent(value, op)
  }

  /** `_friendly_location`. */
  function Friendly(loc: string): string {
    if loc == "json" then "the JSON body"
    else if loc == "form" then "the post body"
    else if loc == "args" then "the query string"
    else if loc == "values" then "the post body or the query string"
    else if loc == "headers" then "the HTTP headers"
    else if loc == "cookies" then "the request's cookies"
    else if loc == "files" then "an uploaded file"
    else loc
  }

  function FriendlyAll(locs: seq<string>): (r: seq<string>)
    ensures |r| == |locs|
    ensures forall i | 0 <= i < |locs| :: r[i] == Friendly(locs[i])
  {
    if |locs| == 0 then [] else [Friendly(locs[0])] + FriendlyAll(locs[1..])
  }

  /** The location named in the missing-parameter message. */
  function LocationText(l: Location): string {
    match l
    case One(loc) => Friendly(loc)
    case Several(locs) => Join(" or ", FriendlyAll(locs))
  }

  /** What `Argument.parse` gives back. */
  datatype Outcome =
    | Parsed(value: Value, found: bool)
    | Bundled(errors: Entries<string>)
    | Aborted(message: string, errors: Entries<string>)
    | Raised(message: string)

  /** `handle_validation_error(error, bundle_errors)`: the error is keyed by
      the argument's name and prefixed with its help; bundling returns it,
      otherwise the request is aborted with 400. */
  function HandleError(a: Argument, error: string, bundle: bool): (r: Outcome)
    ensures bundle ==> r.Bundled?
    ensures !bundle ==> r.Aborted? && r.message == "[" + (if a.help != "" then a.help else a.name) + "]校验失败"
    ensures (r.Bundled? || r.Aborted?) &&
            r.errors == [(a.name, if a.help != "" then a.help + " " + error else error)]
  {
    var errors := [(a.name, if a.help != "" then a.help + " " + error else error)];
    if bundle then Bundled(errors)
    else Aborted("[" + (if a.help != "" then a.help else a.name) + "]校验失败", errors)
  }

  /** The values of one request name before conversion: stripped when
      trimming, lower-cased when case-insensitive, strings only. */
  function Prepare(a: Argument, v: Value): (r: Value)
    ensures !v.Str? ==> r == v
    ensures v.Str? && !a.trim && a.caseSensitive ==> r == v
    ensures v.Str? && a.trim && a.caseSensitive ==> r == Str(Strip(v.s))
    ensures v.Str? && !a.trim && !a.caseSensitive ==> r == Str(Lower(v.s))
    ensures v.Str? && a.trim && !a.caseSensitive ==> r == Str(Lower(Strip(v.s)))
    ensures v.Str? && a.trim ==> Stripped(r.s)
  {
    if !v.Str? then v
    else
      var t := if a.trim then Strip(v.s) else v.s;
      StripStripped(v.s);
      LowerIdempotent(t);
      Str(if a.caseSensitive then t else Lower(t))
  }

  /** Preparing a prepared value changes nothing: stripping leaves no
      whitespace at the ends, and lower-casing neither adds any nor leaves a
      capital. */
  lemma PrepareIdempotent(a: Argument, v: Value)
    ensures Prepare(a, Prepare(a, v)) == Prepare(a, v)
  {
    if v.Str? {
      var t := if a.trim then Strip(v.s) else v.s;
      StripStripped(v.s);
      StripStripped(t);
      LowerIdempotent(t);
      StripStripped(Lower(t));
      LowerIdempotent(Lower(t));
    }
  }

  /** `[choice.lower() for choice in self.choices]`: only strings have
      `lower`. */
  function LowerChoices(choices: seq<Value>): (r: Result<seq<Value>>)
    ensures r.Ok? <==> forall i | 0 <= i < |choices| :: choices[i].Str?
    ensures r.Ok? ==> |r.value| == |choices| && forall i | 0 <= i < |choices| :: r.value[i] == Str(Lower(choices[i].s))
  {
    if |choices| == 0 then Ok([])
    else if !choices[0].Str? then Err("AttributeError: object has no attribute 'lower'")
    else
      var rest :- LowerChoices(choices[1..]);
      Ok([Str(Lower(choices[0].s))] + rest)
  }

  /** Every piece of a `split` value converted, the first failure raising. */
  function ConvertAll(a: Argument, parts: seq<string>, op: string, parent: (Value, string) -> Result<Value>): (r: Result<seq<Value>>)
    ensures r.Ok? ==> |r.value| == |parts| && forall i | 0 <= i < |parts| :: Convert(a, Str(parts[i]), op, parent) == Ok(r.value[i])
    ensures r.Err? ==> exists i | 0 <= i < |parts| :: Convert(a, Str(parts[i]), op, parent).Err?
  {
    if |parts| == 0 then Ok([])
    else
      var first :- Convert(a, Str(parts[0]), op, parent);
      var rest :- ConvertAll(a, parts[1..], op, parent);
      Ok([first] + rest)
  }

  /** The conversion inside the `try`: a `split` argument converts each
      comma-separated piece (and only strings have `split`). */
  function ConvertValue(a: Argument, v: Value, op: string, parent: (Value, string) -> Result<Value>): Result<Value> {
    if a.action == "split" then
      if v.Str? then
        var parts :- ConvertAll(a, Split(v.s, SplitChar), op, parent);
        Ok(List(parts))
      else Err("AttributeError: object has no attribute 'split'")
    else Convert(a, v, op, parent)
  }

  /** `value in self.choices`. */
  predicate InChoices(v: Value, choices: seq<Value>) {
    exists i | 0 <= i < |choices| :: PyEq(choices[i], v)
  }

  /** What happens to one value sent under `name`. */
  datatype Step = Skip | Keep(value: Value) | Stop(outcome: Outcome)

  /** One pass of the inner loop of `parse`, with the choices it may lower
      for good. */
  function ValueStep(a: Argument, name: string, op: string, raw: Value, choices: seq<Value>, bundle: bool,
                     parent: (Value, string) -> Result<Value>): (r: (Step, seq<Value>))
    ensures r.0.Keep? ==> ConvertValue(a, Prepare(a, raw), op, parent) == Ok(r.0.value)
    ensures r.0.Keep? && |r.1| > 0 ==> InChoices(r.0.value, r.1)
    ensures r.0.Skip? ==> a.ignore && ConvertValue(a, Prepare(a, raw), op, parent).Err?
    ensures r.0.Stop? ==> !r.0.outcome.Parsed? && Honest(r.0.outcome, a, bundle)
  {
    var v := Prepare(a, raw);
    var lowered := if v.Str? && !a.caseSensitive then LowerChoices(choices) else Ok(choices);
    if lowered.Err? then (Stop(Raised(lowered.error)), choices)
    else
      var ch := lowered.value;
      match ConvertValue(a, v, op, parent)
      case Err(e) => (if a.ignore then Skip else Stop(HandleError(a, e, bundle)), ch)
      case Ok(c) =>
        if |ch| > 0 && !InChoices(c, ch) then
          (Stop(HandleError(a, NotAChoice(c, name), bundle)), ch)
        else (Keep(c), ch)
  }

  function NotAChoice(c: Value, name: string): string {
    "The value '" + PyStr(c) + "' is not a valid choice for '" + name + "'."
  }

  /** An error outcome of argument `a` carries what the caller relies on: a
      bundled one only arises with bundling on, and a bundled or aborted one
      holds exactly one error, keyed by the argument's name. */
  predicate Honest(o: Outcome, a: Argument, bundle: bool) {
    (o.Bundled? ==> bundle) &&
    (o.Bundled? || o.Aborted? ==> |o.errors| == 1 && o.errors[0].0 == a.name)
  }

  /** The state of the loops of `parse`: the values kept so far, the request
      names they came from, and the current choices; or the outcome the loop
      returned early. */
  datatype Progress = Going(results: seq<Value>, consumed: seq<string>, choices: seq<Value>) | Halted(outcome: Outcome)

  /** `x` is the conversion of some value sent. */
  predicate MadeFrom(a: Argument, op: string, parent: (Value, string) -> Result<Value>, vals: seq<Value>, x: Value) {
    exists j | 0 <= j < |vals| :: ConvertValue(a, Prepare(a, vals[j]), op, parent) == Ok(x)
  }

  /** Every value in `out` is the conversion of some value sent. */
  predicate Produced(a: Argument, op: string, parent: (Value, string) -> Result<Value>, vals: seq<Value>, out: seq<Value>) {
    forall i | 0 <= i < |out| :: MadeFrom(a, op, parent, vals, out[i])
  }

  lemma MadeFromTail(a: Argument, op: string, parent: (Value, string) -> Result<Value>, vals: seq<Value>, x: Value)
    requires |vals| > 0 && MadeFrom(a, op, parent, vals[1..], x)
    ensures MadeFrom(a, op, parent, vals, x)
  {
    var j :| 0 <= j < |vals[1..]| && ConvertValue(a, Prepare(a, vals[1..][j]), op, parent) == Ok(x);
    assert vals[1..][j] == vals[j + 1];
  }

  lemma ProducedTail(a: Argument, op: string, parent: (Value, string) -> Result<Value>, vals: seq<Value>, out: seq<Value>)
    requires |vals| > 0 && Produced(a, op, parent, vals[1..], out)
    ensures Produced(a, op, parent, vals, out)
  {
    forall i | 0 <= i < |out|
      ensures MadeFrom(a, op, parent, vals, out[i])
    {
      MadeFromTail(a, op, parent, vals, out[i]);
    }
  }

  lemma ProducedCons(a: Argument, op: string, parent: (Value, string) -> Result<Value>, vals: seq<Value>, v: Value, out: seq<Value>)
    requires |vals| > 0 && ConvertValue(a, Prepare(a, vals[0]), op, parent) == Ok(v)
    requires Produced(a, op, parent, vals[1..], out)
    ensures Produced(a, op, parent, vals, [v] + out)
  {
    ProducedTail(a, op, parent, vals, out);
    forall i | 0 <= i < |[v] + out|
      ensures MadeFrom(a, op, parent, vals, ([v] + out)[i])
    {
      if i > 0 {
        assert ([v] + out)[i] == out[i - 1];
      }
    }
  }

  function CollectValues(a: Argument, name: string, op: string, vals: seq<Value>, st: Progress, bundle: bool,
                         parent: (Value, string) -> Result<Value>): (r: Progress)
    requires st.Going?
    ensures r.Halted? ==> !r.outcome.Parsed? && Honest(r.outcome, a, bundle)
    ensures r.Going? ==> |st.results| <= |r.results| <= |st.results| + |vals| && r.results[..|st.results|] == st.results
    ensures r.Going? ==> Produced(a, op, parent, vals, r.results[|st.results|..])
    decreases |vals|
  {
    if |vals| == 0 then st
    else
      var (step, ch) := ValueStep(a, name, op, vals[0], st.choices, bundle, parent);
      match step
      case Stop(o) => Halted(o)
      case Skip =>
        var r := CollectValues(a, name, op, vals[1..], st.(choices := ch), bundle, parent);
        if r.Going? then
          ProducedTail(a, op, parent, vals, r.results[|st.results|..]);
          r
        else r
      case Keep(v) =>
        var next := Going(st.results + [v], st.consumed + [name], ch);
        var r := CollectValues(a, name, op, vals[1..], next, bundle, parent);
        if r.Going? then
          PrefixStep(st.results, r.results, v);
          ProducedCons(a, op, parent, vals, v, r.results[|next.results|..]);
          r
        else r
  }

  /** A sequence that starts with `s + [v]` starts with `s`, and `v` heads
      what follows `s`. */
  lemma PrefixStep<T>(s: seq<T>, r: seq<T>, v: T)
    requires |s| + 1 <= |r| && r[..|s| + 1] == s + [v]
    ensures r[..|s|] == s && r[|s|..] == [v] + r[|s| + 1..]
  {
    assert r[..|s| + 1][..|s|] == s;
    assert r[..|s| + 1][|s|] == v;
  }

  /** The request name an operator reads: the argument's name followed by
      the operator with its first `=` removed. */
  function OperatorName(a: Argument, op: string): string {
    a.name + ReplaceFirst(op, "=", "")
  }

  /** The outer loop of `parse`, over the argument's operators. */
  function CollectOperators(a: Argument, source: Entries<seq<Value>>, ops: seq<string>, st: Progress, bundle: bool,
                            parent: (Value, string) -> Result<Value>): (r: Progress)
    requires st.Going?
    ensures r.Halted? ==> !r.outcome.Parsed? && Honest(r.outcome, a, bundle)
    ensures r.Going? && |ops| == 0 ==> r == st
    ensures r.Going? ==> |st.results| <= |r.results|
    decreases |ops|
  {
    if |ops| == 0 then st
    else
      var name := OperatorName(a, ops[0]);
      var st' := match Lookup(source, name)
        case Some(vals) => CollectValues(a, name, ops[0], vals, st, bundle, parent)
        case None => st;
      if st'.Halted? then st' else CollectOperators(a, source, ops[1..], st', bundle, parent)
  }

  const FormatMismatch := "格式校验失败"

  /** The values `parse` tests against the argument's regex: all of them for
      `append`, the first for `store` or a single value, none otherwise. */
  function Checked(a: Argument, results: seq<Value>): (r: seq<Value>)
    requires |results| > 0
    ensures |r| <= |results| && r == results[..|r|]
  {
    if a.action == "append" then results
    else if a.action == "store" || |results| == 1 then results[..1]
    else []
  }

  /** A tested value ends `parse`: `re.match` raises on it (it is not a
      string), or it does not match and, without bundling, the error handler
      aborts. With bundling the handler's result is dropped and the loop goes
      on. */
  predicate RegexStops(rx: string, bundle: bool, matches: (string, Value) -> Result<bool>, x: Value) {
    matches(rx, x).Err? || (!bundle && !matches(rx, x).value)
  }

  /** `tested[i]` is the first tested value that ends `parse`. */
  predicate FirstStop(rx: string, bundle: bool, matches: (string, Value) -> Result<bool>, tested: seq<Value>, i: int) {
    0 <= i < |tested| && RegexStops(rx, bundle, matches, tested[i]) &&
    forall j | 0 <= j < i :: !RegexStops(rx, bundle, matches, tested[j])
  }

  /** The value `parse` returns once the values are collected. */
  function Collected(a: Argument, results: seq<Value>): Value
    requires |results| > 0
  {
    if a.action != "append" && (a.action == "store" || |results| == 1) then results[0] else List(results)
  }

  /** The end of `parse`, once the values are collected. `matches` is
      `re.match`: `Ok` with whether the value matches, or `Err` with the
      `TypeError` it raises on a value that is not a string (a converted
      integer, a split list). A `regex` of `None` is not tested. */
  function Shape(a: Argument, results: seq<Value>, bundle: bool, matches: (string, Value) -> Result<bool>): (r: Outcome)
    ensures |results| == 0 && a.required ==>
              r == HandleError(a, "Missing required parameter in " + LocationText(a.location), bundle)
    ensures |results| == 0 && !a.required ==>
              r == Parsed(match a.default case Constant(v) => v case Factory(v) => v, false)
    ensures |results| > 0 ==>
              (r.Parsed? <==> a.regex.None? || forall i | 0 <= i < |Checked(a, results)| :: !RegexStops(a.regex.value, bundle, matches, Checked(a, results)[i]))
    ensures |results| > 0 && r.Parsed? ==> r == Parsed(Collected(a, results), true)
    ensures |results| > 0 && r.Raised? ==>
              a.regex.Some? && exists i :: FirstStop(a.regex.value, bundle, matches, Checked(a, results), i) &&
                                           matches(a.regex.value, Checked(a, results)[i]) == Err(r.message)
    ensures |results| > 0 && r.Aborted? ==>
              a.regex.Some? && !bundle && r == HandleError(a, FormatMismatch, false) &&
              exists i :: FirstStop(a.regex.value, bundle, matches, Checked(a, results), i) &&
                          matches(a.regex.value, Checked(a, results)[i]) == Ok(false)
    ensures |results| > 0 ==> !r.Bundled?
    ensures Honest(r, a, bundle)
  {
    if |results| == 0 then
      if a.required then HandleError(a, "Missing required parameter in " + LocationText(a.location), bundle)
      else Parsed(match a.default case Constant(v) => v case Factory(v) => v, false)
    else if a.regex.None? then Parsed(Collected(a, results), true)
    else
      var rx := a.regex.value;
      var tested := Checked(a, results);
      match FirstWhere(tested, x => RegexStops(rx, bundle, matches, x))
      case None => Parsed(Collected(a, results), true)
      case Some(i) =>
        match matches(rx, tested[i])
        case Err(e) => Raised(e)
        case Ok(_) => HandleError(a, FormatMismatch, false)
  }

  /** `Argument.parse(request, bundle_errors)`, reading the source of the
      argument's own location, with the request names whose values it kept
      (and so removed from the unparsed arguments). */
  function Parse(a: Argument, request: Location -> Entries<seq<Value>>, bundle: bool, parent: (Value, string) -> Result<Value>,
                 matches: (string, Value) -> Result<bool>): (r: (Outcome, seq<string>))
    ensures r.0.Parsed? && !r.0.found ==>
              !a.required && r.0.value == match a.default case Constant(v) => v case Factory(v) => v
    ensures Honest(r.0, a, bundle)
  {
    match CollectOperators(a, request(a.location), a.operators, Going([], [], a.choices), bundle, parent)
    case Halted(o) => (o, [])
    case Going(results, consumed, _) => (Shape(a, results, bundle, matches), consumed)
  }

  /** The parser: its arguments in order, the same arguments by destination,
      the or-arguments, and `trim`. */
  datatype Parser = Parser(args: seq<Argument>, argsDict: Entries<Argument>, orArgs: Entries<seq<string>>, trim: bool)

  /** `add_argument`: append and register by destination; with a trimming
      parser the argument's `trim` is the keyword given, or `True`. */
  function AddArgument(p: Parser, a: Argument, trimGiven: Option<bool>): (r: Parser)
    ensures |r.args| == |p.args| + 1 && r.args[..|p.args|] == p.args
    ensures r.args[|p.args|] == (if p.trim then a.(trim := if trimGiven.Some? then trimGiven.value else true) else a)
    ensures Lookup(r.argsDict, Dest(a)) == Some(r.args[|p.args|])
    ensures forall k | k != Dest(a) :: Lookup(r.argsDict, k) == Lookup(p.argsDict, k)
    ensures r.orArgs == p.orArgs && r.trim == p.trim
  {
    var a' := if p.trim then a.(trim := if trimGiven.Some? then trimGiven.value else true) else a;
    var r := p.(args := p.args + [a'], argsDict := Put(p.argsDict, Dest(a), a'));
    assert r.args[..|p.args|] == p.args;
    r
  }

  /** `add_argument(name, oper=..., **options)`: the argument is built first,
      so a rejected operator leaves the parser as it was. */
  function AddNewArgument(p: Parser, options: Argument, oper: Option<string>, trimGiven: Option<bool>): (r: Result<Parser>)
    ensures r.Ok? <==> NewArgument(options, oper).Ok?
    ensures r.Ok? ==> r.value == AddArgument(p, NewArgument(options, oper).value, trimGiven)
  {
    var a :- NewArgument(options, oper);
    Ok(AddArgument(p, a, trimGiven))
  }

  /** The help of a registered argument. */
  function HelpOf(p: Parser, name: string): string
    requires name in KeySet(p.argsDict)
  {
    Lookup(p.argsDict, name).value.help
  }

  /** The helps of the named arguments, one per name. */
  function HelpList(p: Parser, attrs: seq<string>): (r: seq<string>)
    requires forall i | 0 <= i < |attrs| :: attrs[i] in KeySet(p.argsDict)
    ensures |r| == |attrs| && forall i | 0 <= i < |attrs| :: r[i] == HelpOf(p, attrs[i])
  {
    seq(|attrs|, i requires 0 <= i < |attrs| => HelpOf(p, attrs[i]))
  }

  /** The non-empty strings of `hs`, in order. */
  function Filled(hs: seq<string>): (r: seq<string>)
    ensures forall i | 0 <= i < |r| :: r[i] != ""
    ensures |r| <= |hs|
  {
    if |hs| == 0 then [] else (if hs[0] != "" then [hs[0]] else []) + Filled(hs[1..])
  }

  /** Every non-empty string is kept, and only strings of `hs` are. */
  lemma {:induction false} FilledMembers(hs: seq<string>)
    ensures forall j | 0 <= j < |hs| && hs[j] != "" :: hs[j] in Filled(hs)
    ensures forall i | 0 <= i < |Filled(hs)| :: Filled(hs)[i] in hs
  {
    if |hs| > 0 {
      FilledMembers(hs[1..]);
      assert forall j | 1 <= j < |hs| :: hs[j] == hs[1..][j - 1];
      assert forall x | x in hs[1..] :: x in hs;
    }
  }

  /** Filtering two runs is filtering each: the order is kept. */
  lemma {:induction false} FilledAppend(xs: seq<string>, ys: seq<string>)
    ensures Filled(xs + ys) == Filled(xs) + Filled(ys)
  {
    if |xs| > 0 {
      FilledAppend(xs[1..], ys);
      assert (xs + ys)[0] == xs[0] && (xs + ys)[1..] == xs[1..] + ys;
    } else {
      assert xs + ys == ys;
    }
  }

  /** The non-empty helps of the named arguments, in order. */
  function Helps(p: Parser, attrs: seq<string>): (r: seq<string>)
    requires forall i | 0 <= i < |attrs| :: attrs[i] in KeySet(p.argsDict)
    ensures forall i | 0 <= i < |r| :: r[i] != ""
    ensures |r| <= |attrs|
  {
    Filled(HelpList(p, attrs))
  }

  /** Every non-empty help of the named arguments is kept, and nothing else
      is. */
  lemma HelpsMembers(p: Parser, attrs: seq<string>)
    requires forall i | 0 <= i < |attrs| :: attrs[i] in KeySet(p.argsDict)
    ensures forall j | 0 <= j < |attrs| && HelpOf(p, attrs[j]) != "" :: HelpOf(p, attrs[j]) in Helps(p, attrs)
    ensures forall i | 0 <= i < |Helps(p, attrs)| :: exists j | 0 <= j < |attrs| :: Helps(p, attrs)[i] == HelpOf(p, attrs[j])
  {
    var hs := HelpList(p, attrs);
    FilledMembers(hs);
    forall i | 0 <= i < |Helps(p, attrs)|
      ensures exists j | 0 <= j < |attrs| :: Helps(p, attrs)[i] == HelpOf(p, attrs[j])
    {
      var j :| 0 <= j < |hs| && hs[j] == Filled(hs)[i];
    }
  }

  /** The helps of two runs of names are those of the first, then those of
      the second: the order of the names is kept. */
  lemma HelpsAppend(p: Parser, xs: seq<string>, ys: seq<string>)
    requires forall i | 0 <= i < |xs| :: xs[i] in KeySet(p.argsDict)
    requires forall i | 0 <= i < |ys| :: ys[i] in KeySet(p.argsDict)
    ensures forall i | 0 <= i < |xs + ys| :: (xs + ys)[i] in KeySet(p.argsDict)
    ensures Helps(p, xs + ys) == Helps(p, xs) + Helps(p, ys)
  {
    assert forall i | 0 <= i < |xs + ys| :: (xs + ys)[i] in KeySet(p.argsDict) by {
      forall i | 0 <= i < |xs + ys| ensures (xs + ys)[i] in KeySet(p.argsDict) {
        if i >= |xs| {
          assert (xs + ys)[i] == ys[i - |xs|];
        }
      }
    }
    assert HelpList(p, xs + ys) == HelpList(p, xs) + HelpList(p, ys);
    FilledAppend(HelpList(p, xs), HelpList(p, ys));
  }

  /** `set_or_argument(index, attrs)`: the `index` parameter is overwritten
      by the names joined with `__or__`; the new argument copies the first
      one's options under that name, with the non-empty helps joined by
      `|`, and is registered in `args`, `args_dict` and `or_args`. */
  function SetOrArgument(p: Parser, index: string, attrs: seq<string>): (r: Result<Parser>)
    ensures r.Ok? <==> |attrs| > 0 && forall i | 0 <= i < |attrs| :: attrs[i] in KeySet(p.argsDict)
    ensures r.Ok? ==>
              var name := Join("__or__", attrs);
              var arg := Lookup(p.argsDict, attrs[0]).value.(name := name, help := Join("|", Helps(p, attrs)));
              r.value.args == p.args + [arg] &&
              Lookup(r.value.argsDict, name) == Some(arg) &&
              (forall k | k != name :: Lookup(r.value.argsDict, k) == Lookup(p.argsDict, k)) &&
              Lookup(r.value.orArgs, name) == Some(attrs) &&
              (forall k | k != name :: Lookup(r.value.orArgs, k) == Lookup(p.orArgs, k))
  {
    var name := Join("__or__", attrs);
    if |attrs| == 0 then Err("IndexError: list index out of range")
    else if exists i | 0 <= i < |attrs| :: attrs[i] !in KeySet(p.argsDict) then Err("KeyError")
    else
      var arg := Lookup(p.argsDict, attrs[0]).value.(name := name, help := Join("|", Helps(p, attrs)));
      Ok(Parser(p.args + [arg], Put(p.argsDict, name, arg), Put(p.orArgs, name, attrs), p.trim))
  }

  /** `set_or_argument` does not depend on its `index` argument. */
  lemma OrIndexIgnored(p: Parser, i1: string, i2: string, attrs: seq<string>)
    ensures SetOrArgument(p, i1, attrs) == SetOrArgument(p, i2, attrs)
  {
  }

  /** The operator of a parsed name: its argument's, or that of a fresh
      `Argument(k)`, which is Mongo's empty operator. */
  function OperOf(p: Parser, k: string): string {
    match Lookup(p.argsDict, k)
    case Some(a) => a.oper
    case None => ""
  }

  /** The Mongo condition key of a parsed name. */
  function ConditionKey(k: string, oper: string): (r: string)
    ensures oper == "" ==> r == k
    ensures oper != "" ==> StartsWith(r, k + "__") && r[|k| + 2..] == oper
  {
    if oper != "" then k + "__" + oper else k
  }

  /** The (key, value) pairs `get_mge_conditions` assigns, in order. */
  function ConditionPairs(p: Parser, args: Entries<Value>): (r: seq<(string, Value)>)
    ensures |r| == |args|
    ensures forall i | 0 <= i < |args| :: r[i] == (ConditionKey(args[i].0, OperOf(p, args[i].0)), args[i].1)
  {
    if |args| == 0 then [] else [(ConditionKey(args[0].0, OperOf(p, args[0].0)), args[0].1)] + ConditionPairs(p, args[1..])
  }

  /** A parsed name `get_mge_conditions` can turn into a condition: not an
      or-argument, and a field of the model. */
  predicate Allowed(p: Parser, k: string, modelFields: set<string>) {
    k !in KeySet(p.orArgs) && k in modelFields
  }

  /** How an or-argument makes `get_mge_conditions` raise. Every step of its
      branch can: `getattr` of a member the model lacks, `getattr` of the
      operator on a mongoengine field (the default operator is `''`),
      `reduce` over an empty list, and in the end `append` on the
      dictionary `conditions`; which one raises first depends on the model
      class, so the message does not name one. */
  const OrArgumentRaises := "exception in the or-argument branch (getattr, reduce or dict.append)"

  /** The loop of `get_mge_conditions`. An or-argument always raises, from
      one of the steps `OrArgumentRaises` lists; a name the model lacks
      raises from `getattr`. */
  function ConditionsFrom(p: Parser, args: Entries<Value>, modelFields: set<string>, acc: Entries<Value>): (r: Result<Entries<Value>>)
    ensures r.Ok? <==> forall i | 0 <= i < |args| :: Allowed(p, args[i].0, modelFields)
    ensures r.Err? ==> r.error == OrArgumentRaises || exists i | 0 <= i < |args| :: r.error == "AttributeError: " + args[i].0 && args[i].0 !in modelFields
    decreases |args|
  {
    if |args| == 0 then Ok(acc)
    else
      AllowedCons(p, args, modelFields);
      if args[0].0 in KeySet(p.orArgs) then Err(OrArgumentRaises)
      else if args[0].0 !in modelFields then Err("AttributeError: " + args[0].0)
      else ConditionsFrom(p, args[1..], modelFields, Put(acc, ConditionKey(args[0].0, OperOf(p, args[0].0)), args[0].1))
  }

  lemma AllowedCons(p: Parser, args: Entries<Value>, modelFields: set<string>)
    requires |args| > 0
    ensures (forall i | 0 <= i < |args| :: Allowed(p, args[i].0, modelFields)) <==>
              Allowed(p, args[0].0, modelFields) && forall i | 0 <= i < |args[1..]| :: Allowed(p, args[1..][i].0, modelFields)
  {
    assert forall i | 0 <= i < |args[1..]| :: args[1..][i] == args[i + 1];
  }

  /** Later keys of the loop overwrite earlier ones and the accumulated
      conditions keep every key the loop does not assign. */
  lemma {:induction false} ConditionsFromLookup(p: Parser, args: Entries<Value>, modelFields: set<string>, acc: Entries<Value>, j: string)
    requires ConditionsFrom(p, args, modelFields, acc).Ok?
    ensures Lookup(ConditionsFrom(p, args, modelFields, acc).value, j) ==
      if LastValue(ConditionPairs(p, args), j).Some? then LastValue(ConditionPairs(p, args), j) else Lookup(acc, j)
    decreases |args|
  {
    if |args| > 0 {
      var k := args[0].0;
      var v := args[0].1;
      var head := [(ConditionKey(k, OperOf(p, k)), v)];
      var acc' := Put(acc, ConditionKey(k, OperOf(p, k)), v);
      assert ConditionsFrom(p, args, modelFields, acc) == ConditionsFrom(p, args[1..], modelFields, acc');
      ConditionsFromLookup(p, args[1..], modelFields, acc', j);
      assert ConditionPairs(p, args) == head + ConditionPairs(p, args[1..]);
      LastValueAppend(head, ConditionPairs(p, args[1..]), j);
      LastValueSnoc([], ConditionKey(k, OperOf(p, k)), v, j);
      assert [] + head == head;
    }
  }

  /** `get_mge_conditions(model_class, args)`: each parsed value under
      `name__oper`, or under `name` for the empty operator. */
  function MongoConditions(p: Parser, args: Entries<Value>, modelFields: set<string>): (r: Result<Entries<Value>>)
    ensures r.Ok? <==> forall i | 0 <= i < |args| :: Allowed(p, args[i].0, modelFields)
    ensures r.Ok? ==> forall k :: Lookup(r.value, k) == LastValue(ConditionPairs(p, args), k)
  {
    var r := ConditionsFrom(p, args, modelFields, []);
    if r.Ok? then
      forall k
        ensures Lookup(r.value, k) == LastValue(ConditionPairs(p, args), k)
      {
        ConditionsFromLookup(p, args, modelFields, [], k);
      }
      r
    else r
  }

  /** With distinct condition keys every parsed value is found under its
      own key. */
  lemma ConditionFound(p: Parser, args: Entries<Value>, modelFields: set<string>, i: nat)
    requires MongoConditions(p, args, modelFields).Ok?
    requires i < |args|
    requires forall a, b | 0 <= a < b < |args| ::
      ConditionKey(args[a].0, OperOf(p, args[a].0)) != ConditionKey(args[b].0, OperOf(p, args[b].0))
    ensures Lookup(MongoConditions(p, args, modelFields).value, ConditionKey(args[i].0, OperOf(p, args[i].0))) == Some(args[i].1)
  {
    LastValueDistinct(ConditionPairs(p, args), i);
  }

  /** Once an or-argument is set, conditions for any parsed result that
      carries it cannot be built: its branch raises at `getattr`, `reduce`
      or `append`, whichever comes first. */
  lemma OrArgumentConditionsFail(p: Parser, attrs: seq<string>, args: Entries<Value>, modelFields: set<string>)
    requires SetOrArgument(p, "", attrs).Ok?
    requires Join("__or__", attrs) in KeySet(args)
    ensures MongoConditions(SetOrArgument(p, "", attrs).value, args, modelFields).Err?
  {
    var q := SetOrArgument(p, "", attrs).value;
    var i :| 0 <= i < |args| && args[i].0 == Join("__or__", attrs);
    assert args[i].0 in KeySet(q.orArgs);
  }

  /** What `parse_args` keeps of one argument: its value when it was found
      or missing values are stored. */
  function Stored(a: Argument, o: Outcome): Option<Value> {
    if o.Parsed? && (o.found || a.storeMissing) then Some(o.value) else None
  }

  /** What `parse_args` keeps of each argument, as a function of the
      argument. */
  function StoredOf(request: Location -> Entries<seq<Value>>, bundle: bool,
                    parent: (Value, string) -> Result<Value>, matches: (string, Value) -> Result<bool>): Argument -> Option<Value>
  {
    a => Stored(a, Parse(a, request, bundle, parent, matches).0)
  }

  /** The (destination, value) pairs assigned, in order, given what is kept
      of each argument. */
  function DestPairs(args: seq<Argument>, stored: Argument -> Option<Value>): seq<(string, Value)>
  {
    if |args| == 0 then []
    else (if stored(args[0]).Some? then [(Dest(args[0]), stored(args[0]).value)] else []) + DestPairs(args[1..], stored)
  }

  /** The (destination, value) pairs `parse_args` assigns, in order. */
  function StoredPairs(args: seq<Argument>, request: Location -> Entries<seq<Value>>, bundle: bool,
                      parent: (Value, string) -> Result<Value>, matches: (string, Value) -> Result<bool>): seq<(string, Value)>
  {
    DestPairs(args, StoredOf(request, bundle, parent, matches))
  }

  /** With distinct destinations, the value under an argument's destination
      is what is kept of that argument. */
  lemma {:induction false} DestPairsUnder(args: seq<Argument>, stored: Argument -> Option<Value>, i: nat)
    requires i < |args|
    requires forall a, b | 0 <= a < b < |args| :: Dest(args[a]) != Dest(args[b])
    ensures LastValue(DestPairs(args, stored), Dest(args[i])) == stored(args[i])
    decreases |args|
  {
    var head := if stored(args[0]).Some? then [(Dest(args[0]), stored(args[0]).value)] else [];
    var rest := DestPairs(args[1..], stored);
    assert DestPairs(args, stored) == head + rest;
    LastValueAppend(head, rest, Dest(args[i]));
    if i == 0 {
      DestPairsAbsent(args[1..], stored, Dest(args[0]));
      if head != [] {
        LastValueSnoc([], Dest(args[0]), stored(args[0]).value, Dest(args[0]));
      }
    } else {
      DestPairsUnder(args[1..], stored, i - 1);
      assert args[1..][i - 1] == args[i];
      if head != [] {
        LastValueSnoc([], Dest(args[0]), stored(args[0]).value, Dest(args[i]));
      }
    }
  }

  /** A destination no argument has is never assigned. */
  lemma {:induction false} DestPairsAbsent(args: seq<Argument>, stored: Argument -> Option<Value>, d: string)
    requires forall a | 0 <= a < |args| :: Dest(args[a]) != d
    ensures LastValue(DestPairs(args, stored), d).None?
    decreases |args|
  {
    if |args| > 0 {
      var head := if stored(args[0]).Some? then [(Dest(args[0]), stored(args[0]).value)] else [];
      var rest := DestPairs(args[1..], stored);
      assert DestPairs(args, stored) == head + rest;
      DestPairsAbsent(args[1..], stored, d);
      LastValueAppend(head, rest, d);
      if head != [] {
        LastValueSnoc([], Dest(args[0]), stored(args[0]).value, d);
      }
    }
  }

  /** The names of `unparsed` not among `consumed`, in order. */
  function Without(unparsed: seq<string>, consumed: seq<string>): (r: seq<string>)
    ensures forall k | k in r :: k in unparsed && k !in consumed
    ensures forall k | k in unparsed && k !in consumed :: k in r
  {
    if |unparsed| == 0 then []
    else (if unparsed[0] in consumed then [] else [unparsed[0]]) + Without(unparsed[1..], consumed)
  }

  /** The message of the first argument whose parse aborts or raises, which
      ends `parse_args` there. */
  function FirstFailure(args: seq<Argument>, request: Location -> Entries<seq<Value>>, bundle: bool,
                        parent: (Value, string) -> Result<Value>, matches: (string, Value) -> Result<bool>): Option<string>
  {
    if |args| == 0 then None
    else
      var o := Parse(args[0], request, bundle, parent, matches).0;
      if o.Aborted? || o.Raised? then Some(o.message) else FirstFailure(args[1..], request, bundle, parent, matches)
  }

  /** Some argument's parse returns its error for bundling. */
  predicate AnyBundled(args: seq<Argument>, request: Location -> Entries<seq<Value>>, bundle: bool,
                       parent: (Value, string) -> Result<Value>, matches: (string, Value) -> Result<bool>)
  {
    |args| > 0 &&
    (Parse(args[0], request, bundle, parent, matches).0.Bundled? || AnyBundled(args[1..], request, bundle, parent, matches))
  }

  /** Without bundling no parse hands its error back: every failure aborts. */
  lemma {:induction false} NoBundleWithoutBundling(args: seq<Argument>, request: Location -> Entries<seq<Value>>, bundle: bool,
                                                   parent: (Value, string) -> Result<Value>, matches: (string, Value) -> Result<bool>)
    ensures AnyBundled(args, request, bundle, parent, matches) ==> bundle
    decreases |args|
  {
    if |args| > 0 {
      NoBundleWithoutBundling(args[1..], request, bundle, parent, matches);
    }
  }

  datatype Accumulated = Accumulated(result: Entries<Value>, errors: Entries<string>, unparsed: seq<string>)

  /** The loop of `parse_args` over the parser's arguments. */
  function ParseEach(args: seq<Argument>, request: Location -> Entries<seq<Value>>, bundle: bool,
                     parent: (Value, string) -> Result<Value>, matches: (string, Value) -> Result<bool>, acc: Accumulated): (r: Result<Accumulated>)
    ensures r.Ok? ==> forall k ::
      Lookup(r.value.result, k) ==
        if LastValue(StoredPairs(args, request, bundle, parent, matches), k).Some? then
          LastValue(StoredPairs(args, request, bundle, parent, matches), k)
        else Lookup(acc.result, k)
    ensures r.Ok? ==> forall k | k in r.value.unparsed :: k in acc.unparsed
    ensures r.Err? <==> FirstFailure(args, request, bundle, parent, matches).Some?
    ensures r.Err? ==> r.error == FirstFailure(args, request, bundle, parent, matches).value
    ensures r.Ok? ==> (|r.value.errors| > 0 <==> |acc.errors| > 0 || AnyBundled(args, request, bundle, parent, matches))
    decreases |args|
  {
    if |args| == 0 then Ok(acc)
    else
      var (o, consumed) := Parse(args[0], request, bundle, parent, matches);
      if o.Aborted? || o.Raised? then Err(o.message)
      else
        var errors := if o.Bundled? then Update(acc.errors, o.errors) else acc.errors;
        var result := if Stored(args[0], o).Some? then Put(acc.result, Dest(args[0]), Stored(args[0], o).value) else acc.result;
        var r := ParseEach(args[1..], request, bundle, parent, matches, Accumulated(result, errors, Without(acc.unparsed, consumed)));
        if r.Ok? then
          var head := if Stored(args[0], o).Some? then [(Dest(args[0]), Stored(args[0], o).value)] else [];
          var rest := StoredPairs(args[1..], request, bundle, parent, matches);
          assert StoredPairs(args, request, bundle, parent, matches) == head + rest;
          LookupAfterHead(acc.result, head, rest, result, r.value.result);
          if o.Bundled? then UpdateNonEmpty(acc.errors, o.errors); r else r
        else r
  }

  /** The message of a bundled failure: one `输入框[...]校验失败` per failed
      name, using its argument's help when it has one. Errors are keyed by
      argument name but `args_dict` by destination, so a failed argument
      with a `dest` of its own is not found and `_arg.help` raises. */
  function ErrorMessages(p: Parser, names: seq<string>): (r: Result<seq<string>>)
    ensures r.Ok? <==> forall i | 0 <= i < |names| :: names[i] in KeySet(p.argsDict)
    ensures r.Err? ==> r.error == NoHelp
    ensures r.Ok? ==> |r.value| == |names| && forall i | 0 <= i < |names| ::
      r.value[i] == Message(Lookup(p.argsDict, names[i]).value.help, names[i])
  {
    if |names| == 0 then Ok([])
    else
      AllInCons(names, KeySet(p.argsDict));
      match Lookup(p.argsDict, names[0])
      case None => Err(NoHelp)
      case Some(a) =>
        var rest :- ErrorMessages(p, names[1..]);
        ConsIndex(Message(a.help, names[0]), rest);
        Ok([Message(a.help, names[0])] + rest)
  }

  lemma AllInCons(names: seq<string>, ks: set<string>)
    requires |names| > 0
    ensures (forall i | 0 <= i < |names| :: names[i] in ks) <==>
              names[0] in ks && forall i | 0 <= i < |names[1..]| :: names[1..][i] in ks
  {
    assert forall i | 0 <= i < |names[1..]| :: names[1..][i] == names[i + 1];
  }

  lemma ConsIndex<T>(x: T, s: seq<T>)
    ensures ([x] + s)[0] == x && forall i | 1 <= i <= |s| :: ([x] + s)[i] == s[i - 1]
  {
  }

  /** What reading `help` off a missing argument raises. */
  const NoHelp := "AttributeError: 'NoneType' object has no attribute 'help'"

  /** The message for one failed name: its argument's help, or the name
      when the help is empty, inside `输入框[...]校验失败`. */
  function Message(help: string, name: string): string {
    "输入框[" + (if help != "" then help else name) + "]校验失败"
  }

  /** The loop's starting point: `unparsed_arguments` is a copy of the
      default location's names in strict mode and empty otherwise. */
  function Initial(request: Location -> Entries<seq<Value>>, strict: bool): Accumulated {
    Accumulated([], [], if strict then Keys(request(DefaultLocation)) else [])
  }

  /** `parse_args(req, strict)`: the parsed values by destination. The first
      non-bundled failure aborts with its message; bundled errors abort with
      their joined messages; in strict mode request names no argument read
      abort with `Unknown arguments: ...`. */
  function ParseArgs(p: Parser, request: Location -> Entries<seq<Value>>, strict: bool, bundle: bool,
                     parent: (Value, string) -> Result<Value>, matches: (string, Value) -> Result<bool>): (r: Result<Entries<Value>>)
    ensures r.Ok? ==> forall k :: Lookup(r.value, k) == LastValue(StoredPairs(p.args, request, bundle, parent, matches), k)
    ensures FirstFailure(p.args, request, bundle, parent, matches).Some? ==>
              r == Err(FirstFailure(p.args, request, bundle, parent, matches).value)
    ensures FirstFailure(p.args, request, bundle, parent, matches).None? && AnyBundled(p.args, request, bundle, parent, matches) ==>
              var errors := ParseEach(p.args, request, bundle, parent, matches, Initial(request, strict)).value.errors;
              |errors| > 0 &&
              r == if ErrorMessages(p, Keys(errors)).Ok? then Err(Join(",", ErrorMessages(p, Keys(errors)).value)) else Err(NoHelp)
    ensures !bundle && !strict && FirstFailure(p.args, request, bundle, parent, matches).None? ==> r.Ok?
    ensures (!strict && FirstFailure(p.args, request, bundle, parent, matches).None? &&
             !AnyBundled(p.args, request, bundle, parent, matches)) ==> r.Ok?
    ensures strict && ParseEach(p.args, request, bundle, parent, matches, Initial(request, true)).Ok? ==>
              var acc := ParseEach(p.args, request, bundle, parent, matches, Initial(request, true)).value;
              |acc.errors| == 0 && |acc.unparsed| > 0 ==> r == Err("Unknown arguments: " + Join(", ", acc.unparsed))
  {
    NoBundleWithoutBundling(p.args, request, bundle, parent, matches);
    var each := ParseEach(p.args, request, bundle, parent, matches, Initial(request, strict));
    if each.Err? then Err(each.error)
    else
      var acc := each.value;
      if |acc.errors| > 0 then
        var msgs := ErrorMessages(p, Keys(acc.errors));
        if msgs.Ok? then Err(Join(",", msgs.value)) else Err(NoHelp)
      else if strict && |acc.unparsed| > 0 then Err("Unknown arguments: " + Join(", ", acc.unparsed))
      else Ok(acc.result)
  }

  /** A parsed argument with distinct destinations lands under its own
      destination exactly when it was found or stores missing values. */
  lemma StoredUnderDest(args: seq<Argument>, request: Location -> Entries<seq<Value>>, bundle: bool,
                        parent: (Value, string) -> Result<Value>, matches: (string, Value) -> Result<bool>, i: nat)
    requires i < |args|
    requires forall a, b | 0 <= a < b < |args| :: Dest(args[a]) != Dest(args[b])
    ensures LastValue(StoredPairs(args, request, bundle, parent, matches), Dest(args[i])) ==
              Stored(args[i], Parse(args[i], request, bundle, parent, matches).0)
  {
    DestPairsUnder(args, StoredOf(request, bundle, parent, matches), i);
  }

  /** A destination no argument has is never assigned. */
  lemma StoredAbsent(args: seq<Argument>, request: Location -> Entries<seq<Value>>, bundle: bool,
                     parent: (Value, string) -> Result<Value>, matches: (string, Value) -> Result<bool>, d: string)
    requires forall a | 0 <= a < |args| :: Dest(args[a]) != d
    ensures LastValue(StoredPairs(args, request, bundle, parent, matches), d).None?
  {
    DestPairsAbsent(args, StoredOf(request, bundle, parent, matches), d);
  }
}

=== FILE: request_id.dfy ===
/** The request-id middleware: it collects the ids a client sent in the
  `Request-Id` headers, keeps those shaped like a UUID, puts a fresh id in
  front and echoes that fresh id in the response.

  The WSGI environment is a map from variable name to text; the fresh id,
  which `__call__` draws from `uuid.uuid4()`, is a parameter.
 */
module RequestId {
  import opened Wrappers
  import opened PyStrings

  /** The hex groups of the textual UUID form (section 3 of RFC 4122). */
  const Groups: seq<nat> := [8, 4, 4, 4, 12]

  /** `[a-f0-9]`: lower-case hex only. */
  predicate IsHex(c: char) {
    IsAsciiDigit(c) || 'a' as int <= c as int <= 'f' as int
  }

  predicate AllHex(s: string) {
    forall i | 0 <= i < |s| :: IsHex(s[i])
  }

  /** `s` is the groups `gs` of hex digits, each group but the first
      optionally preceded by `-`. */
  predicate Matches(s: string, gs: seq<nat>)
    decreases |gs|, 0
  {
    if |gs| == 0 then s == ""
    else |s| >= gs[0] && AllHex(s[..gs[0]]) && Separated(s[gs[0]..], gs[1..])
  }

  predicate Separated(rest: string, gs: seq<nat>)
    decreases |gs|, 1
  {
    if |gs| == 0 then rest == ""
    else Matches(rest, gs) || (|rest| > 0 && rest[0] == '-' && Matches(rest[1..], gs))
  }

  /** `PATTERN.match(s)`: Python's `$` also matches before a final newline. */
  predicate PatternMatch(s: string) {
    Matches(s, Groups) || (|s| > 0 && s[|s| - 1] == '\n' && Matches(s[..|s| - 1], Groups))
  }

  function Sum(gs: seq<nat>): nat {
    if |gs| == 0 then 0 else gs[0] + Sum(gs[1..])
  }

  /** The text with the hex digits `d` cut into the groups `gs`, with a `-`
      before group `i + 1` exactly when `hy[i]` holds. */
  function Render(d: string, hy: seq<bool>, gs: seq<nat>): string
    requires |d| == Sum(gs) && |hy| + 1 == |gs|
    decreases |gs|
  {
    if |gs| == 1 then d
    else d[..gs[0]] + (if hy[0] then "-" else "") + Render(d[gs[0]..], hy[1..], gs[1..])
  }

  /** Every rendering of hex digits matches. */
  lemma {:induction false} RenderMatches(d: string, hy: seq<bool>, gs: seq<nat>)
    requires |d| == Sum(gs) && |hy| + 1 == |gs| && AllHex(d)
    ensures Matches(Render(d, hy, gs), gs)
    decreases |gs|
  {
    var s := Render(d, hy, gs);
    if |gs| == 1 {
      assert s[gs[0]..] == "";
    } else {
      var rest := Render(d[gs[0]..], hy[1..], gs[1..]);
      var sep := if hy[0] then "-" else "";
      RenderMatches(d[gs[0]..], hy[1..], gs[1..]);
      assert s == d[..gs[0]] + sep + rest;
      assert s[..gs[0]] == d[..gs[0]];
      assert s[gs[0]..] == sep + rest;
      if hy[0] {
        assert (sep + rest)[1..] == rest;
      } else {
        assert sep + rest == rest;
      }
    }
  }

  /** Every match is such a rendering. */
  lemma {:induction false} MatchesRendered(s: string, gs: seq<nat>)
    requires Matches(s, gs) && |gs| >= 1
    ensures exists d, hy | |d| == Sum(gs) && |hy| + 1 == |gs| && AllHex(d) :: s == Render(d, hy, gs)
    decreases |gs|
  {
    var head := s[..gs[0]];
    var rest := s[gs[0]..];
    assert s == head + rest;
    if |gs| == 1 {
      assert rest == "";
      assert Sum(gs) == gs[0] + Sum(gs[1..]) && Sum(gs[1..]) == 0;
      var hy: seq<bool> := [];
      assert |s| == Sum(gs) && |hy| + 1 == |gs| && AllHex(s) && s == Render(s, hy, gs);
      RenderedBy(s, s, hy, gs);
    } else {
      var h := !Matches(rest, gs[1..]);
      var sep := if h then "-" else "";
      var tail := if h then rest[1..] else rest;
      assert rest == sep + tail;
      MatchesRendered(tail, gs[1..]);
      var d, hy :| |d| == Sum(gs[1..]) && |hy| + 1 == |gs[1..]| && AllHex(d) && tail == Render(d, hy, gs[1..]);
      var d', hy' := head + d, [h] + hy;
      AllHexAppend(head, d);
      assert d'[..gs[0]] == head && d'[gs[0]..] == d && hy'[0] == h && hy'[1..] == hy;
      assert Render(d', hy', gs) == head + sep + tail;
      SeqAssoc(head, sep, tail);
      assert s == Render(d', hy', gs);
      assert |d'| == Sum(gs) && |hy'| + 1 == |gs| && AllHex(d');
      RenderedBy(s, d', hy', gs);
    }
  }

  lemma RenderedBy(s: string, d: string, hy: seq<bool>, gs: seq<nat>)
    requires |d| == Sum(gs) && |hy| + 1 == |gs| && AllHex(d) && s == Render(d, hy, gs)
    ensures exists d, hy | |d| == Sum(gs) && |hy| + 1 == |gs| && AllHex(d) :: s == Render(d, hy, gs)
  {
  }

  lemma SeqAssoc(a: string, b: string, c: string)
    ensures a + b + c == a + (b + c)
  {
  }

  lemma AllHexAppend(a: string, b: string)
    requires AllHex(a) && AllHex(b)
    ensures AllHex(a + b)
  {
    assert forall i | 0 <= i < |a + b| :: (a + b)[i] == if i < |a| then a[i] else b[i - |a|];
  }

  /** Matching the groups `gs` is exactly being a rendering of hex digits. */
  lemma MatchesIffRendered(s: string, gs: seq<nat>)
    requires |gs| >= 1
    ensures Matches(s, gs) <==>
      exists d, hy | |d| == Sum(gs) && |hy| + 1 == |gs| && AllHex(d) :: s == Render(d, hy, gs)
  {
    if Matches(s, gs) {
      MatchesRendered(s, gs);
    }
    if exists d, hy | |d| == Sum(gs) && |hy| + 1 == |gs| && AllHex(d) :: s == Render(d, hy, gs) {
      var d, hy :| |d| == Sum(gs) && |hy| + 1 == |gs| && AllHex(d) && s == Render(d, hy, gs);
      RenderMatches(d, hy, gs);
    }
  }

  /** `PATTERN` accepts exactly 32 lower-case hex digits grouped 8-4-4-4-12,
      with each of the four hyphens optional, and nothing else apart from a
      single trailing newline. */
  lemma PatternIsUuid(s: string)
    ensures PatternMatch(s) <==>
      (exists d, hy | |d| == 32 && |hy| == 4 && AllHex(d) :: s == Render(d, hy, Groups)) ||
      (|s| > 0 && s[|s| - 1] == '\n' &&
       exists d, hy | |d| == 32 && |hy| == 4 && AllHex(d) :: s[..|s| - 1] == Render(d, hy, Groups))
  {
    assert Sum(Groups) == 32;
    MatchesIffRendered(s, Groups);
    if |s| > 0 {
      MatchesIffRendered(s[..|s| - 1], Groups);
    }
  }

  /** A match holds only hex digits and hyphens, so upper-case hex is refused. */
  lemma {:induction false} MatchesLowerCase(s: string, gs: seq<nat>)
    requires Matches(s, gs)
    ensures forall i | 0 <= i < |s| :: IsHex(s[i]) || s[i] == '-'
    decreases |gs|
  {
    if |gs| > 0 {
      var rest := s[gs[0]..];
      assert s == s[..gs[0]] + rest;
      if |gs| > 1 {
        if Matches(rest, gs[1..]) {
          MatchesLowerCase(rest, gs[1..]);
        } else {
          MatchesLowerCase(rest[1..], gs[1..]);
          assert rest == [rest[0]] + rest[1..];
        }
      }
      forall i | 0 <= i < |s|
        ensures IsHex(s[i]) || s[i] == '-'
      {
        if i >= gs[0] {
          assert s[i] == rest[i - gs[0]];
        } else {
          assert s[i] == s[..gs[0]][i];
        }
      }
    }
  }

  /** The request-id headers, in the order they are read. */
  const Headers: seq<string> := ["HTTP_REQUEST_ID", "HTTP_X_REQUEST_ID"]

  /** `env.get(key, '')`. */
  function Header(env: map<string, string>, key: string): string {
    if key in env then env[key] else ""
  }

  /** `value.strip().replace(' ', '').split(',')`. */
  function Pieces(value: string): (r: seq<string>)
    ensures |r| >= 1
    ensures forall i | 0 <= i < |r| :: ',' !in r[i]
  {
    Split(RemoveChar(Strip(value), ' '), ',')
  }

  /** `_raw_request_ids(env)`: the pieces of each header in header order. */
  function RawRequestIds(env: map<string, string>): (r: seq<string>)
    ensures |r| >= 2
  {
    RawFrom(env, Headers)
  }

  function RawFrom(env: map<string, string>, keys: seq<string>): (r: seq<string>)
    ensures |r| >= |keys|
  {
    if |keys| == 0 then [] else Pieces(Header(env, keys[0])) + RawFrom(env, keys[1..])
  }

  /** With neither header present, there are two empty raw ids. */
  lemma RawWithoutHeaders(env: map<string, string>)
    requires "HTTP_REQUEST_ID" !in env && "HTTP_X_REQUEST_ID" !in env
    ensures RawRequestIds(env) == ["", ""]
  {
    RawInHeaderOrder(env);
    assert Strip("") == "" && RemoveChar("", ' ') == "";
    assert Pieces("") == [""];
  }

  /** The raw ids are those of the first header followed by those of the second. */
  lemma RawInHeaderOrder(env: map<string, string>)
    ensures RawRequestIds(env) ==
      Pieces(Header(env, "HTTP_REQUEST_ID")) + Pieces(Header(env, "HTTP_X_REQUEST_ID"))
  {
    RawFromPair(env, "HTTP_REQUEST_ID", "HTTP_X_REQUEST_ID");
  }

  lemma RawFromPair(env: map<string, string>, k1: string, k2: string)
    ensures RawFrom(env, [k1, k2]) == Pieces(Header(env, k1)) + Pieces(Header(env, k2))
  {
    assert [k1, k2][1..] == [k2] && [k2][1..] == [];
    var b := Pieces(Header(env, k2));
    assert RawFrom(env, [k2]) == b + [] == b;
  }

  /** `list(filter(keep, ids))`. */
  function Keep(ids: seq<string>, keep: string -> bool): (r: seq<string>)
    ensures forall x :: x in r <==> x in ids && keep(x)
    ensures |r| <= |ids|
  {
    if |ids| == 0 then []
    else if keep(ids[0]) then [ids[0]] + Keep(ids[1..], keep)
    else Keep(ids[1..], keep)
  }

  /** Filtering keeps the relative order: it works list by list. */
  lemma {:induction false} KeepAppend(a: seq<string>, b: seq<string>, keep: string -> bool)
    ensures Keep(a + b, keep) == Keep(a, keep) + Keep(b, keep)
  {
    if |a| == 0 {
      assert a + b == b;
    } else {
      var ab := a + b;
      assert ab[0] == a[0] && ab[1..] == a[1..] + b;
      KeepAppend(a[1..], b, keep);
    }
  }

  /** A list whose every element passes is kept whole. */
  lemma {:induction false} KeepAll(ids: seq<string>, keep: string -> bool)
    requires forall i | 0 <= i < |ids| :: keep(ids[i])
    ensures Keep(ids, keep) == ids
  {
    if |ids| > 0 {
      KeepAll(ids[1..], keep);
    }
  }

  /** `list(filter(PATTERN.match, ids))`. */
  function Uuids(ids: seq<string>): (r: seq<string>)
    ensures forall x :: x in r <==> x in ids && PatternMatch(x)
  {
    Keep(ids, PatternMatch)
  }

  /** `_extract_request_ids(env)`. */
  function ExtractRequestIds(env: map<string, string>): (r: seq<string>)
    ensures forall x :: x in r <==> x in RawRequestIds(env) && PatternMatch(x)
  {
    Uuids(RawRequestIds(env))
  }

  /** What the middleware sets and sends: `REQUEST_IDS`, `REQUEST_ID` and the
      response headers after `inject_headers`. */
  datatype Tagged = Tagged(requestIds: seq<string>, requestId: string, headers: seq<(string, string)>)

  /** `RequestID.__call__`, with the application's own response headers. */
  function Call(env: map<string, string>, newId: string, appHeaders: seq<(string, string)>): (r: Tagged)
    ensures |r.requestIds| >= 1 && r.requestId == r.requestIds[0] == newId
    ensures forall i | 1 <= i < |r.requestIds| :: PatternMatch(r.requestIds[i])
    ensures |r.headers| == |appHeaders| + 1 && r.headers[..|appHeaders|] == appHeaders
    ensures r.headers[|r.headers| - 1] == ("Request-Id", r.requestId)
  {
    var ids := [newId] + ExtractRequestIds(env);
    assert forall i | 1 <= i < |ids| :: ids[i] in ExtractRequestIds(env);
    Tagged(ids, ids[0], appHeaders + [("Request-Id", ids[0])])
  }

  /** The ids after the fresh one are the matching ids of the first header,
      then those of the second, in the order they were sent. */
  lemma CallKeepsHeaderOrder(env: map<string, string>, newId: string, appHeaders: seq<(string, string)>)
    ensures Call(env, newId, appHeaders).requestIds ==
      [newId] + Uuids(Pieces(Header(env, "HTTP_REQUEST_ID"))) + Uuids(Pieces(Header(env, "HTTP_X_REQUEST_ID")))
  {
    var a, b := Pieces(Header(env, "HTTP_REQUEST_ID")), Pieces(Header(env, "HTTP_X_REQUEST_ID"));
    RawInHeaderOrder(env);
    KeepAppend(a, b, PatternMatch);
    assert ExtractRequestIds(env) == Uuids(a) + Uuids(b);
    assert [newId] + (Uuids(a) + Uuids(b)) == [newId] + Uuids(a) + Uuids(b);
  }
}

=== FILE: resource_decorators.dfy ===
/** Decorator configuration of resource classes (`flask_restplus/resource.py`).

  A resource class names the decorators of each HTTP method in two ways: a
  `parameterized_decorators` dictionary from method to a list of items (a
  bare decorator name, or a name and its parameters), and class attributes
  called `decorator__<method>__<name>` whose value is the parameter. The
  metaclass merges both into one configuration and wraps each method with
  the registered decorators.

  A class namespace, and the attributes `dir()` lists for a base with the
  values `getattr` gives, are dictionaries from attribute name to `Value`.
  Python dictionaries hold each key once; in the association lists of
  `ODict` the first pair for a key is the one that counts, so the loops
  here skip a key they have already seen, which changes nothing for a real
  dictionary. The decorator registry is a set of names and a map from name
  to the dynamic-parameter function, whose class-namespace and bases
  arguments are fixed per class and are folded into the function.
 */
module ResourceDecorators {
  import opened Wrappers
  import opened PyStrings
  import opened ODict
  import opened Values

  /** `getattr(b, attr, None)`: a missing attribute reads as `None`. */
  function BaseAttr<A>(b: Entries<Option<A>>, attr: string): Option<A> {
    match Lookup(b, attr)
    case None => None
    case Some(v) => v
  }

  /** The bases' loop of `get_attr`: the first non-`None` value. */
  function FirstBaseAttr<A>(bases: seq<Entries<Option<A>>>, attr: string): (r: Option<A>)
    ensures r.Some? ==> exists i | 0 <= i < |bases| ::
      BaseAttr(bases[i], attr) == r && forall j | 0 <= j < i :: BaseAttr(bases[j], attr).None?
    ensures r.None? <==> forall i | 0 <= i < |bases| :: BaseAttr(bases[i], attr).None?
  {
    match FirstWhere(bases, b => BaseAttr(b, attr).Some?)
    case None => None
    case Some(i) => BaseAttr(bases[i], attr)
  }

  /** `get_attr(d, bases, attr)`: the class's own entry, whatever its value,
      else the first base whose value is not `None`, else an exception naming
      the class and the attribute. */
  function GetAttr<A>(d: Entries<Option<A>>, bases: seq<Entries<Option<A>>>, qualname: string, attr: string): (r: Result<Option<A>>)
    ensures attr in KeySet(d) ==> r == Ok(Lookup(d, attr).value)
    ensures attr !in KeySet(d) ==> (r.Err? <==> forall i | 0 <= i < |bases| :: BaseAttr(bases[i], attr).None?)
    ensures attr !in KeySet(d) && r.Ok? ==> exists i | 0 <= i < |bases| ::
      r.value == BaseAttr(bases[i], attr) && r.value.Some? && forall j | 0 <= j < i :: BaseAttr(bases[j], attr).None?
    ensures r.Err? ==> r.error == qualname + "-" + attr + " 未定义"
  {
    if attr in KeySet(d) then Ok(Lookup(d, attr).value)
    else
      match FirstBaseAttr(bases, attr)
      case None => Err(qualname + "-" + attr + " 未定义")
      case Some(v) => Ok(Some(v))
  }

  /** The class's own entry shadows the bases even when it is `None`. */
  lemma OwnAttrShadows<A>(d: Entries<Option<A>>, bases: seq<Entries<Option<A>>>, qualname: string, attr: string)
    requires Lookup(d, attr) == Some(None)
    requires exists i | 0 <= i < |bases| :: BaseAttr(bases[i], attr).Some?
    ensures GetAttr(d, bases, qualname, attr) == Ok(None)
    ensures FirstBaseAttr(bases, attr).Some?
  {
  }

  const Prefix: string := "decorator__"

  /** No `__` anywhere in the text. */
  predicate NoSep(n: string) {
    forall k | 0 <= k <= |n| - 2 :: !OccursAt(n, "__", k)
  }

  /** The text up to the first line break: `.` does not match `\n`. */
  function UpToNewline(t: string): (r: string)
    ensures '\n' !in r
    ensures StartsWith(t, r)
    ensures |r| < |t| ==> t[|r|] == '\n'
  {
    if |t| == 0 || t[0] == '\n' then "" else [t[0]] + UpToNewline(t[1..])
  }

  /** The last place at or before `j` where `__` starts. */
  function LastSep(t: string, j: int): (r: Option<nat>)
    ensures r.Some? ==> r.value <= j && OccursAt(t, "__", r.value)
    ensures r.Some? ==> forall k | r.value < k <= j :: !OccursAt(t, "__", k)
    ensures r.None? ==> forall k | 0 <= k <= j :: !OccursAt(t, "__", k)
    decreases j + 1
  {
    if j < 0 then None
    else if OccursAt(t, "__", j) then Some(j)
    else LastSep(t, j - 1)
  }

  /** `decorator_pattern.match(attr)`: after the `decorator__` prefix, the
      greedy method group runs to the last `__` of the first line and the
      name is the rest of that line. */
  function DecoratorMatch(attr: string): (r: Option<(string, string)>)
    ensures r.Some? ==> StartsWith(attr, Prefix + r.value.0 + "__" + r.value.1)
    ensures r.Some? ==> '\n' !in r.value.0 && '\n' !in r.value.1
    ensures r.Some? ==> NoSep(r.value.1)
    ensures r.Some? ==> |r.value.1| == 0 || r.value.1[0] != '_'
    ensures !StartsWith(attr, Prefix) ==> r.None?
  {
    if !StartsWith(attr, Prefix) then None
    else
      var t := attr[|Prefix|..];
      var line := UpToNewline(t);
      match LastSep(line, |line| - 2)
      case None => None
      case Some(j) =>
        NameAfterLastSep(line, j);
        assert attr == Prefix + t;
        assert t[..|line|] == line;
        assert Prefix + line[..j] + "__" + line[j + 2..] == Prefix + line;
        Some((line[..j], line[j + 2..]))
  }

  /** What follows the last `__` holds no `__` and does not start with `_`. */
  lemma NameAfterLastSep(line: string, j: nat)
    requires OccursAt(line, "__", j)
    requires forall k | j < k <= |line| - 2 :: !OccursAt(line, "__", k)
    ensures line == line[..j] + "__" + line[j + 2..]
    ensures NoSep(line[j + 2..])
    ensures |line[j + 2..]| == 0 || line[j + 2..][0] != '_'
  {
    var n := line[j + 2..];
    forall k | 0 <= k <= |n| - 2
      ensures !OccursAt(n, "__", k)
    {
      if OccursAt(n, "__", k) {
        assert line[j + 2 + k..j + 2 + k + 2] == n[k..k + 2];
        assert OccursAt(line, "__", j + 2 + k);
      }
    }
    if |n| > 0 && n[0] == '_' {
      assert line[j + 1] == '_' && line[j + 2] == n[0];
      assert line[j + 1..j + 3] == "__";
      assert OccursAt(line, "__", j + 1);
    }
  }

  /** A name without line breaks is its own first line. */
  lemma {:induction false} UpToNewlineWhole(t: string)
    requires '\n' !in t
    ensures UpToNewline(t) == t
  {
    if |t| > 0 {
      UpToNewlineWhole(t[1..]);
      assert t == [t[0]] + t[1..];
    }
  }

  lemma {:induction false} LastSepIs(t: string, j: int, i: nat)
    requires i <= j && OccursAt(t, "__", i)
    requires forall k | i < k <= j :: !OccursAt(t, "__", k)
    ensures LastSep(t, j) == Some(i)
    decreases j - i
  {
    if j > i {
      LastSepIs(t, j - 1, i);
    }
  }

  /** The attribute `decorator__<method>__<name>` gives back its method and
      name whenever the name could not have been cut elsewhere: neither holds
      a line break, and the name neither holds `__` nor starts with `_`. */
  lemma DecoratorMatchRoundTrip(m: string, n: string)
    requires '\n' !in m && '\n' !in n
    requires NoSep(n)
    requires |n| == 0 || n[0] != '_'
    ensures DecoratorMatch(Prefix + m + "__" + n) == Some((m, n))
  {
    var attr := Prefix + m + "__" + n;
    var t := m + "__" + n;
    assert attr[|Prefix|..] == t;
    NoNewlineJoined(m, n);
    UpToNewlineWhole(t);
    LastSepOfJoined(m, n);
    LastSepIs(t, |t| - 2, |m|);
    assert t[..|m|] == m && t[|m| + 2..] == n;
  }

  lemma NoNewlineJoined(m: string, n: string)
    requires '\n' !in m && '\n' !in n
    ensures '\n' !in m + "__" + n
  {
    var t := m + "__" + n;
    assert forall i | 0 <= i < |t| :: t[i] == (if i < |m| then m[i] else if i < |m| + 2 then '_' else n[i - |m| - 2]);
  }

  /** In `m__n` with `n` as above, the separator after `m` is the last one. */
  lemma LastSepOfJoined(m: string, n: string)
    requires NoSep(n)
    requires |n| == 0 || n[0] != '_'
    ensures OccursAt(m + "__" + n, "__", |m|)
    ensures forall k | |m| < k <= |m| + |n| :: !OccursAt(m + "__" + n, "__", k)
  {
    var t := m + "__" + n;
    assert t[|m|..|m| + 2] == "__";
    forall k | |m| < k <= |t| - 2
      ensures !OccursAt(t, "__", k)
    {
      if k == |m| + 1 {
        assert t[k..k + 2][1] == t[k + 1] == n[0];
      } else {
        assert t[k..k + 2] == n[k - |m| - 2..k - |m|];
        assert !OccursAt(n, "__", k - |m| - 2);
      }
    }
  }

  /** The greedy method group: with `__` inside the method part the whole
      part up to the last `__` is the method. */
  lemma GreedyMethod()
    ensures DecoratorMatch("decorator__get__cache__x") == Some(("get__cache", "x"))
  {
    var a := Prefix + "get__cache" + "__" + "x";
    assert |a| == 24;
    assert forall i | 0 <= i < 24 :: a[i] == "decorator__get__cache__x"[i];
    assert a == "decorator__get__cache__x";
    DecoratorMatchRoundTrip("get__cache", "x");
  }

  /** What `get_decorator_attrs` records for an attribute: the method, the
      decorator name and the value. */
  type Found = (string, string, Value)

  function Tag(attr: string, v: Value): Found
    requires DecoratorMatch(attr).Some?
  {
    (DecoratorMatch(attr).value.0, DecoratorMatch(attr).value.1, v)
  }

  /** One loop of `get_decorator_attrs`: each matching attribute not seen yet
      is recorded. */
  function AddMatching(res: Entries<Found>, attrs: Entries<Value>): (r: Entries<Found>)
    ensures forall k ::
      Lookup(r, k) ==
        (if Lookup(res, k).Some? then Lookup(res, k)
         else if Lookup(attrs, k).Some? && DecoratorMatch(k).Some? then Some(Tag(k, Lookup(attrs, k).value))
         else None)
    decreases |attrs|
  {
    if |attrs| == 0 then res
    else
      var k, v := attrs[0].0, attrs[0].1;
      var res' := if k in KeySet(res) || DecoratorMatch(k).None? then res else Put(res, k, Tag(k, v));
      AddMatching(res', attrs[1..])
  }

  /** The first of the namespaces that has the attribute. */
  function FirstOwner(tables: seq<Entries<Value>>, attr: string): (r: Option<Value>)
    ensures r.Some? ==> exists i | 0 <= i < |tables| :: Lookup(tables[i], attr) == r
  {
    if |tables| == 0 then None
    else if Lookup(tables[0], attr).Some? then Lookup(tables[0], attr)
    else FirstOwner(tables[1..], attr)
  }

  function AddAll(res: Entries<Found>, tables: seq<Entries<Value>>): (r: Entries<Found>)
    ensures forall k ::
      Lookup(r, k) ==
        (if Lookup(res, k).Some? then Lookup(res, k)
         else if FirstOwner(tables, k).Some? && DecoratorMatch(k).Some? then Some(Tag(k, FirstOwner(tables, k).value))
         else None)
    decreases |tables|
  {
    if |tables| == 0 then res else AddAll(AddMatching(res, tables[0]), tables[1..])
  }

  /** `get_decorator_attrs(d, bases)`: the matching attributes of the class
      namespace, then those of each base in order, where a name already
      recorded is not looked at again. */
  function DecoratorAttrs(d: Entries<Value>, bases: seq<Entries<Value>>): (r: Entries<Found>)
    ensures forall k :: Lookup(r, k).Some? <==> DecoratorMatch(k).Some? && FirstOwner([d] + bases, k).Some?
  {
    AddAll([], [d] + bases)
  }

  /** An attribute of the class itself shadows the same attribute of any base. */
  lemma ClassAttrShadowsBases(d: Entries<Value>, bases: seq<Entries<Value>>, attr: string)
    requires Lookup(d, attr).Some? && DecoratorMatch(attr).Some?
    ensures Lookup(DecoratorAttrs(d, bases), attr) == Some(Tag(attr, Lookup(d, attr).value))
  {
    assert ([d] + bases)[0] == d;
  }

  /** A base attribute is recorded with the value of the first base that
      lists it, when the class itself does not. */
  lemma BaseAttrRecorded(d: Entries<Value>, bases: seq<Entries<Value>>, attr: string)
    requires Lookup(d, attr).None? && DecoratorMatch(attr).Some? && FirstOwner(bases, attr).Some?
    ensures Lookup(DecoratorAttrs(d, bases), attr) == Some(Tag(attr, FirstOwner(bases, attr).value))
  {
    assert ([d] + bases)[1..] == bases;
  }

  /** An item of a `parameterized_decorators` list. */
  datatype Item = Bare(name: string) | Pair(name: string, params: Value)

  /** A bare name has `None` for its parameters. */
  function ItemPair(item: Item): (string, Value) {
    match item
    case Bare(n) => (n, Null)
    case Pair(n, p) => (n, p)
  }

  function ItemPairs(items: seq<Item>): (r: seq<(string, Value)>)
    ensures |r| == |items|
    ensures forall i | 0 <= i < |items| :: r[i] == ItemPair(items[i])
  {
    if |items| == 0 then [] else [ItemPair(items[0])] + ItemPairs(items[1..])
  }

  /** The decorators of one method: name to parameters, in order. */
  type MethodConfig = Entries<Value>

  /** Method (lower case) to its decorators. */
  type Config = Entries<MethodConfig>

  /** `res[method][name] = params` for every item in turn: a later item
      with the same name replaces the earlier parameters. */
  function ListConfig(items: seq<Item>): (r: MethodConfig)
    ensures forall n :: Lookup(r, n) == LastValue(ItemPairs(items), n)
  {
    FromPairs(ItemPairs(items))
  }

  /** The first loop of `get_decorator_config`: entries for methods the
      class serves. */
  function ListsConfig(res: Config, pd: Entries<seq<Item>>, methods: seq<string>): (r: Config)
    ensures forall m ::
      Lookup(r, m) ==
        (if Lookup(res, m).Some? then Lookup(res, m)
         else if m in methods && Lookup(pd, m).Some? then Some(ListConfig(Lookup(pd, m).value))
         else None)
    decreases |pd|
  {
    if |pd| == 0 then res
    else
      var m, items := pd[0].0, pd[0].1;
      var res' := if m in KeySet(res) || m !in methods then res else Put(res, m, ListConfig(items));
      ListsConfig(res', pd[1..], methods)
  }

  /** The value the last attribute for `(method, name)` gives, if any. */
  function LastAttr(attrs: Entries<Found>, m: string, n: string): Option<Value> {
    if |attrs| == 0 then None
    else
      var f := attrs[|attrs| - 1].1;
      if f.0 == m && f.1 == n then Some(f.2) else LastAttr(attrs[..|attrs| - 1], m, n)
  }

  function MethodOf(res: Config, m: string): MethodConfig {
    match Lookup(res, m)
    case None => []
    case Some(c) => c
  }

  /** The second loop of `get_decorator_config`: every attribute-declared
      decorator is set on its method, creating the method's entry if need be,
      whether or not the class serves that method. */
  function AttrsConfig(res: Config, attrs: Entries<Found>): (r: Config)
    ensures forall m, n ::
      Lookup(MethodOf(r, m), n) ==
        (if LastAttr(attrs, m, n).Some? then LastAttr(attrs, m, n) else Lookup(MethodOf(res, m), n))
    decreases |attrs|
  {
    if |attrs| == 0 then res
    else
      var init := attrs[..|attrs| - 1];
      var f := attrs[|attrs| - 1].1;
      var prev := AttrsConfig(res, init);
      Put(prev, f.0, Put(MethodOf(prev, f.0), f.1, f.2))
  }

  /** The third loop: a decorator with a dynamic-parameter function gets the
      function's value for its parameters. */
  function Dynamic(dyn: map<string, (string, string, Value) -> Value>, m: string, n: string, v: Value): Value {
    if n in dyn then dyn[n](m, n, v) else v
  }

  function DynamicMethod(dyn: map<string, (string, string, Value) -> Value>, m: string, c: MethodConfig): (r: MethodConfig)
    ensures forall n :: Lookup(r, n) == if Lookup(c, n).Some? then Some(Dynamic(dyn, m, n, Lookup(c, n).value)) else None
  {
    if |c| == 0 then []
    else [(c[0].0, Dynamic(dyn, m, c[0].0, c[0].1))] + DynamicMethod(dyn, m, c[1..])
  }

  function DynamicConfig(dyn: map<string, (string, string, Value) -> Value>, cfg: Config): (r: Config)
    ensures forall m :: Lookup(r, m) == if Lookup(cfg, m).Some? then Some(DynamicMethod(dyn, m, Lookup(cfg, m).value)) else None
  {
    if |cfg| == 0 then []
    else [(cfg[0].0, DynamicMethod(dyn, cfg[0].0, cfg[0].1))] + DynamicConfig(dyn, cfg[1..])
  }

  /** `[m.lower() for m in methods]`. */
  function LowerAll(methods: seq<string>): (r: seq<string>)
    ensures |r| == |methods|
    ensures forall i | 0 <= i < |methods| :: r[i] == Lower(methods[i])
  {
    if |methods| == 0 then [] else [Lower(methods[0])] + LowerAll(methods[1..])
  }

  /** `get_decorator_config(cls, bases, d, methods)`. The class's and the
      bases' `parameterized_decorators` are given on their own; a `None`
      value fails at `.items()`. */
  function GetDecoratorConfig(pdOwn: Entries<Option<Entries<seq<Item>>>>, pdBases: seq<Entries<Option<Entries<seq<Item>>>>>,
                              qualname: string, d: Entries<Value>, bases: seq<Entries<Value>>, methods: seq<string>,
                              dyn: map<string, (string, string, Value) -> Value>): (r: Result<Config>)
    ensures var pd := GetAttr(pdOwn, pdBases, qualname, "parameterized_decorators");
      r.Err? <==> pd.Err? || pd.value.None?
  {
    var pd :- GetAttr(pdOwn, pdBases, qualname, "parameterized_decorators");
    if pd.None? then Err("'NoneType' object has no attribute 'items'")
    else
      var lists := ListsConfig([], pd.value, LowerAll(methods));
      var withAttrs := AttrsConfig(lists, DecoratorAttrs(d, bases));
      Ok(DynamicConfig(dyn, withAttrs))
  }

  /** The configuration of a method and decorator: an attribute-declared
      decorator overrides a list entry of the same name, a list entry counts
      only for a method the class serves, and the dynamic-parameter function
      has the last word. */
  lemma ConfigEntry(pd: Entries<seq<Item>>, d: Entries<Value>, bases: seq<Entries<Value>>, methods: seq<string>,
                    dyn: map<string, (string, string, Value) -> Value>, m: string, n: string)
    ensures var lists := ListsConfig([], pd, LowerAll(methods));
      var attrs := DecoratorAttrs(d, bases);
      var cfg := DynamicConfig(dyn, AttrsConfig(lists, attrs));
      var declared := if LastAttr(attrs, m, n).Some? then LastAttr(attrs, m, n)
                      else if m in LowerAll(methods) && Lookup(pd, m).Some? then LastValue(ItemPairs(Lookup(pd, m).value), n)
                      else None;
      (declared.Some? ==> Lookup(MethodOf(cfg, m), n) == Some(Dynamic(dyn, m, n, declared.value))) &&
      (declared.None? ==> Lookup(MethodOf(cfg, m), n).None?)
  {
    var lists := ListsConfig([], pd, LowerAll(methods));
    var attrs := DecoratorAttrs(d, bases);
    var withAttrs := AttrsConfig(lists, attrs);
    var cfg := DynamicConfig(dyn, withAttrs);
    assert Lookup(MethodOf(withAttrs, m), n) ==
      if LastAttr(attrs, m, n).Some? then LastAttr(attrs, m, n) else Lookup(MethodOf(lists, m), n);
    if Lookup(withAttrs, m).Some? {
      assert MethodOf(cfg, m) == DynamicMethod(dyn, m, MethodOf(withAttrs, m));
    } else {
      assert MethodOf(cfg, m) == [];
      assert MethodOf(withAttrs, m) == [];
    }
  }

  /** How a decorator is called with its parameters: a dict as keyword
      arguments, a list as positional arguments, anything else as the one
      argument. */
  datatype Call = Kwargs(kwargs: Entries<Value>) | Args(args: seq<Value>) | Single(arg: Value)

  function CallOf(v: Value): (c: Call)
    ensures v.Dict? <==> c.Kwargs?
    ensures v.List? <==> c.Args?
    ensures c.Kwargs? ==> c.kwargs == v.entries
    ensures c.Args? ==> c.args == v.items
    ensures c.Single? ==> c.arg == v
  {
    match v
    case Dict(e) => Kwargs(e)
    case List(xs) => Args(xs)
    case _ => Single(v)
  }

  /** The wrapping of one method: the registered decorators of its entry, in
      order, each with its call; unregistered names are skipped. */
  function DecoratorCalls(c: MethodConfig, registered: set<string>): (r: seq<(string, Call)>)
    ensures |r| <= |c|
    ensures forall i | 0 <= i < |r| :: r[i].0 in registered
    ensures forall i | 0 <= i < |r| :: exists j | 0 <= j < |c| :: c[j].0 == r[i].0 && r[i].1 == CallOf(c[j].1)
    ensures (forall j | 0 <= j < |c| :: c[j].0 in registered) ==>
      |r| == |c| && forall i | 0 <= i < |c| :: r[i] == (c[i].0, CallOf(c[i].1))
  {
    if |c| == 0 then []
    else
      var rest := DecoratorCalls(c[1..], registered);
      assert forall i | 0 <= i < |rest| :: exists j | 0 <= j < |c| :: c[j].0 == rest[i].0 && rest[i].1 == CallOf(c[j].1) by {
        forall i | 0 <= i < |rest|
          ensures exists j | 0 <= j < |c| :: c[j].0 == rest[i].0 && rest[i].1 == CallOf(c[j].1)
        {
          var j :| 0 <= j < |c[1..]| && c[1..][j].0 == rest[i].0 && rest[i].1 == CallOf(c[1..][j].1);
          assert c[j + 1] == c[1..][j];
        }
      }
      if c[0].0 in registered then
        var r := [(c[0].0, CallOf(c[0].1))] + rest;
        assert forall i | 1 <= i < |r| :: r[i] == rest[i - 1];
        r
      else rest
  }

  /** The `Meta` of a class body, as `ResourceBaseType.__init__` reads it:
      absent, present without an `abstract` attribute, or present with the
      truthiness of its `abstract`. */
  datatype Meta = NoMeta | MetaWithout | MetaAbstract(isAbstract: bool)

  const NoAbstract := "AttributeError: type object 'Meta' has no attribute 'abstract'"

  /** `ResourceBaseType.__init__`: for a concrete class with methods, each
      method (in the order of `cls.methods`) and the decorators that wrap it.
      An abstract class, or one without methods, is left untouched; a `Meta`
      without `abstract` makes creating the class raise. */
  function Decorate(cfg: Config, methods: seq<string>, registered: set<string>, meta: Meta): (r: Result<seq<(string, seq<(string, Call)>)>>)
    ensures r.Err? <==> meta.MetaWithout?
    ensures r.Err? ==> r.error == NoAbstract
    ensures r.Ok? && (meta == MetaAbstract(true) || |methods| == 0) ==> r.value == []
    ensures r.Ok? && meta != MetaAbstract(true) ==> |r.value| == |methods|
    ensures r.Ok? && meta != MetaAbstract(true) ==> forall i | 0 <= i < |r.value| ::
      r.value[i].0 == Lower(methods[i]) && r.value[i].1 == DecoratorCalls(MethodOf(cfg, Lower(methods[i])), registered)
  {
    match meta
    case MetaWithout => Err(NoAbstract)
    case MetaAbstract(true) => Ok([])
    case _ => Ok(DecorateAll(cfg, methods, registered))
  }

  function DecorateAll(cfg: Config, methods: seq<string>, registered: set<string>): (r: seq<(string, seq<(string, Call)>)>)
    ensures |r| == |methods|
    ensures forall i | 0 <= i < |r| ::
      r[i].0 == Lower(methods[i]) && r[i].1 == DecoratorCalls(MethodOf(cfg, Lower(methods[i])), registered)
  {
    if |methods| == 0 then []
    else
      var m := Lower(methods[0]);
      [(m, DecoratorCalls(MethodOf(cfg, m), registered))] + DecorateAll(cfg, methods[1..], registered)
  }
}

=== FILE: responses.dfy ===
/** The JSON envelopes of `webbase/response.py` and `restviewset/response.py`
  (the two files define the same classes; `ProjectError` is only in the
  second). A response is its HTTP status and the dictionary that is
  serialised as its body; Python's `None` is `Null`.
 */
module Responses {
  import opened Wrappers
  import opened PyStrings
  import opened ODict
  import opened Values
  import Formats

  datatype HttpResponse = HttpResponse(status: int, body: Entries<Value>)

  /** The HTTP status `JsonResponse` uses unless told otherwise. */
  const DefaultStatus: int := 200

  /** The `{'status', 'message', 'data'}` body shared by the success and
      failure envelopes, with `data` starting as `{}`. */
  function Envelope(status: Value, message: string, data: Value): (r: Entries<Value>)
    ensures Keys(r) == ["status", "message", "data"]
    ensures Lookup(r, "status") == Some(status) && Lookup(r, "message") == Some(Str(message))
    ensures Lookup(r, "data") == Some(data)
  {
    var r := [("status", status), ("message", Str(message)), ("data", data)];
    assert r[1..][1..] == [("data", data)] && r[1..][1..][1..] == [];
    assert Keys(r[1..][1..]) == ["data"];
    assert Keys(r[1..]) == ["message", "data"];
    r
  }

  /** `SuccessResponse(message, data, status)`: `data` replaces the empty
      dictionary unless it is `None`; `status` goes into the body only, the
      response itself is sent with 200. */
  function Success(message: string, data: Value, status: Value): (r: HttpResponse)
    ensures r.status == DefaultStatus
    ensures Lookup(r.body, "status") == Some(status)
    ensures Lookup(r.body, "data") == Some(if data.Null? then Dict([]) else data)
  {
    HttpResponse(DefaultStatus, Envelope(status, message, if data.Null? then Dict([]) else data))
  }

  /** `FailedResponse(message, data, status=400)`: the same body as the
      success envelope, and the same HTTP 200. */
  function Failed(message: string, data: Value, status: Value): (r: HttpResponse)
    ensures r == Success(message, data, status)
  {
    HttpResponse(DefaultStatus, Envelope(status, message, if data.Null? then Dict([]) else data))
  }

  /** `SuccessCreatedResponse`: body status 200, HTTP 201, and `data` kept
      only when it is truthy. */
  function Created(message: string, data: Value): (r: HttpResponse)
    ensures r.status == 201
    ensures Lookup(r.body, "status") == Some(Int(200))
    ensures Lookup(r.body, "data") == Some(if Truthy(data) then data else Dict([]))
  {
    HttpResponse(201, Envelope(Int(200), message, if Truthy(data) then data else Dict([])))
  }

  /** `SuccessAcceptedResponse`: as `Created` with HTTP 202. */
  function Accepted(message: string, data: Value): (r: HttpResponse)
    ensures r.status == 202
    ensures r.body == Created(message, data).body
  {
    HttpResponse(202, Envelope(Int(200), message, if Truthy(data) then data else Dict([])))
  }

  /** A falsy payload other than `None` (`0`, `""`, `[]`) is kept by the
      success envelope but dropped by the created and accepted ones. */
  lemma FalsyDataKeptOnlyBySuccess(message: string, data: Value)
    requires !data.Null? && !Truthy(data)
    ensures Lookup(Success(message, data, Int(200)).body, "data") == Some(data)
    ensures Lookup(Created(message, data).body, "data") == Some(Dict([]))
    ensures Lookup(Accepted(message, data).body, "data") == Some(Dict([]))
  {
  }

  /** `ActionError` and `PermError`: the HTTP exception's response is a
      failure envelope with body status 400 or 403, sent with HTTP 200. */
  function ActionError(message: string): (r: HttpResponse)
    ensures r.status == DefaultStatus
    ensures Lookup(r.body, "status") == Some(Int(400)) && Lookup(r.body, "data") == Some(Dict([]))
  {
    Failed(message, Dict([]), Int(400))
  }

  function PermError(message: string): (r: HttpResponse)
    ensures r.status == DefaultStatus
    ensures Lookup(r.body, "status") == Some(Int(403)) && Lookup(r.body, "data") == Some(Dict([]))
  {
    Failed(message, Dict([]), Int(403))
  }

  const PageSizeTooSmall := "page_size(页长)不能小于-1"

  /** The body of a table response: the JSON keys `code`, `data`, `message`,
      `current_page`, `total` and `total_page`, in that order. */
  datatype TableBody = TableBody(code: int, data: Value, message: string, currentPage: Value, total: int, totalPage: int)

  /** `TableResponse(data, page, total, page_size, message)`: the HTTP status
      is 200 and the body is the table. The guard rejects page sizes below
      -1. The one-page shortcut compares the page size with the string
      `'-1'`, which an integer never equals, so the formula is always used:
      -1 yields `2 - total` pages and 0 divides by zero. */
  function Table(data: Value, page: Value, total: int, pageSize: int, message: string): (r: Result<TableBody>)
    ensures pageSize < -1 ==> r == Err(PageSizeTooSmall)
    ensures pageSize == 0 ==> r.Err?
    ensures r.Ok? ==>
              r.value.code == 0 && r.value.currentPage == page && r.value.data == data &&
              r.value.total == total && r.value.message == message
    ensures pageSize >= -1 && pageSize != 0 ==>
              r.Ok? && r.value.totalPage == Formats.TruncDiv(total - 1, pageSize) + 1
  {
    if pageSize < -1 then Err(PageSizeTooSmall)
    else if pageSize == 0 then Err("ZeroDivisionError: division by zero")
    else Ok(TableBody(0, data, message, page, total, Formats.TruncDiv(total - 1, pageSize) + 1))
  }

  /** The shortcut meant for "no paging" never fires: a page size of -1
      reports `2 - total` pages instead of one, so only a table of exactly one
      row gets the intended answer. */
  lemma NoPagingShortcut(data: Value, page: Value, total: int, message: string)
    ensures Table(data, page, total, -1, message).Ok?
    ensures Table(data, page, total, -1, message).value.totalPage == 2 - total
    ensures Table(data, page, total, -1, message).value.totalPage == 1 <==> total == 1
  {
    assert Formats.TruncDiv(total - 1, -1) == 1 - total;
  }

  /** `TableResponse` with the shortcut comparing against the number -1, as
      the envelope classes do: the page count of `Formats.PageCount`. */
  function TableCorrected(data: Value, page: Value, total: int, pageSize: int, message: string): (r: Result<TableBody>)
    ensures pageSize < -1 ==> r == Err(PageSizeTooSmall)
    ensures r.Err? <==> pageSize < -1 || pageSize == 0
    ensures pageSize == -1 ==> r.Ok? && r.value.totalPage == 1
    ensures r.Ok? ==>
              r.value.code == 0 && r.value.currentPage == page && r.value.data == data &&
              r.value.total == total && r.value.message == message
  {
    if pageSize < -1 then Err(PageSizeTooSmall)
    else
      match Formats.PageCount(total, pageSize)
      case Err(e) => Err(e)
      case Ok(n) => Ok(TableBody(0, data, message, page, total, n))
  }

  /** The corrected table differs from the one as written only for the page
      size -1. */
  lemma TableCorrectedAgrees(data: Value, page: Value, total: int, pageSize: int, message: string)
    requires pageSize != -1
    ensures TableCorrected(data, page, total, pageSize, message) == Table(data, page, total, pageSize, message)
  {
  }

  /** With one row both agree; with any other number of rows the page size
      -1 separates them. */
  lemma NoPagingDiffers(data: Value, page: Value, total: int, message: string)
    ensures TableCorrected(data, page, total, -1, message) == Table(data, page, total, -1, message) <==> total == 1
  {
    NoPagingShortcut(data, page, total, message);
  }

  /** For positive page sizes the table agrees with the envelope classes'
      page count. */
  lemma TableAgreesWithPageCount(data: Value, page: Value, total: int, pageSize: int, message: string)
    requires pageSize >= 1
    ensures Table(data, page, total, pageSize, message).Ok?
    ensures Table(data, page, total, pageSize, message).value.totalPage == Formats.PageCount(total, pageSize).value
  {
  }

  /** `ProjectError`'s message parts: the base message, then the current
      project when it is truthy, then the wrong project when it is truthy. */
  function ProjectMessages(rightProject: Value, wrongProject: Value, message: string): (r: seq<string>)
    ensures |r| == 1 + (if Truthy(rightProject) then 1 else 0) + (if Truthy(wrongProject) then 1 else 0)
    ensures r[0] == message
    ensures Truthy(rightProject) ==> r[1] == "当前项目是" + PyStr(rightProject) + "号"
    ensures Truthy(wrongProject) ==> r[|r| - 1] == "却尝试在" + PyStr(wrongProject) + "号项目上操作"
  {
    [message]
    + (if Truthy(rightProject) then ["当前项目是" + PyStr(rightProject) + "号"] else [])
    + (if Truthy(wrongProject) then ["却尝试在" + PyStr(wrongProject) + "号项目上操作"] else [])
  }

  const DefaultProjectMessage := "项目错误"

  /** `ProjectError(right_pro_id, err_pro_id, message)`: HTTP 403 with body
      code 4031 and the parts joined by `","`. */
  function ProjectError(rightProject: Value, wrongProject: Value, message: string): (r: HttpResponse)
    ensures r.status == 403
    ensures Keys(r.body) == ["code", "message"] && Lookup(r.body, "code") == Some(Int(4031))
    ensures Lookup(r.body, "message") == Some(Str(Join(",", ProjectMessages(rightProject, wrongProject, message))))
  {
    HttpResponse(403, [("code", Int(4031)), ("message", Str(Join(",", ProjectMessages(rightProject, wrongProject, message))))])
  }

  /** When no part contains a comma, splitting the message on `","` gives the
      parts back, one per truthy project. */
  lemma ProjectMessageSplits(rightProject: Value, wrongProject: Value, message: string)
    requires ',' !in message && ',' !in PyStr(rightProject) && ',' !in PyStr(wrongProject)
    ensures var m := Lookup(ProjectError(rightProject, wrongProject, message).body, "message").value.s;
      Split(m, ',') == ProjectMessages(rightProject, wrongProject, message)
  {
    var parts := ProjectMessages(rightProject, wrongProject, message);
    forall i | 0 <= i < |parts|
      ensures ',' !in parts[i]
    {
      if i == 0 {
      } else if i == 1 && Truthy(rightProject) {
        assert parts[i] == "当前项目是" + PyStr(rightProject) + "号";
      } else {
        assert parts[i] == "却尝试在" + PyStr(wrongProject) + "号项目上操作";
      }
    }
    SplitJoin(parts, ',');
  }
}

=== FILE: schema_document.dfy ===
/** The schema description `SchemaMixin` of `schema/document.py` generates
  from a mongoengine document class: per field its type, the attributes
  that differ from the field class's defaults, and the validation rules the
  front end is given; which fields are shown; and the per-index condition
  classes and the schemas built from them.

  A field is described by its class (full name and kind), its `__dict__`
  and the `__dict__` of a default-constructed field of the same class
  (absent when that construction raises). Building a condition class copies
  the document class and is a parameter here.
 */
module SchemaDocument {
  import opened Wrappers
  import opened ODict
  import opened PyStrings
  import opened Values

  /** An attribute value: JSON-serialisable, or an object `json.dumps`
      refuses (a class, a compiled pattern, a function). */
  datatype AttrValue = Json(v: Value) | Opaque(id: int)

  /** The field class as the rules tell it apart: `StringField` or a
      subclass; exactly `IntField`, `LongField`, `FloatField` or
      `DecimalField`; `ReferenceField` with its document's full name;
      `EmbeddedDocumentField` with its document; `ListField` with its inner
      field; anything else. */
  datatype Kind =
    | StringKind
    | NumberKind
    | ReferenceKind(docType: string)
    | EmbeddedKind(doc: DocClass)
    | ListKind(inner: DocField)
    | OtherKind

  /** A field: the full name of its class, its kind, its `__dict__` items,
      the default instance's `__dict__` if one can be built, and its `front`
      messages if it has that attribute. */
  datatype DocField = DocField(typeName: string, kind: Kind, attrs: Entries<AttrValue>,
                               defaults: Option<Entries<AttrValue>>, front: Option<Entries<Value>>)

  /** A document class: its full name, `_fields_ordered`, `_fields`, and
      the schema attributes read from it (`schemas_show_fields` and
      `schemas_conf` when its schema provides them, `_extra_` when set). */
  datatype DocClass = DocClass(fullName: string, fieldsOrdered: seq<string>, fields: Entries<DocField>,
                               showFields: Option<seq<string>>, conf: Option<Entries<Value>>, extra: Option<Value>)

  // ---------------------------------------------------------------------
  // Changed attributes and rules.

  /** Attributes never reported. */
  const Skipped: seq<string> := ["creation_counter", "_owner_document"]

  /** `v != ori_dict.get(k)` followed by a successful `json.dumps(v)`. */
  predicate Changed(v: AttrValue, default: Option<AttrValue>) {
    v.Json? &&
    match default
    case None => !PyEq(v.v, Null)
    case Some(Json(d)) => !PyEq(v.v, d)
    case Some(Opaque(_)) => true
  }

  /** An attribute is reported exactly when it is not skipped, its value
      changed, and it is among `ks`. */
  predicate Reported(attrs: Entries<AttrValue>, defaults: Entries<AttrValue>, k: string)
    requires k in KeySet(attrs)
  {
    k !in Skipped && Changed(Lookup(attrs, k).value, Lookup(defaults, k))
  }

  /** The attributes among `ks` that are reported. */
  function ChangesOver(attrs: Entries<AttrValue>, ks: seq<string>, defaults: Entries<AttrValue>): (r: Entries<Value>)
    requires forall k | k in ks :: k in KeySet(attrs)
    ensures forall i | 0 <= i < |r| :: r[i].0 in ks
  {
    if |ks| == 0 then []
    else
      var rest := ChangesOver(attrs, ks[1..], defaults);
      var k := ks[0];
      if Reported(attrs, defaults, k) then
        var r := [(k, Lookup(attrs, k).value.v)] + rest;
        assert forall i | 1 <= i < |r| :: r[i] == rest[i - 1];
        r
      else rest
  }

  /** Distinct attribute names give distinct reported names. */
  lemma {:induction false} ChangesOverDistinct(attrs: Entries<AttrValue>, ks: seq<string>, defaults: Entries<AttrValue>)
    requires forall k | k in ks :: k in KeySet(attrs)
    requires Distinct(ks)
    ensures Distinct(Names(ChangesOver(attrs, ks, defaults)))
  {
    if |ks| > 0 {
      var k := ks[0];
      var rest := ChangesOver(attrs, ks[1..], defaults);
      assert k !in ks[1..] && Distinct(ks[1..]);
      ChangesOverDistinct(attrs, ks[1..], defaults);
      if Reported(attrs, defaults, k) {
        var p := (k, Lookup(attrs, k).value.v);
        NamesCons(p, rest);
        DistinctCons(k, Names(rest));
      }
    }
  }

  lemma {:induction false} ChangesOverLookup(attrs: Entries<AttrValue>, ks: seq<string>, defaults: Entries<AttrValue>, k: string)
    requires forall k | k in ks :: k in KeySet(attrs)
    ensures Lookup(ChangesOver(attrs, ks, defaults), k) ==
              if k in ks && Reported(attrs, defaults, k) then Some(Lookup(attrs, k).value.v) else None
  {
    if |ks| > 0 {
      ChangesOverLookup(attrs, ks[1..], defaults, k);
      assert k in ks <==> k == ks[0] || k in ks[1..];
    }
  }

  /** `_get_changes_field`: the attributes whose value differs from the
      default instance's and can be serialised, in `__dict__` order; `None`
      when the default instance cannot be built. */
  function Changes(f: DocField): (r: Option<Entries<Value>>)
    ensures r.Some? <==> f.defaults.Some?
    ensures r.Some? ==> Distinct(Names(r.value))
    ensures r.Some? ==> forall k ::
                          Lookup(r.value, k) ==
                            if k in KeySet(f.attrs) && Reported(f.attrs, f.defaults.value, k) then Some(Lookup(f.attrs, k).value.v) else None
  {
    if f.defaults.None? then None
    else
      forall k {
        ChangesOverLookup(f.attrs, Keys(f.attrs), f.defaults.value, k);
      }
      ChangesOverDistinct(f.attrs, Keys(f.attrs), f.defaults.value);
      Some(ChangesOver(f.attrs, Keys(f.attrs), f.defaults.value))
  }

  /** One rule: `{"key": ..., "value": ..., "message": ...}`. */
  datatype Rule = Rule(key: string, value: Value, message: Value)

  function RuleDict(r: Rule): Value {
    Dict([("key", Str(r.key)), ("value", r.value), ("message", r.message)])
  }

  /** The attributes a field kind turns into rules. */
  function RuleKeys(k: Kind): seq<string> {
    match k
    case StringKind => ["required", "max_length", "min_length", "regex"]
    case NumberKind => ["min_value", "max_value"]
    case _ => ["required"]
  }

  function DefaultMessage(key: string): string {
    "field check error: " + key
  }

  /** A rule's message: the field's `front` entry, or the default text. A
      string-like, reference or other field without `front` gets `''`; a
      numeric field without `front` gets the default text. */
  function Message(k: Kind, front: Option<Entries<Value>>, key: string): (m: Value)
    ensures front.Some? && key in KeySet(front.value) ==> m == Lookup(front.value, key).value
    ensures front.Some? && key !in KeySet(front.value) ==> m == Str(DefaultMessage(key))
    ensures front.None? ==> m == if k.NumberKind? then Str(DefaultMessage(key)) else Str("")
  {
    match front
    case Some(fr) => if key in KeySet(fr) then Lookup(fr, key).value else Str(DefaultMessage(key))
    case None => if k.NumberKind? then Str(DefaultMessage(key)) else Str("")
  }

  /** The rules for the changed attributes `changed`, in their order. */
  function RulesOver(k: Kind, front: Option<Entries<Value>>, changed: Entries<Value>): (r: seq<Rule>)
    ensures forall i | 0 <= i < |r| :: r[i].key in RuleKeys(k) && (r[i].key, r[i].value) in changed
    ensures forall i | 0 <= i < |r| :: r[i].message == Message(k, front, r[i].key)
    ensures forall p | p in changed && p.0 in RuleKeys(k) :: Rule(p.0, p.1, Message(k, front, p.0)) in r
  {
    if |changed| == 0 then []
    else
      var rest := RulesOver(k, front, changed[1..]);
      assert forall p :: p in changed <==> p == changed[0] || p in changed[1..];
      var key := changed[0].0;
      if key in RuleKeys(k) then [Rule(key, changed[0].1, Message(k, front, key))] + rest else rest
  }

  const NotIterable := "TypeError: 'NoneType' object is not iterable"

  /** `_gen_rule`: one rule per changed attribute the field's kind admits,
      with that attribute's value. It raises when the default instance
      cannot be built. */
  function GenRule(f: DocField): (r: Result<seq<Rule>>)
    ensures r.Ok? <==> f.defaults.Some?
    ensures r.Ok? ==> forall i | 0 <= i < |r.value| ::
              r.value[i].key in RuleKeys(f.kind) && Lookup(Changes(f).value, r.value[i].key) == Some(r.value[i].value)
    ensures r.Ok? ==> forall key | key in RuleKeys(f.kind) && Lookup(Changes(f).value, key).Some? ::
              exists i | 0 <= i < |r.value| :: r.value[i] == Rule(key, Lookup(Changes(f).value, key).value, Message(f.kind, f.front, key))
  {
    match Changes(f)
    case None => Err(NotIterable)
    case Some(changed) =>
      var r := RulesOver(f.kind, f.front, changed);
      forall i | 0 <= i < |r|
        ensures Lookup(changed, r[i].key) == Some(r[i].value)
      {
        DistinctPair(changed, r[i].key, r[i].value);
      }
      forall key | key in RuleKeys(f.kind) && Lookup(changed, key).Some?
        ensures exists i | 0 <= i < |r| :: r[i] == Rule(key, Lookup(changed, key).value, Message(f.kind, f.front, key))
      {
        var j :| 0 <= j < |changed| && changed[j] == (key, Lookup(changed, key).value);
        assert changed[j] in changed;
        var rule := Rule(key, Lookup(changed, key).value, Message(f.kind, f.front, key));
        assert rule in r;
      }
      Ok(r)
  }

  /** In a dictionary with distinct names, a listed pair is what a lookup
      returns. */
  lemma DistinctPair<V>(e: Entries<V>, k: string, v: V)
    requires Distinct(Names(e)) && (k, v) in e
    ensures Lookup(e, k) == Some(v)
  {
    var i :| 0 <= i < |e| && e[i] == (k, v);
    var j := KeyIndex(e, k);
    assert Names(e)[i] == k && Names(e)[j] == k;
  }

  /** A numeric field never gets a `required` rule, and a string field never
      a `min_value` rule. */
  lemma RuleKindsDisjoint(f: DocField)
    requires GenRule(f).Ok?
    ensures f.kind.NumberKind? ==> forall i | 0 <= i < |GenRule(f).value| :: GenRule(f).value[i].key != "required"
    ensures f.kind.StringKind? ==> forall i | 0 <= i < |GenRule(f).value| :: GenRule(f).value[i].key != "min_value"
  {
    var r := GenRule(f).value;
    forall i | 0 <= i < |r|
      ensures f.kind.NumberKind? ==> r[i].key != "required"
      ensures f.kind.StringKind? ==> r[i].key != "min_value"
    {
      RuleKeyKinds(f.kind, r[i].key);
    }
  }

  lemma RuleKeyKinds(k: Kind, key: string)
    requires key in RuleKeys(k)
    ensures k.NumberKind? ==> key != "required"
    ensures k.StringKind? ==> key != "min_value"
  {
    if k.NumberKind? {
      assert |key| == 9;
    } else if k.StringKind? {
      assert |key| != 9;
    }
  }

  // ---------------------------------------------------------------------
  // Types.

  const Categories: seq<string> := ["string", "array", "object", "integer", "float", "datetime"]

  /** The `TYPES` table as written: the datetime entry names
      `mongoengine.fields.DatetimeField`, a class mongoengine does not have. */
  function TypeNamesAsWritten(category: string): seq<string> {
    if category == "string" then ["mongoengine.fields.StringField", "mongoengine.base.fields.ObjectIdField"]
    else if category == "array" then ["mongoengine.fields.ListField"]
    else if category == "object" then ["mongoengine.fields.EmbeddedDocumentField"]
    else if category == "integer" then ["mongoengine.fields.IntField"]
    else if category == "float" then ["mongoengine.fields.FloatField"]
    else if category == "datetime" then ["mongoengine.fields.DatetimeField", "mongoengine.fields.DateField"]
    else []
  }

  /** The table with mongoengine's `DateTimeField`. */
  function TypeNames(category: string): seq<string> {
    if category == "datetime" then ["mongoengine.fields.DateTimeField", "mongoengine.fields.DateField"]
    else TypeNamesAsWritten(category)
  }

  /** `_get_type` over a table: the first category listing the name. */
  function TypeIn(table: string -> seq<string>, cats: seq<string>, typeName: string): (r: Option<string>)
    ensures r.Some? ==> r.value in cats && typeName in table(r.value)
    ensures r.None? <==> forall i | 0 <= i < |cats| :: typeName !in table(cats[i])
  {
    if |cats| == 0 then None
    else if typeName in table(cats[0]) then Some(cats[0])
    else
      var r := TypeIn(table, cats[1..], typeName);
      assert forall i | 1 <= i < |cats| :: cats[i] == cats[1..][i - 1];
      r
  }

  function TypeOfAsWritten(typeName: string): (r: Option<string>)
    ensures r.Some? ==> r.value in Categories && typeName in TypeNamesAsWritten(r.value)
    ensures r.None? <==> forall i | 0 <= i < |Categories| :: typeName !in TypeNamesAsWritten(Categories[i])
  {
    TypeIn(TypeNamesAsWritten, Categories, typeName)
  }

  function TypeOf(typeName: string): (r: Option<string>)
    ensures r.Some? ==> r.value in Categories && typeName in TypeNames(r.value)
    ensures r.None? <==> forall i | 0 <= i < |Categories| :: typeName !in TypeNames(Categories[i])
  {
    TypeIn(TypeNames, Categories, typeName)
  }

  /** As written a `DateTimeField` has no type; with the corrected table it
      is a `datetime`. */
  lemma DateTimeFieldUntyped()
    ensures TypeOfAsWritten("mongoengine.fields.DateTimeField").None?
    ensures TypeOf("mongoengine.fields.DateTimeField") == Some("datetime")
  {
    var t := "mongoengine.fields.DateTimeField";
    assert t != "mongoengine.fields.StringField" && t != "mongoengine.base.fields.ObjectIdField";
    assert t != "mongoengine.fields.ListField" && t != "mongoengine.fields.EmbeddedDocumentField";
    assert t != "mongoengine.fields.IntField" && t != "mongoengine.fields.FloatField";
    assert t != "mongoengine.fields.DatetimeField" by {
      assert t[23] != "mongoengine.fields.DatetimeField"[23];
    }
    assert t != "mongoengine.fields.DateField";
    assert forall i | 0 <= i < |Categories| :: t !in TypeNamesAsWritten(Categories[i]);
  }

  // ---------------------------------------------------------------------
  // Fields and classes.

  /** The part of a shown path before its first `"."`. */
  function Head(p: string): string {
    if '.' in p then SplitOnce(p, '.').0 else p
  }

  /** The rest of each dotted path whose head is `f`, in order: every such
      path contributes its tail, and nothing else does. */
  function Tails(paths: seq<string>, f: string): (r: seq<string>)
    ensures forall t | t in r :: exists p | p in paths :: '.' in p && p == f + "." + t
    ensures forall p | p in paths && '.' in p && SplitOnce(p, '.').0 == f :: SplitOnce(p, '.').1 in r
    ensures |r| <= |paths|
  {
    if |paths| == 0 then []
    else
      var p := paths[0];
      var rest := Tails(paths[1..], f);
      if '.' in p && SplitOnce(p, '.').0 == f then [SplitOnce(p, '.').1] + rest else rest
  }

  /** The shown paths handed to field `f`: `None` unless some dotted path
      starts with `f`. */
  function SubPaths(sorted: Option<seq<string>>, f: string): (r: Option<seq<string>>)
    ensures r.Some? ==> sorted.Some? && |r.value| > 0
    ensures r.Some? ==> forall t | t in r.value :: exists p | p in sorted.value :: p == f + "." + t
    ensures r.Some? ==> forall p | p in sorted.value && '.' in p && SplitOnce(p, '.').0 == f :: SplitOnce(p, '.').1 in r.value
    ensures sorted.Some? && (exists p | p in sorted.value :: '.' in p && SplitOnce(p, '.').0 == f) ==> r.Some?
  {
    match sorted
    case None => None
    case Some(ps) =>
      var ts := Tails(ps, f);
      if |ts| == 0 then None else Some(Dedup(ts))
  }

  function HeadsOf(paths: seq<string>): (r: seq<string>)
    ensures |r| == |paths| && forall i | 0 <= i < |paths| :: r[i] == Head(paths[i])
  {
    if |paths| == 0 then [] else [Head(paths[0])] + HeadsOf(paths[1..])
  }

  /** The top-level names `_parse_cls` shows, each once: the heads of the
      shown paths, or the class's `_fields_ordered`. */
  function Shown(c: DocClass, sorted: Option<seq<string>>): (r: seq<string>)
    ensures Distinct(r)
    ensures sorted.None? ==> forall x :: x in r <==> x in c.fieldsOrdered
    ensures sorted.Some? ==> forall x :: x in r <==> exists p | p in sorted.value :: Head(p) == x
  {
    match sorted
    case None => Dedup(c.fieldsOrdered)
    case Some(ps) =>
      var hs := HeadsOf(ps);
      assert forall x :: x in hs <==> exists p | p in ps :: Head(p) == x by {
        forall x | x in hs
          ensures exists p | p in ps :: Head(p) == x
        {
          var i :| 0 <= i < |hs| && hs[i] == x;
          assert ps[i] in ps;
        }
        forall x | exists p | p in ps :: Head(p) == x
          ensures x in hs
        {
          var p :| p in ps && Head(p) == x;
          var i :| 0 <= i < |ps| && ps[i] == p;
          assert hs[i] == x;
        }
      }
      Dedup(hs)
  }

  /** The keys no generated schema exposes to the front end. */
  const BackendFields: seq<string> := ["choices", "db_field", "field_type", "document_type"]

  /** `_parse_field` before the mask is applied. */
  function RawField(f: DocField, sorted: Option<seq<string>>, mask: seq<string>): (r: Result<Entries<Value>>)
    ensures f.defaults.None? && !f.kind.EmbeddedKind? ==> r.Err?
    ensures r.Ok? ==> "field_type" in KeySet(r.value)
    ensures r.Ok? && f.kind.EmbeddedKind? ==>
              ParseCls(f.kind.doc, sorted, mask).Ok? &&
              Lookup(r.value, "fields") == Some(Dict(ParseCls(f.kind.doc, sorted, mask).value))
    ensures r.Ok? && f.kind.ListKind? ==>
              ParseField(f.kind.inner, sorted, mask).Ok? && GenRule(f).Ok? &&
              Lookup(r.value, "items") == Some(Dict(ParseField(f.kind.inner, sorted, mask).value)) &&
              Lookup(r.value, "rules") == Some(List(RuleDicts(GenRule(f).value)))
    decreases f, 1
  {
    var res0 := [("field_type", Str(f.typeName))];
    match f.kind
    case EmbeddedKind(doc) =>
      var fields :- ParseCls(doc, sorted, mask);
      Ok(ObjectField(res0, doc.fullName, fields))
    case ListKind(inner) =>
      var sub :- ParseField(inner, sorted, mask);
      ListField(f, res0, sub)
    case _ => PlainField(f, res0)
  }

  /** The `type` a field holding no other schema is described with. */
  function PlainType(f: DocField): Value {
    if f.kind.ReferenceKind? then Str("reference")
    else
      var t := TypeOf(f.typeName);
      if t.Some? then Str(t.value) else Null
  }

  /** A field holding no other schema: a reference names its document type,
      any other field its category's type, or `None` outside every category;
      a changed attribute of the same name overrides either. */
  function PlainField(f: DocField, res0: Entries<Value>): (r: Result<Entries<Value>>)
    ensures r.Ok? <==> f.defaults.Some?
    ensures r.Ok? ==> KeySet(res0) <= KeySet(r.value)
    ensures r.Ok? ==>
      Lookup(r.value, "type") ==
        (if "type" in KeySet(Changes(f).value) then Lookup(Changes(f).value, "type") else Some(PlainType(f)))
    ensures r.Ok? && f.kind.ReferenceKind? ==>
      Lookup(r.value, "document_type") ==
        (if "document_type" in KeySet(Changes(f).value) then Lookup(Changes(f).value, "document_type")
         else Some(Str(f.kind.docType)))
  {
    match f.kind
    case ReferenceKind(docType) => LeafField(f, Put(Put(res0, "document_type", Str(docType)), "type", Str("reference")))
    case _ => LeafField(f, Put(res0, "type", PlainType(f)))
  }

  /** An embedded document's description: its class and its own fields. */
  function ObjectField(res0: Entries<Value>, docName: string, fields: Entries<Value>): (r: Entries<Value>)
    ensures KeySet(res0) <= KeySet(r)
    ensures Lookup(r, "fields") == Some(Dict(fields))
  {
    var res := Put(Put(res0, "document_type", Str(docName)), "type", Str("object"));
    UpdateLookup(res, [("fields", Dict(fields))], "fields");
    Update(res, [("fields", Dict(fields))])
  }

  /** A list field's description: the `items` schema and the rules go into
      the declared defaults, which a field without defaults cannot take. */
  function ListField(f: DocField, res0: Entries<Value>, sub: Entries<Value>): (r: Result<Entries<Value>>)
    ensures r.Ok? <==> f.defaults.Some?
    ensures r.Ok? ==> KeySet(res0) <= KeySet(r.value) && GenRule(f).Ok?
    ensures r.Ok? ==> Lookup(r.value, "items") == Some(Dict(sub))
    ensures r.Ok? ==> Lookup(r.value, "rules") == Some(List(RuleDicts(GenRule(f).value)))
  {
    if f.defaults.None? then Err("TypeError: 'NoneType' object does not support item assignment")
    else
      var rules := GenRule(f).value;
      var changed := Put(Put(Changes(f).value, "items", Dict(sub)), "rules", List(RuleDicts(rules)));
      var res := Put(res0, "type", Str("list"));
      UpdateLookup(res, changed, "items");
      UpdateLookup(res, changed, "rules");
      Ok(Update(res, changed))
  }

  /** The end of `_parse_field` for a field that holds no other schema: the
      rules, then the changed attributes laid over the description. */
  function LeafField(f: DocField, res: Entries<Value>): (r: Result<Entries<Value>>)
    ensures r.Ok? <==> f.defaults.Some?
    ensures r.Ok? ==> KeySet(res) <= KeySet(r.value)
    ensures r.Ok? ==> forall k ::
      Lookup(r.value, k) ==
        (if k in KeySet(Changes(f).value) then Lookup(Changes(f).value, k)
         else if k == "rules" then Some(List(RuleDicts(GenRule(f).value)))
         else Lookup(res, k))
  {
    var rules :- GenRule(f);
    var base := Put(res, "rules", List(RuleDicts(rules)));
    forall k {
      UpdateLookup(base, Changes(f).value, k);
    }
    Ok(Update(base, Changes(f).value))
  }

  function RuleDicts(rules: seq<Rule>): (r: seq<Value>)
    ensures |r| == |rules| && forall i | 0 <= i < |rules| :: r[i] == RuleDict(rules[i])
  {
    if |rules| == 0 then [] else [RuleDict(rules[0])] + RuleDicts(rules[1..])
  }

  /** `_parse_field`: the description of one field, without masked keys. */
  function ParseField(f: DocField, sorted: Option<seq<string>>, mask: seq<string>): (r: Result<Entries<Value>>)
    ensures r.Ok? <==> RawField(f, sorted, mask).Ok?
    ensures r.Ok? ==> forall k :: Lookup(r.value, k) == if k in mask then None else Lookup(RawField(f, sorted, mask).value, k)
    decreases f, 2
  {
    var raw :- RawField(f, sorted, mask);
    Ok(Drop(raw, mask))
  }

  /** `_parse_cls`: the description of each shown field of `c`, keyed by
      field name. A shown name that is not a field raises `KeyError`. */
  function ParseCls(c: DocClass, sorted: Option<seq<string>>, mask: seq<string>): (r: Result<Entries<Value>>)
    ensures r.Ok? ==> Names(r.value) == Shown(c, sorted)
    ensures r.Ok? ==> forall x | x in Shown(c, sorted) :: x in KeySet(c.fields)
    ensures (exists x | x in Shown(c, sorted) :: x !in KeySet(c.fields)) ==> r.Err?
    decreases c, 1
  {
    ParseItems(c, Shown(c, sorted), sorted, mask)
  }

  function ParseItems(c: DocClass, names: seq<string>, sorted: Option<seq<string>>, mask: seq<string>): (r: Result<Entries<Value>>)
    ensures r.Ok? ==> Names(r.value) == names
    ensures (exists x | x in names :: x !in KeySet(c.fields)) ==> r.Err?
    decreases c, 0, |names|
  {
    if |names| == 0 then Ok([])
    else
      var name := names[0];
      if name !in KeySet(c.fields) then Err("KeyError: '" + name + "'")
      else
        var i := KeyIndex(c.fields, name);
        assert c.fields[i] in c.fields;
        var item := ParseField(c.fields[i].1, SubPaths(sorted, name), mask);
        if item.Err? then Err(item.error)
        else
          var rest := ParseItems(c, names[1..], sorted, mask);
          if rest.Err? then Err(rest.error)
          else
            assert forall x | x in names :: x in KeySet(c.fields) by {
              forall x | x in names
                ensures x in KeySet(c.fields)
              {
                if x != name {
                  assert x in names[1..];
                }
              }
            }
            NamesCons((name, Dict(item.value)), rest.value);
            HeadTail(names);
            Ok([(name, Dict(item.value))] + rest.value)
  }

  lemma HeadTail<T>(s: seq<T>)
    requires |s| > 0
    ensures s == [s[0]] + s[1..]
  {
  }

  lemma NamesConsAll<V>(rest: seq<(string, V)>)
    ensures forall p: (string, V) :: Names([p] + rest) == [p.0] + Names(rest)
  {
    forall p: (string, V) {
      NamesCons(p, rest);
    }
  }

  lemma NamesCons<V>(p: (string, V), rest: seq<(string, V)>)
    ensures Names([p] + rest) == [p.0] + Names(rest)
  {
    assert forall i | 0 <= i < |rest| + 1 :: Names([p] + rest)[i] == ([p.0] + Names(rest))[i];
  }

  /** No field description, at any depth of embedding, exposes a masked
      key at its own level. */
  lemma MaskedKeysAbsent(f: DocField, sorted: Option<seq<string>>, mask: seq<string>, k: string)
    requires ParseField(f, sorted, mask).Ok? && k in mask
    ensures k !in KeySet(ParseField(f, sorted, mask).value)
  {
  }

  /** `gen_schema(mask)`: the fields shown by `schemas_show_fields`, that
      setting itself, an empty `ref`, and `_extra_` when the class has it. */
  function GenSchema(c: DocClass, mask: seq<string>): (r: Result<Entries<Value>>)
    ensures r.Ok? <==> ParseCls(c, c.showFields, mask).Ok?
    ensures r.Ok? ==> Names(r.value) == ["fields", "sorted_fields", "ref"] + (if c.extra.Some? then ["_extra_"] else [])
    ensures r.Ok? ==> Lookup(r.value, "fields") == Some(Dict(ParseCls(c, c.showFields, mask).value))
  {
    var fields :- ParseCls(c, c.showFields, mask);
    var shown := match c.showFields case None => Null case Some(ps) => List(StrList(ps));
    var base := [("fields", Dict(fields)), ("sorted_fields", shown), ("ref", Dict([]))];
    NamesOfThree(base[0], base[1], base[2]);
    if c.extra.Some? then
      NamesAppend(base, [("_extra_", c.extra.value)]);
      Ok(base + [("_extra_", c.extra.value)])
    else Ok(base)
  }

  lemma NamesOfThree<V>(a: (string, V), b: (string, V), c: (string, V))
    ensures Names([a, b, c]) == [a.0, b.0, c.0]
  {
  }

  function StrList(ss: seq<string>): (r: seq<Value>)
    ensures |r| == |ss| && forall i | 0 <= i < |ss| :: r[i] == Str(ss[i])
  {
    if |ss| == 0 then [] else [Str(ss[0])] + StrList(ss[1..])
  }

  // ---------------------------------------------------------------------
  // Condition classes.

  /** The condition classes generated so far, by index (`_schemas_cls`). */
  type ClassCache = map<string, DocClass>

  /** `gen_condition_class(index)`: the cached class, or a newly generated
      one that is cached. `make` is `_gen_condition_class`. */
  function GenConditionClass(cache: ClassCache, index: string, make: string -> Result<DocClass>): (r: Result<(DocClass, ClassCache)>)
    ensures index in cache ==> r == Ok((cache[index], cache))
    ensures index !in cache ==> (r.Ok? <==> make(index).Ok?)
    ensures r.Ok? ==> index in r.value.1 && r.value.0 == r.value.1[index]
    ensures r.Ok? ==> Extends(r.value.1, cache)
  {
    if index in cache then Ok((cache[index], cache))
    else
      var c :- make(index);
      Ok((c, cache[index := c]))
  }

  /** `later` keeps every entry of `earlier`. */
  predicate Extends(later: ClassCache, earlier: ClassCache) {
    forall k | k in earlier :: k in later && later[k] == earlier[k]
  }

  /** Asking again for an index returns the same class and leaves the
      cache as it was. */
  lemma GenConditionClassMemoises(cache: ClassCache, index: string, make: string -> Result<DocClass>)
    requires GenConditionClass(cache, index, make).Ok?
    ensures var (c, cache2) := GenConditionClass(cache, index, make).value;
      GenConditionClass(cache2, index, make) == Ok((c, cache2))
  {
  }

  const OriginKey := "origin"

  /** The schema a key stands for once the cache holds its condition
      class: `'origin'` describes the class itself, any other key the
      condition class of that index; backend fields are masked. `None` when
      that description raises or the class is not cached. */
  function Description(c: DocClass, cache: ClassCache, key: string): Option<Value> {
    if key == OriginKey then
      (match GenSchema(c, BackendFields) case Ok(s) => Some(Dict(s)) case Err(_) => None)
    else if key in cache then
      (match GenSchema(cache[key], BackendFields) case Ok(s) => Some(Dict(s)) case Err(_) => None)
    else None
  }

  /** A description, once available, survives any growth of the cache. */
  lemma DescriptionStable(c: DocClass, earlier: ClassCache, later: ClassCache, key: string)
    requires Extends(later, earlier) && Description(c, earlier, key).Some?
    ensures Description(c, later, key) == Description(c, earlier, key)
  {
  }

  /** The schemas of `gen_schemas`, one pair per key in order, with the
      cache of condition classes threaded through. */
  function SchemaPairs(c: DocClass, keys: seq<string>, cache: ClassCache, make: string -> Result<DocClass>): (r: Result<(seq<(string, Value)>, ClassCache)>)
    ensures r.Ok? ==> Extends(r.value.1, cache)
    ensures r.Ok? ==> Described(c, r.value.1, keys, r.value.0)
  {
    if |keys| == 0 then Ok(([], cache))
    else
      var key := keys[0];
      var (cls, cache1) :- if key == OriginKey then Ok((c, cache)) else GenConditionClass(cache, key, make);
      var s :- GenSchema(cls, BackendFields);
      assert Description(c, cache1, key) == Some(Dict(s));
      var (rest, cache2) :- SchemaPairs(c, keys[1..], cache1, make);
      DescriptionStable(c, cache1, cache2, key);
      DescribedCons(c, cache2, keys, Dict(s), rest);
      Ok(([(key, Dict(s))] + rest, cache2))
  }

  /** `ps` pairs each of `keys`, in order, with its description. */
  predicate Described(c: DocClass, cache: ClassCache, keys: seq<string>, ps: seq<(string, Value)>) {
    Paired(keys, ps, k => Description(c, cache, k))
  }

  predicate Paired(keys: seq<string>, ps: seq<(string, Value)>, d: string -> Option<Value>) {
    |ps| == |keys| && forall i | 0 <= i < |keys| :: ps[i].0 == keys[i] && d(keys[i]) == Some(ps[i].1)
  }

  lemma DescribedCons(c: DocClass, cache: ClassCache, keys: seq<string>, v: Value, rest: seq<(string, Value)>)
    requires |keys| > 0 && Description(c, cache, keys[0]) == Some(v) && Described(c, cache, keys[1..], rest)
    ensures Described(c, cache, keys, [(keys[0], v)] + rest)
  {
    PairedCons(keys, v, rest, k => Description(c, cache, k));
  }

  lemma PairedCons(keys: seq<string>, v: Value, rest: seq<(string, Value)>, d: string -> Option<Value>)
    requires |keys| > 0 && d(keys[0]) == Some(v) && Paired(keys[1..], rest, d)
    ensures Paired(keys, [(keys[0], v)] + rest, d)
  {
    var ps := [(keys[0], v)] + rest;
    forall i | 1 <= i < |keys|
      ensures ps[i].0 == keys[i] && d(keys[i]) == Some(ps[i].1)
    {
      assert ps[i] == rest[i - 1] && keys[i] == keys[1..][i - 1];
    }
  }

  /** `gen_schemas(keys)`: the keys default to `'origin'` followed by the
      `schemas_conf` keys; each key, once and in order, holds its
      description, with every condition class it needed cached. */
  function GenSchemas(c: DocClass, keys: Option<seq<string>>, cache: ClassCache, make: string -> Result<DocClass>): (r: Result<(Entries<Value>, ClassCache)>)
    ensures r.Ok? ==> Extends(r.value.1, cache)
    ensures r.Ok? ==> Names(r.value.0) == Dedup(DefaultKeys(c, keys))
    ensures r.Ok? ==> forall k | k in DefaultKeys(c, keys) ::
              Description(c, r.value.1, k).Some? && Lookup(r.value.0, k) == Description(c, r.value.1, k)
  {
    var ks := DefaultKeys(c, keys);
    var (pairs, cache2) :- SchemaPairs(c, ks, cache, make);
    FromPairsOrder(pairs);
    assert Names(pairs) == ks;
    forall k | k in ks
      ensures Description(c, cache2, k).Some? && Lookup(FromPairs(pairs), k) == Description(c, cache2, k)
    {
      PairedLookup(ks, pairs, k2 => Description(c, cache2, k2), k);
    }
    Ok((FromPairs(pairs), cache2))
  }

  lemma PairedLookup(keys: seq<string>, ps: seq<(string, Value)>, d: string -> Option<Value>, k: string)
    requires Paired(keys, ps, d) && k in keys
    ensures d(k).Some? && Lookup(FromPairs(ps), k) == d(k)
  {
    var i :| 0 <= i < |keys| && keys[i] == k;
    assert Names(ps)[i] == k;
    LastValueUniform(ps, k, d(k).value);
  }

  /** Without explicit keys the class itself is described under
      `'origin'`, and every `schemas_conf` index by its condition class. */
  lemma DefaultSchemas(c: DocClass, cache: ClassCache, make: string -> Result<DocClass>, k: string)
    requires GenSchemas(c, None, cache, make).Ok?
    requires k == OriginKey || (c.conf.Some? && k in KeySet(c.conf.value))
    ensures var (schemas, cache2) := GenSchemas(c, None, cache, make).value;
      Lookup(schemas, k).Some? &&
      (k == OriginKey ==> GenSchema(c, BackendFields).Ok? && Lookup(schemas, k) == Some(Dict(GenSchema(c, BackendFields).value))) &&
      (k != OriginKey ==> k in cache2 && GenSchema(cache2[k], BackendFields).Ok? &&
                          Lookup(schemas, k) == Some(Dict(GenSchema(cache2[k], BackendFields).value)))
  {
    var ks := DefaultKeys(c, None);
    if k != OriginKey {
      assert k in ks[1..];
    }
    assert k in ks;
  }

  /** `keys`, or `['origin']` followed by the `schemas_conf` keys. */
  function DefaultKeys(c: DocClass, keys: Option<seq<string>>): (r: seq<string>)
    ensures keys.Some? ==> r == keys.value
    ensures keys.None? ==> |r| >= 1 && r[0] == OriginKey
    ensures keys.None? ==> forall k :: k in r[1..] <==> c.conf.Some? && k in KeySet(c.conf.value)
  {
    match keys
    case Some(ks) => ks
    case None => [OriginKey] + (if c.conf.Some? then Keys(c.conf.value) else [])
  }
}

=== FILE: schema_field.dfy ===
/** The validation fields of `schema/field.py`: which named validators a
  `SchemaField` builds, how a record is checked against them, when a field's
  condition applies, how the schema metaclass merges fields and
  configuration dictionaries from its bases, and the name registry behind
  `get_schema`.

  A Python callable is seen only through its identity and `__name__`; what a
  call returns or raises is a parameter (`call`), fixed for the one record
  being checked.
 */
module SchemaFields {
  import opened Wrappers
  import opened ODict
  import opened PyStrings
  import opened Values
  import Serializers

  /** A Python function: an identity and its `__name__`. */
  datatype Callable = Callable(id: int, name: string)

  /** One element of a `func` list: a name into the schema's `funcs`, or a
      function. */
  datatype FuncItem = ItemName(name: string) | ItemCallable(fn: Callable)

  /** The `func` attribute: `None`, a name, a list, or a function. */
  datatype FuncSpec = NoFunc | FuncName(name: string) | FuncList(items: seq<FuncItem>) | FuncCallable(fn: Callable)

  /** The `condition` attribute: `None`, a name, or a function. */
  datatype Condition = Always | CondName(name: string) | CondCallable(fn: Callable)

  /** A `SchemaField` as declared; `indexes=None` is the empty list. */
  datatype SchemaField = SchemaField(desc: Option<string>, condition: Condition, func: FuncSpec, indexes: seq<string>, batch: bool)

  /** What `get_func` stores under a key: the model's own `validate`, the
      validation of the condition class generated for an index, or a
      function. */
  datatype Validator = ModelValidate | ConditionValidate(index: string) | Plain(fn: Callable)

  /** What calling a validator or condition on the record does. */
  datatype Outcome = Returned(v: Value) | Raised(message: string)

  /** `ErrDetailItem(index, info)`. */
  datatype ErrDetailItem = ErrDetailItem(index: string, info: string)

  const Origin := "origin"

  /** The key of an index validator: `'<name>_<Model>_<index>'`. */
  function IndexKey(name: string, model: string, index: string): string {
    name + "_" + model + "_" + index
  }

  /** The key of a function given by name: `'<name>_<func>'`. */
  function NamedKey(name: string, func: string): string {
    name + "_" + func
  }

  /** The key of the `i`-th function of a `func` list: `'<name>_<i>_<__name__>'`. */
  function ListedKey(name: string, i: nat, fn: Callable): string {
    name + "_" + NatToStr(i) + "_" + fn.name
  }

  /** The last index other than `'origin'`: the one the loop variable `cls`
      of `get_func` is left holding. */
  function LastCondition(indexes: seq<string>): (r: Option<string>)
    ensures r.Some? <==> exists i | 0 <= i < |indexes| :: indexes[i] != Origin
    ensures r.Some? ==> r.value in indexes && r.value != Origin
    ensures r.Some? ==> forall i | 0 <= i < |indexes| && indexes[i] != Origin :: indexes[i] == r.value || exists j | i < j < |indexes| :: indexes[j] == r.value
  {
    if |indexes| == 0 then None
    else
      var n := |indexes| - 1;
      if indexes[n] != Origin then Some(indexes[n])
      else
        var r := LastCondition(indexes[..n]);
        assert forall i | 0 <= i < n :: indexes[..n][i] == indexes[i];
        r
  }

  /** The index validators, one pair per index in order. `bind` gives the
      condition class a non-origin validator ends up using. */
  function IndexPairs(name: string, model: string, indexes: seq<string>, bind: string -> string): (r: seq<(string, Validator)>)
    ensures |r| == |indexes|
    ensures forall i | 0 <= i < |indexes| ::
              r[i] == (IndexKey(name, model, indexes[i]),
                       if indexes[i] == Origin then ModelValidate else ConditionValidate(bind(indexes[i])))
  {
    if |indexes| == 0 then []
    else
      var n := |indexes| - 1;
      var k := indexes[n];
      IndexPairs(name, model, indexes[..n], bind)
        + [(IndexKey(name, model, k), if k == Origin then ModelValidate else ConditionValidate(bind(k)))]
  }

  /** The key and validator of the `i`-th element of a `func` list. */
  function ItemPair(name: string, i: nat, item: FuncItem, funcs: Entries<Callable>): (string, Validator)
    requires item.ItemName? ==> item.name in KeySet(funcs)
  {
    if item.ItemName? then (NamedKey(name, item.name), Plain(Lookup(funcs, item.name).value))
    else (ListedKey(name, i, item.fn), Plain(item.fn))
  }

  /** The validators of a `func` list, raising `KeyError` at the first name
      missing from `funcs`. */
  function ListPairs(name: string, items: seq<FuncItem>, funcs: Entries<Callable>): (r: Result<seq<(string, Validator)>>)
    ensures r.Ok? <==> forall i | 0 <= i < |items| :: items[i].ItemName? ==> items[i].name in KeySet(funcs)
    ensures r.Ok? ==> |r.value| == |items| && forall i | 0 <= i < |items| :: r.value[i] == ItemPair(name, i, items[i], funcs)
  {
    if |items| == 0 then Ok([])
    else
      var n := |items| - 1;
      var prev := ListPairs(name, items[..n], funcs);
      assert forall i | 0 <= i < n :: items[..n][i] == items[i];
      if prev.Err? then Err(prev.error)
      else
        if items[n].ItemName? && items[n].name !in KeySet(funcs) then Err("KeyError: '" + items[n].name + "'")
        else Ok(prev.value + [ItemPair(name, n, items[n], funcs)])
  }

  /** The validators `func` contributes; an empty name or an empty list is
      falsy and contributes none. */
  function FuncPairs(name: string, spec: FuncSpec, funcs: Entries<Callable>): (r: Result<seq<(string, Validator)>>)
    ensures spec.FuncName? && spec.name != "" ==>
              (r.Ok? <==> spec.name in KeySet(funcs)) &&
              (r.Ok? ==> r.value == [(NamedKey(name, spec.name), Plain(Lookup(funcs, spec.name).value))])
    ensures spec.FuncList? ==> r == ListPairs(name, spec.items, funcs)
    ensures spec.FuncCallable? ==> r == Ok([(NamedKey(name, spec.fn.name), Plain(spec.fn))])
    ensures spec.NoFunc? || spec == FuncName("") ==> r == Ok([])
  {
    match spec
    case NoFunc => Ok([])
    case FuncName(s) =>
      if s == "" then Ok([])
      else if s in KeySet(funcs) then Ok([(NamedKey(name, s), Plain(Lookup(funcs, s).value))])
      else Err("KeyError: '" + s + "'")
    case FuncList(items) => ListPairs(name, items, funcs)
    case FuncCallable(fn) => Ok([(NamedKey(name, fn.name), Plain(fn))])
  }

  /** The pairs `get_func` assigns into `res`, in order, when every condition
      class is bound as `bind` says. */
  function ValidatorPairs(f: SchemaField, name: string, model: string, funcs: Entries<Callable>, bind: string -> string): (r: Result<seq<(string, Validator)>>)
    ensures r.Ok? <==> FuncPairs(name, f.func, funcs).Ok?
    ensures r.Ok? ==> r.value == IndexPairs(name, model, f.indexes, bind) + FuncPairs(name, f.func, funcs).value
  {
    var fps :- FuncPairs(name, f.func, funcs);
    Ok(IndexPairs(name, model, f.indexes, bind) + fps)
  }

  /** The binding the corrected `get_func` uses: each index's own class. */
  function OwnIndex(index: string): string {
    index
  }

  /** The binding left by the late-bound closure: the last non-origin index. */
  function LeftBound(indexes: seq<string>): string -> string {
    var last := LastCondition(indexes);
    _ => if last.Some? then last.value else Origin
  }

  /** `get_func` as written: every lambda built for a non-origin index reads
      the loop variable `cls` when it is called, after the loop has left it
      at the class of the last non-origin index. */
  function GetFuncAsWritten(f: SchemaField, name: string, model: string, funcs: Entries<Callable>): (r: Result<Entries<Validator>>)
    ensures r.Ok? <==> FuncPairs(name, f.func, funcs).Ok?
  {
    var ps :- ValidatorPairs(f, name, model, funcs, LeftBound(f.indexes));
    Ok(FromPairs(ps))
  }

  /** `get_func` with each index validator bound to its own condition class. */
  function GetFunc(f: SchemaField, name: string, model: string, funcs: Entries<Callable>): (r: Result<Entries<Validator>>)
    ensures r.Ok? <==> FuncPairs(name, f.func, funcs).Ok?
  {
    var ps :- ValidatorPairs(f, name, model, funcs, OwnIndex);
    Ok(FromPairs(ps))
  }

  /** Whatever the binding, an index key that no function key repeats
      holds the validator of its index. */
  lemma IndexLookup(f: SchemaField, name: string, model: string, funcs: Entries<Callable>, bind: string -> string, index: string)
    requires ValidatorPairs(f, name, model, funcs, bind).Ok?
    requires index in f.indexes
    requires IndexKey(name, model, index) !in Names(FuncPairs(name, f.func, funcs).value)
    ensures Lookup(FromPairs(ValidatorPairs(f, name, model, funcs, bind).value), IndexKey(name, model, index)) ==
              Some(if index == Origin then ModelValidate else ConditionValidate(bind(index)))
  {
    var ips := IndexPairs(name, model, f.indexes, bind);
    var fps := FuncPairs(name, f.func, funcs).value;
    var key := IndexKey(name, model, index);
    LastValueAppend(ips, fps, key);
    LastValueAbsent(fps, key);
    var i :| 0 <= i < |f.indexes| && f.indexes[i] == index;
    IndexPairsKey(name, model, f.indexes, bind, i);
  }

  /** The keys of `get_func`'s dictionary are those of its pairs, each once
      and in order of first assignment; when no function key repeats an
      index key, each index key holds the validator of its own index. */
  lemma GetFuncIndexes(f: SchemaField, name: string, model: string, funcs: Entries<Callable>, index: string)
    requires GetFunc(f, name, model, funcs).Ok?
    requires index in f.indexes
    requires IndexKey(name, model, index) !in Names(FuncPairs(name, f.func, funcs).value)
    ensures Names(GetFunc(f, name, model, funcs).value) == Dedup(Names(ValidatorPairs(f, name, model, funcs, OwnIndex).value))
    ensures Lookup(GetFunc(f, name, model, funcs).value, IndexKey(name, model, index)) ==
              Some(if index == Origin then ModelValidate else ConditionValidate(index))
  {
    FromPairsOrder(ValidatorPairs(f, name, model, funcs, OwnIndex).value);
    IndexLookup(f, name, model, funcs, OwnIndex, index);
  }

  /** As written, every non-origin index validator (whose key no function
      key repeats) uses one and the same condition class, that of the last
      non-origin index. */
  lemma AsWrittenSharesLastClass(f: SchemaField, name: string, model: string, funcs: Entries<Callable>, index: string)
    requires GetFuncAsWritten(f, name, model, funcs).Ok?
    requires index in f.indexes && index != Origin
    requires IndexKey(name, model, index) !in Names(FuncPairs(name, f.func, funcs).value)
    ensures LastCondition(f.indexes).Some?
    ensures Lookup(GetFuncAsWritten(f, name, model, funcs).value, IndexKey(name, model, index)) ==
              Some(ConditionValidate(LastCondition(f.indexes).value))
  {
    IndexLookup(f, name, model, funcs, LeftBound(f.indexes), index);
  }

  /** The last pair for an index's key carries that index's validator. */
  lemma {:induction false} IndexPairsKey(name: string, model: string, indexes: seq<string>, bind: string -> string, i: nat)
    requires i < |indexes|
    ensures LastValue(IndexPairs(name, model, indexes, bind), IndexKey(name, model, indexes[i])) ==
              Some(if indexes[i] == Origin then ModelValidate else ConditionValidate(bind(indexes[i])))
  {
    var n := |indexes| - 1;
    var ps := IndexPairs(name, model, indexes, bind);
    var prev := IndexPairs(name, model, indexes[..n], bind);
    assert ps == prev + [ps[n]];
    LastValueSnoc(prev, ps[n].0, ps[n].1, IndexKey(name, model, indexes[i]));
    if i < n && IndexKey(name, model, indexes[n]) != IndexKey(name, model, indexes[i]) {
      IndexPairsKey(name, model, indexes[..n], bind, i);
    } else if IndexKey(name, model, indexes[n]) == IndexKey(name, model, indexes[i]) {
      assert indexes[n] == indexes[i] by {
        assert (name + "_" + model + "_") + indexes[n] == (name + "_" + model + "_") + indexes[i];
        AppendCancel(name + "_" + model + "_", indexes[n], indexes[i]);
      }
    }
  }

  /** Two strings with the same prefix are equal when their concatenations are. */
  lemma AppendCancel(p: string, a: string, b: string)
    requires p + a == p + b
    ensures a == b
  {
    assert a == (p + a)[|p|..];
    assert b == (p + b)[|p|..];
  }

  /** The late binding as written: with indexes `["a", "b"]`, the validator
      stored for `"a"` checks the record against the condition class of
      `"b"`; the corrected version checks it against that of `"a"`. */
  lemma LateBindingCounterexample(name: string, model: string)
    ensures var f := SchemaField(None, Always, NoFunc, ["a", "b"], false);
      GetFuncAsWritten(f, name, model, []).Ok? &&
      Lookup(GetFuncAsWritten(f, name, model, []).value, IndexKey(name, model, "a")) == Some(ConditionValidate("b")) &&
      Lookup(GetFunc(f, name, model, []).value, IndexKey(name, model, "a")) == Some(ConditionValidate("a"))
  {
    var f := SchemaField(None, Always, NoFunc, ["a", "b"], false);
    var last := LastCondition(f.indexes);
    assert last == Some("b");
    var asWritten := LeftBound(f.indexes);
    var ps := IndexPairs(name, model, f.indexes, asWritten);
    assert ValidatorPairs(f, name, model, [], asWritten).value == ps + [];
    assert ps + [] == ps;
    IndexPairsKey(name, model, f.indexes, asWritten, 0);
    IndexPairsKey(name, model, f.indexes, OwnIndex, 0);
    var qs := IndexPairs(name, model, f.indexes, OwnIndex);
    assert ValidatorPairs(f, name, model, [], OwnIndex).value == qs + [];
    assert qs + [] == qs;
  }

  /** `v(x) is False` or `v(x)` raised: the validator rejects the record.
      Only `False` itself rejects; `0`, `None` and `''` do not. */
  predicate Rejects(o: Outcome) {
    o == Returned(Bool(false)) || o.Raised?
  }

  /** `validate_func()(x)`: the loop returns from its first iteration, so
      only the first validator is consulted; with none it returns `None`. */
  function ValidateFunc(fs: Entries<Validator>, call: Validator -> Outcome): (r: Option<bool>)
    ensures r.None? <==> |fs| == 0
    ensures r == Some(false) <==> |fs| > 0 && Rejects(call(fs[0].1))
  {
    if |fs| == 0 then None
    else
      var o := call(fs[0].1);
      if o.Raised? then Some(false)
      else if o.v == Bool(false) then Some(false)
      else Some(true)
  }

  /** A validator's `__name__`: `validate` for the model's method, `<lambda>`
      for the condition-class closure. */
  function ValidatorName(v: Validator): string {
    match v
    case ModelValidate => "validate"
    case ConditionValidate(_) => "<lambda>"
    case Plain(fn) => fn.name
  }

  /** The detail item one validator adds, if it rejects the record. */
  function DetailOf(key: string, v: Validator, o: Outcome): (r: Option<ErrDetailItem>)
    ensures r.Some? <==> Rejects(o)
    ensures r.Some? ==> r.value.index == key
  {
    match o
    case Raised(e) => Some(ErrDetailItem(key, ValidatorName(v) + " raise exception " + e))
    case Returned(x) => if x == Bool(false) then Some(ErrDetailItem(key, ValidatorName(v) + " check error")) else None
  }

  /** The values present in `s`, in order. */
  function Somes<T>(s: seq<Option<T>>): (r: seq<T>)
    ensures |r| <= |s|
  {
    if |s| == 0 then [] else (if s[0].Some? then [s[0].value] else []) + Somes(s[1..])
  }

  /** Every position moved one place on. */
  function Shift(t: seq<nat>): (r: seq<nat>)
    ensures |r| == |t| && forall k | 0 <= k < |t| :: r[k] == t[k] + 1
  {
    seq(|t|, k requires 0 <= k < |t| => t[k] + 1)
  }

  /** The positions of the values present in `s`, in order. */
  function SomeIndices<T>(s: seq<Option<T>>): (r: seq<nat>)
    ensures |r| == |Somes(s)|
  {
    if |s| == 0 then []
    else (if s[0].Some? then [0] else []) + Shift(SomeIndices(s[1..]))
  }

  /** The positions line up with `Somes(s)`. */
  lemma {:induction false} SomeIndicesAligned<T>(s: seq<Option<T>>)
    ensures var r := SomeIndices(s);
      forall j | 0 <= j < |r| :: r[j] < |s| && s[r[j]].Some? && Somes(s)[j] == s[r[j]].value
  {
    if |s| > 0 {
      SomeIndicesAligned(s[1..]);
      var t := SomeIndices(s[1..]);
      var rest := Somes(s[1..]);
      var head := if s[0].Some? then [0] else [];
      var r := head + Shift(t);
      assert r == SomeIndices(s);
      assert Somes(s) == (if s[0].Some? then [s[0].value] else []) + rest;
      forall j | 0 <= j < |r|
        ensures r[j] < |s| && s[r[j]].Some? && Somes(s)[j] == s[r[j]].value
      {
        if j >= |head| {
          var k := j - |head|;
          assert r[j] == t[k] + 1 && Somes(s)[j] == rest[k];
          assert s[r[j]] == s[1..][t[k]];
        }
      }
    }
  }

  predicate Increasing(r: seq<nat>) {
    forall j, k | 0 <= j < k < |r| :: r[j] < r[k]
  }

  lemma ShiftIncreasing(t: seq<nat>, head: seq<nat>)
    requires Increasing(t)
    requires head == [] || head == [0]
    ensures Increasing(head + Shift(t))
  {
    var r := head + Shift(t);
    forall j, k | 0 <= j < k < |r|
      ensures r[j] < r[k]
    {
      assert r[k] == t[k - |head|] + 1;
      if j >= |head| {
        assert r[j] == t[j - |head|] + 1;
      }
    }
  }

  /** The positions are increasing. */
  lemma {:induction false} SomeIndicesIncrease<T>(s: seq<Option<T>>)
    ensures Increasing(SomeIndices(s))
  {
    if |s| > 0 {
      SomeIndicesIncrease(s[1..]);
      ShiftIncreasing(SomeIndices(s[1..]), if s[0].Some? then [0] else []);
    }
  }

  /** Every present value's position is listed, and only those. */
  lemma {:induction false} SomeIndicesCover<T>(s: seq<Option<T>>)
    ensures forall i | 0 <= i < |s| :: i in SomeIndices(s) <==> s[i].Some?
  {
    if |s| > 0 {
      SomeIndicesCover(s[1..]);
      var t := SomeIndices(s[1..]);
      var head: seq<nat> := if s[0].Some? then [0] else [];
      assert head + Shift(t) == SomeIndices(s);
      forall i | 0 <= i < |s|
        ensures i in head + Shift(t) <==> s[i].Some?
      {
        ShiftMember(t, i);
        if i > 0 {
          assert s[1..][i - 1] == s[i];
        }
      }
    }
  }

  /** The shifted positions are those one past a position of `t`. */
  lemma ShiftMember(t: seq<nat>, x: nat)
    ensures x in Shift(t) <==> x >= 1 && x - 1 in t
  {
    if x in Shift(t) {
      var k :| 0 <= k < |t| && Shift(t)[k] == x;
      assert t[k] == x - 1;
    }
    if x >= 1 && x - 1 in t {
      var k :| 0 <= k < |t| && t[k] == x - 1;
      assert Shift(t)[k] == x;
    }
  }

  /** Each validator's detail item, if it rejects the record. */
  function Details(fs: Entries<Validator>, call: Validator -> Outcome): (r: seq<Option<ErrDetailItem>>)
    ensures |r| == |fs|
    ensures forall i | 0 <= i < |fs| :: r[i] == DetailOf(fs[i].0, fs[i].1, call(fs[i].1))
  {
    seq(|fs|, i requires 0 <= i < |fs| => DetailOf(fs[i].0, fs[i].1, call(fs[i].1)))
  }

  /** `validate_func_detail()(x)`: one item per rejecting validator, in
      iteration order. */
  function ValidateDetail(fs: Entries<Validator>, call: Validator -> Outcome): (r: seq<ErrDetailItem>)
    ensures |r| <= |fs|
    ensures |r| == 0 <==> forall i | 0 <= i < |fs| :: !Rejects(call(fs[i].1))
    ensures forall j | 0 <= j < |r| :: exists i | 0 <= i < |fs| :: r[j].index == fs[i].0 && Rejects(call(fs[i].1))
    ensures r == Somes(Details(fs, call))
  {
    if |fs| == 0 then []
    else
      var rest := ValidateDetail(fs[1..], call);
      assert forall i | 1 <= i < |fs| :: fs[1..][i - 1] == fs[i];
      assert Details(fs, call)[1..] == Details(fs[1..], call);
      match DetailOf(fs[0].0, fs[0].1, call(fs[0].1))
      case Some(d) => [d] + rest
      case None => rest
  }

  /** Exactly one item per rejecting validator, in validator order: the
      items are the details of an increasing run of validators that holds
      every rejecting one and no other. */
  lemma DetailPerRejection(fs: Entries<Validator>, call: Validator -> Outcome)
    ensures var r := ValidateDetail(fs, call);
      var idx := SomeIndices(Details(fs, call));
      |r| == |idx| &&
      (forall j | 0 <= j < |idx| :: idx[j] < |fs| && Some(r[j]) == DetailOf(fs[idx[j]].0, fs[idx[j]].1, call(fs[idx[j]].1))) &&
      Increasing(idx) &&
      (forall i | 0 <= i < |fs| :: i in idx <==> Rejects(call(fs[i].1)))
  {
    var s := Details(fs, call);
    var idx := SomeIndices(s);
    SomeIndicesAligned(s);
    SomeIndicesIncrease(s);
    SomeIndicesCover(s);
    forall i | 0 <= i < |fs|
      ensures i in idx <==> Rejects(call(fs[i].1))
    {
      assert s[i] == DetailOf(fs[i].0, fs[i].1, call(fs[i].1));
    }
  }

  /** The quick check and the detailed check agree on the first validator:
      the quick one fails exactly when the detail list starts with the first
      validator's item. */
  lemma ValidateFuncMatchesDetail(fs: Entries<Validator>, call: Validator -> Outcome)
    requires |fs| > 0
    ensures ValidateFunc(fs, call) == Some(false) <==>
              |ValidateDetail(fs, call)| > 0 && Some(ValidateDetail(fs, call)[0]) == DetailOf(fs[0].0, fs[0].1, call(fs[0].1))
    ensures ValidateFunc(fs, call) == Some(true) ==> ValidateDetail(fs, call) == ValidateDetail(fs[1..], call)
  {
    var d := DetailOf(fs[0].0, fs[0].1, call(fs[0].1));
    var rest := ValidateDetail(fs[1..], call);
    if d.None? && |rest| > 0 {
      var j :| 0 <= j < |fs[1..]| && rest[0].index == fs[1..][j].0 && Rejects(call(fs[1..][j].1));
      assert ValidateDetail(fs, call)[0] == rest[0];
    }
  }

  /** A record the quick check accepts can still be rejected by a later
      validator, which only the detailed check reports. */
  lemma QuickCheckMissesLaterFailures(key0: string, key1: string, fn0: Callable, fn1: Callable)
    requires fn0 != fn1
    ensures var fs := [(key0, Plain(fn0)), (key1, Plain(fn1))];
      var call := (v: Validator) => if v == Plain(fn0) then Returned(Bool(true)) else Returned(Bool(false));
      ValidateFunc(fs, call) == Some(true) &&
      ValidateDetail(fs, call) == [ErrDetailItem(key1, fn1.name + " check error")]
  {
    var fs := [(key0, Plain(fn0)), (key1, Plain(fn1))];
    var call := (v: Validator) => if v == Plain(fn0) then Returned(Bool(true)) else Returned(Bool(false));
    assert fs[1..][1..] == [];
  }

  /** `validate(obj, detail)`: the detailed list, or the quick verdict. */
  datatype Verdict = Quick(ok: Option<bool>) | Detailed(items: seq<ErrDetailItem>)

  function Validate(fs: Entries<Validator>, call: Validator -> Outcome, detail: bool): (r: Verdict)
    ensures detail ==> r.Detailed? && (|r.items| == 0 <==> forall i | 0 <= i < |fs| :: !Rejects(call(fs[i].1)))
    ensures !detail ==> r.Quick? && (r.ok == Some(false) <==> |fs| > 0 && Rejects(call(fs[0].1)))
  {
    if detail then Detailed(ValidateDetail(fs, call)) else Quick(ValidateFunc(fs, call))
  }

  /** `match(obj)`: no condition matches; a named condition calls the
      schema function of that name (`KeyError` when there is none); a
      function is called. An exception propagates. */
  function Match(c: Condition, funcs: Entries<Callable>, call: Callable -> Outcome): (r: Result<Value>)
    ensures c.Always? ==> r == Ok(Bool(true))
    ensures c.CondName? && c.name !in KeySet(funcs) ==> r.Err?
    ensures c.CondCallable? ==> (r.Ok? <==> call(c.fn).Returned?) && (r.Ok? ==> r.value == call(c.fn).v)
  {
    match c
    case Always => Ok(Bool(true))
    case CondName(n) =>
      if n in KeySet(funcs) then Called(call(Lookup(funcs, n).value)) else Err("KeyError: '" + n + "'")
    case CondCallable(fn) => Called(call(fn))
  }

  function Called(o: Outcome): (r: Result<Value>)
    ensures r.Ok? <==> o.Returned?
    ensures r.Ok? ==> r.value == o.v
  {
    match o
    case Returned(v) => Ok(v)
    case Raised(e) => Err(e)
  }

  /** A condition given by name behaves as the function it names. */
  lemma NamedConditionIsItsFunction(n: string, funcs: Entries<Callable>, call: Callable -> Outcome)
    requires n in KeySet(funcs)
    ensures Match(CondName(n), funcs, call) == Match(CondCallable(Lookup(funcs, n).value), funcs, call)
  {
  }

  // ---------------------------------------------------------------------
  // The metaclass.

  /** A schema class: its name and module, its merged fields, and the three
      merged dictionaries `schemas_conf`, `schemas_extra`, `schemas_funcs`. */
  datatype SchemaClass = SchemaClass(name: string, moduleName: string, fields: Entries<SchemaField>,
                                     conf: Entries<Value>, extra: Entries<Value>, funcs: Entries<Callable>)

  /** A base class: a schema class, or a class without `_fields` and the
      `schemas_*` dictionaries. */
  datatype Base = SchemaBase(cls: SchemaClass) | PlainBase

  /** The model a schema names: its module and class name. */
  datatype ModelRef = ModelRef(moduleName: string, name: string)

  /** A class body: every attribute (schema fields, and everything else as
      plain), the `model` attribute if the body sets one, the body's
      `__qualname__`, and its own `schemas_*` dictionaries if it sets them. */
  datatype ClassBody = ClassBody(attrs: Entries<Serializers.Attr<SchemaField>>, model: Option<ModelRef>, qualname: string,
                                 conf: Option<Entries<Value>>, extra: Option<Entries<Value>>, funcs: Option<Entries<Callable>>)

  function BaseFields(bases: seq<Base>): (r: seq<Option<Entries<SchemaField>>>)
    ensures |r| == |bases|
    ensures forall i | 0 <= i < |bases| :: r[i] == if bases[i].SchemaBase? then Some(bases[i].cls.fields) else None
  {
    if |bases| == 0 then [] else BaseFields(bases[..|bases| - 1]) + [if bases[|bases| - 1].SchemaBase? then Some(bases[|bases| - 1].cls.fields) else None]
  }

  /** `_get_schema_fields`: the serializer metaclass's merge, over schema
      fields. */
  function SchemaFieldsOf(bases: seq<Base>, body: ClassBody): Entries<SchemaField> {
    Serializers.DeclaredFields(BaseFields(bases), body.attrs)
  }

  /** One `schemas_*` dictionary: the body's own (or a fresh `{}`), updated
      with each base's in `reversed(bases)` order, so the first base that
      has a key decides it, and any base overrides the body. */
  function MergeDict<V>(own: Option<Entries<V>>, bases: seq<Option<Entries<V>>>): (r: Entries<V>)
  {
    if |bases| == 0 then (if own.Some? then own.value else [])
    else
      var acc := MergeDict(own, bases[1..]);
      if bases[0].Some? then Update(acc, bases[0].value) else acc
  }

  /** The value a key takes in the first base that has it. */
  function FirstBaseValue<V>(bases: seq<Option<Entries<V>>>, k: string): Option<V> {
    if |bases| == 0 then None
    else if bases[0].Some? && k in KeySet(bases[0].value) then Lookup(bases[0].value, k)
    else FirstBaseValue(bases[1..], k)
  }

  /** The merge lets bases win over the class body, and earlier bases over
      later ones. */
  lemma {:induction false} MergeDictValue<V>(own: Option<Entries<V>>, bases: seq<Option<Entries<V>>>, k: string)
    ensures Lookup(MergeDict(own, bases), k) ==
              var b := FirstBaseValue(bases, k);
              if b.Some? then b else if own.Some? then Lookup(own.value, k) else None
  {
    if |bases| > 0 {
      MergeDictValue(own, bases[1..], k);
      if bases[0].Some? {
        UpdateLookup(MergeDict(own, bases[1..]), bases[0].value, k);
      }
    }
  }

  function ConfOf(bases: seq<Base>): (r: seq<Option<Entries<Value>>>)
    ensures |r| == |bases|
    ensures forall i | 0 <= i < |bases| :: r[i] == if bases[i].SchemaBase? then Some(bases[i].cls.conf) else None
  {
    if |bases| == 0 then [] else ConfOf(bases[..|bases| - 1]) + [if bases[|bases| - 1].SchemaBase? then Some(bases[|bases| - 1].cls.conf) else None]
  }

  function ExtraOf(bases: seq<Base>): (r: seq<Option<Entries<Value>>>)
    ensures |r| == |bases|
    ensures forall i | 0 <= i < |bases| :: r[i] == if bases[i].SchemaBase? then Some(bases[i].cls.extra) else None
  {
    if |bases| == 0 then [] else ExtraOf(bases[..|bases| - 1]) + [if bases[|bases| - 1].SchemaBase? then Some(bases[|bases| - 1].cls.extra) else None]
  }

  function FuncsOf(bases: seq<Base>): (r: seq<Option<Entries<Callable>>>)
    ensures |r| == |bases|
    ensures forall i | 0 <= i < |bases| :: r[i] == if bases[i].SchemaBase? then Some(bases[i].cls.funcs) else None
  {
    if |bases| == 0 then [] else FuncsOf(bases[..|bases| - 1]) + [if bases[|bases| - 1].SchemaBase? then Some(bases[|bases| - 1].cls.funcs) else None]
  }

  /** The module-level registries of the metaclass: class name to the
      qualified names registered under it, qualified name to class, and
      model path to class. */
  datatype Registry = Registry(names: map<string, seq<string>>, classes: map<string, SchemaClass>, models: map<string, SchemaClass>)

  /** Every qualified name listed under a class name has a class. */
  predicate RegistryValid(reg: Registry) {
    forall n | n in reg.names :: forall q | q in reg.names[n] :: q in reg.classes
  }

  function Qualified(moduleName: string, name: string): string {
    moduleName + "." + name
  }

  function MissingModelMessage(name: string): string {
    "Schema:" + name + "未指定Model"
  }

  /** The model path: the `model` attribute's, or for a class nested in
      another the outer class's; otherwise `SchemaException`. */
  function ModelPath(name: string, moduleName: string, body: ClassBody): (r: Result<string>)
    ensures body.model.Some? ==> r == Ok(Qualified(body.model.value.moduleName, body.model.value.name))
    ensures body.model.None? && '.' !in body.qualname ==> r == Err(MissingModelMessage(name))
    ensures body.model.None? && '.' in body.qualname ==> r == Ok(Qualified(moduleName, SplitOnce(body.qualname, '.').0))
  {
    match body.model
    case Some(m) => Ok(Qualified(m.moduleName, m.name))
    case None =>
      if '.' in body.qualname then
        Ok(Qualified(moduleName, SplitOnce(body.qualname, '.').0))
      else Err(MissingModelMessage(name))
  }

  /** `SchemaMetaclass.__new__`: merge, create, and register the class. */
  function NewSchema(reg: Registry, name: string, moduleName: string, bases: seq<Base>, body: ClassBody): (r: Result<(SchemaClass, Registry)>)
    ensures r.Ok? <==> ModelPath(name, moduleName, body).Ok?
    ensures r.Ok? ==>
              var (c, reg2) := r.value;
              c.name == name && c.moduleName == moduleName &&
              c.fields == SchemaFieldsOf(bases, body) &&
              reg2.classes == reg.classes[Qualified(moduleName, name) := c] &&
              reg2.models == reg.models[ModelPath(name, moduleName, body).value := c] &&
              reg2.names.Keys == reg.names.Keys + {name} &&
              reg2.names[name] == (if name in reg.names then reg.names[name] else []) + [Qualified(moduleName, name)] &&
              forall n | n in reg.names && n != name :: reg2.names[n] == reg.names[n]
    ensures r.Ok? && RegistryValid(reg) ==> RegistryValid(r.value.1)
  {
    var path :- ModelPath(name, moduleName, body);
    var c := SchemaClass(name, moduleName, SchemaFieldsOf(bases, body),
                         MergeDict(body.conf, ConfOf(bases)), MergeDict(body.extra, ExtraOf(bases)),
                         MergeDict(body.funcs, FuncsOf(bases)));
    var q := Qualified(moduleName, name);
    var listed := if name in reg.names then reg.names[name] else [];
    var reg2 := Registry(reg.names[name := listed + [q]], reg.classes[q := c], reg.models[path := c]);
    Ok((c, reg2))
  }

  /** The class's `schemas_conf` key takes the first base's value when a
      base has it, and the body's otherwise. */
  lemma ConfMerge(reg: Registry, name: string, moduleName: string, bases: seq<Base>, body: ClassBody, k: string)
    requires NewSchema(reg, name, moduleName, bases, body).Ok?
    ensures Lookup(NewSchema(reg, name, moduleName, bases, body).value.0.conf, k) ==
              var b := FirstBaseValue(ConfOf(bases), k);
              if b.Some? then b else if body.conf.Some? then Lookup(body.conf.value, k) else None
  {
    MergeDictValue(body.conf, ConfOf(bases), k);
  }

  function NoSuchSchema(name: string): string {
    "不存在的Schema:" + name
  }

  function DuplicateSchema(name: string): string {
    "存在同名Schema:" + name + "，必须指定Module"
  }

  /** `get_schema(name)` as written: the unique-name branch reads
      `SchemaMetaclass._schemas_names`, which does not exist, so it raises
      `AttributeError` instead of returning the class. */
  function GetSchemaAsWritten(reg: Registry, name: string): (r: Result<SchemaClass>)
    ensures name !in reg.names ==> r == Err(NoSuchSchema(name))
    ensures name in reg.names && |reg.names[name]| != 1 ==> r == Err(DuplicateSchema(name))
  {
    if name in reg.names then
      if |reg.names[name]| == 1 then Err("AttributeError: type object 'SchemaMetaclass' has no attribute '_schemas_names'")
      else Err(DuplicateSchema(name))
    else Err(NoSuchSchema(name))
  }

  /** `get_schema` never returns a class as written. */
  lemma GetSchemaAsWrittenNeverFinds(reg: Registry, name: string)
    ensures GetSchemaAsWritten(reg, name).Err?
  {
  }

  /** `get_schema` reading `_schema_names`, as intended. */
  function GetSchema(reg: Registry, name: string): (r: Result<SchemaClass>)
    requires RegistryValid(reg)
    ensures r.Ok? <==> name in reg.names && |reg.names[name]| == 1
    ensures r.Ok? ==> r.value == reg.classes[reg.names[name][0]]
    ensures name !in reg.names ==> r == Err(NoSuchSchema(name))
    ensures name in reg.names && |reg.names[name]| != 1 ==> r == Err(DuplicateSchema(name))
  {
    if name in reg.names then
      if |reg.names[name]| == 1 then
        assert reg.names[name][0] in reg.names[name];
        Ok(reg.classes[reg.names[name][0]])
      else Err(DuplicateSchema(name))
    else Err(NoSuchSchema(name))
  }

  /** `get_schema_by_model(cls)`. */
  function GetSchemaByModel(reg: Registry, model: ModelRef): (r: Option<SchemaClass>)
    ensures r.Some? <==> Qualified(model.moduleName, model.name) in reg.models
  {
    var path := Qualified(model.moduleName, model.name);
    if path in reg.models then Some(reg.models[path]) else None
  }

  /** A class registered under a new name is what `get_schema` returns for
      that name, and what `get_schema_by_model` returns for its model; a
      second class of the same name in another module makes the name
      ambiguous. */
  lemma RegisterThenGet(reg: Registry, name: string, moduleName: string, bases: seq<Base>, body: ClassBody)
    requires RegistryValid(reg) && name !in reg.names && body.model.Some?
    ensures NewSchema(reg, name, moduleName, bases, body).Ok?
    ensures var (c, reg2) := NewSchema(reg, name, moduleName, bases, body).value;
      GetSchema(reg2, name) == Ok(c) && GetSchemaByModel(reg2, body.model.value) == Some(c)
  {
  }

  lemma SameNameTwiceIsAmbiguous(reg: Registry, name: string, m1: string, m2: string, bases: seq<Base>, b1: ClassBody, b2: ClassBody)
    requires RegistryValid(reg) && name !in reg.names && b1.model.Some? && b2.model.Some?
    ensures NewSchema(reg, name, m1, bases, b1).Ok?
    ensures var reg1 := NewSchema(reg, name, m1, bases, b1).value.1;
      NewSchema(reg1, name, m2, bases, b2).Ok? &&
      GetSchema(NewSchema(reg1, name, m2, bases, b2).value.1, name) == Err(DuplicateSchema(name))
  {
  }
}

=== FILE: serializers.dfy ===
/** The plain serializer of `flask_restplus/serializers.py` and its successor
  `flask_restplus/serializers/serializers.py`: which fields a serializer
  class declares, how its instance is set up, the per-class field cache,
  and what `data` returns.

  A class body is a dictionary of attributes, each either a field (an
  instance or subclass of `Raw`) or something else. The merge of declared
  fields is generic in the field type, since `schema/field.py` merges its
  schema fields the same way; a serializer field is a `Formats.Field`. `marshal` and the serializer's `get_<name>` methods are
  code outside this model and are parameters.
 */
module Serializers {
  import opened Wrappers
  import opened ODict
  import opened Values
  import Formats

  /** An attribute of a class body. */
  datatype Attr<F> = FieldAttr(field: F) | PlainAttr

  /** The field a class body binds to `k`, if it binds a field. */
  function OwnField<F>(attrs: Entries<Attr<F>>, k: string): Option<F> {
    var a := Lookup(attrs, k);
    if a.Some? && a.value.FieldAttr? then Some(a.value.field) else None
  }

  /** The fields of the class body, in body order, as `(name, field)` pairs:
      the attributes among `ks` (the body's names) whose value is a field. */
  function OwnPairs<F>(attrs: Entries<Attr<F>>, ks: seq<string>): (r: seq<(string, F)>)
    ensures forall i | 0 <= i < |r| :: r[i].0 in ks && OwnField(attrs, r[i].0) == Some(r[i].1)
  {
    if |ks| == 0 then []
    else
      var n := |ks| - 1;
      var rest := OwnPairs(attrs, ks[..n]);
      assert forall i | 0 <= i < |rest| :: rest[i].0 in ks[..n];
      match OwnField(attrs, ks[n])
      case Some(f) => rest + [(ks[n], f)]
      case None => rest
  }

  /** Body names taken once give each pair its own name. */
  lemma {:induction false} OwnPairsDistinct<F>(attrs: Entries<Attr<F>>, ks: seq<string>)
    requires Distinct(ks)
    ensures Distinct(Names(OwnPairs(attrs, ks)))
  {
    if |ks| > 0 {
      var n := |ks| - 1;
      var rest := OwnPairs(attrs, ks[..n]);
      assert ks[n] !in ks[..n] && Distinct(ks[..n]);
      OwnPairsDistinct(attrs, ks[..n]);
      match OwnField(attrs, ks[n])
      case Some(f) =>
        var r := rest + [(ks[n], f)];
        assert OwnPairs(attrs, ks) == r;
        assert r[..|r| - 1] == rest;
        assert Names(r) == Names(rest) + [ks[n]];
        assert ks[n] !in Names(rest);
        DistinctSnoc(Names(rest), ks[n]);
      case None =>
        assert OwnPairs(attrs, ks) == rest;
    }
  }

  lemma {:induction false} OwnPairsValue<F>(attrs: Entries<Attr<F>>, ks: seq<string>, k: string)
    ensures LastValue(OwnPairs(attrs, ks), k) == if k in ks then OwnField(attrs, k) else None
  {
    if |ks| > 0 {
      var n := |ks| - 1;
      var rest := OwnPairs(attrs, ks[..n]);
      OwnPairsValue(attrs, ks[..n], k);
      InInit(ks, k);
      match OwnField(attrs, ks[n])
      case Some(f) =>
        assert OwnPairs(attrs, ks) == rest + [(ks[n], f)];
        LastValueSnoc(rest, ks[n], f, k);
      case None =>
        assert OwnPairs(attrs, ks) == rest;
    }
  }

  lemma InInit(ks: seq<string>, k: string)
    requires |ks| > 0
    ensures k in ks <==> k in ks[..|ks| - 1] || k == ks[|ks| - 1]
  {
    assert ks == ks[..|ks| - 1] + [ks[|ks| - 1]];
  }

  /** A base's declared fields that the class body does not rebind (to a
      field or to anything else), in the base's order. */
  function BaseItems<F>(d: Entries<F>, ks: seq<string>, attrs: Entries<Attr<F>>): (r: seq<(string, F)>)
    requires forall k | k in ks :: k in KeySet(d)
    ensures forall i | 0 <= i < |r| :: r[i].0 in ks && r[i].0 !in KeySet(attrs)
  {
    if |ks| == 0 then []
    else
      var n := |ks| - 1;
      var rest := BaseItems(d, ks[..n], attrs);
      if ks[n] in KeySet(attrs) then rest else rest + [(ks[n], Lookup(d, ks[n]).value)]
  }

  lemma {:induction false} BaseItemsValue<F>(d: Entries<F>, ks: seq<string>, attrs: Entries<Attr<F>>, k: string)
    requires forall k | k in ks :: k in KeySet(d)
    ensures LastValue(BaseItems(d, ks, attrs), k) == if k in ks && k !in KeySet(attrs) then Lookup(d, k) else None
  {
    if |ks| > 0 {
      var n := |ks| - 1;
      BaseItemsValue(d, ks[..n], attrs, k);
      assert k in ks <==> k in ks[..n] || k == ks[n];
      if ks[n] !in KeySet(attrs) {
        LastValueSnoc(BaseItems(d, ks[..n], attrs), ks[n], Lookup(d, ks[n]).value, k);
      }
    }
  }

  /** What a base contributes: nothing when it has no `_declared_fields`. */
  function Inherited<F>(base: Option<Entries<F>>, attrs: Entries<Attr<F>>): seq<(string, F)> {
    match base
    case None => []
    case Some(d) => BaseItems(d, Keys(d), attrs)
  }

  /** The loop over `reversed(bases)` puts each base's pairs in front of
      what was gathered so far, so the bases end up in their own order. */
  function InheritedPairs<F>(bases: seq<Option<Entries<F>>>, attrs: Entries<Attr<F>>): seq<(string, F)> {
    if |bases| == 0 then []
    else InheritedPairs(bases[..|bases| - 1], attrs) + Inherited(bases[|bases| - 1], attrs)
  }

  /** The value `k` takes among the bases: that of the last base in the
      `bases` tuple declaring `k`. */
  function BaseValue<F>(bases: seq<Option<Entries<F>>>, k: string): Option<F> {
    if |bases| == 0 then None
    else
      var b := bases[|bases| - 1];
      if b.Some? && k in KeySet(b.value) then Lookup(b.value, k) else BaseValue(bases[..|bases| - 1], k)
  }

  lemma {:induction false} InheritedValue<F>(bases: seq<Option<Entries<F>>>, attrs: Entries<Attr<F>>, k: string)
    ensures LastValue(InheritedPairs(bases, attrs), k) == if k in KeySet(attrs) then None else BaseValue(bases, k)
  {
    if |bases| > 0 {
      var n := |bases| - 1;
      InheritedValue(bases[..n], attrs, k);
      LastValueAppend(InheritedPairs(bases[..n], attrs), Inherited(bases[n], attrs), k);
      if bases[n].Some? {
        BaseItemsValue(bases[n].value, Keys(bases[n].value), attrs, k);
      }
    }
  }

  /** `SerializerMetaclass._get_declared_fields(bases, attrs)`. */
  function DeclaredFields<F>(bases: seq<Option<Entries<F>>>, attrs: Entries<Attr<F>>): Entries<F> {
    FromPairs(InheritedPairs(bases, attrs) + OwnPairs(attrs, Keys(attrs)))
  }

  /** A name the class body binds keeps the body's field (and disappears
      when the body binds it to a non-field); any other name takes the
      field of the last base declaring it. */
  lemma DeclaredFieldValue<F>(bases: seq<Option<Entries<F>>>, attrs: Entries<Attr<F>>, k: string)
    ensures Lookup(DeclaredFields(bases, attrs), k) ==
              if k in KeySet(attrs) then OwnField(attrs, k) else BaseValue(bases, k)
  {
    var own := OwnPairs(attrs, Keys(attrs));
    LastValueAppend(InheritedPairs(bases, attrs), own, k);
    OwnPairsValue(attrs, Keys(attrs), k);
    InheritedValue(bases, attrs, k);
    if k !in KeySet(attrs) {
      assert OwnField(attrs, k).None?;
    }
  }

  /** The inherited names come first, each at its first appearance with
      earlier bases first; the class's own fields follow in body order. */
  lemma DeclaredFieldOrder<F>(bases: seq<Option<Entries<F>>>, attrs: Entries<Attr<F>>)
    ensures Names(DeclaredFields(bases, attrs)) ==
              Dedup(Names(InheritedPairs(bases, attrs))) + Names(OwnPairs(attrs, Keys(attrs)))
    ensures forall x | x in Names(InheritedPairs(bases, attrs)) :: x !in KeySet(attrs)
    ensures forall x | x in Names(OwnPairs(attrs, Keys(attrs))) :: x in KeySet(attrs)
  {
    var inh := InheritedPairs(bases, attrs);
    var own := OwnPairs(attrs, Keys(attrs));
    InheritedNames(bases, attrs);
    OwnNames(attrs);
    NamesAppend(inh, own);
    FromPairsOrder(inh + own);
    DedupAppendDisjoint(Names(inh), Names(own));
    DedupDistinct(Names(own));
  }

  lemma OwnNames<F>(attrs: Entries<Attr<F>>)
    ensures forall x | x in Names(OwnPairs(attrs, Keys(attrs))) :: x in KeySet(attrs)
    ensures Distinct(Names(OwnPairs(attrs, Keys(attrs))))
  {
    var own := OwnPairs(attrs, Keys(attrs));
    OwnPairsDistinct(attrs, Keys(attrs));
    forall x | x in Names(own)
      ensures x in KeySet(attrs)
    {
      var i :| 0 <= i < |own| && Names(own)[i] == x;
    }
  }

  lemma {:induction false} InheritedNames<F>(bases: seq<Option<Entries<F>>>, attrs: Entries<Attr<F>>)
    ensures forall x | x in Names(InheritedPairs(bases, attrs)) :: x !in KeySet(attrs)
  {
    var ps := InheritedPairs(bases, attrs);
    InheritedOutside(bases, attrs);
    forall x | x in Names(ps)
      ensures x !in KeySet(attrs)
    {
      var i :| 0 <= i < |ps| && Names(ps)[i] == x;
    }
  }

  lemma {:induction false} InheritedOutside<F>(bases: seq<Option<Entries<F>>>, attrs: Entries<Attr<F>>)
    ensures Outside(InheritedPairs(bases, attrs), KeySet(attrs))
  {
    if |bases| > 0 {
      var n := |bases| - 1;
      InheritedOutside(bases[..n], attrs);
      OutsideAppend(InheritedPairs(bases[..n], attrs), Inherited(bases[n], attrs), KeySet(attrs));
    }
  }

  /** No name of `ps` is in `ks`. */
  predicate Outside<F>(ps: seq<(string, F)>, ks: set<string>) {
    forall i | 0 <= i < |ps| :: ps[i].0 !in ks
  }

  lemma OutsideAppend<F>(a: seq<(string, F)>, b: seq<(string, F)>, ks: set<string>)
    requires Outside(a, ks) && Outside(b, ks)
    ensures Outside(a + b, ks)
  {
    forall i | 0 <= i < |a + b|
      ensures (a + b)[i].0 !in ks
    {
      if i >= |a| {
        assert (a + b)[i] == b[i - |a|];
      }
    }
  }

  /** An initialised serializer: `_instance_`, `many`, `skip_none`, and the
      registry name `"<module>.<ClassName>"`. */
  datatype State = State(instance: Value, many: Value, skipNone: Value, name: string)

  /** `Serializer.__init__` of `flask_restplus/serializers.py`: `_many_` is
      popped without a default, so leaving it out raises `KeyError`. */
  function InitRequiringMany(instance: Value, kwargs: Entries<Value>, name: string): (r: Result<State>)
    ensures r.Ok? <==> "_many_" in KeySet(kwargs)
    ensures r.Ok? ==> r.value.many == Lookup(kwargs, "_many_").value && r.value.instance == instance
    ensures r.Ok? ==> r.value.skipNone == Lookup(kwargs, "_skip_none_").GetOr(Bool(false))
  {
    match Lookup(kwargs, "_many_")
    case None => Err("KeyError: '_many_'")
    case Some(m) => Ok(State(instance, m, Lookup(kwargs, "_skip_none_").GetOr(Bool(false)), name))
  }

  /** The class registry: registry name to class name. */
  type Registry = map<string, string>

  /** `Serializer.__init__` of `flask_restplus/serializers/serializers.py`:
      `_many_` when given, otherwise whether the instance is a list; the
      class is registered under `"<module>.<ClassName>"`. */
  function Init(instance: Value, kwargs: Entries<Value>, moduleName: string, className: string, registry: Registry): (r: (State, Registry))
    ensures r.0.many == if "_many_" in KeySet(kwargs) then Lookup(kwargs, "_many_").value else Bool(instance.List?)
    ensures r.0.instance == instance && r.0.skipNone == Lookup(kwargs, "_skip_none_").GetOr(Bool(false))
    ensures r.0.name == moduleName + "." + className
    ensures r.0.name in r.1 && r.1[r.0.name] == className
    ensures forall n | n in registry && n != r.0.name :: n in r.1 && r.1[n] == registry[n]
    ensures r.1.Keys == registry.Keys + {r.0.name}
  {
    var name := moduleName + "." + className;
    var many := match Lookup(kwargs, "_many_") case Some(m) => m case None => Bool(instance.List?);
    (State(instance, many, Lookup(kwargs, "_skip_none_").GetOr(Bool(false)), name), registry[name := className])
  }

  /** Without `_many_`, a list instance is serialized as many items and
      anything else as one. */
  lemma ManyDefaultsToListness(instance: Value, kwargs: Entries<Value>, moduleName: string, className: string, registry: Registry)
    requires "_many_" !in KeySet(kwargs)
    ensures Truthy(Init(instance, kwargs, moduleName, className, registry).0.many) <==> instance.List?
  {
  }

  /** What `for x in v` iterates over: a list's items, a string's
      characters, a dictionary's keys; `None`, booleans and integers are not
      iterable. */
  function Iterate(v: Value): (r: Option<seq<Value>>)
    ensures v.List? ==> r == Some(v.items)
    ensures r.Some? ==> v.List? || v.Str? || v.Dict?
  {
    match v
    case List(xs) => Some(xs)
    case Str(s) => Some(seq(|s|, i requires 0 <= i < |s| => Str([s[i]])))
    case Dict(e) => Some(seq(|Keys(e)|, i requires 0 <= i < |Keys(e)| => Str(Keys(e)[i])))
    case _ => None
  }

  /** `Serializer.data`. A falsy instance gives `[]` or `{}` without any
      work. Otherwise `handle_data` first runs `parse_data_item` on the
      instance, or on each item of it when `many` (so the first exception
      propagates before anything is rendered), and only then is the instance,
      or each item, rendered by `marshal` with the serializer's fields.
      `parse` is one item's `parse_data_item`, giving the item as it is
      afterwards; `marshal` is flask-restplus's `marshal`. */
  function Data(st: State, parse: Value -> Result<Value>, marshal: Value -> Value): (r: Result<Value>)
    ensures !Truthy(st.instance) ==> r == Ok(if Truthy(st.many) then List([]) else Dict([]))
    ensures Truthy(st.instance) && !Truthy(st.many) ==> (r.Ok? <==> parse(st.instance).Ok?)
    ensures Truthy(st.instance) && !Truthy(st.many) && r.Ok? ==> r.value == marshal(parse(st.instance).value)
    ensures Truthy(st.instance) && !Truthy(st.many) && r.Err? ==> parse(st.instance) == Err(r.error)
    ensures Truthy(st.instance) && Truthy(st.many) ==>
              (r.Ok? <==> Iterate(st.instance).Some? && forall i | 0 <= i < |Iterate(st.instance).value| :: parse(Iterate(st.instance).value[i]).Ok?)
    ensures Truthy(st.instance) && Truthy(st.many) && r.Err? && Iterate(st.instance).Some? ==>
              var xs := Iterate(st.instance).value;
              exists i | 0 <= i < |xs| :: parse(xs[i]) == Err(r.error) && forall j | 0 <= j < i :: parse(xs[j]).Ok?
    ensures Truthy(st.instance) && Truthy(st.many) && r.Ok? ==>
              var xs := Iterate(st.instance).value;
              r.value.List? && |r.value.items| == |xs| &&
              forall i | 0 <= i < |xs| :: r.value.items[i] == marshal(parse(xs[i]).value)
  {
    if !Truthy(st.instance) then Ok(if Truthy(st.many) then List([]) else Dict([]))
    else if !Truthy(st.many) then
      var item :- parse(st.instance);
      Ok(marshal(item))
    else match Iterate(st.instance)
      case None => Err("TypeError: object is not iterable")
      case Some(xs) =>
        var parsed :- MapAll(xs, parse);
        Ok(List(seq(|parsed|, i requires 0 <= i < |parsed| => marshal(parsed[i]))))
  }

  /** Python's name of a value's type, as an `AttributeError` spells it. */
  function TypeName(v: Value): string {
    match v
    case Null => "NoneType"
    case Bool(_) => "bool"
    case Int(_) => "int"
    case Str(_) => "str"
    case List(_) => "list"
    case Dict(_) => "dict"
  }

  /** `setattr` of a getter's result on an object of type `t` that takes no
      attributes. */
  function NoAttribute(t: string, f: string): string {
    "AttributeError: '" + t + "' object has no attribute '" + FuncKey(f) + "'"
  }

  /** `parse_data_item` on an instance written as a value. None of them
      takes attributes: a dictionary is the plain `dict` of `ParseDataItem`,
      and a string, list, number or `None` fails the same way at the first
      field with a getter. */
  function ParseValue(v: Value, names: seq<string>, getters: set<string>,
                      call: (string, Entries<Value>) -> Value): (r: Result<Value>)
    ensures r.Ok? <==> forall i | 0 <= i < |names| :: names[i] !in getters
    ensures r.Ok? ==> r.value == v
    ensures r.Err? ==> r.error == NoAttribute(TypeName(v), FirstGetter(names, getters).value)
  {
    if v.Dict? then
      match ParseDataItem(PlainDict(v.entries), names, getters, call)
      case Ok(_) => Ok(v)
      case Err(e) => Err(e)
    else
      match FirstGetter(names, getters)
      case None => Ok(v)
      case Some(f) => Err(NoAttribute(TypeName(v), f))
  }

  /** A truthy plain dictionary serialized as one item: with a getter for
      one of the fields, `data` raises the `AttributeError` of
      `parse_data_item`; without one, the dictionary is marshalled as it is. */
  lemma DataOnPlainDict(st: State, names: seq<string>, getters: set<string>,
                        call: (string, Entries<Value>) -> Value, marshal: Value -> Value)
    requires st.instance.Dict? && Truthy(st.instance) && !Truthy(st.many)
    ensures var r := Data(st, v => ParseValue(v, names, getters, call), marshal);
      (r.Err? <==> exists i | 0 <= i < |names| :: names[i] in getters) &&
      (r.Err? ==> r.error == NoDictAttribute(FirstGetter(names, getters).value)) &&
      (r.Ok? ==> r.value == marshal(st.instance))
  {
  }

  /** Serializing many items raises as soon as one item cannot take a
      getter's result: with a getter, a list of dictionaries raises the
      first dictionary's `AttributeError` before anything is rendered. */
  lemma DataOnManyPlainDicts(st: State, names: seq<string>, getters: set<string>,
                             call: (string, Entries<Value>) -> Value, marshal: Value -> Value)
    requires st.instance.List? && Truthy(st.instance) && Truthy(st.many)
    requires forall i | 0 <= i < |st.instance.items| :: st.instance.items[i].Dict?
    ensures var r := Data(st, v => ParseValue(v, names, getters, call), marshal);
      (r.Err? <==> exists i | 0 <= i < |names| :: names[i] in getters) &&
      (r.Err? ==> r.error == NoDictAttribute(FirstGetter(names, getters).value)) &&
      (r.Ok? ==> r.value == List(seq(|st.instance.items|, i requires 0 <= i < |st.instance.items| => marshal(st.instance.items[i]))))
  {
  }

  /** The attribute name a getter's result is stored under. */
  function FuncKey(f: string): string {
    "__func__" + f
  }

  lemma FuncKeyInjective(a: string, b: string)
    ensures FuncKey(a) == FuncKey(b) ==> a == b
  {
    if FuncKey(a) == FuncKey(b) {
      assert a == FuncKey(a)[8..] && b == FuncKey(b)[8..];
    }
  }

  /** `Serializer.fields` of `flask_restplus/serializers/serializers.py`, a
      class property cached on the class. `mro` is the class followed by its
      ancestors and `cache` maps a class to the `_fields` it holds. When a
      class on the MRO already holds `_fields` (`hasattr` looks there too),
      that value is returned as it is. Otherwise the fields from
      `get_fields()` are copied in order, a field with a `get_<name>` getter
      reads attribute `'__func__<name>'`, and the result is stored on the
      class itself. */
  function FieldsProperty(mro: seq<string>, cache: map<string, Entries<Formats.Field>>,
                          computed: Entries<Formats.Field>, getters: set<string>): (r: (Entries<Formats.Field>, map<string, Entries<Formats.Field>>))
    requires |mro| > 0
    ensures (exists i | 0 <= i < |mro| :: mro[i] in cache) ==> r.1 == cache
    ensures (forall i | 0 <= i < |mro| :: mro[i] !in cache) ==>
              r.1 == cache[mro[0] := r.0] &&
              Names(r.0) == Names(computed) &&
              forall i | 0 <= i < |r.0| ::
                r.0[i].1 == if computed[i].0 in getters then computed[i].1.(attribute := Some(FuncKey(computed[i].0))) else computed[i].1
  {
    match CachedOn(mro, cache)
    case Some(f) => (f, cache)
    case None =>
      var built := Bind(computed, getters);
      (built, cache[mro[0] := built])
  }

  /** The `_fields` attribute found along the MRO, from the first class on
      it that holds one. */
  function CachedOn(mro: seq<string>, cache: map<string, Entries<Formats.Field>>): (r: Option<Entries<Formats.Field>>)
    ensures r.None? <==> forall i | 0 <= i < |mro| :: mro[i] !in cache
    ensures r.Some? ==> exists i | 0 <= i < |mro| :: mro[i] in cache && r.value == cache[mro[i]] &&
                          forall j | 0 <= j < i :: mro[j] !in cache
  {
    if |mro| == 0 then None
    else if mro[0] in cache then Some(cache[mro[0]])
    else
      var r := CachedOn(mro[1..], cache);
      if r.Some? then
        var i :| 0 <= i < |mro[1..]| && mro[1..][i] in cache && r.value == cache[mro[1..][i]] &&
                 forall j | 0 <= j < i :: mro[1..][j] !in cache;
        assert mro[i + 1] in cache && forall j | 0 <= j < i + 1 :: mro[j] !in cache;
        r
      else r
  }

  /** The fields with getters pointed at the getters' stored results. */
  function Bind(computed: Entries<Formats.Field>, getters: set<string>): (r: Entries<Formats.Field>)
    ensures |r| == |computed|
    ensures forall i | 0 <= i < |r| :: r[i].0 == computed[i].0
    ensures forall i | 0 <= i < |r| ::
              r[i].1 == if computed[i].0 in getters then computed[i].1.(attribute := Some(FuncKey(computed[i].0))) else computed[i].1
  {
    if |computed| == 0 then []
    else
      var p := computed[0];
      var rest := Bind(computed[1..], getters);
      var r := [(p.0, if p.0 in getters then p.1.(attribute := Some(FuncKey(p.0))) else p.1)] + rest;
      assert forall i | 1 <= i < |r| :: r[i] == rest[i - 1] && computed[i] == computed[1..][i - 1];
      r
  }

  /** Once a parent class has computed its fields, a subclass that has no
      `_fields` of its own gets the parent's, whatever it declares itself. */
  lemma SubclassSeesParentCache(sub: string, parentMro: seq<string>, cache: map<string, Entries<Formats.Field>>,
                                parentFields: Entries<Formats.Field>, subFields: Entries<Formats.Field>, getters: set<string>)
    requires |parentMro| > 0 && sub !in cache && sub !in parentMro
    requires forall i | 0 <= i < |parentMro| :: parentMro[i] !in cache
    ensures var after := FieldsProperty(parentMro, cache, parentFields, getters);
      FieldsProperty([sub] + parentMro, after.1, subFields, getters).0 == after.0
  {
    var after := FieldsProperty(parentMro, cache, parentFields, getters);
    var m := [sub] + parentMro;
    assert m[1] == parentMro[0] && m[1] in after.1;
    var r := CachedOn(m, after.1);
    var i :| 0 <= i < |m| && m[i] in after.1 && r.value == after.1[m[i]] && forall j | 0 <= j < i :: m[j] !in after.1;
    assert i == 1;
  }

  /** The loop of `parse_data_item` on an object: for each field name in
      order, a field with a getter stores `get_<name>(obj, name)` on the
      object as `'__func__<name>'`. The object is its attribute dictionary
      and `call` stands for the getters. */
  function SetFuncAttrs(obj: Entries<Value>, names: seq<string>, getters: set<string>,
                        call: (string, Entries<Value>) -> Value): (r: Entries<Value>)
    ensures forall k | !StartsWithFunc(k) :: Lookup(r, k) == Lookup(obj, k)
    ensures forall f :: FuncKey(f) in KeySet(r) <==> FuncKey(f) in KeySet(obj) || (f in names && f in getters)
    decreases |names|
  {
    if |names| == 0 then obj
    else
      var f := names[0];
      var next := if f in getters then Put(obj, FuncKey(f), call(f, obj)) else obj;
      assert StartsWithFunc(FuncKey(f)) by {
        assert FuncKey(f)[..8] == "__func__";
      }
      forall g
        ensures FuncKey(g) in KeySet(next) <==> FuncKey(g) in KeySet(obj) || (g == f && f in getters)
      {
        FuncKeyInjective(f, g);
      }
      SetFuncAttrs(next, names[1..], getters, call)
  }

  /** What `parse_data_item` is given: an object, through its attribute
      dictionary, or a plain `dict`, which takes no attributes. */
  datatype Item = Object(attrs: Entries<Value>) | PlainDict(entries: Entries<Value>)

  /** `setattr` on a plain `dict`. */
  function NoDictAttribute(f: string): string {
    NoAttribute("dict", f)
  }

  /** The first name of `names` that has a getter. */
  function FirstGetter(names: seq<string>, getters: set<string>): (r: Option<string>)
    ensures r.None? <==> forall i | 0 <= i < |names| :: names[i] !in getters
    ensures r.Some? ==> r.value in getters && r.value in names
  {
    if |names| == 0 then None
    else if names[0] in getters then Some(names[0])
    else FirstGetter(names[1..], getters)
  }

  /** `parse_data_item(obj)`: an object gets a `'__func__<name>'` attribute
      per field with a getter; on a plain `dict` the first such field makes
      `setattr` raise, and a dict whose fields have no getters is left as it
      was. */
  function ParseDataItem(obj: Item, names: seq<string>, getters: set<string>,
                         call: (string, Entries<Value>) -> Value): (r: Result<Item>)
    ensures obj.Object? ==> r.Ok? && r.value.Object?
    ensures obj.Object? ==> forall k | !StartsWithFunc(k) :: Lookup(r.value.attrs, k) == Lookup(obj.attrs, k)
    ensures obj.Object? ==> forall f ::
      FuncKey(f) in KeySet(r.value.attrs) <==> FuncKey(f) in KeySet(obj.attrs) || (f in names && f in getters)
    ensures obj.PlainDict? ==> (r.Ok? <==> forall i | 0 <= i < |names| :: names[i] !in getters)
    ensures obj.PlainDict? && r.Ok? ==> r.value == obj
    ensures obj.PlainDict? && r.Err? ==> r.error == NoDictAttribute(FirstGetter(names, getters).value)
  {
    match obj
    case Object(attrs) => Ok(Object(SetFuncAttrs(attrs, names, getters, call)))
    case PlainDict(_) =>
      match FirstGetter(names, getters)
      case None => Ok(obj)
      case Some(f) => Err(NoDictAttribute(f))
  }

  predicate StartsWithFunc(k: string) {
    |k| >= 8 && k[..8] == "__func__"
  }

  /** `len(serializer)` counts the fields. */
  function Len(fields: Entries<Formats.Field>): (n: nat)
    ensures n == |Keys(fields)|
    ensures n == 0 <==> |fields| == 0
  {
    |Keys(fields)|
  }

  /** `serializer[k]`: the field named `k`, or `KeyError`. */
  function GetItem(fields: Entries<Formats.Field>, k: string): (r: Result<Formats.Field>)
    ensures r.Ok? <==> k in Keys(fields)
    ensures r.Ok? ==> (k, r.value) in fields
  {
    match Lookup(fields, k)
    case Some(f) => Ok(f)
    case None => Err("KeyError: " + k)
  }
}

=== FILE: signature.dfy ===
/** Request signing for program-to-program calls, after Tencent Cloud's
  interface authentication scheme.

  A caller signs the text `action=<a>&secret_id=<s>&timestamp=<t>` with the
  secret key registered for its id (HMAC-SHA1, section 2 of RFC 2104, as a
  hex digest) and sends the fields with the signature in the `Identify`
  header. The hash itself is an uninterpreted parameter here. The fixed
  key table is the `USERS` list of `base/signature.py`; the configured
  `signature_group` plays its part in `widgets/signature.py`.
 */
module Signature {
  import opened Wrappers
  import opened PyStrings
  import ODict

  /** HMAC-SHA1 hex digest of a message under a key. */
  type Hmac = (string, string) -> string

  /** `Signature.USERS` of the fixed-table variant. */
  const Users: seq<(string, string)> := [
    ("wechat_personal", "641a841e-0f7a-11ea-bcb4-88e9fe798ebc"),
    ("spider_angel", "641a841e-0f7a-11ea-cda5-88e9fea634fg")
  ]

  /** `dict(group)[key]`: the last key given for an id; `None` for the
      `KeyError` of an unknown id. */
  function GetKey(group: seq<(string, string)>, id: string): (r: Option<string>)
    ensures r == ODict.LastValue(group, id)
  {
    ODict.Lookup(ODict.FromPairs(group), id)
  }

  /** The fields that are signed, in the order they are signed. */
  function IdentifyPairs(action: string, secretId: string, timestamp: string): seq<(string, string)> {
    [("action", action), ("secret_id", secretId), ("timestamp", timestamp)]
  }

  /** `["%s=%s" % (k, v) for k, v in pairs]`. */
  function Assignments(pairs: seq<(string, string)>): (r: seq<string>)
    ensures |r| == |pairs|
    ensures forall i | 0 <= i < |pairs| :: r[i] == pairs[i].0 + "=" + pairs[i].1
  {
    if |pairs| == 0 then [] else [pairs[0].0 + "=" + pairs[0].1] + Assignments(pairs[1..])
  }

  /** The signed text: `"&".join(...)` of the assignments. */
  function Identify(action: string, secretId: string, timestamp: string): string {
    Join("&", Assignments(IdentifyPairs(action, secretId, timestamp)))
  }

  /** `gen_signature(action, secret_id, timestamp)`. */
  function GenSignature(group: seq<(string, string)>, hmac: Hmac,
                        action: string, secretId: string, timestamp: string): (r: Result<string>)
    ensures r.Err? <==> GetKey(group, secretId).None?
    ensures r.Ok? ==> r.value == hmac(GetKey(group, secretId).value, Identify(action, secretId, timestamp))
  {
    match GetKey(group, secretId)
    case None => Err("KeyError")
    case Some(key) => Ok(hmac(key, Identify(action, secretId, timestamp)))
  }

  /** `check_right(action, secret_id, timestamp, signature)`. */
  function CheckRight(group: seq<(string, string)>, hmac: Hmac,
                      action: string, secretId: string, timestamp: string, signature: string): (r: Result<bool>)
    ensures r.Err? <==> GetKey(group, secretId).None?
    ensures r == Ok(true) <==> GenSignature(group, hmac, action, secretId, timestamp) == Ok(signature)
  {
    var expected :- GenSignature(group, hmac, action, secretId, timestamp);
    Ok(expected == signature)
  }

  /** A signature made for known credentials is accepted. */
  lemma SignThenCheck(group: seq<(string, string)>, hmac: Hmac, action: string, secretId: string, timestamp: string)
    requires GetKey(group, secretId).Some?
    ensures CheckRight(group, hmac, action, secretId, timestamp,
                       GenSignature(group, hmac, action, secretId, timestamp).value) == Ok(true)
  {
  }

  /** Both registered callers of the fixed table have keys, and any other id
      is refused with `KeyError`. */
  lemma UsersTable(secretId: string)
    ensures GetKey(Users, "wechat_personal") == Some("641a841e-0f7a-11ea-bcb4-88e9fe798ebc")
    ensures GetKey(Users, "spider_angel") == Some("641a841e-0f7a-11ea-cda5-88e9fea634fg")
    ensures secretId != "wechat_personal" && secretId != "spider_angel" ==> GetKey(Users, secretId).None?
  {
    assert Users[..1] == [Users[0]] && Users[..1][..0] == [];
  }

  /** The names `check_right` is called with. */
  const Params: set<string> := {"action", "secret_id", "timestamp", "signature"}

  /** `[i.split('=') for i in identify.split('&')]`, passed to `dict`: every
      item must split into exactly a name and a value. */
  function ParsePairs(items: seq<string>): (r: Option<seq<(string, string)>>)
    ensures r.Some? <==> forall i | 0 <= i < |items| :: |Split(items[i], '=')| == 2
    ensures r.Some? ==> |r.value| == |items|
  {
    if |items| == 0 then Some([])
    else
      var parts := Split(items[0], '=');
      if |parts| != 2 then None
      else
        match ParsePairs(items[1..])
        case None => None
        case Some(rest) => Some([(parts[0], parts[1])] + rest)
  }

  /** The dictionary built from the header; `None` when `dict` raises. */
  function ParseIdentify(identify: string): Option<ODict.Entries<string>> {
    match ParsePairs(Split(identify, '&'))
    case None => None
    case Some(pairs) => Some(ODict.FromPairs(pairs))
  }

  /** The value of a parameter in the parsed header. */
  function Param(d: ODict.Entries<string>, name: string): string
    requires name in ODict.KeySet(d)
  {
    ODict.Lookup(d, name).value
  }

  /** `program_authentication_required`: whether the wrapped view runs. Any
      failure (an item that is not `name=value`, names other than the four
      parameters, an unknown id, a wrong signature) raises `Unauthorized`. */
  function Authorized(identify: string, group: seq<(string, string)>, hmac: Hmac): (r: bool)
    ensures r <==>
      ParseIdentify(identify).Some? && ODict.KeySet(ParseIdentify(identify).value) == Params &&
      var d := ParseIdentify(identify).value;
      CheckRight(group, hmac, Param(d, "action"), Param(d, "secret_id"), Param(d, "timestamp"),
                 Param(d, "signature")) == Ok(true)
  {
    match ParseIdentify(identify)
    case None => false
    case Some(d) =>
      ODict.KeySet(d) == Params &&
      CheckRight(group, hmac, Param(d, "action"), Param(d, "secret_id"), Param(d, "timestamp"),
                 Param(d, "signature")) == Ok(true)
  }

  /** `name=value` splits into the name and the value when neither holds `=`. */
  lemma SplitAssignment(name: string, value: string)
    requires '=' !in name && '=' !in value
    ensures Split(name + "=" + value, '=') == [name, value]
  {
    SplitConcat(name, '=', value);
    SplitWithoutSeparator(value, '=');
  }

  /** Items of the form `name=value` parse into their names and values. */
  lemma {:induction false} ParseAssignments(pairs: seq<(string, string)>)
    requires forall i | 0 <= i < |pairs| :: '=' !in pairs[i].0 && '=' !in pairs[i].1
    ensures ParsePairs(Assignments(pairs)) == Some(pairs)
  {
    if |pairs| > 0 {
      ParseAssignments(pairs[1..]);
      SplitAssignment(pairs[0].0, pairs[0].1);
      assert Assignments(pairs)[1..] == Assignments(pairs[1..]);
      assert pairs == [(pairs[0].0, pairs[0].1)] + pairs[1..];
    }
  }

  predicate Plain(v: string) {
    '&' !in v && '=' !in v
  }

  /** The pairs the client sends: the signed fields and the signature. */
  function SignedPairs(action: string, secretId: string, timestamp: string, sig: string): seq<(string, string)> {
    IdentifyPairs(action, secretId, timestamp) + [("signature", sig)]
  }

  /** The header a client sends: the signed fields and `signature=<sig>`,
      joined with `&`. */
  function SignedHeader(action: string, secretId: string, timestamp: string, sig: string): string {
    Join("&", Assignments(SignedPairs(action, secretId, timestamp, sig)))
  }

  lemma {:induction false} JoinSnoc(sep: string, parts: seq<string>, last: string)
    requires |parts| >= 1
    ensures Join(sep, parts + [last]) == Join(sep, parts) + sep + last
  {
    if |parts| == 1 {
      assert (parts + [last])[1..] == [last];
    } else {
      JoinSnoc(sep, parts[1..], last);
      assert (parts + [last])[1..] == parts[1..] + [last];
    }
  }

  /** The header is the signed text followed by `&signature=<sig>`. */
  lemma SignedHeaderExtends(action: string, secretId: string, timestamp: string, sig: string)
    ensures SignedHeader(action, secretId, timestamp, sig) == Identify(action, secretId, timestamp) + "&" + ("signature" + "=" + sig)
  {
    var signed := IdentifyPairs(action, secretId, timestamp);
    assert Assignments(signed + [("signature", sig)]) == Assignments(signed) + ["signature" + "=" + sig];
    JoinSnoc("&", Assignments(signed), "signature" + "=" + sig);
  }

  /** Pairs without `&` or `=` survive being joined into a header and parsed. */
  lemma PairsRoundTrip(pairs: seq<(string, string)>)
    requires |pairs| >= 1
    requires forall i | 0 <= i < |pairs| :: Plain(pairs[i].0) && Plain(pairs[i].1)
    ensures ParseIdentify(Join("&", Assignments(pairs))) == Some(ODict.FromPairs(pairs))
  {
    var items := Assignments(pairs);
    assert forall i | 0 <= i < |items| :: '&' !in items[i];
    SplitJoin(items, '&');
    ParseAssignments(pairs);
  }

  /** `dict` of four pairs with distinct names holds exactly those names,
      each with its value. */
  lemma FourNames(pairs: seq<(string, string)>, n0: string, n1: string, n2: string, n3: string,
                  v0: string, v1: string, v2: string, v3: string)
    requires n0 != n1 && n0 != n2 && n0 != n3 && n1 != n2 && n1 != n3 && n2 != n3
    requires pairs == [(n0, v0), (n1, v1), (n2, v2), (n3, v3)]
    ensures forall j ::
      ODict.LastValue(pairs, j) ==
        (if j == n0 then Some(v0) else if j == n1 then Some(v1) else if j == n2 then Some(v2)
         else if j == n3 then Some(v3) else None)
  {
    var p0: seq<(string, string)> := [];
    var p1 := p0 + [(n0, v0)];
    var p2 := p1 + [(n1, v1)];
    var p3 := p2 + [(n2, v2)];
    assert pairs == p3 + [(n3, v3)];
    forall j
      ensures ODict.LastValue(pairs, j) ==
        (if j == n0 then Some(v0) else if j == n1 then Some(v1) else if j == n2 then Some(v2)
         else if j == n3 then Some(v3) else None)
    {
      ODict.LastValueSnoc(p0, n0, v0, j);
      ODict.LastValueSnoc(p1, n1, v1, j);
      ODict.LastValueSnoc(p2, n2, v2, j);
      ODict.LastValueSnoc(p3, n3, v3, j);
    }
  }

  /** `dict` of four pairs with distinct names holds exactly those names. */
  lemma FourKeys(pairs: seq<(string, string)>, n0: string, n1: string, n2: string, n3: string,
                 v0: string, v1: string, v2: string, v3: string)
    requires n0 != n1 && n0 != n2 && n0 != n3 && n1 != n2 && n1 != n3 && n2 != n3
    requires pairs == [(n0, v0), (n1, v1), (n2, v2), (n3, v3)]
    ensures ODict.KeySet(ODict.FromPairs(pairs)) == {n0, n1, n2, n3}
  {
    FourNames(pairs, n0, n1, n2, n3, v0, v1, v2, v3);
    var d := ODict.FromPairs(pairs);
    forall j
      ensures j in ODict.KeySet(d) <==> j in {n0, n1, n2, n3}
    {
      assert ODict.Lookup(d, j) == ODict.LastValue(pairs, j);
    }
  }

  /** The parameters read back from the signed pairs. */
  lemma FourParams(action: string, secretId: string, timestamp: string, sig: string)
    ensures var d := ODict.FromPairs(SignedPairs(action, secretId, timestamp, sig));
      ODict.KeySet(d) == Params &&
      Param(d, "action") == action && Param(d, "secret_id") == secretId &&
      Param(d, "timestamp") == timestamp && Param(d, "signature") == sig
  {
    var pairs := SignedPairs(action, secretId, timestamp, sig);
    assert pairs == [("action", action), ("secret_id", secretId), ("timestamp", timestamp), ("signature", sig)];
    assert "secret_id"[0] != "timestamp"[0] && "secret_id"[1] != "signature"[1] && "timestamp"[0] != "signature"[0];
    FourNames(pairs, "action", "secret_id", "timestamp", "signature", action, secretId, timestamp, sig);
    FourKeys(pairs, "action", "secret_id", "timestamp", "signature", action, secretId, timestamp, sig);
  }

  /** The names the client sends hold neither `&` nor `=`. */
  lemma PlainNames()
    ensures Plain("action") && Plain("secret_id") && Plain("timestamp") && Plain("signature")
  {
  }

  /** The header a client builds parses back into the pairs it was built
      from, provided no field holds `&` or `=`. */
  lemma SignedHeaderParses(action: string, secretId: string, timestamp: string, sig: string)
    requires Plain(action) && Plain(secretId) && Plain(timestamp) && Plain(sig)
    ensures ParseIdentify(SignedHeader(action, secretId, timestamp, sig)) ==
      Some(ODict.FromPairs(SignedPairs(action, secretId, timestamp, sig)))
  {
    var pairs := SignedPairs(action, secretId, timestamp, sig);
    assert pairs == [("action", action), ("secret_id", secretId), ("timestamp", timestamp), ("signature", sig)];
    PlainNames();
    assert forall i | 0 <= i < |pairs| :: Plain(pairs[i].0) && Plain(pairs[i].1);
    PairsRoundTrip(pairs);
  }

  /** A header carrying the signed fields and their signature is accepted,
      provided no field holds `&` or `=`. */
  lemma SignedHeaderAccepted(group: seq<(string, string)>, hmac: Hmac,
                             action: string, secretId: string, timestamp: string)
    requires GetKey(group, secretId).Some?
    requires Plain(action) && Plain(secretId) && Plain(timestamp)
    requires Plain(GenSignature(group, hmac, action, secretId, timestamp).value)
    ensures Authorized(SignedHeader(action, secretId, timestamp,
                                    GenSignature(group, hmac, action, secretId, timestamp).value), group, hmac)
  {
    var sig := GenSignature(group, hmac, action, secretId, timestamp).value;
    SignedHeaderParses(action, secretId, timestamp, sig);
    FourParams(action, secretId, timestamp, sig);
  }
}

=== FILE: str_transfer.dfy ===
/** `transfer_underline`: camelCase to snake_case.

  Every ASCII capital is prefixed with `_`, the text is lower-cased and the
  leading underscores are dropped. The closing loop is meant to drop the
  trailing underscores too, but it assigns the last character to the text
  (`res = res[-1:]`), which is `_` again, so a result that still ends in `_`
  never leaves the loop. The model returns `None` for those inputs;
  `TransferUnderlineCorrected` drops the trailing underscores as intended.
 */
module StrTransfer {
  import opened Wrappers
  import opened PyStrings

  /** `re.sub('([A-Z]{1})', '_' + r'\1', name)`: each ASCII capital is
      preceded by `_`, everything else is copied. */
  function Underscored(s: string): string {
    if |s| == 0 then ""
    else (if IsAsciiUpper(s[0]) then ['_', s[0]] else [s[0]]) + Underscored(s[1..])
  }

  /** `while res.startswith('_'): res = res[1:]`. */
  function StripUnderscores(s: string): (r: string)
    ensures |r| == 0 || r[0] != '_'
    ensures EndsWith(s, r)
    ensures forall i | 0 <= i < |s| - |r| :: s[i] == '_'
  {
    if |s| > 0 && s[0] == '_' then StripUnderscores(s[1..]) else s
  }

  predicate NoUpper(s: string) {
    forall i | 0 <= i < |s| :: !IsAsciiUpper(s[i])
  }

  /** `transfer_underline(name)`; `None` when the trailing loop never ends. */
  function TransferUnderline(name: string): (r: Option<string>)
    ensures r.None? <==> EndsWith(StripUnderscores(Lower(Underscored(name))), "_")
    ensures r.Some? ==> NoUpper(r.value)
    ensures r.Some? ==> |r.value| == 0 || (r.value[0] != '_' && r.value[|r.value| - 1] != '_')
  {
    var res := StripUnderscores(Lower(Underscored(name)));
    if |res| > 0 && res[|res| - 1] == '_' then None else Some(res)
  }

  /** The rewrite works character by character: a prefix and the rest are
      rewritten independently. */
  lemma {:induction false} UnderscoredAppend(a: string, b: string)
    ensures Underscored(a + b) == Underscored(a) + Underscored(b)
  {
    if |a| > 0 {
      UnderscoredAppend(a[1..], b);
      assert (a + b)[0] == a[0];
      assert (a + b)[1..] == a[1..] + b;
    } else {
      assert a + b == b;
    }
  }

  /** A capital becomes `_` and the letter; any other character stays. */
  lemma UnderscoredChar(c: char)
    ensures Underscored([c]) == if IsAsciiUpper(c) then ['_', c] else [c]
  {
    assert [c][1..] == [];
    assert Underscored([c]) == (if IsAsciiUpper(c) then ['_', c] else [c]) + Underscored([]);
  }

  /** Text without capitals is not rewritten. */
  lemma {:induction false} UnderscoredNoUpper(s: string)
    requires NoUpper(s)
    ensures Underscored(s) == s
  {
    if |s| > 0 {
      UnderscoredNoUpper(s[1..]);
      assert s == [s[0]] + s[1..];
    }
  }

  lemma {:induction false} LowerNoUpper(s: string)
    requires NoUpper(s)
    ensures Lower(s) == s
  {
    assert forall i | 0 <= i < |s| :: LowerChar(s[i]) == s[i];
  }

  /** Snake-casing an already snake-cased name changes nothing. */
  lemma TransferIdempotent(name: string)
    requires TransferUnderline(name).Some?
    ensures TransferUnderline(TransferUnderline(name).value) == TransferUnderline(name)
  {
    var r := TransferUnderline(name).value;
    UnderscoredNoUpper(r);
    LowerNoUpper(r);
  }

  /** Worked cases: `userName` and `UserName` both give `user_name`. */
  lemma TransferCamel()
    ensures TransferUnderline("userName") == Some("user_name")
  {
    var u, ame := "user", "ame";
    assert u + ['N'] + ame == "userName";
    OneCapital(u, 'N', ame);
    assert u + ['_', 'n'] + ame == "user_name";
    assert StripUnderscores("user_name") == "user_name";
  }

  /** One capital between two lower-case runs becomes `_` and its lower case. */
  lemma OneCapital(u: string, c: char, ame: string)
    requires NoUpper(u) && NoUpper(ame) && IsAsciiUpper(c)
    ensures Lower(Underscored(u + [c] + ame)) == u + ['_', LowerChar(c)] + ame
  {
    UnderscoredNoUpper(u);
    UnderscoredNoUpper(ame);
    UnderscoredChar(c);
    UnderscoredAppend(u + [c], ame);
    UnderscoredAppend(u, [c]);
    LowerAppend(u + ['_', c], ame);
    LowerAppend(u, ['_', c]);
    LowerNoUpper(u);
    LowerNoUpper(ame);
    assert Lower(['_', c]) == ['_', LowerChar(c)];
  }

  /** A leading capital gets no underscore in the result: `UserName` and
      `userName` are snake-cased alike. */
  lemma LeadingCapital(c: char, rest: string)
    requires IsAsciiUpper(c)
    ensures TransferUnderline([c] + rest) == TransferUnderline([LowerChar(c)] + rest)
  {
    var l := LowerChar(c);
    UnderscoredChar(c);
    UnderscoredChar(l);
    UnderscoredAppend([c], rest);
    UnderscoredAppend([l], rest);
    var tail := Lower(Underscored(rest));
    LowerAppend(['_', c], Underscored(rest));
    LowerAppend([l], Underscored(rest));
    assert Lower(['_', c]) == ['_', l];
    assert Lower([l]) == [l];
    assert Lower(Underscored([c] + rest)) == "_" + ([l] + tail);
    assert Lower(Underscored([l] + rest)) == [l] + tail;
    assert l != '_';
  }

  lemma LowerAppend(a: string, b: string)
    ensures Lower(a + b) == Lower(a) + Lower(b)
  {
    forall i | 0 <= i < |a + b|
      ensures Lower(a + b)[i] == (Lower(a) + Lower(b))[i]
    {
      if i < |a| {
        assert (a + b)[i] == a[i];
      } else {
        assert (a + b)[i] == b[i - |a|];
      }
    }
  }

  /** A name ending in `_` never returns. */
  lemma TransferTrailingUnderscore()
    ensures TransferUnderline("name_") == None
  {
    UnderscoredNoUpper("name_");
    LowerNoUpper("name_");
  }
  /** `while res.endswith('_'): res = res[:-1]`: the trailing loop as it is
      evidently meant, dropping one underscore per pass. */
  function StripTrailing(s: string): (r: string)
    ensures |r| == 0 || r[|r| - 1] != '_'
    ensures StartsWith(s, r)
    ensures forall i | |r| <= i < |s| :: s[i] == '_'
  {
    if |s| > 0 && s[|s| - 1] == '_' then StripTrailing(s[..|s| - 1]) else s
  }

  /** `transfer_underline` with the trailing underscores dropped: it always
      returns, lower-case, with no underscore at either end. */
  function TransferUnderlineCorrected(name: string): (r: string)
    ensures NoUpper(r)
    ensures |r| == 0 || (r[0] != '_' && r[|r| - 1] != '_')
  {
    var low := Lower(Underscored(name));
    LowerNoUpperResult(Underscored(name));
    var lead := StripUnderscores(low);
    StripKeepsNoUpper(low);
    var r := StripTrailing(lead);
    StripTrailingKeeps(lead);
    r
  }

  lemma LowerNoUpperResult(s: string)
    ensures NoUpper(Lower(s))
  {
  }

  lemma StripKeepsNoUpper(s: string)
    requires NoUpper(s)
    ensures NoUpper(StripUnderscores(s))
  {
    var t := StripUnderscores(s);
    assert forall i | 0 <= i < |t| :: t[i] == s[|s| - |t| + i];
  }

  /** Dropping trailing underscores from lower-case text with no leading
      underscore leaves it lower-case with no underscore at either end. */
  lemma StripTrailingKeeps(s: string)
    requires NoUpper(s) && (|s| == 0 || s[0] != '_')
    ensures NoUpper(StripTrailing(s))
    ensures |StripTrailing(s)| == 0 || (StripTrailing(s)[0] != '_' && StripTrailing(s)[|StripTrailing(s)| - 1] != '_')
  {
    var t := StripTrailing(s);
    assert forall i | 0 <= i < |t| :: t[i] == s[i];
  }

  /** Wherever the function as written returns, the corrected one returns
      the same text. */
  lemma CorrectedAgrees(name: string)
    requires TransferUnderline(name).Some?
    ensures TransferUnderline(name) == Some(TransferUnderlineCorrected(name))
  {
  }

  /** Where the function as written loops, the corrected one drops the
      underscore: `name_` gives `name`. */
  lemma CorrectedTrailingUnderscore()
    ensures TransferUnderlineCorrected("name_") == "name"
  {
    var n := "name";
    assert NoUpper(n);
    CorrectedDropsTrailing(n);
    assert n + "_" == "name_";
  }

  /** A snake-cased name followed by one underscore loses just that
      underscore. */
  lemma CorrectedDropsTrailing(s: string)
    requires NoUpper(s) && |s| > 0 && s[0] != '_' && s[|s| - 1] != '_'
    ensures TransferUnderlineCorrected(s + "_") == s
  {
    var t := s + "_";
    assert NoUpper(t) by {
      assert forall i | 0 <= i < |t| :: t[i] == if i < |s| then s[i] else '_';
    }
    UnderscoredNoUpper(t);
    LowerNoUpper(t);
    assert t[0] == s[0];
    assert StripUnderscores(t) == t;
    assert t[..|t| - 1] == s;
    assert StripTrailing(s) == s;
  }

  /** Snake-casing the corrected result again changes nothing. */
  lemma CorrectedIdempotent(name: string)
    ensures TransferUnderlineCorrected(TransferUnderlineCorrected(name)) == TransferUnderlineCorrected(name)
  {
    var r := TransferUnderlineCorrected(name);
    UnderscoredNoUpper(r);
    LowerNoUpper(r);
    assert StripUnderscores(Lower(Underscored(r))) == r by {
      assert Lower(Underscored(r)) == r;
    }
    assert StripTrailing(r) == r;
  }
}

=== FILE: values.dfy ===
/** The JSON-like Python values the diff engine and the response envelopes
  handle: `None`, `bool`, `int`, `str`, `list` and `dict` with string keys.

  A `dict` is an association list read through `ODict`, so its key order is
  Python's insertion order. Floats and arbitrary objects are not values of
  this model.
 */
module Values {
  import opened Wrappers
  import opened PyStrings
  import ODict

  datatype Value =
    | Null
    | Bool(b: bool)
    | Int(i: int)
    | Str(s: string)
    | List(items: seq<Value>)
    | Dict(entries: seq<(string, Value)>)

  /** Python's truth value: `None`, `False`, `0` and empty containers are false. */
  predicate Truthy(v: Value) {
    match v
    case Null => false
    case Bool(b) => b
    case Int(i) => i != 0
    case Str(s) => |s| > 0
    case List(xs) => |xs| > 0
    case Dict(e) => |e| > 0
  }

  /** `type(a) == type(b)`; `bool` and `int` are different types. */
  predicate SameType(a: Value, b: Value) {
    match (a, b)
    case (Null, Null) => true
    case (Bool(_), Bool(_)) => true
    case (Int(_), Int(_)) => true
    case (Str(_), Str(_)) => true
    case (List(_), List(_)) => true
    case (Dict(_), Dict(_)) => true
    case _ => false
  }

  /** A measure that shrinks from a container to each value inside it. */
  function Size(v: Value): (n: nat)
    ensures n >= 1
  {
    match v
    case List(xs) => 1 + SizeList(xs)
    case Dict(e) => 1 + SizeEntries(e)
    case _ => 1
  }

  function SizeList(xs: seq<Value>): nat {
    if |xs| == 0 then 0 else 1 + Size(xs[0]) + SizeList(xs[1..])
  }

  function SizeEntries(e: seq<(string, Value)>): nat {
    if |e| == 0 then 0 else 1 + SizeEntry(e[0]) + SizeEntries(e[1..])
  }

  function SizeEntry(p: (string, Value)): nat {
    Size(p.1)
  }

  lemma {:induction false} ElementSmaller(xs: seq<Value>, i: nat)
    requires i < |xs|
    ensures Size(xs[i]) < SizeList(xs)
    decreases i
  {
    if i > 0 {
      ElementSmaller(xs[1..], i - 1);
    }
  }

  lemma FirstEntrySmaller(e: seq<(string, Value)>)
    requires |e| > 0
    ensures Size(e[0].1) < SizeEntries(e)
  {
    assert SizeEntry(e[0]) == Size(e[0].1);
  }

  lemma {:induction false} LookupSmaller(e: seq<(string, Value)>, k: string)
    requires ODict.Lookup(e, k).Some?
    ensures Size(ODict.Lookup(e, k).value) < SizeEntries(e)
  {
    if e[0].0 != k {
      LookupSmaller(e[1..], k);
    }
  }

  /** `d.get(k)` on a dictionary value: `None` when the key is missing. */
  function Get(d: Value, k: string): (r: Value)
    requires d.Dict?
    ensures r != Null ==> k in ODict.KeySet(d.entries)
    ensures Size(r) <= Size(d) && (Truthy(d) ==> Size(r) < Size(d))
  {
    match ODict.Lookup(d.entries, k)
    case Some(v) => LookupSmaller(d.entries, k); v
    case None => Null
  }

  /** The keys of a dictionary in iteration order; no keys for anything else. */
  function KeysOf(v: Value): seq<string> {
    if v.Dict? then ODict.Keys(v.entries) else []
  }

  /** Python's `len(v)`; `None` for the values `len` raises on. */
  function Len(v: Value): (r: Option<nat>)
    ensures r.Some? <==> v.Str? || v.List? || v.Dict?
    ensures r.Some? ==> (r.value > 0 <==> Truthy(v))
  {
    match v
    case Str(s) => Some(|s|)
    case List(xs) => Some(|xs|)
    case Dict(e) => Some(|ODict.Keys(e)|)
    case _ => None
  }

  /** The integer a `bool` or `int` compares equal to. */
  function Numeric(v: Value): int
    requires v.Bool? || v.Int?
  {
    if v.Int? then v.i else if v.b then 1 else 0
  }

  /** Python's `a == b` on values: `True == 1`, `False == 0`, lists compare
      element-wise and dictionaries compare key by key whatever their order. */
  predicate PyEq(a: Value, b: Value)
    decreases Size(a), 1
  {
    match (a, b)
    case (Null, Null) => true
    case (Str(x), Str(y)) => x == y
    case (List(xs), List(ys)) => |xs| == |ys| && PyEqList(xs, ys)
    case (Dict(d), Dict(e)) =>
      ODict.KeySet(d) == ODict.KeySet(e) && PyEqEntries(d, e, {})
    case _ =>
      (a.Bool? || a.Int?) && (b.Bool? || b.Int?) && Numeric(a) == Numeric(b)
  }

  predicate PyEqList(xs: seq<Value>, ys: seq<Value>)
    requires |xs| == |ys|
    decreases SizeList(xs), 0
  {
    |xs| == 0 || (PyEq(xs[0], ys[0]) && PyEqList(xs[1..], ys[1..]))
  }

  /** Every key of `d` not in `seen` maps to equal values in `d` and `e`
      (for a key listed twice in `d`, its first value is the one compared). */
  predicate PyEqEntries(d: seq<(string, Value)>, e: seq<(string, Value)>, seen: set<string>)
    decreases SizeEntries(d), 0
  {
    if |d| == 0 then true
    else
      FirstEntrySmaller(d);
      (d[0].0 in seen || PyEq(d[0].1, Get(Dict(e), d[0].0)))
      && PyEqEntries(d[1..], e, seen + {d[0].0})
  }

  /** Python's `==` is reflexive on these values. */
  lemma {:induction false} PyEqReflexive(a: Value)
    ensures PyEq(a, a)
    decreases Size(a), 1
  {
    match a
    case List(xs) => PyEqListReflexive(xs);
    case Dict(d) => PyEqEntriesReflexive(d, d, {});
    case _ =>
  }

  lemma {:induction false} PyEqListReflexive(xs: seq<Value>)
    ensures PyEqList(xs, xs)
    decreases SizeList(xs), 0
  {
    if |xs| > 0 {
      PyEqReflexive(xs[0]);
      PyEqListReflexive(xs[1..]);
    }
  }

  /** Comparing a suffix of `d` against the whole of `d`: the first value of
      each unseen key is the one `Get` returns. */
  lemma {:induction false} PyEqEntriesReflexive(suffix: seq<(string, Value)>, d: seq<(string, Value)>, seen: set<string>)
    requires forall k | k in ODict.KeySet(suffix) && k !in seen :: ODict.Lookup(d, k) == ODict.Lookup(suffix, k)
    ensures PyEqEntries(suffix, d, seen)
    decreases SizeEntries(suffix), 0
  {
    if |suffix| > 0 {
      var k := suffix[0].0;
      if k !in seen {
        assert ODict.Lookup(suffix, k) == Some(suffix[0].1);
        assert Get(Dict(d), k) == suffix[0].1;
        FirstEntrySmaller(suffix);
        PyEqReflexive(suffix[0].1);
      }
      forall j | j in ODict.KeySet(suffix[1..]) && j !in seen + {k}
        ensures ODict.Lookup(d, j) == ODict.Lookup(suffix[1..], j)
      {
        assert ODict.Lookup(suffix, j) == ODict.Lookup(suffix[1..], j);
      }
      PyEqEntriesReflexive(suffix[1..], d, seen + {k});
    }
  }

  /** Python's `str(v)`. */
  function PyStr(v: Value): string
    decreases Size(v), 1
  {
    match v
    case Null => "None"
    case Bool(b) => if b then "True" else "False"
    case Int(i) => IntToStr(i)
    case Str(s) => s
    case List(xs) => "[" + Join(", ", ReprList(xs)) + "]"
    case Dict(e) => "{" + Join(", ", ReprItems(e, ODict.Keys(e))) + "}"
  }

  /** Python's `repr(v)`: as `str` except that strings are quoted. */
  function Repr(v: Value): string
    decreases Size(v), 2
  {
    if v.Str? then StrRepr(v.s) else PyStr(v)
  }

  function ReprList(xs: seq<Value>): (r: seq<string>)
    ensures |r| == |xs|
    decreases SizeList(xs), 3
  {
    if |xs| == 0 then [] else [Repr(xs[0])] + ReprList(xs[1..])
  }

  /** The `'key': value` items of a dictionary's `str`, one per key of `ks`. */
  function ReprItems(e: seq<(string, Value)>, ks: seq<string>): (r: seq<string>)
    requires forall k | k in ks :: k in ODict.KeySet(e)
    ensures |r| == |ks|
    decreases SizeEntries(e), 3, |ks|
  {
    if |ks| == 0 then []
    else
      var v := ODict.Lookup(e, ks[0]).value;
      LookupSmaller(e, ks[0]);
      [StrRepr(ks[0]) + ": " + Repr(v)] + ReprItems(e, ks[1..])
  }

  /** Python's `repr` of a string: single quotes unless the text holds a
      single quote and no double quote; backslash, the chosen quote and the
      ASCII control characters are escaped. */
  function StrRepr(s: string): (r: string)
    ensures |r| >= |s| + 2
  {
    var q := if '\'' in s && '"' !in s then '"' else '\'';
    [q] + EscapeAll(s, q) + [q]
  }

  function EscapeAll(s: string, q: char): (r: string)
    ensures |r| >= |s|
  {
    if |s| == 0 then "" else EscapeChar(s[0], q) + EscapeAll(s[1..], q)
  }

  function EscapeChar(c: char, q: char): (r: string)
    ensures |r| >= 1
    ensures (r == [c]) <==> !(c == q || c == '\\' || c as int < 0x20 || c as int == 0x7f)
  {
    if c == q || c == '\\' then ['\\', c]
    else if c == '\t' then "\\t"
    else if c == '\n' then "\\n"
    else if c == '\r' then "\\r"
    else if c as int < 0x20 || c as int == 0x7f then "\\x" + [HexDigit(c as int / 16), HexDigit(c as int % 16)]
    else [c]
  }

  function HexDigit(d: nat): char
    requires d < 16
  {
    if d < 10 then DigitChar(d) else ('a' as int + (d - 10)) as char
  }
}

=== FILE: wrappers.dfy ===
/** Failure-carrying datatypes used across the model.

  `Option` stands for a Python value that may be missing (a `dict.get`
  default, an optional keyword), `Result` for a computation that either
  returns or raises; the `error` of a `Result` carries the exception's
  message as the raising code builds it. Both work with Dafny's `:-` operator.
 */
module Wrappers {

  datatype Option<+T> = None | Some(value: T) {

    predicate IsFailure() {
      None?
    }

    function PropagateFailure<U>(): Option<U>
      requires None?
    {
      None
    }

    function Extract(): T
      requires Some?
    {
      value
    }

    function GetOr(default: T): T {
      match this
      case Some(v) => v
      case None => default
    }
  }

  datatype Result<+T> = Ok(value: T) | Err(error: string) {

    predicate IsFailure() {
      Err?
    }

    function PropagateFailure<U>(): Result<U>
      requires Err?
    {
      Err(error)
    }

    function Extract(): T
      requires Ok?
    {
      value
    }
  }

  /** The position of the first element of `xs` satisfying `p`: how a loop
      that stops at the first offending element is summarised. */
  function FirstWhere<T>(xs: seq<T>, p: T -> bool): (r: Option<nat>)
    ensures r.None? <==> forall i | 0 <= i < |xs| :: !p(xs[i])
    ensures r.Some? ==> r.value < |xs| && p(xs[r.value]) && forall j | 0 <= j < r.value :: !p(xs[j])
  {
    if |xs| == 0 then None
    else if p(xs[0]) then Some(0)
    else
      var rest := FirstWhere(xs[1..], p);
      assert forall i | 1 <= i < |xs| :: xs[i] == xs[1..][i - 1];
      if rest.None? then None else Some(rest.value + 1)
  }

  /** `[f(x) for x in xs]` where `f` may raise: every result in order, or
      the exception of the first element that raises. */
  function MapAll<T, U>(xs: seq<T>, f: T -> Result<U>): (r: Result<seq<U>>)
    ensures r.Ok? <==> forall i | 0 <= i < |xs| :: f(xs[i]).Ok?
    ensures r.Ok? ==> |r.value| == |xs| && forall i | 0 <= i < |xs| :: f(xs[i]) == Ok(r.value[i])
    ensures r.Err? ==> exists i | 0 <= i < |xs| :: f(xs[i]) == Err(r.error) && forall j | 0 <= j < i :: f(xs[j]).Ok?
  {
    if |xs| == 0 then Ok([])
    else
      var head := f(xs[0]);
      if head.Err? then Err(head.error)
      else
        var rest := MapAll(xs[1..], f);
        assert forall i | 1 <= i < |xs| :: xs[i] == xs[1..][i - 1];
        if rest.Err? then
          var i :| 0 <= i < |xs[1..]| && f(xs[1..][i]) == Err(rest.error) && forall j | 0 <= j < i :: f(xs[1..][j]).Ok?;
          assert f(xs[i + 1]) == Err(rest.error) && forall j | 0 <= j < i + 1 :: f(xs[j]).Ok?;
          Err(rest.error)
        else Ok([head.value] + rest.value)
  }
}
